=== FILE: README.md ===
# WordPress and mail-gateway plugin clients, in Dafny

A model of the core of a Dify plugin, written in Python, that talks to two REST APIs. One is a WordPress site's `wp-json/wp/v2` interface, used with Basic authentication from a user name and an application password. The other is a transactional-mail gateway's `/mail/send`, used with a Bearer API key. The model covers:

- **the redactors** (`Redact`, `RedactLaws`): the two `_sanitize_for_log` functions, written as character-by-character `re.sub` scans followed by truncation to 200 characters. Both are proved idempotent: `RedactLaws.SanitizeMailIdempotent` and `RedactLaws.SanitizeWordPressIdempotent`. Their fixed points are characterised exactly: `RedactLaws.SanitizeMailFixedPoint` and `RedactLaws.SanitizeWordPressFixedPoint`.
- **the request loop** (`Engine`): the retry statuses {408, 425, 429, 500, 502, 503, 504}; `Retry-After` for 429; `2 ** attempt` backoff, which `time.sleep` can no longer take from attempt 34 on; and the transport error raised after the last attempt. The two clients share this loop.
- **the mail client** (`MailClient`): converting a SendGrid-shaped payload to the gateway's format, masking it for the log, extracting error messages, and reading the message id.
- **the WordPress client** (`WpClient`): normalising the base URL; the endpoint paths; the headers; classifying a reply as JSON, HTML, empty or invalid; and extracting error messages.
- **the parameter validators** (`Validators`), **the credential checks** of the provider (`Provider`) and **the context loading and error hints** of the tool base class (`ToolBase`).
- **file handling** (`Files`): the filesystem, suffix inference, decoding of inline content, and downloads capped at 10 MiB into temporary files.
- **the file resolver** (`Resolver`): local paths used in place, inline content and downloads put into temporary files marked for clean-up, and clean-up that removes exactly those files.
- **the payload builders** of the create/update/get/delete tools (`PostTools`, `TermTools`, `CommentTools`, `MediaTools`, `UserTools`).

Python values are one datatype, `Py.Value`: `None`, bool, int, str, bytes, list, and dict as a list of pairs in insertion order. Python strings are `string`, and bytes are `seq<byte>`.

Everything the source reaches outside itself is a parameter of the function that needs it:

- `server: nat -> Attempt` gives the reply (or transport error) of each attempt of a request;
- `parse` stands for `response.json()` / `json.loads` and yields `None` on invalid JSON;
- `now` is the clock that names a message without an `X-Message-Id`;
- `encode` stands for base64 encoding;
- `urlparse` is the standard library's URL parser, giving the scheme and host or the message of its `ValueError`;
- `Files.Env` gathers strict base64 decoding, UTF-8 encoding and decoding, `mimetypes.guess_extension`, `os.path.expanduser` and the streaming GET of `requests`;
- the filesystem is `Files.Fs`, a map from paths to contents with a counter for `mkstemp` names.

Three behaviours of the code are easy to misread, and the model follows the code in each:

- **The announced size.** tools/file_utils.py:151-155 raises a `ValueError` when `Content-Length` exceeds 10 MiB, but the `except (ValueError, TypeError): pass` at :156-157 catches that raise, so only the cap on the streamed bytes applies. The one exception is a size of 312 digits or more: `size / 1024` in the message then raises OverflowError, which that `except` does not catch. See "## Findings".
- **Addresses in the mail redactor.** The third `re.sub` of provider/http_client.py:43 does not mask a quoted address; it rewrites its quotes into double quotes (`Redact.Requote`). The WordPress redactor has no such step.
- **The error preview.** provider/http_client.py:575 redacts the first 500 characters of a non-JSON body, and the redactor then truncates to 200 characters plus a marker (provider/http_client.py:46-47), so the quoted preview is at most 215 characters long (`MailClient.NonJsonBodyQuoted` with `RedactLaws.SanitizeMailGuarantees`).

## Model

| member | source | states |
|---|---|---|
| Text.Strip | tools/base.py:31-33 | `strip()` leaves text that starts and ends with a non-space, is empty exactly for blank text, and otherwise leaves text untouched that already has no whitespace at either end |
| Text.StripInfix | tools/base.py:31-33 | what `strip()` keeps is the infix of the text that begins where the leading whitespace ends, and what it cuts before and after that infix is whitespace |
| Text.Lower | tools/validators.py:61 | lower-casing keeps the length and maps every character on its own |
| Text.LowerIdempotent | tools/base.py:83 | lower-casing lower-cased text changes nothing |
| Text.ContainsLowerBlind | tools/base.py:53 | searching for text without letters finds it in the lower-cased text exactly when it is in the original |
| Text.Contains | tools/base.py:53 | `needle in s` holds exactly when the needle occurs at some position of the text |
| Text.Split | tools/update_user.py:67 | splitting gives at least one piece, none holding the separator, and joining the pieces with it gives back the text |
| Text.SplitJoin | tools/update_user.py:67 | splitting pieces joined with a separator they lack gives back those pieces |
| Text.LastSegment | tools/update_user.py:46 | the last piece after splitting at a character holds no such character, ends the text, and is preceded by that character when it is not all of it |
| Text.RStripChar | tools/http_client.py:68 | `rstrip("/")` removes exactly the trailing run of that character and keeps the rest |
| Text.Take | provider/http_client.py:305 | a slice `[:n]` keeps the first `n` elements, or all of them when there are fewer |
| Text.ParseIntOfIntToString | tools/validators.py:74 | `int()` reads back every integer from its decimal text |
| Text.ParseInt | tools/validators.py:74 | `int()` refuses blank text, and what it accepts ends, after stripping, in a digit |
| Text.FilterMap | provider/http_client.py:286-300 | keeping the values a function accepts gives no more of them than there were, each one the image of some value, and some exactly when some value is accepted |
| Text.FilterMapAppend | provider/http_client.py:286-300 | filtering a concatenation filters each part in order |
| Py.Or | provider/http_client.py:354 | `a or b` is truthy exactly when one of them is |
| Py.Truthy | provider/http_client.py:353 | a value is falsy exactly when it is `None`, `False`, `0`, or an empty string, bytes, list or dict |
| Py.Str | tools/base.py:97-121 | `str()` of a string is the string itself, of an int is decimal text that `int()` reads back, of a list is text in brackets and of a dict text in braces |
| Py.Set | provider/http_client.py:215 | `d[key] = v` makes the key hold `v` and leaves every other key as it was |
| Py.SetDefault | tools/http_client.py:434 | `setdefault` leaves a present key and its dict alone and otherwise adds the default, touching no other key |
| Py.ToInt | tools/validators.py:74 | `int()` of an int is itself, of a string is what the decimal reading gives, and of `None`, a list or a dict fails |
| Py.StripValue | tools/base.py:31 | `.strip()` gives the stripped text of a string and raises AttributeError on a number, boolean, list, dict or `None`; bytes count among the values without `strip` (see "## Left out") |
| Py.StripOrEmpty | tools/base.py:31-33 | `(v or "").strip()` is empty for a falsy value, the stripped text of a truthy string, and AttributeError for a truthy number, boolean, list or dict; bytes are treated as having no `strip` (see "## Left out") |
| Py.DumpErrorExactly | provider/http_client.py:129 | `json.dumps` fails exactly on a value that holds something it cannot encode or a dict key it does not accept |
| Redact.RunLen | provider/http_client.py:37-43 | the measured run is a prefix of the text inside the character class, stopped by the text's end or by the first character outside it |
| Redact.RunLenConcat | provider/http_client.py:40 | a run that ends inside the first text is not lengthened by what follows; one that fills it continues into the second |
| Redact.SchemeMatch | provider/http_client.py:37 | a credential match covers the keyword and at least one more character, and stays within the text |
| Redact.MaskSchemeIdentity | tools/http_client.py:31 | text where no credential match starts anywhere is left as it is |
| Redact.MaskSchemeReplacesMatch | provider/http_client.py:37 | a credential match at the start is replaced, keyword and token together, by `<Keyword> ***`, and the rest is masked in turn |
| Redact.MaskSchemeLength | provider/http_client.py:37 | the credential masking never lengthens text, since its replacement is no longer than the shortest match, and it empties only empty text |
| Redact.MaskLongRunsNoLongRun | provider/http_client.py:40 | after masking, no 32 ASCII letters or digits in a row remain anywhere |
| Redact.MaskLongRunsIdentity | tools/http_client.py:34 | text without 32 ASCII letters or digits in a row is left as it is |
| Redact.MaskLongRunsIdempotent | tools/http_client.py:34 | masking long runs twice is masking them once |
| Redact.MaskLongRunsLength | tools/http_client.py:34 | replacing each run of 32 or more letters and digits by `***` never lengthens text, and empties only empty text |
| Redact.EmailMatch | provider/http_client.py:43 | a quoted-address match is at least five characters long and starts and ends with a quote |
| Redact.Requote | provider/http_client.py:43 | requoting keeps the length of the text |
| Redact.RequoteOnlyRequotes | provider/http_client.py:43 | requoting changes nothing but some quote characters, each into `"` |
| Redact.RequoteHead | provider/http_client.py:43 | requoting does not change whether, or how long, an address match starts the text |
| Redact.Truncate | provider/http_client.py:46-47 | text of at most 200 characters is kept; longer text keeps its first 200 followed by `... (truncated)` |
| Redact.TruncateBounded | tools/http_client.py:37-38 | the result is at most 200 characters plus the marker, and agrees with the text on what it keeps |
| Redact.TruncateIdempotent | tools/http_client.py:37-38 | truncating twice is truncating once |
| RedactLaws.MaskSchemeClean | provider/http_client.py:37 | after the credential masking, no credential match starts anywhere, the inserted `Bearer ***` included |
| RedactLaws.MaskLongRunsKeepsClean | provider/http_client.py:37-40 | masking long runs does not create a credential match in text that had none |
| RedactLaws.RequoteKeepsClean | provider/http_client.py:37-43 | requoting creates neither a credential match nor a long run |
| RedactLaws.TruncateKeepsClean | tools/http_client.py:31-38 | truncating creates neither a credential match nor a long run, the marker included |
| RedactLaws.RequoteIdempotent | provider/http_client.py:43 | requoting requoted text changes nothing |
| RedactLaws.TruncateKeepsRequoted | provider/http_client.py:43-47 | cutting requoted text and adding the marker gives text that requoting leaves alone |
| RedactLaws.SanitizeMailGuarantees | provider/http_client.py:31-49 | the mail client's redacted text holds no Bearer credential and no 32-character run, is its own requoting and truncation, and is at most 200 characters plus the marker |
| RedactLaws.SanitizeMailLength | provider/http_client.py:31-49 | empty text is handed back as it is and no other text redacts to empty; text within the 200-character limit never gets longer |
| RedactLaws.SanitizeMailFixedPoint | provider/http_client.py:31-49 | the mail client's redaction leaves a text alone exactly when it has no Bearer credential, no long run, nothing to requote and nothing to truncate |
| RedactLaws.SanitizeMailIdempotent | provider/http_client.py:31-49 | redacting the mail client's redacted text again changes nothing |
| RedactLaws.SanitizeWordPressGuarantees | tools/http_client.py:25-40 | the REST client's redacted text holds no Basic credential and no 32-character run, is its own truncation, and is at most 200 characters plus the marker |
| RedactLaws.SanitizeWordPressLength | tools/http_client.py:25-40 | empty text is handed back as it is and no other text redacts to empty; text within the 200-character limit never gets longer |
| RedactLaws.SanitizeWordPressFixedPoint | tools/http_client.py:25-40 | the REST client's redaction leaves a text alone exactly when it has no Basic credential, no long run and nothing to truncate |
| RedactLaws.SanitizeWordPressIdempotent | tools/http_client.py:25-40 | redacting the REST client's redacted text again changes nothing |
| Engine.HeaderGet | provider/http_client.py:502 | a header lookup finds a value exactly when some header's name equals the wanted one up to case, and what it finds is the value of such a header |
| Engine.RetryAfter | provider/http_client.py:502-506 | a missing or empty `Retry-After` gives no delay; any other value gives the integer `int()` reads from it, or nothing when `int()` refuses it |
| Engine.Backoff | provider/http_client.py:494-519 | anything but a 429 waits `2**attempt` while `time.sleep` can take that many seconds, and from attempt 34 on that sleep overflows; a 429 whose `Retry-After` is an integer within what `time.sleep` accepts waits exactly that many seconds; one beyond it in size cannot be slept; a 429 with an unreadable, missing or negative header falls back to `2**attempt` |
| Engine.Exponential | tools/http_client.py:462 | `time.sleep(2**attempt)` sleeps exactly `2**attempt` seconds when that is within the largest timeout `time.sleep` converts, and overflows otherwise |
| Engine.BackoffOf429 | tools/http_client.py:470-478 | for a 429 whose `Retry-After` reads as `w`: a `w` out of range cannot be slept, a negative `w` in range falls back to `2**attempt`, and any other `w` is slept as given |
| Engine.Decide | provider/http_client.py:490-534 | the verdict on an attempt that is not retried: a transport error fails, a status of 400 or more is refused, anything else is returned |
| Engine.StepOf | tools/http_client.py:450-498 | an attempt waits exactly when it is retryable, retries remain and its delay can be slept, and then for exactly that delay; a delay that cannot be slept ends the loop with the overflow error; otherwise the attempt is decided |
| Engine.Run | tools/http_client.py:450-501 | the loop from a given attempt: waits only while the step says wait, stops at the first step that finishes, and never goes past the retry budget; with the budget spent it ends with no attempt |
| Engine.Loop | provider/http_client.py:481-537 | the retry loop ends without any attempt exactly when the budget is negative, and never waits more than `max_retries` times |
| Engine.LoopEnds | provider/http_client.py:482-534 | every recorded wait belongs to a retryable attempt and is that attempt's back-off; the loop ends in the overflow error exactly when a retryable attempt's delay could not be slept, and otherwise with the verdict on its last attempt, which was not retryable unless the budget was spent |
| Engine.LoopOutcome | provider/http_client.py:481-537 | the loop waits at most `max_retries` times; it ends in the overflow error exactly when its last attempt was retryable, retries remained and that attempt's delay could not be slept, and otherwise with the verdict on its last attempt |
| Engine.LoopAttempts | provider/http_client.py:482 | at most `max_retries + 1` requests are made, and with a budget of zero or more the exhaustion raise after the loop is never reached |
| Engine.LastRetryableIsRefused | tools/http_client.py:462-496 | when every attempt meets a retryable status, the last one is refused with its own reply, unless a delay overflowed the sleep first, which takes a 429 or an attempt past the 33rd; when every delay can be slept, the last reply is always refused |
| Engine.BackoffHonoursRetryAfter | tools/http_client.py:470-475 | a 429 whose `Retry-After` is the decimal text of a sleepable number of seconds waits exactly that long |
| Engine.BackoffOfSignedRetryAfter | tools/http_client.py:470-478 | a negative `Retry-After` within range falls back to `2**attempt`, because `time.sleep` rejects it with a ValueError the handler catches; one beyond the range in either direction cannot be slept |
| Engine.HugeRetryAfterOverflows | provider/http_client.py:502-508 | a first reply of 429 with a `Retry-After` above the sleep limit ends the request with the overflow error, before any second attempt |
| Engine.ExponentialDelays | provider/http_client.py:494-519 | without a 429, the n-th wait is `2**n`, so the total wait before the last attempt is one less than the next power of two |
| Engine.DoublingDelays | tools/http_client.py:462-484 | without a 429, every wait doubles the one before it, starting at one second |
| Engine.ThreeUnavailable | provider/http_client.py:66 | with the default budget of two retries, three 503 replies cost waits of 1 and 2 seconds and end refused with the last reply |
| MailClient.FromContext | provider/http_client.py:78-83 | the client keeps a truthy API key and otherwise an empty one, with the default base URL and two retries |
| MailClient.NormalizeAddress | provider/http_client.py:234-243 | an address is kept, stripped, exactly when its stripped form has an `@` with something before it and a dot somewhere after it |
| MailClient.NormalizeAddressStable | provider/http_client.py:234-243 | an address that was kept is kept again unchanged |
| MailClient.NameEntry | provider/http_client.py:263-268 | a name is added, stripped, exactly when it is a string that is not blank |
| MailClient.NormalizeDict | provider/http_client.py:246-269 | a dict recipient is kept exactly when its `email` is a string that passes the address check, and what is kept is a normalized recipient |
| MailClient.NormalizeRecipient | provider/http_client.py:220-274 | only strings and dicts can be kept; a string is kept exactly when it passes the address check; whatever is kept is a normalized recipient |
| MailClient.RecipientList | provider/http_client.py:277-281 | a single address string stands for a one-element list, a list stands for itself, and anything else is no list at all |
| MailClient.Recipients | provider/http_client.py:284-300 | the kept recipients are normalized, no more than the values given, and some are kept exactly when some value normalizes |
| MailClient.RecipientsAppend | provider/http_client.py:286-300 | filtering a concatenation filters each part and keeps their order |
| MailClient.RecipientKept | provider/http_client.py:286-293 | a value that normalizes is kept at its own place between the ones before and after it |
| MailClient.RecipientsPartition | provider/http_client.py:286-300 | every `to` value is either kept or listed as invalid, never both and never neither |
| MailClient.NormalizeRecipientIdempotent | provider/http_client.py:246-269 | a normalized recipient, given again, normalizes to itself |
| MailClient.NormalizeRecipientTwice | provider/http_client.py:220-274 | normalizing the result of a normalization gives the same recipient |
| MailClient.ConvertRejection | provider/http_client.py:277-306 | without a usable `to`, a missing or empty list fails with the no-recipient message, and a non-empty one fails listing every value as invalid and naming the first three of them |
| MailClient.OptionalRecipients | provider/http_client.py:308-328 | `cc` and `bcc` appear exactly when given as a string or a non-empty list, and then hold only normalized recipients, possibly none |
| MailClient.ContentPartsRead | provider/http_client.py:351-360 | each body part has a truthy value and is text or HTML; a text part comes first exactly when `text_part` or else `text_body` is truthy, and an HTML part comes last exactly when `html_part` or else `html_body` is; each carries that value |
| MailClient.ContentParts | provider/http_client.py:351-360 | at most two body parts are built, one for each of the text and HTML fields |
| MailClient.Sender | provider/http_client.py:208-215 | the sender's first field is its `email`, or empty when it has none |
| MailClient.Personalization | provider/http_client.py:284-345 | the personalization's `to` is the kept recipients, every entry holds normalized recipients, and `cc` and `bcc` are present exactly when given |
| MailClient.PersonalizationKeys | provider/http_client.py:313-345 | adding `cc` and `bcc` after `to` leaves `to` as it was and adds each key exactly when it was built |
| MailClient.ConvertPayload | provider/http_client.py:204-401 | conversion fails, with ValueError, exactly when no `to` value is usable; otherwise it yields one personalization whose `to` is the kept recipients in order, a `from` exactly when the payload's `from` is a dict, and a `subject` exactly when the subject is truthy |
| MailClient.Assemble | provider/http_client.py:206-401 | the assembled payload is well formed, with `from` and `subject` each present exactly under its condition |
| MailClient.AssembledTo | provider/http_client.py:284-345 | the `to` of the assembled payload is the kept recipients in order |
| MailClient.AssembledKeys | provider/http_client.py:206-349 | the later fields never shadow `from`, `personalizations` or `subject` |
| MailClient.ReplyTo | provider/http_client.py:393-399 | a reply-to is added exactly when it is a truthy string or dict |
| MailClient.MaskField | provider/http_client.py:414-419 | a recipient list that is present is replaced by as many masked recipients as it had, nothing else changes, and a value that cannot be iterated raises TypeError |
| MailClient.MaskSensitive | provider/http_client.py:403-424 | the log copy has no address left in the sender, any personalization or the reply-to, and keeps exactly the top-level fields it had |
| MailClient.MaskSensitiveMasked | provider/http_client.py:403-424 | a payload that is already masked is its own log copy |
| MailClient.MaskSensitiveIdempotent | provider/http_client.py:403-424 | masking a log copy again changes nothing |
| MailClient.MaskConverted | provider/http_client.py:125-128 | masking the converted payload never raises |
| MailClient.MaskKeepsDumpable | provider/http_client.py:128-129 | the log copy of a payload that `json.dumps` accepts is accepted too |
| MailClient.EntryMessage | provider/http_client.py:552-562 | a string entry of `errors` is taken as it is; anything taken from an entry comes from a string or a dict |
| MailClient.ListedMessages | provider/http_client.py:549-562 | no more than five `errors` entries are read |
| MailClient.SanitizeAll | provider/http_client.py:563-565 | the messages are redacted one by one exactly when all are strings; otherwise redaction raises TypeError |
| MailClient.MailErrorMessage | provider/http_client.py:540-577 | an error message starts with the status line, and it fails, with TypeError, exactly when one of the first five collected `errors` messages is not a string |
| MailClient.MailErrorMessageBounded | provider/http_client.py:549-577 | an error message is bounded by the status line plus five redacted messages and their separators |
| MailClient.ErrorHeadStatus | provider/http_client.py:565-577 | every status line opens with `wordpress APIエラー (`, closes with `)`, and holds between them the decimal status that `int()` reads back |
| MailClient.ErrorsAfterFifthIgnored | provider/http_client.py:552 | entries of `errors` after the fifth do not change the message |
| MailClient.NonJsonBodyQuoted | provider/http_client.py:574-576 | a reply that is not JSON is quoted redacted, from its first 500 characters, after the status line |
| MailClient.MailHeaders | provider/http_client.py:428-433 | requests carry a Bearer token over the API key and a JSON content type unless the caller gave its own; other headers pass unchanged |
| MailClient.MailOutcome | provider/http_client.py:490-537 | only a delivered reply is returned; a refused reply raises the client error with its status, a message opening with the status line and the redacted body, or TypeError from the message; a transport failure raises the request-failed error; an unsleepable delay raises OverflowError |
| MailClient.MailRequest | provider/http_client.py:428-433 | the request goes to the base URL followed by the path, with the merged headers and the body given |
| MailClient.MailRequestOutcome | provider/http_client.py:428-537 | a request returns the reply exactly when its last attempt was answered below 400; a client error with a status comes from a refused last reply, one without a status from a transport failure; the overflow error arises exactly when a retryable attempt's delay, a 429's `Retry-After` or `2**attempt`, could not be slept; there are at most `max_retries` waits |
| MailClient.MessageId | provider/http_client.py:198-201 | the message id is never empty, and it is the `X-Message-Id` header whenever that is non-empty |
| MailClient.MessageIdFromClock | provider/http_client.py:199-201 | without the header the id is `msg_` followed by the clock's whole seconds |
| MailClient.LogCopy | provider/http_client.py:127-129 | the log copy of a converted payload exists and is masked |
| MailClient.SerializeError | provider/http_client.py:127-192 | a converted payload stops before the request exactly when `json.dumps` refuses it |
| MailClient.LogCopyDumpable | provider/http_client.py:127-129 | the log copy of a payload `json.dumps` accepts is accepted too, so the log dump raises only for a payload the request could not send either |
| MailClient.SendTransactional | provider/http_client.py:87-202 | without a usable `to` nothing is sent and ValueError is raised; with one, a request is made exactly when the converted payload can be serialized, and it is a POST of that payload to `/mail/send`; otherwise TypeError is raised before any request; a returned id is never empty |
| MailClient.Post | provider/http_client.py:189-202 | the converted payload is POSTed to `/mail/send` with the client's headers, and a returned id is never empty |
| MailClient.MessageResult | provider/http_client.py:196-202 | a delivered reply yields its message id; an exception passes through unchanged |
| MailClient.SendOutcome | provider/http_client.py:87-202 | once sent, the call returns a message id exactly when the retry loop ended on a reply below 400, and that id is the reply's; there are at most `max_retries` waits |
| MailClient.MaskFrom | provider/http_client.py:408-409 | a dict sender is left holding `***` as its address followed by a name; `from` stays present exactly when it was, and every other field is left as it was |
| MailClient.MaskPersonalizations | provider/http_client.py:411-419 | every dict personalization in a list is masked, and every other field is left as it was |
| MailClient.MaskPersonalization | provider/http_client.py:413-419 | the `to`, `cc` and `bcc` lists of one personalization are masked and no such key is added or removed |
| MailClient.MaskAll | provider/http_client.py:412-419 | masking the personalizations keeps their number, masks each dict and leaves anything else alone |
| MailClient.IterLen | provider/http_client.py:415 | iterating a recipient entry works exactly for strings, bytes, lists and dicts, a list giving as many masked recipients as it has; anything else raises TypeError |
| MailClient.MaskReplyTo | provider/http_client.py:421-422 | a dict reply-to becomes `***`, and every other field is left as it was |
| MailClient.MaskPersonalizationLists | provider/http_client.py:413-419 | a personalization whose recipient entries are lists is always masked, each list keeping its length |
| WpClient.NormalizeBase | tools/http_client.py:68-70 | the base URL always ends in `/wp-json/wp/v2` with no trailing slash, and begins with the configured URL stripped of its trailing slashes |
| WpClient.NormalizeBaseIdempotent | tools/http_client.py:68-70 | normalizing an already normalized base changes nothing |
| WpClient.NormalizeBaseTrailingSlash | tools/http_client.py:68 | a trailing slash on the configured URL makes no difference to the base |
| WpClient.NormalizeBaseSiteRoot | tools/http_client.py:69-70 | a site root without the API path gets exactly the API path appended to it |
| WpClient.NewClient | tools/http_client.py:61-70 | a client is made exactly when the URL is a non-blank string, and it holds the normalized base and the default two retries; a blank or falsy URL is refused with the empty-URL message |
| WpClient.FromContext | tools/http_client.py:76-94 | a falsy URL, user name or password is refused with its own message, checked in that order; once all three are truthy the result is that of building the client |
| WpClient.CallOf | tools/http_client.py:96-417 | each client method sends the verb, path, query and JSON body of its route: lists and single fetches GET, creates and updates POST their data, deletes send `DELETE` with the `force` query; no method outside the table is offered |
| WpClient.EndpointNamedName | tools/http_client.py:96-417 | route names hold no slash and read back to the route they name |
| WpClient.CallPathRoundTrip | tools/http_client.py:96-417 | the path every offered method builds reads back to its route and item id |
| WpClient.PartsRoundTrip | tools/http_client.py:114-131 | the pieces of an item path, split at `/`, read back to the route and the id |
| WpClient.ParsePieces | tools/http_client.py:114-131 | a path whose pieces are a route name and an id's decimal text addresses that route and id |
| WpClient.DeleteForce | tools/http_client.py:123-131 | a delete carries the `force` parameter exactly when forcing was asked for |
| WpClient.BaseName | tools/http_client.py:197 | the file name sent for an upload holds no directory separator |
| WpClient.FormData | tools/http_client.py:201-205 | the form data keeps only the given fields that are not `None`, all as strings |
| WpClient.FormDataLookup | tools/http_client.py:201-205 | a field that was not given is not sent; a given field that is not `None` is sent as its `str()` |
| WpClient.UploadCall | tools/http_client.py:179-212 | an upload fails with FileNotFoundError exactly when the file is missing; otherwise it POSTs to `/media` the file's own bytes under its base name with a non-empty MIME type, and sends no empty form |
| WpClient.UploadForm | tools/http_client.py:201-211 | each metadata field given and not `None` reaches the form as its `str()`, and no field that was not given appears there |
| WpClient.WpHeaders | tools/http_client.py:428-438 | requests carry Basic authentication over the encoded `user:password`, and a JSON content type exactly when they carry JSON and no file |
| WpClient.BasicCredentialsRecoverable | tools/http_client.py:431-434 | decoding the Basic header gives back the user name and the password, split at the first colon, when the user name holds no colon |
| WpClient.WpErrorMessage | tools/http_client.py:578-606 | every error message starts with the status line `WordPress APIエラー (<status>)` |
| WpClient.ApiMessageShown | tools/http_client.py:586-596 | when the reply is a JSON object with a truthy `message`, that message ends the error text unaltered |
| WpClient.WpErrorMessageRedacted | tools/http_client.py:598-606 | without an API message, the error text is the bare status line or the status line followed by redacted text no longer than 200 characters plus the truncation marker |
| WpClient.WpOutcome | tools/http_client.py:487-501 | only a delivered reply is returned; a refused reply raises the client error with its status, extracted message and redacted body; a transport failure or the dead exhaustion branch raises the request-failed error without a status; an unsleepable delay raises OverflowError |
| WpClient.HtmlHintCaseBlind | tools/http_client.py:526-535 | the cause suggested for an HTML reply does not depend on the letter case of the page |
| WpClient.HtmlHint | tools/http_client.py:526-535 | the cause suggested for an HTML reply is one of the four hints; the not-found hint needs `404` or `not found` in the page, the forbidden hint `403` or `forbidden`, and the disabled-API hint comes only for a page without `ログイン`, `404` and `403` |
| WpClient.HtmlMessageParts | tools/http_client.py:545-554 | the HTML error message opens with the fixed sentence and the hint, then names the request URL; it ends with the localhost:8080 notice exactly when the lower-cased URL contains `localhost:8080`, and with the URL otherwise |
| WpClient.LoginPageWins | tools/http_client.py:528-529 | a page that mentions logging in is blamed on a login redirect, whatever else it mentions |
| WpClient.ParseJsonResponse | tools/http_client.py:503-576 | a reply is accepted exactly when its body is not blank, it is not labelled `text/html` and it parses as JSON, and then the parsed value is returned; every refusal carries the reply's status, and a blank body is refused with the empty-reply message and an empty body |
| WpClient.HtmlReplyReported | tools/http_client.py:523-554 | an HTML reply is refused with the HTML message, the suggested cause and the request URL, plus the port hint exactly when the URL mentions `localhost:8080`, and its body is kept whole |
| WpClient.NotJsonQuoted | tools/http_client.py:557-576 | a body that is not JSON is refused with the not-JSON message quoting at most 200 characters of it plus the truncation marker, and with its body kept |
| WpClient.Send | tools/http_client.py:427-447 | the request goes to the base URL followed by the method's path, with the client's headers and the method's arguments, and waits the retry loop's delays |
| WpClient.SendOutcome | tools/http_client.py:427-501 | a call returns parsed JSON exactly when its last attempt was answered below 400 and the body parses; a refused last attempt raises the client error with the extracted message and the redacted body; a delay that cannot be slept raises OverflowError; a transport failure that did not overflow raises the request-failed error; there are at most `max_retries` waits |
| WpClient.SendUrl | tools/http_client.py:428 | the request URL is exactly the base URL followed by the method's path |
| Validators.ValidateWordPressUrl | tools/validators.py:17-30 | a URL passes exactly when it is a non-blank string whose stripped form starts with `http://` or `https://` and holds no `@`; a blank one is refused with the "enter the URL" message |
| Validators.SchemeHasDoubleSlash | tools/validators.py:23-30 | the later `//` check can never fail once the scheme check has passed |
| Validators.ValidatePostTitle | tools/validators.py:33-44 | a title passes exactly when it is a string whose stripped length is 1..255; missing, blank and over-long titles get their three distinct messages |
| Validators.ValidatePostContent | tools/validators.py:47-53 | only a missing body (`None`) is refused; an empty string passes |
| Validators.ValidatePostStatus | tools/validators.py:56-65 | `None` passes; a string passes exactly when, stripped and lower-cased, it is one of the six WordPress statuses |
| Validators.StatusCaseBlind | tools/validators.py:56-65 | the status check gives the same verdict for a string and its lower-case form |
| Validators.NormalizeStatus | tools/validators.py:61 | the status as compared is no longer than the one given, and is already stripped and lower-case |
| Validators.StatusMessage | tools/validators.py:64-65 | the refusal message opens with its fixed lead and names every valid status |
| Validators.PostStatusesSorted | tools/validators.py:64 | the statuses the message lists are in the order `sorted()` gives them |
| Validators.StripLower | tools/validators.py:62 | stripping and lower-casing commute, so the order in `strip().lower()` does not matter |
| Validators.ValidateId | tools/validators.py:68-145 | the five id validators accept exactly the present values that `int()` reads as a positive number, return that number, and name the kind of id when it is missing |
| Validators.ValidateIdDecimal | tools/validators.py:68-81 | the decimal spelling of n is accepted exactly when n > 0, and then gives the same id as the integer n |
| Validators.ValidatePerPage | tools/validators.py:148-164 | missing gives 10; otherwise accepted exactly when `int()` reads a value in 1..max_per_page, which is returned |
| Validators.ValidatePageNumber | tools/validators.py:167-180 | missing gives 1; otherwise accepted exactly when `int()` reads a value of at least 1 |
| Validators.ValidateSearchQuery | tools/validators.py:183-197 | missing or blank gives no search; otherwise the stripped text is returned exactly when it has at most 200 characters |
| Validators.Positives | tools/validators.py:211-218 | the positives kept from a list are all positive and never more than the list |
| Validators.NormalizeList | tools/validators.py:210-220 | a list is accepted exactly when `int()` reads every item; the result holds only positive ids, and a refusal quotes an unreadable item |
| Validators.NormalizeIds | tools/validators.py:200-247 | `None` gives no ids; a scalar gives the one number `int()` reads; bytes and dicts are refused as malformed; a list goes through the list rule |
| Validators.NormalizeListIsPositives | tools/validators.py:210-220 | an accepted list yields exactly the positive numbers it holds, in order |
| Validators.NormalizeIdsIdempotent | tools/validators.py:200-247 | normalizing an already normalized list of ids gives it back unchanged |
| Provider.UrlProblem | provider/provider.py:31-40 | the URL is fine exactly when `urlparse` reads it with an `http`/`https` scheme and a host; otherwise the problem is one of the three messages, or the parser's own error |
| Provider.CheckStripped | provider/provider.py:27-65 | the checks on the stripped values in source order: blank URL, URL form, blank user name, a password under twenty characters once its spaces are removed |
| Provider.ValidateCredentials | provider/provider.py:19-65 | console credentials are accepted exactly when URL, user name and password are strings, the URL is non-blank with an http(s) scheme and a host, the name is non-blank and the password holds at least twenty non-space characters; a URL problem is reported with the "malformed URL" prefix |
| Provider.CheckValues | provider/provider.py:22-65 | the same acceptance stated on the three values read from the dict |
| Provider.StrippedField | provider/provider.py:22-24 | `(v or "").strip()` is non-empty exactly for a non-blank string, and is then its stripped form |
| Provider.UsernameOnlyWarns | provider/provider.py:53-55 | the user-name character check only logs: any two non-blank names get the same verdict |
| Provider.CheckValuesStripped | provider/provider.py:22-65 | once the three values strip without error, the verdict is the one on the stripped strings |
| Provider.CheckValuesEarly | provider/provider.py:22-24 | a value that has no `strip` (a number, say) raises before any check runs |
| Provider.SpacedGroupsLength | provider/provider.py:61-65 | spaces between groups do not count towards the password length |
| Provider.WordPressPasswordLongEnough | provider/provider.py:61-65 | a WordPress application password (six groups of four, space separated) has length 24 and passes the length check |
| Files.Mkstemp | tools/file_utils.py:120 | `mkstemp` makes a new empty file under a fresh name with the requested suffix, and keeps the filesystem well-formed |
| Files.Unlink | tools/file_utils.py:38-44 | `unlink(missing_ok=True)` removes exactly that one file and leaves every other file as it was |
| Files.LastIndexOf | tools/file_utils.py:187 | finds the last occurrence of a character, or reports that there is none |
| Files.PathName | tools/file_utils.py:187 | `Path(...).name` holds no slash |
| Files.PathSuffix | tools/file_utils.py:187-189 | `Path(...).suffix` is empty or a dot followed by at least one character, with no further dot and no slash |
| Files.SuffixOfFileName | tools/file_utils.py:187 | the suffix of `stem.ext` is `.ext` |
| Files.NameOfPlainFile | tools/file_utils.py:187 | a plain file name is its own `Path(...).name` |
| Files.InferSuffix | tools/file_utils.py:182-195 | no metadata gives no suffix; a file name with a suffix gives that suffix; any suffix returned is non-empty |
| Files.CoerceBytes | tools/file_utils.py:108-117 | bytes are used as is; a string is base64-decoded after stripping when valid and otherwise UTF-8 encoded; anything else is refused |
| Files.WriteTemp | tools/file_utils.py:120-124 | inline content is written to a new temporary file marked for clean-up, and nothing else changes |
| Files.HeaderFold | tools/file_utils.py:135-138 | only text headers with a non-blank name are kept, under the stripped name |
| Files.DownloadHeaders | tools/file_utils.py:132-141 | no metadata gives no headers; every header sent has a text name, already stripped, and a text value |
| Files.WithAuthorization | tools/file_utils.py:139-141 | adding the token keeps the headers clean |
| Files.AuthorizationToken | tools/file_utils.py:139-141 | a token adds `Authorization` (stripped) only when the copied headers do not already have it |
| Files.Stream | tools/file_utils.py:160-171 | the streaming loop succeeds exactly when the total size of the chunks is at most 10 MiB, and then yields exactly their concatenation |
| Files.ContentLengthError | tools/file_utils.py:147-155 | the announced-size test raises exactly when the `Content-Length` header reads as a number above 10 MiB: the "file too large" ValueError, or, from 2**1034 - 2**980 on, the OverflowError that `size / 1024` raises while the message is built |
| Files.Tenths | tools/file_utils.py:153 | `.1f` of `size / 1024 / 1024` shows the nearest number of tenths of a MiB, a tie going to the even one |
| Files.MegabytesOfTwentyMillion | tools/file_utils.py:153 | twenty million bytes are shown as `19.1` MB |
| Files.Receive | tools/file_utils.py:159-179 | the body is kept in a new temporary file exactly when it fits in 10 MiB and arrives whole; on failure that file is removed, so the filesystem is as before |
| Files.StripBytes | tools/file_utils.py:128 | `bytes.strip()` is empty exactly for all-whitespace bytes, and otherwise starts and ends with a non-space |
| Files.Fetch | tools/file_utils.py:143-179 | a failed request changes nothing and raises its error; a body that passes the size test is received as above |
| Files.DownloadWith | tools/file_utils.py:127-179 | a blank text or bytes URL is refused before any request; a bytes URL is decoded as UTF-8 and then fetched; a value that is neither has no `strip`; a success is a new temporary file of at most 10 MiB, and a failure leaves the filesystem as it was |
| Files.DownloadAsWritten | tools/file_utils.py:127-179 | the download as written: once the request succeeds, it raises OverflowError before any file exists when the announced size is too large for a double, and otherwise succeeds exactly when the body streams within 10 MiB, whatever size the reply announces |
| Files.Download | tools/file_utils.py:127-179 | the download as intended: a reply announcing more than 10 MiB is refused before any file is created |
| Files.PrecheckAsWritten | tools/file_utils.py:148-157 | the pre-check as written raises only for an announced size too large for a double: its own `ValueError` is caught by the `except` next to it, but the OverflowError from formatting the size is not |
| Files.Precheck | tools/file_utils.py:148-155 | the pre-check as intended refuses exactly a header `int()` reads as more than 10 MiB, with the "file too large" message for that size whenever the size fits a double |
| Files.AnnouncedSizeIgnored | tools/file_utils.py:146-172 | as written, a reply announcing 20000000 bytes but sending three is downloaded |
| Files.AnnouncedSizeRefused | tools/file_utils.py:146-155 | as intended, the same reply is refused with the "file too large" message and nothing is written |
| Files.HugeAnnouncedSizeRaises | tools/file_utils.py:146-159 | as written, a reply announcing a size of 2**1034 - 2**980 or more (312 digits) stops the download with OverflowError before `mkstemp`, leaving the filesystem as it was |
| Resolver.ResolvePathlike | tools/file_utils.py:76-87 | a blank path is refused; an http(s) URL is downloaded; any other path is used in place, user-expanded, never cleaned up, and must exist |
| Resolver.ResolveContent | tools/file_utils.py:56-60 | inline content lands in a new temporary file marked for clean-up, holding exactly the coerced bytes |
| Resolver.ResolveSingle | tools/file_utils.py:47-73 | a value that is neither text nor dict is unreadable; a dict with no path, content, URL or upload id is refused; a failure changes nothing |
| Resolver.OwnedCons | tools/file_utils.py:38-44 | the files a list owns are those of its head, when marked, and of its tail |
| Resolver.ResolveFiles | tools/file_utils.py:30-35 | resolving a list yields one file per input |
| Resolver.ResolveFilesAdded | tools/file_utils.py:30-35 | after a successful resolution every file exists, the new files are exactly those marked for clean-up, and nothing else changed |
| Resolver.CleanupFiles | tools/file_utils.py:38-44 | clean-up removes exactly the files marked for it |
| Resolver.ResolveThenCleanup | tools/file_utils.py:30-44 | resolving a list and then cleaning it up leaves the filesystem's files as they were |
| Resolver.ResolveFilesAppend | tools/file_utils.py:30-35 | resolving `a + b` is resolving `a` and then `b` from where `a` left off |
| Resolver.ResolveFilesCons | tools/file_utils.py:30-35 | the first failure stops the loop and is what is raised |
| Resolver.SingleFailureLeavesNothing | tools/file_utils.py:47-73 | a single input that fails to resolve leaves no file behind |
| Resolver.LocalSourcesStayLocal | tools/file_utils.py:47-60 | a local path or inline content never reaches the network |
| ToolBase.CredentialsDict | tools/base.py:30 | `getattr(runtime, "credentials", {}) or {}`: a dict is used as is, any falsy value becomes the empty dict, anything else is refused |
| ToolBase.StrippedCredentials | tools/base.py:31-33 | the three `(v or "").strip()` reads succeed exactly when no value lacks `strip`, and each result is empty exactly when its value is not non-blank text, otherwise that text stripped |
| ToolBase.LoadProviderContext | tools/base.py:29-64 | a context is returned exactly when the credentials hold three non-blank strings and the URL starts with http(s) and does not point at `localhost:8080`; its fields are then non-empty and already stripped |
| ToolBase.ContextFromDict | tools/base.py:31-64 | the same acceptance stated on the credentials dict |
| ToolBase.UnreadableCredentials | tools/base.py:31-33 | reading the credentials only fails when one of the three values is not a string |
| ToolBase.CheckedCredentials | tools/base.py:41-64 | the checks after stripping accept exactly the contexts whose raw values are non-blank strings with an http(s) URL off `localhost:8080`, and return the context unchanged |
| ToolBase.CheckContext | tools/base.py:41-58 | the stripped context passes exactly when all three fields are non-empty, the URL starts with http(s) and does not contain `localhost:8080` in any letter case |
| ToolBase.DevServerTestsRedundant | tools/base.py:53 | the two exact-URL comparisons add nothing to the case-blind `localhost:8080` substring test |
| ToolBase.ContextMakesClient | tools/base.py:66-69 | every loaded context builds a client, whose base URL is the normalized site URL |
| ToolBase.ClientFromContext | tools/http_client.py:76-94 | a context with non-empty stripped fields passes `from_context` and the client's `__post_init__` |
| ToolBase.AnyIn | tools/base.py:129-144 | a hint rule's word list fires exactly when one of its words occurs in the text |
| ToolBase.Hints | tools/base.py:128-144 | the hints gathered are exactly the hints of the rules that fire, and there are none exactly when no rule fires |
| ToolBase.HintsAppend | tools/base.py:128-144 | the rules are independent: the hints of two rule lists are the hints of each, in order |
| ToolBase.HintLines | tools/base.py:147-148 | each hint becomes one line carrying the hint label |
| ToolBase.HandleError | tools/base.py:79-150 | the text starts with `"{action} に失敗しました: {message}"` and is exactly that when no hint rule fires |
| ToolBase.HandleErrorShowsHints | tools/base.py:128-148 | every hint of every rule that fires appears in the text with its label |
| ToolBase.UnauthorizedHintFirst | tools/base.py:87-131 | a 401 client error always leads its hints with the credentials hint |
| ToolBase.FirstRuleFirst | tools/base.py:128-131 | when the first rule fires its first hint comes first |
| ToolBase.Payload | tools/update_post.py:48-79 | the dict a tool builds has one entry per sent field and is empty exactly when no field is sent |
| ToolBase.PayloadLookup | tools/update_post.py:48-75 | with distinct keys every field reads back from the dict as given: its value when sent, absent otherwise |
| ToolBase.PayloadAbsent | tools/update_post.py:48-75 | a key no field names is absent from the dict |
| ToolBase.ClearableId | tools/update_post.py:60-69 | an update's media or parent id is sent exactly when `int()` reads it as 0 or more, as that number; other values are dropped silently |
| ToolBase.PositiveId | tools/create_page.py:48-62 | a creation's media or parent id is sent exactly when `int()` reads it as a positive number |
| ToolBase.NonBlankStr | tools/update_category.py:44-47 | `str(v).strip()` is sent exactly when it is not empty |
| ToolBase.Given | tools/update_post.py:54-55 | a field sent whenever it is not `None`, unchanged |
| ToolBase.WhenTruthy | tools/update_post.py:57-58 | a field sent exactly when it is truthy, unchanged |
| ToolBase.TruthyNonBlank | tools/create_comment.py:41-49 | a text sent exactly when truthy and not blank, stripped |
| ToolBase.GivenText | tools/update_category.py:34-39 | an update's text is absent when not given, refused when blank, otherwise sent stripped |
| ToolBase.RequiredText | tools/create_category.py:25-35 | a creation's required text is `(v or "").strip()` and is refused exactly when that is empty |
| ToolBase.AddressedGet | tools/update_comment.py:53 | adding the id to an update leaves every other field as it was |
| ToolBase.NormalizedText | tools/update_category.py:34-47 | a stripped non-empty text is sent back unchanged by the text rules |
| ToolBase.NormalizeForce | tools/delete_post.py:26-32 | `force` is true for a string exactly when, lowered, it is `true`, `1` or `yes`; a bool is itself; anything else is its truthiness |
| ToolBase.NormalizeForceStable | tools/delete_post.py:26-32 | normalizing a normalized flag, or a lowered string, changes nothing |
| ToolBase.ForceReachesRequest | tools/http_client.py:123-131 | a delete sends `force=true` as a query parameter exactly when the flag is true |
| ToolBase.DeleteMessage | tools/delete_post.py:39-47 | a dict reply reads "deleted" when its `deleted` field is truthy and "moved to the trash" otherwise, quoting the id |
| ToolBase.DeleteTool | tools/delete_post.py:19-59 | a request is made exactly when the id validates, with that positive id and the normalized flag; a bad id gives the validator's error; success is exactly a dict reply, described by its delete message |
| ToolBase.Listed | tools/get_posts.py:67 | a reply that is not a list counts as no items |
| ToolBase.ListMessage | tools/get_posts.py:67-75 | the summary names the item count, or says nothing was found when there are none |
| ToolBase.Detail | tools/base.py:87-126 | the message of any other error is its own text; a client error's opens with the heading carrying its status, is only that when it has no body, and adds the first 500 characters of a body that is not JSON |
| ToolBase.ApiErrorHeadStatus | tools/base.py:89-93 | with a nonzero status the heading holds its decimal text, which `int()` reads back, right after `WordPress APIエラー (HTTP `; with no status or zero the heading holds no digit at all |
| ToolBase.CodeDetailShown | tools/base.py:105-113 | the detail line appears exactly when the body's `message` is truthy; it starts with the detail label and ends with the message, and carries `[code] ` right after the label when the code is truthy |
| ToolBase.ParamDetailShown | tools/base.py:115-123 | the parameter line appears exactly when `data.params` is a non-empty dict, and it names every parameter with its message |
| ToolBase.BodyDetailShown | tools/base.py:100-126 | a body that does not parse adds the detail label and a prefix of the body of at most 500 characters; a body that parses to something other than a dict adds nothing |
| PostTools.UpdatedTitle | tools/update_post.py:34-36 | a missing title is not sent; a given one must be a string whose stripped form passes the title check, and is sent stripped |
| PostTools.CheckedStatus | tools/update_post.py:39-58 | a falsy status is skipped; a truthy one must pass the status check and is sent unchanged |
| PostTools.GivenTerms | tools/update_post.py:43-75 | categories or tags are sent whenever not `None`, as the normalized id list, and refused when normalization fails |
| PostTools.UpdatePost | tools/update_post.py:25-79 | the update is built exactly when every check passes and something is given to change; otherwise, when the checks pass, it fails with the "nothing to update" message; the id is the validated positive id |
| PostTools.UpdatePostNonEmpty | tools/update_post.py:48-79 | the payload is empty exactly when no title, content, truthy status, media id of at least 0, categories or tags are given |
| PostTools.UpdatePostReads | tools/update_post.py:48-75 | each of the six fields reads back from the payload as the rule for that field gives it |
| PostTools.UpdatePostSends | tools/update_post.py:34-69 | a built update sends the stripped title, content as given, a truthy status and a media id of at least 0 |
| PostTools.UpdatePostSendsTerms | tools/update_post.py:43-75 | a built update sends the normalized category and tag ids whenever they were given |
| PostTools.NegativeFeaturedMediaAlone | tools/update_post.py:60-79 | a negative media id on its own is dropped, so the update fails with "nothing to update" |
| PostTools.UpdatePage | tools/update_page.py:19-77 | the page update is built exactly when the id, title and status pass and something is given; otherwise it fails with the page's "nothing to update" message |
| PostTools.UpdatePageNonEmpty | tools/update_page.py:43-77 | the payload is empty exactly when no title, content, truthy status, or media or parent id of at least 0 is given |
| PostTools.UpdatePageReads | tools/update_page.py:43-73 | each of the five fields reads back from the payload as its rule gives it |
| PostTools.UpdatePageSends | tools/update_page.py:33-73 | a built page update sends the stripped title, content, truthy status and ids of at least 0 |
| PostTools.PageDraftOf | tools/create_page.py:25-33 | a page draft is accepted exactly when `(title or "").strip()` passes the title check; the draft's title is that stripped title and its content is `content or ""`; a title with no `strip` raises AttributeError |
| PostTools.CreatePageReads | tools/create_page.py:40-62 | each field of the new page reads back from the payload as its rule gives it |
| PostTools.CreatePage | tools/create_page.py:25-62 | the payload is built exactly when the draft is accepted and a truthy status is valid, and is built from the input's stripped title and `content or ""` |
| PostTools.CreatePageSends | tools/create_page.py:40-62 | the new page sends `(title or "").strip()` of the input, `content or ""`, a truthy status and positive media and parent ids only |
| PostTools.IdListReadsBack | tools/get_posts.py:54-60 | the comma-joined ids split back into pieces that `int()` reads as the same ids |
| PostTools.IdList | tools/get_posts.py:54-60 | the joined ids are empty exactly when there are none, and contain the decimal text of every id |
| PostTools.TruthyTerms | tools/get_posts.py:37-40 | falsy categories or tags give no ids; truthy ones are normalized |
| PostTools.GetPostsReads | tools/get_posts.py:43-60 | each query parameter reads back as its rule gives it |
| PostTools.GetPosts | tools/get_posts.py:25-60 | the listing query is built exactly when page size, page, search, a truthy status and the truthy id lists all pass their checks |
| PostTools.GetPostsSends | tools/get_posts.py:43-60 | the query holds the page size (1..100), the page, the stripped search, a truthy status and the comma-joined ids when there are any |
| PostTools.DeletePost | tools/delete_post.py:19-59 | a delete is requested exactly when the post id validates, with that id and the normalized force flag; success is described by the post's delete message |
| PostTools.DeletePage | tools/delete_page.py:19-59 | the same for pages, with the page's wording |
| TermTools.GivenSlug | tools/update_category.py:44-47 | a slug is sent exactly when given and its `str()` is not blank, stripped |
| TermTools.CreateCategory | tools/create_category.py:25-53 | a category is created exactly when `(name or "").strip()` is not empty |
| TermTools.CreateCategorySends | tools/create_category.py:25-53 | the new category sends the stripped name, a truthy description, a slug when truthy and not blank, and a parent id only when above 0 |
| TermTools.UpdateCategory | tools/update_category.py:25-62 | the update is built exactly when the id validates, a given name is not blank and something is given to change; it carries the validated id and exactly the fields each rule sends; otherwise it fails with "nothing to update" |
| TermTools.CategoryEmpty | tools/update_category.py:60-62 | the category payload is empty exactly when no field is sent |
| TermTools.CategoryReads | tools/update_category.py:31-58 | each category field reads back from the payload as sent |
| TermTools.UpdateCategoryOf | tools/update_category.py:25-62 | an update naming an id and a non-blank name builds exactly the payload of its fields |
| TermTools.NormalizedStable | tools/update_category.py:34-58 | fields already in the form a tool sends pass the update rules unchanged |
| TermTools.CategoryFieldsBack | tools/update_category.py:25-58 | a category payload addressed to an id reads back every field it holds |
| TermTools.CreatedCategoryUpdates | tools/create_category.py:35-53 | the payload a creation sends, replayed as an update of the new id, is accepted and sends the same payload |
| TermTools.CreateTag | tools/create_tag.py:25-44 | a tag is created exactly when `(name or "").strip()` is not empty |
| TermTools.CreateTagSends | tools/create_tag.py:25-44 | the new tag sends the stripped name, a truthy description and a slug when truthy and not blank |
| TermTools.UpdateTag | tools/update_tag.py:25-50 | the update is built exactly when the id validates, a given name is not blank and something is given; it carries the validated id and exactly the fields sent; otherwise it fails with "nothing to update" |
| TermTools.TagEmpty | tools/update_tag.py:48-50 | the tag payload is empty exactly when no field is sent |
| TermTools.TagReads | tools/update_tag.py:30-46 | each tag field reads back from the payload as sent |
| TermTools.UpdateTagOf | tools/update_tag.py:25-50 | an update naming an id and a non-blank name builds exactly the payload of its fields |
| TermTools.TagFieldsBack | tools/update_tag.py:25-46 | a tag payload addressed to an id reads back every field it holds |
| TermTools.CreatedTagUpdates | tools/create_tag.py:33-44 | the payload a tag creation sends, replayed as an update, is accepted unchanged |
| CommentTools.CommentStatus | tools/get_comments.py:48-54 | a status is kept exactly when truthy and, stripped and lowered, one of `approved`, `hold`, `spam`, `trash`, in that lowered form |
| CommentTools.LowercaseWordRead | tools/get_comments.py:49 | a lower-case word reads back as itself through `str().strip().lower()` |
| CommentTools.KnownStatusStable | tools/get_comments.py:48-52 | each known status is kept as itself |
| CommentTools.GetComments | tools/get_comments.py:25-54 | the listing query is built exactly when page size (at most 100), page and search pass; a bad post id or status is dropped without error |
| CommentTools.GetCommentsReads | tools/get_comments.py:32-54 | each query parameter reads back as its rule gives it |
| CommentTools.GetCommentsSends | tools/get_comments.py:25-54 | the query holds page size, page and search as validated, a positive post id, and a status exactly when it is a known one, lowered |
| CommentTools.UpdatedStatus | tools/update_comment.py:39-45 | a falsy status is skipped; a truthy one is sent lowered and stripped when known and refused with the status message otherwise |
| CommentTools.UpdateCommentReads | tools/update_comment.py:30-49 | content and status read back from the payload, which is empty exactly when neither is sent |
| CommentTools.UpdateComment | tools/update_comment.py:25-49 | the update is built exactly when the id validates, given content is not blank, a truthy status is known and something is given; an unknown status is refused with its message |
| CommentTools.StatusRefusedAlike | tools/update_comment.py:39-45 | with a valid id and content, a truthy status is refused exactly when the listing would drop it |
| CommentTools.StatusSentAlike | tools/update_comment.py:39-43 | an accepted status is sent in the same form the listing uses |
| CommentTools.CreateComment | tools/create_comment.py:25-57 | a comment is created exactly when the post id validates and the stripped content is not empty, and the payload holds exactly the fields each rule sends |
| CommentTools.CreateCommentReads | tools/create_comment.py:36-57 | post and content are always sent; author name and e-mail stripped when not blank; a parent only above 0; never a status |
| CommentTools.UpdateCommentOf | tools/update_comment.py:25-49 | an update with an id and normalized content builds exactly that one-field payload |
| CommentTools.CreatedCommentUpdates | tools/create_comment.py:26-39 | the payload of a new comment, replayed as an update, is accepted and sends the same content |
| CommentTools.DeleteComment | tools/delete_comment.py:19-59 | a delete is requested exactly when the comment id validates, with that id and the normalized flag; success is described by the comment's delete message |
| MediaTools.MediaText | tools/update_media.py:33-43 | a media text is not sent when `None`, sent as `""` when falsy, and sent stripped when a non-empty string; a truthy non-string has no `strip` and raises |
| MediaTools.MediaReads | tools/update_media.py:31-47 | each of the four fields reads back from the payload, which is empty exactly when none is sent |
| MediaTools.UpdateMedia | tools/update_media.py:25-48 | the update is built exactly when the id validates, every given text can be stripped and at least one is given; it carries exactly the four text rules' fields |
| MediaTools.MediaTextStripped | tools/update_media.py:33-43 | every text the update sends is already stripped |
| MediaTools.MediaTextStable | tools/update_media.py:33-43 | a stripped text passes the rule unchanged |
| MediaTools.UpdateMediaOf | tools/update_media.py:25-48 | an update whose texts pass builds exactly the payload of those texts |
| MediaTools.UpdateMediaIdempotent | tools/update_media.py:25-48 | replaying the payload of an update, addressed to an id, gives back the same payload |
| MediaTools.UploadText | tools/upload_media.py:46-56 | an upload text is sent only when truthy, stripped; a truthy non-string raises |
| MediaTools.UploadData | tools/upload_media.py:43-60 | the form data is built exactly when every text passes, is absent exactly when no text is truthy, and otherwise holds the texts' fields |
| MediaTools.UploadTextStripped | tools/upload_media.py:46-56 | every upload text sent is already stripped |
| MediaTools.UploadedFieldsUpdate | tools/upload_media.py:43-56 | the texts sent with an upload pass unchanged as a later media update |
| MediaTools.UploadMessage | tools/upload_media.py:63-71 | a dict reply whose title is a dict yields the upload message with the id, plus the URL line when `source_url` is truthy |
| MediaTools.UploadResolved | tools/upload_media.py:37-71 | the upload of a resolved file succeeds exactly when the form data builds, the server accepts it and the reply reads as a dict |
| MediaTools.UploadMedia | tools/upload_media.py:19-89 | a falsy file parameter is refused before anything happens; otherwise success is exactly a resolved file plus a successful upload; the `finally` clean-up leaves the filesystem's files as they were |
| MediaTools.UploadSendsResolved | tools/upload_media.py:31-60 | the file uploaded exists; it is a new temporary file exactly when it is marked for clean-up, and otherwise a file that already existed |
| MediaTools.DeleteMedia | tools/delete_media.py:19-59 | a delete is requested exactly when the media id validates, with that id and the normalized flag; success is described by the media's delete message |
| UserTools.UserName | tools/update_user.py:35-39 | a given name must be a non-blank string and is sent stripped; a blank one is refused with its message |
| UserTools.UserEmail | tools/update_user.py:41-48 | a given e-mail must be a non-blank string with an `@` and a `.` after its last `@`; it is sent stripped, and each failure has its message |
| UserTools.DomainAfterLastAt | tools/update_user.py:46 | the part checked for a `.` is what follows the last `@` |
| UserTools.EmailAccepted | tools/update_user.py:46 | `a@b.c` passes the address check |
| UserTools.EmailDotBeforeAt | tools/update_user.py:46 | `a.b@c` fails: the dot must follow the `@` |
| UserTools.EmailDotBetweenAts | tools/update_user.py:46 | `a@b.c@d` fails: only the part after the last `@` counts |
| UserTools.UserUrl | tools/update_user.py:53-59 | a given URL must be a string; blank sends nothing; otherwise it is sent stripped exactly when it starts with http(s) |
| UserTools.KeptRoles | tools/update_user.py:67 | the role names kept are never more than the comma-separated pieces |
| UserTools.UserRoles | tools/update_user.py:61-71 | a list is sent as is; a string sends its stripped non-empty comma pieces, or nothing when there are none; any other value is refused |
| UserTools.KeptRolesClean | tools/update_user.py:67 | every role name kept is non-empty, stripped and free of commas |
| UserTools.RoleNames | tools/update_user.py:67 | every name read from a roles string is non-empty, already stripped and free of commas; `UserTools.RolesRoundTrip` shows joining them with commas reads back the same names |
| UserTools.CleanNamesKept | tools/update_user.py:67 | clean names are all kept, unchanged |
| UserTools.StrsOfStrings | tools/get_site_users.py:42 | `str()` of the role strings gives back the names |
| UserTools.RolesFilter | tools/get_site_users.py:39-44 | a truthy roles filter is sent, a list comma-joined by `str()` of its items and anything else as its `str()` |
| UserTools.RolesRoundTrip | tools/update_user.py:61-71 | the role list an update sends, joined as the listing joins it, reads back as the same role list |
| UserTools.RejoinedRoles | tools/update_user.py:67 | clean role names joined with commas split back into the same names |
| UserTools.GetSiteUsers | tools/get_site_users.py:25-44 | the user listing query is built exactly when page size (at most 100), page and search pass; the roles filter never fails |
| UserTools.GetSiteUsersReads | tools/get_site_users.py:30-44 | each query parameter reads back as its rule gives it |
| UserTools.GetSiteUsersSends | tools/get_site_users.py:25-44 | the query holds the validated page size, page and search, and a roles filter exactly when roles are truthy |
| UserTools.UserReads | tools/update_user.py:33-71 | each of the five fields reads back from the payload, which is empty exactly when none is sent |
| UserTools.UpdateUser | tools/update_user.py:25-75 | the update is built exactly when the id validates, every given field passes its check and something is sent; otherwise, with the checks passed, it fails with "nothing to update" |
| UserTools.UpdateUserSends | tools/update_user.py:35-71 | a built update sends the stripped name and address-shaped e-mail, the description as given, a URL exactly when non-blank, a roles list as is and a roles string only when it names a role |
| UserTools.JoinedRoleValues | tools/get_site_users.py:41-42 | a non-empty list of role names is sent as the names joined by commas |

## Left out

- Logging. No `logger` call is modelled, including the masked-authorization log line of each attempt. The one place where building a log line can fail, the `json.dumps` of the masked mail payload, is kept (`MailClient.LogCopy`, `MailClient.SerializeError`).
- Timeouts, `requests.Session` reuse and closing, and the sleeps themselves. A request's attempts come from the `server` parameter, and the loop returns the delays it would sleep.
- What `requests` does inside a GET or POST: URL normalisation, redirects, and encoding the body and multipart forms. The model stops at the request it hands over.
- The processing of a tool's reply after the API answers. The tools build text and JSON messages from the reply, such as `response.get("title", {}).get("rendered")`, which raises when the title is not a dict. Only the messages of the delete, list and upload tools are modelled.
- The read-only tools outside the core: statistics, settings, plugins, media, pages, categories and tags listings, and post details.
- MailClient.ConvertPayload: does not model attachments (provider/http_client.py:362-386). Reading attachment files from disk and base64-encoding them is filesystem I/O outside the converter's logic, so the converted payload never holds an `attachments` entry.
- Resolver.ResolveSingle: a Dify `File` object is modelled as the dict of its attributes. `_serialize_file_info`'s `hasattr`/`getattr` walk and its `model_dump` fallback are left out: the model has no objects, so any value that is neither text nor a dict is unreadable.
- Text.ParseInt: covers ASCII digits with an optional sign and surrounding whitespace. It does not cover the rest of `int()`: underscores between digits, non-ASCII decimal digits, and the 4300-digit limit on conversions.
- Text.Lower: lowers only ASCII letters. Every needle the plugin searches for in lowered text is ASCII, so this matters only for the text that is returned.
- Py.Str: renders strings inside containers between single quotes, without Python's escaping. It also never switches to double quotes, which Python does for a string or bytes value holding a single quote and no double quote.
- Py.Repr: the same limitation as `Py.Str`.
- Files.PathSuffix: follows `PurePath.suffix` as it was before Python 3.14, where a name ending in a dot has no suffix.
- Text.Strip: its own contract states the shape of the result. That the result is the infix after the leading whitespace, and that the text cut on both sides is whitespace, is stated separately by `Text.StripInfix`.
- Py.StripValue / Py.StripOrEmpty: a bytes value is treated as having no `strip`, although Python's `bytes.strip()` exists and would return bytes. Tool parameters arrive decoded from JSON, which has no bytes type, so such a value never reaches tools/base.py:31-33.
- Files.Tenths: takes the quotient `size / 1024 / 1024` exactly. Python first rounds `size / 1024` to a double, which can change the tenth shown for sizes of 2**53 bytes or more.
- Floating-point values in JSON replies: `Py.Value` has no floats, and the `parse` parameter stands for any JSON decoding.

## Findings

| source | as written | input that shows it | evidently intended | confidence | as-written member | corrected member |
|---|---|---|---|---|---|---|
| tools/file_utils.py:146-157 | the `ValueError` raised when `Content-Length` exceeds 10 MiB sits inside a `try` whose own `except (ValueError, TypeError)` catches it, so the pre-check refuses no announced size that fits a double | a reply with `Content-Length: 20000000` and a 3-byte body is downloaded into a temporary file | refuse the download before any file is created when the announced size exceeds 10 MiB | not executed | Files.DownloadAsWritten (Files.AnnouncedSizeIgnored) | Files.Download (Files.AnnouncedSizeRefused) |

The resolver (`Resolver.ResolvePathlike`, `Resolver.ResolveSingle`) and the tools above it use the download as written. The corrected `Files.Download` states the intended behaviour next to it.

=== FILE: comment_tools.dfy ===
/** The comment tools (`tools/get_comments.py`, `tools/create_comment.py`,
    `tools/update_comment.py`, `tools/delete_comment.py`). The listing and
    the update read a comment status the same way, but the listing drops an
    unknown one where the update refuses it. */
module CommentTools {
  import opened Wrappers
  import opened Text
  import opened Py
  import opened Validators
  import opened ToolBase

  const CommentsMaxPerPage: int := 100
  const ContentRequired: string := "コメント内容を入力してください"
  const ContentBlank: string := "コメント内容が空です"
  const InvalidStatus: string := "無効なコメントステータスです。有効な値: approved, hold, spam, trash"
  const CommentNothingToUpdate: string := "更新する項目（content, status）を少なくとも1つ指定してください"

  /** The moderation states a comment can be put in or filtered by. */
  const CommentStatuses: set<string> := {"approved", "hold", "spam", "trash"}

  // ---- Comment status --------------------------------------------------------

  /** A truthy status as both tools read it: its `str()`, stripped and
      lower-cased, when that is a known state. */
  function CommentStatus(v: Value): (r: Option<string>)
    ensures r.Some? <==> Truthy(v) && Lower(Strip(Str(v))) in CommentStatuses
    ensures r.Some? ==> r.value == Lower(Strip(Str(v))) && r.value in CommentStatuses
  {
    if Truthy(v) && Lower(Strip(Str(v))) in CommentStatuses then Some(Lower(Strip(Str(v)))) else None
  }

  function StatusField(status: Option<string>): Option<Value> {
    if status.Some? then Some(VStr(status.value)) else None
  }

  /** Lower-case letters and other non-capitals are left alone by `lower()`. */
  lemma LowerOfLowercase(s: string)
    requires forall i | 0 <= i < |s| :: !('A' <= s[i] <= 'Z')
    ensures Lower(s) == s
  {
  }

  /** A word of lower-case letters is its own status reading. */
  lemma LowercaseWordRead(x: string)
    requires |x| > 0 && forall i | 0 <= i < |x| :: 'a' <= x[i] <= 'z'
    ensures Lower(Strip(Str(VStr(x)))) == x
  {
    assert Str(VStr(x)) == x;
    assert !IsSpace(x[0]) && !IsSpace(x[|x| - 1]);
    assert Strip(x) == x;
    LowerOfLowercase(x);
  }

  /** Every known state, sent as read, reads back as itself. */
  lemma KnownStatusStable(x: string)
    requires x in CommentStatuses
    ensures CommentStatus(VStr(x)) == Some(x)
  {
    assert x == "approved" || x == "hold" || x == "spam" || x == "trash";
    LowercaseWordRead(x);
  }

  // ---- get_comments ----------------------------------------------------------

  function GetCommentsFields(params: Dict, perPage: int, page: int, search: Option<string>): seq<Field> {
    [("per_page", Some(VInt(perPage))), ("page", Some(VInt(page))), ("search", SearchField(search)),
     ("post", PositiveId(Get(params, "post_id"))), ("status", StatusField(CommentStatus(Get(params, "status"))))]
  }

  /** `get_comments`: page size (at most 100), page and search are checked;
      a post id that is not a positive integer and an unknown status are
      dropped without error. */
  function GetComments(params: Dict): (r: Result<Dict, Exc>)
    ensures r.Ok? <==>
      && ValidatePerPage(Get(params, "per_page"), CommentsMaxPerPage).Ok?
      && ValidatePageNumber(Get(params, "page")).Ok?
      && ValidateSearchQuery(Get(params, "search")).Ok?
  {
    var perPage :- ValidatePerPage(Get(params, "per_page"), CommentsMaxPerPage);
    var page :- ValidatePageNumber(Get(params, "page"));
    var search :- ValidateSearchQuery(Get(params, "search"));
    Ok(Payload(GetCommentsFields(params, perPage, page, search)))
  }

  lemma GetCommentsReads(params: Dict, perPage: int, page: int, search: Option<string>)
    ensures var d := Payload(GetCommentsFields(params, perPage, page, search));
      && Lookup(d, VStr("per_page")) == Some(VInt(perPage))
      && Lookup(d, VStr("page")) == Some(VInt(page))
      && Lookup(d, VStr("search")) == SearchField(search)
      && Lookup(d, VStr("post")) == PositiveId(Get(params, "post_id"))
      && Lookup(d, VStr("status")) == StatusField(CommentStatus(Get(params, "status")))
  {
    var fields := GetCommentsFields(params, perPage, page, search);
    assert DistinctKeys(fields);
    PayloadLookup(fields, 0);
    PayloadLookup(fields, 1);
    PayloadLookup(fields, 2);
    PayloadLookup(fields, 3);
    PayloadLookup(fields, 4);
  }

  /** What an accepted `get_comments` asks for: the page size and page
      always, the search when not blank, the post when its id is above 0,
      and the status only when it is a known state. */
  lemma GetCommentsSends(params: Dict)
    requires GetComments(params).Ok?
    ensures var d := GetComments(params).value;
      && Lookup(d, VStr("per_page")) == Some(VInt(ValidatePerPage(Get(params, "per_page"), CommentsMaxPerPage).value))
      && Lookup(d, VStr("page")) == Some(VInt(ValidatePageNumber(Get(params, "page")).value))
      && Lookup(d, VStr("search")) == SearchField(ValidateSearchQuery(Get(params, "search")).value)
      && Lookup(d, VStr("post")) == PositiveId(Get(params, "post_id"))
      && (Lookup(d, VStr("status")).Some? <==> Truthy(Get(params, "status")) && Lower(Strip(Str(Get(params, "status")))) in CommentStatuses)
      && (Lookup(d, VStr("status")).Some? ==> Lookup(d, VStr("status")).value == VStr(Lower(Strip(Str(Get(params, "status"))))))
  {
    GetCommentsReads(params, ValidatePerPage(Get(params, "per_page"), CommentsMaxPerPage).value,
      ValidatePageNumber(Get(params, "page")).value, ValidateSearchQuery(Get(params, "search")).value);
  }

  // ---- update_comment --------------------------------------------------------

  /** The status an update sends: a known state when truthy, an error for
      any other truthy value. */
  function UpdatedStatus(v: Value): (r: Result<Option<Value>, Exc>)
    ensures !Truthy(v) ==> r == Ok(None)
    ensures Truthy(v) ==> (r.Ok? <==> CommentStatus(v).Some?)
    ensures Truthy(v) && r.Ok? ==> r.value == Some(VStr(CommentStatus(v).value))
    ensures r.Err? ==> r.error == ValueError(InvalidStatus)
  {
    if !Truthy(v) then Ok(None)
    else if CommentStatus(v).None? then Err(ValueError(InvalidStatus))
    else Ok(Some(VStr(CommentStatus(v).value)))
  }

  function UpdateCommentFields(content: Option<Value>, status: Option<Value>): seq<Field> {
    [("content", content), ("status", status)]
  }

  lemma UpdateCommentReads(content: Option<Value>, status: Option<Value>)
    ensures var d := Payload(UpdateCommentFields(content, status));
      && Lookup(d, VStr("content")) == content && Lookup(d, VStr("status")) == status
      && (d == [] <==> content.None? && status.None?)
  {
    var fields := UpdateCommentFields(content, status);
    assert DistinctKeys(fields);
    assert fields[0].1 == content && fields[1].1 == status;
    PayloadLookup(fields, 0);
    PayloadLookup(fields, 1);
  }

  /** `update_comment`: the id, then the content when given (not blank),
      then the status when truthy (a known state); an update with nothing to
      change fails. */
  function UpdateComment(params: Dict): (r: Result<Update, Exc>)
    ensures r.Ok? <==>
      && ValidateId(CommentId, Get(params, "id")).Ok?
      && GivenText(Get(params, "content"), ContentBlank).Ok?
      && UpdatedStatus(Get(params, "status")).Ok?
      && (Get(params, "content") != VNone || Truthy(Get(params, "status")))
    ensures r.Ok? ==> r.value == Update(ToInt(Get(params, "id")).value,
      Payload(UpdateCommentFields(GivenText(Get(params, "content"), ContentBlank).value, UpdatedStatus(Get(params, "status")).value)))
    ensures (ValidateId(CommentId, Get(params, "id")).Ok? && GivenText(Get(params, "content"), ContentBlank).Ok?
      && UpdatedStatus(Get(params, "status")).Err?) ==> r == Err(ValueError(InvalidStatus))
  {
    var id :- ValidateId(CommentId, Get(params, "id"));
    var content :- GivenText(Get(params, "content"), ContentBlank);
    var status :- UpdatedStatus(Get(params, "status"));
    UpdateCommentReads(content, status);
    var data := Payload(UpdateCommentFields(content, status));
    if data == [] then Err(ValueError(CommentNothingToUpdate)) else Ok(Update(id, data))
  }

  /** The two tools agree on which statuses are known: with the id and
      content accepted, a truthy status the listing drops is exactly one the
      update refuses. */
  lemma StatusRefusedAlike(params: Dict)
    requires ValidateId(CommentId, Get(params, "id")).Ok? && GivenText(Get(params, "content"), ContentBlank).Ok?
    requires Truthy(Get(params, "status"))
    ensures UpdateComment(params) == Err(ValueError(InvalidStatus)) <==> CommentStatus(Get(params, "status")).None?
    ensures UpdateComment(params).Ok? <==> CommentStatus(Get(params, "status")).Some?
  {
  }

  /** A status the listing filters by is sent by the update as the same
      state. */
  lemma StatusSentAlike(params: Dict)
    requires UpdateComment(params).Ok? && Truthy(Get(params, "status"))
    ensures Lookup(UpdateComment(params).value.data, VStr("status")) == Some(VStr(CommentStatus(Get(params, "status")).value))
  {
    UpdateCommentReads(GivenText(Get(params, "content"), ContentBlank).value, UpdatedStatus(Get(params, "status")).value);
  }

  // ---- create_comment --------------------------------------------------------

  function CreateCommentFields(params: Dict, post: int, content: string): seq<Field> {
    [("post", Some(VInt(post))), ("content", Some(VStr(content))),
     ("author_name", TruthyNonBlank(Get(params, "author_name"))), ("author_email", TruthyNonBlank(Get(params, "author_email"))),
     ("parent", PositiveId(Get(params, "parent")))]
  }

  /** `create_comment`: the post id is checked first, then the content,
      which must not be blank; author name and e-mail are sent stripped when
      not blank, a parent id when above 0. */
  function CreateComment(params: Dict): (r: Result<Dict, Exc>)
    ensures r.Ok? <==> ValidateId(PostId, Get(params, "post_id")).Ok? && RequiredText(Get(params, "content"), ContentRequired).Ok?
    ensures r.Ok? ==> r.value == Payload(CreateCommentFields(params, ToInt(Get(params, "post_id")).value, Strip(Get(params, "content").s)))
  {
    var post :- ValidateId(PostId, Get(params, "post_id"));
    var content :- RequiredText(Get(params, "content"), ContentRequired);
    Ok(Payload(CreateCommentFields(params, post, content)))
  }

  lemma CreateCommentReads(params: Dict, post: int, content: string)
    ensures var d := Payload(CreateCommentFields(params, post, content));
      && Lookup(d, VStr("post")) == Some(VInt(post))
      && Lookup(d, VStr("content")) == Some(VStr(content))
      && Lookup(d, VStr("author_name")) == TruthyNonBlank(Get(params, "author_name"))
      && Lookup(d, VStr("author_email")) == TruthyNonBlank(Get(params, "author_email"))
      && Lookup(d, VStr("parent")) == PositiveId(Get(params, "parent"))
      && Lookup(d, VStr("status")) == None
  {
    var fields := CreateCommentFields(params, post, content);
    assert DistinctKeys(fields);
    PayloadLookup(fields, 0);
    PayloadLookup(fields, 1);
    PayloadLookup(fields, 2);
    PayloadLookup(fields, 3);
    PayloadLookup(fields, 4);
    PayloadAbsent(fields, "status");
  }

  /** `update_comment` on parameters carrying a normalized content and no
      status. */
  lemma UpdateCommentOf(u: Dict, id: int, content: Value)
    requires Get(u, "id") == VInt(id) && id > 0
    requires Get(u, "content") == content && Normalized(content) && Get(u, "status") == VNone
    ensures UpdateComment(u) == Ok(Update(id, [(VStr("content"), content)]))
  {
    NormalizedText(content);
    assert GivenText(Get(u, "content"), ContentBlank) == Ok(Some(content));
    assert UpdatedStatus(Get(u, "status")) == Ok(None);
    var fields := UpdateCommentFields(Some(content), None);
    assert Payload(fields) == [(VStr("content"), content)] by {
      assert fields[1..][1..] == [];
    }
  }

  /** A created comment's payload, given back to `update_comment` with any
      valid id, updates exactly its content, unchanged. */
  lemma CreatedCommentUpdates(params: Dict, id: int)
    requires CreateComment(params).Ok? && id > 0
    ensures var content := Strip(Get(params, "content").s);
      UpdateComment(Addressed(id, CreateComment(params).value)) == Ok(Update(id, [(VStr("content"), VStr(content))]))
  {
    var content := Strip(Get(params, "content").s);
    var created := CreateComment(params).value;
    CreateCommentReads(params, ToInt(Get(params, "post_id")).value, content);
    AddressedGet(id, created, "content");
    AddressedGet(id, created, "status");
    StripStripped(Get(params, "content").s);
    assert Get(Addressed(id, created), "id") == VInt(id);
    UpdateCommentOf(Addressed(id, created), id, VStr(content));
  }

  // ---- delete_comment --------------------------------------------------------

  /** `delete_comment`: comment ids are validated as comment ids. */
  function DeleteComment(params: Dict, server: Deletion -> Result<Value, Exc>): (r: (Option<Deletion>, Result<string, Exc>))
    ensures r.0.Some? <==> ValidateId(CommentId, Get(params, "id")).Ok?
    ensures r.0.Some? ==> r.0.value == Deletion(ToInt(Get(params, "id")).value, NormalizeForce(GetOr(params, "force", VBool(false))))
    ensures r.1.Ok? ==> r.0.Some? && server(r.0.value).Ok? && r.1 == DeleteMessage("コメント", server(r.0.value).value)
  {
    DeleteTool(CommentId, "コメント", params, server)
  }
}

=== FILE: engine.dfy ===
/** The retrying request loop shared, line for line, by the mail client
    (`provider/http_client.py`) and the WordPress client
    (`tools/http_client.py`). The network is an oracle `server` that says
    what attempt number `i` receives; sleeping is returned as the list of
    delays the loop would have slept, in order. */
module Engine {
  import opened Wrappers
  import opened Text

  /** What `requests` hands back: status code, headers, decoded body text
      and the final URL. */
  datatype Response = Response(status: int, headers: seq<(string, string)>, text: string, url: string)

  /** One attempt: a `requests.RequestException` (its `str`), or a reply. */
  datatype Attempt = Transport(msg: string) | Reply(response: Response)

  /** How the loop ends, before either client turns it into a return value
      or an exception. `NoAttempt` is leaving the loop without a decision,
      which only a negative retry budget allows; `SleepFailed` is the
      `OverflowError` that `time.sleep` raises for a `Retry-After` too large
      to convert, which no `except` of the loop catches. */
  datatype Outcome =
    | Delivered(response: Response)
    | Refused(response: Response)
    | TransportFailed(msg: string)
    | NoAttempt
    | SleepFailed(msg: string)

  const RetryStatuses: set<int> := {408, 425, 429, 500, 502, 503, 504}

  /** The `max_retries` field's default in both clients. */
  const DefaultMaxRetries: int := 2

  /** `2**attempt` */
  function Pow2(n: nat): (p: nat)
    ensures p >= 1
  {
    if n == 0 then 1 else 2 * Pow2(n - 1)
  }

  /** `response.headers.get(name)`: `requests` compares header names without
      regard to case; the first matching entry is taken. */
  function HeaderGet(headers: seq<(string, string)>, name: string): (r: Option<string>)
    ensures r.Some? <==> exists i :: 0 <= i < |headers| && Lower(headers[i].0) == Lower(name)
    ensures r.Some? ==> exists i :: 0 <= i < |headers| && headers[i] == (headers[i].0, r.value) && Lower(headers[i].0) == Lower(name)
  {
    if |headers| == 0 then None
    else if Lower(headers[0].0) == Lower(name) then Some(headers[0].1)
    else
      var r := HeaderGet(headers[1..], name);
      assert forall i | 0 <= i < |headers| - 1 :: headers[1..][i] == headers[i + 1];
      r
  }

  /** An attempt the loop would try again, budget permitting. */
  predicate Retryable(a: Attempt) {
    a.Transport? || a.response.status in RetryStatuses
  }

  /** The largest number of whole seconds `time.sleep` converts: CPython
      holds a timeout as signed 64-bit nanoseconds, so any number of seconds
      beyond `(2**63 - 1) / 10**9` in size, of either sign, overflows. */
  const SleepLimit: int := 9223372036

  const SleepOverflowMessage: string := "timestamp too large to convert to C _PyTime_t"

  /** `int(retry_after)` for a present, non-empty `Retry-After` header of a
      reply; `None` when the header is missing or empty or `int()` rejects
      it. */
  function RetryAfter(response: Response): (r: Option<int>)
    ensures HeaderGet(response.headers, "Retry-After").None? ==> r.None?
    ensures HeaderGet(response.headers, "Retry-After") == Some("") ==> r.None?
    ensures HeaderGet(response.headers, "Retry-After").Some? && HeaderGet(response.headers, "Retry-After") != Some("") ==>
      r == ParseInt(HeaderGet(response.headers, "Retry-After").value)
  {
    match HeaderGet(response.headers, "Retry-After")
    case None => None
    case Some(v) => if |v| == 0 then None else ParseInt(v)
  }

  /** `time.sleep(2**attempt)`: the delay, or `None` once `2**attempt`
      seconds (from attempt 34 on) is more than `time.sleep` converts. */
  function Exponential(attempt: nat): (d: Option<nat>)
    ensures d.Some? <==> Pow2(attempt) <= SleepLimit
    ensures d.Some? ==> d.value == Pow2(attempt)
  {
    if Pow2(attempt) <= SleepLimit then Some(Pow2(attempt)) else None
  }

  /** The `Retry-After` of a 429 that `time.sleep` takes as given: present,
      read by `int()`, not negative and in range. */
  predicate HonouredWait(a: Attempt) {
    a.Reply? && a.response.status == 429 && RetryAfter(a.response).Some?
    && 0 <= RetryAfter(a.response).value <= SleepLimit
  }

  /** The `Retry-After` of a 429 that makes `time.sleep` overflow. */
  predicate OverflowingWait(a: Attempt) {
    a.Reply? && a.response.status == 429 && RetryAfter(a.response).Some?
    && !(-SleepLimit <= RetryAfter(a.response).value <= SleepLimit)
  }

  /** The seconds slept after retryable attempt number `attempt`, or `None`
      when that sleep raises `OverflowError`. Only a 429 reads
      `Retry-After`; a number in range is slept as given when it is not
      negative, while a negative one makes `time.sleep` raise the
      `ValueError` the same `except` catches, and the loop then sleeps
      `2**attempt` as for a header it cannot read. Any sleep of `2**attempt`
      seconds overflows from attempt 34 on. */
  function Backoff(a: Attempt, attempt: nat): (d: Option<nat>)
    ensures !(a.Reply? && a.response.status == 429) ==> d == Exponential(attempt)
    ensures d.None? <==> (OverflowingWait(a) || (!HonouredWait(a) && Pow2(attempt) > SleepLimit))
    ensures d.Some? && d.value != Pow2(attempt) ==>
      a.Reply? && a.response.status == 429 && RetryAfter(a.response) == Some(d.value as int)
    ensures HonouredWait(a) ==> d == Some(RetryAfter(a.response).value)
  {
    if a.Reply? && a.response.status == 429 then
      match RetryAfter(a.response)
      case None => Exponential(attempt)
      case Some(w) =>
        if w < -SleepLimit || w > SleepLimit then None
        else if w < 0 then Exponential(attempt)
        else Some(w)
    else Exponential(attempt)
  }

  /** How an attempt that is not retried ends the loop. */
  function Decide(a: Attempt): (o: Outcome)
    ensures o.TransportFailed? <==> a.Transport?
    ensures o.Refused? <==> a.Reply? && a.response.status >= 400
    ensures !o.NoAttempt? && !o.SleepFailed?
  {
    match a
    case Transport(m) => TransportFailed(m)
    case Reply(response) => if response.status >= 400 then Refused(response) else Delivered(response)
  }

  /** What the loop does with attempt number `attempt`: retry after a
      delay, or end with an outcome. A retryable attempt within budget
      sleeps its backoff, or ends in `OverflowError` when it has none; any
      other attempt is decided. */
  datatype Step = Wait(seconds: nat) | Finish(outcome: Outcome)

  function StepOf(a: Attempt, attempt: nat, maxRetries: int): (s: Step)
    ensures s.Wait? <==> Retryable(a) && attempt < maxRetries && Backoff(a, attempt).Some?
    ensures s.Wait? ==> Backoff(a, attempt) == Some(s.seconds)
    ensures s == Finish(SleepFailed(SleepOverflowMessage)) <==>
      Retryable(a) && attempt < maxRetries && Backoff(a, attempt).None?
    ensures s.Finish? && !s.outcome.SleepFailed? ==> !(Retryable(a) && attempt < maxRetries) && s.outcome == Decide(a)
    ensures s.Finish? ==> !s.outcome.NoAttempt?
  {
    if Retryable(a) && attempt < maxRetries then
      match Backoff(a, attempt)
      case None => Finish(SleepFailed(SleepOverflowMessage))
      case Some(d) => Wait(d)
    else Finish(Decide(a))
  }

  /** `for attempt in range(max_retries + 1)` from `attempt` on, where
      `step(n)` is what the loop does with attempt number `n`: the delays
      slept and the outcome. Only an attempt within budget may wait. Every
      attempt before the last waited, each
      for the delay slept, and the last attempt is the first that ends the
      loop. */
  function Run(maxRetries: int, step: nat -> Step, attempt: nat): (r: (seq<nat>, Outcome))
    requires forall n: nat :: step(n).Wait? ==> n < maxRetries
    ensures attempt > maxRetries ==> r == ([], NoAttempt)
    ensures attempt <= maxRetries ==> attempt + |r.0| <= maxRetries
    ensures forall n: nat | attempt <= n < attempt + |r.0| :: step(n) == Wait(r.0[n - attempt])
    ensures attempt <= maxRetries ==> step(attempt + |r.0|) == Finish(r.1)
    decreases maxRetries - attempt + 1
  {
    if attempt > maxRetries then ([], NoAttempt)
    else
      match step(attempt)
      case Finish(o) => ([], o)
      case Wait(d) =>
        var rest := Run(maxRetries, step, attempt + 1);
        var ds := [d] + rest.0;
        assert ds[1..] == rest.0;
        DelaysShift(step, attempt, ds);
        (ds, rest.1)
  }

  /** Prepending this attempt's delay to the later delays keeps every
      delay the one its attempt waited. */
  lemma DelaysShift(step: nat -> Step, attempt: nat, ds: seq<nat>)
    requires |ds| > 0 && step(attempt) == Wait(ds[0])
    requires forall n: nat | attempt + 1 <= n < attempt + 1 + |ds[1..]| :: step(n) == Wait(ds[1..][n - (attempt + 1)])
    ensures forall n: nat | attempt <= n < attempt + |ds| :: step(n) == Wait(ds[n - attempt])
  {
    forall n: nat | attempt <= n < attempt + |ds|
      ensures step(n) == Wait(ds[n - attempt])
    {
      if n > attempt {
        assert ds[n - attempt] == ds[1..][n - (attempt + 1)];
      }
    }
  }

  /** The step oracle of a loop facing `server` with budget `maxRetries`. */
  function Steps(server: nat -> Attempt, maxRetries: int): (step: nat -> Step)
    ensures forall n: nat :: step(n) == StepOf(server(n), n, maxRetries)
    ensures forall n: nat :: step(n).Wait? ==> n < maxRetries
  {
    (n: nat) => StepOf(server(n), n, maxRetries)
  }

  /** The whole loop, started at attempt 0. */
  function Loop(maxRetries: int, server: nat -> Attempt): (r: (seq<nat>, Outcome))
    ensures r.1.NoAttempt? <==> maxRetries < 0
    ensures maxRetries < 0 ==> r.0 == []
    ensures maxRetries >= 0 ==> |r.0| <= maxRetries
  {
    Run(maxRetries, Steps(server, maxRetries), 0)
  }

  /** How the loop ends, attempt by attempt: every sleep is the backoff of
      a retryable attempt, and the attempt after them ends the loop in
      `OverflowError` exactly when it is retryable within budget but has no
      backoff, and is decided otherwise. */
  lemma LoopEnds(maxRetries: int, server: nat -> Attempt)
    ensures var r := Loop(maxRetries, server);
      && (forall n: nat | n < |r.0| :: Retryable(server(n)) && Backoff(server(n), n) == Some(r.0[n]))
      && (maxRetries >= 0 ==>
            var last := |r.0|;
            && (r.1.SleepFailed? <==> last < maxRetries && Retryable(server(last)) && Backoff(server(last), last).None?)
            && (r.1.SleepFailed? ==> r.1 == SleepFailed(SleepOverflowMessage))
            && (!r.1.SleepFailed? ==> (last < maxRetries ==> !Retryable(server(last))) && r.1 == Decide(server(last))))
  {
    var step := Steps(server, maxRetries);
    var r := Run(maxRetries, step, 0);
    forall n: nat | n < |r.0|
      ensures Retryable(server(n)) && Backoff(server(n), n) == Some(r.0[n])
    {
      assert step(n) == Wait(r.0[n - 0]);
    }
    if maxRetries >= 0 {
      assert step(|r.0|) == Finish(r.1);
    }
  }

  /** With a budget of zero or more, the outcome is read off the attempt
      after the last sleep: a reply below 400 is delivered, one of 400 or
      more is refused, a transport failure is reported, unless a retryable
      attempt within budget has no backoff, which ends in `OverflowError`. */
  lemma LoopOutcome(maxRetries: int, server: nat -> Attempt)
    requires maxRetries >= 0
    ensures var r := Loop(maxRetries, server);
      var last := server(|r.0|);
      && |r.0| <= maxRetries
      && (r.1.SleepFailed? <==> |r.0| < maxRetries && Retryable(last) && Backoff(last, |r.0|).None?)
      && (r.1.SleepFailed? ==> r.1 == SleepFailed(SleepOverflowMessage))
      && (!r.1.SleepFailed? ==> r.1 == Decide(last))
  {
    LoopEnds(maxRetries, server);
  }

  function Sum(ds: seq<nat>): nat {
    if |ds| == 0 then 0 else ds[0] + Sum(ds[1..])
  }

  // ---- Laws ----------------------------------------------------------------

  /** At most `max_retries + 1` requests are made, and with a budget of zero
      or more the loop always decides: its exhaustion branch is dead. */
  lemma LoopAttempts(maxRetries: int, server: nat -> Attempt)
    requires maxRetries >= 0
    ensures |Loop(maxRetries, server).0| + 1 <= maxRetries + 1
    ensures !Loop(maxRetries, server).1.NoAttempt?
  {
  }

  /** A retryable status still standing when the budget is spent is
      reported as a refusal carrying that status, unless some earlier 429
      asked for a wait `time.sleep` cannot take. */
  lemma LastRetryableIsRefused(maxRetries: int, server: nat -> Attempt)
    requires maxRetries >= 0
    requires forall i: nat | i <= maxRetries :: server(i).Reply? && server(i).response.status in RetryStatuses
    ensures var r := Loop(maxRetries, server);
      || (|r.0| == maxRetries && r.1 == Refused(server(maxRetries).response))
      || (|r.0| < maxRetries && r.1 == SleepFailed(SleepOverflowMessage)
          && (server(|r.0|).response.status == 429 || Pow2(|r.0|) > SleepLimit)
          && Backoff(server(|r.0|), |r.0|).None?)
    ensures (forall i: nat | i < maxRetries :: Backoff(server(i), i).Some?) ==>
      |Loop(maxRetries, server).0| == maxRetries && Loop(maxRetries, server).1 == Refused(server(maxRetries).response)
  {
    LoopEnds(maxRetries, server);
    var r := Loop(maxRetries, server);
    var last := server(|r.0|);
    assert last.Reply? && last.response.status in RetryStatuses;
    if r.1.SleepFailed? {
      assert Backoff(last, |r.0|).None?;
    } else {
      assert |r.0| == maxRetries;
      assert r.1 == Decide(last);
    }
  }

  /** A 429 whose `Retry-After` is a decimal number of seconds `time.sleep`
      can take waits exactly that long. */
  lemma BackoffHonoursRetryAfter(response: Response, seconds: nat, attempt: nat)
    requires response.status == 429 && seconds <= SleepLimit
    requires HeaderGet(response.headers, "Retry-After") == Some(IntToString(seconds))
    ensures Backoff(Reply(response), attempt) == Some(seconds)
  {
    RetryAfterReadsBack(response, seconds);
    BackoffOf429(response, seconds, attempt);
  }

  /** A negative `Retry-After` within range falls back to `2**attempt`
      (itself out of range from attempt 34 on); one beyond `SleepLimit` in
      size, of either sign, has no backoff. */
  lemma BackoffOfSignedRetryAfter(response: Response, seconds: int, attempt: nat)
    requires response.status == 429
    requires HeaderGet(response.headers, "Retry-After") == Some(IntToString(seconds))
    ensures -SleepLimit <= seconds < 0 ==> Backoff(Reply(response), attempt) == Exponential(attempt)
    ensures seconds < -SleepLimit || seconds > SleepLimit ==> Backoff(Reply(response), attempt).None?
  {
    RetryAfterReadsBack(response, seconds);
    BackoffOf429(response, seconds, attempt);
  }

  /** A `Retry-After` written as a decimal number reads back as that number. */
  lemma RetryAfterReadsBack(response: Response, seconds: int)
    requires HeaderGet(response.headers, "Retry-After") == Some(IntToString(seconds))
    ensures RetryAfter(response) == Some(seconds)
  {
    ParseIntOfIntToString(seconds);
    assert |IntToString(seconds)| > 0;
  }

  /** The backoff of a 429 whose `Retry-After` reads as `w`. */
  lemma BackoffOf429(response: Response, w: int, attempt: nat)
    requires response.status == 429 && RetryAfter(response) == Some(w)
    ensures w < -SleepLimit || w > SleepLimit ==> Backoff(Reply(response), attempt).None?
    ensures -SleepLimit <= w < 0 ==> Backoff(Reply(response), attempt) == Exponential(attempt)
    ensures 0 <= w <= SleepLimit ==> Backoff(Reply(response), attempt) == Some(w)
  {
    var a := Reply(response);
    assert a.Reply? && a.response == response;
  }

  /** A first reply of 429 asking for more seconds than `time.sleep` can
      take (`99999999999999999999`, say) ends the loop, with any budget
      left, in `OverflowError` before any sleep. */
  lemma HugeRetryAfterOverflows(maxRetries: int, server: nat -> Attempt, response: Response, seconds: int)
    requires maxRetries >= 1 && seconds > SleepLimit
    requires response.status == 429
    requires HeaderGet(response.headers, "Retry-After") == Some(IntToString(seconds))
    requires server(0) == Reply(response)
    ensures Loop(maxRetries, server) == ([], SleepFailed(SleepOverflowMessage))
  {
    BackoffOfSignedRetryAfter(response, seconds, 0);
    LoopEnds(maxRetries, server);
  }

  /** Without rate limiting the delays double: 1, 2, 4, ..., and their sum
      is one less than the next power of two. */
  lemma ExponentialDelays(maxRetries: int, server: nat -> Attempt)
    requires forall i: nat :: !(server(i).Reply? && server(i).response.status == 429)
    ensures forall n: nat | n < |Loop(maxRetries, server).0| :: Loop(maxRetries, server).0[n] == Pow2(n)
    ensures Sum(Loop(maxRetries, server).0) + 1 == Pow2(|Loop(maxRetries, server).0|)
  {
    DoublingDelays(maxRetries, server);
    SumPowers(Loop(maxRetries, server).0);
  }

  lemma DoublingDelays(maxRetries: int, server: nat -> Attempt)
    requires forall i: nat :: !(server(i).Reply? && server(i).response.status == 429)
    ensures forall k | 0 <= k < |Loop(maxRetries, server).0| :: Loop(maxRetries, server).0[k] == Pow2(k)
  {
    LoopEnds(maxRetries, server);
    var ds := Loop(maxRetries, server).0;
    forall k | 0 <= k < |ds| ensures ds[k] == Pow2(k) {
      var a := server(k);
      assert !(a.Reply? && a.response.status == 429);
      assert Backoff(a, k) == Some(ds[k]);
    }
  }

  /** Delays `1, 2, 4, …` sum to one less than the next power of two. */
  lemma SumPowers(ds: seq<nat>)
    requires forall k | 0 <= k < |ds| :: ds[k] == Pow2(k)
    ensures Sum(ds) + 1 == Pow2(|ds|)
  {
    assert forall k | 0 <= k < |ds| :: ds[k] == Pow2(0 + k);
    SumDoubling(ds, 0);
  }

  /** Delays that double from `2**from` on sum to `2**(from + |ds|) - 2**from`. */
  lemma {:induction false} SumDoubling(ds: seq<nat>, from: nat)
    requires forall k | 0 <= k < |ds| :: ds[k] == Pow2(from + k)
    ensures Sum(ds) + Pow2(from) == Pow2(from + |ds|)
    decreases |ds|
  {
    if |ds| > 0 {
      assert forall k | 0 <= k < |ds| - 1 :: ds[1..][k] == ds[k + 1];
      SumDoubling(ds[1..], from + 1);
    }
  }

  /** Three 503 replies with the default budget: sleeps of 1 and 2 seconds,
      then the third 503 is reported. */
  lemma ThreeUnavailable(server: nat -> Attempt, response: Response)
    requires response.status == 503
    requires forall i: nat :: server(i) == Reply(response)
    ensures Loop(DefaultMaxRetries, server) == ([1, 2], Refused(response))
  {
    assert server(0) == Reply(response) && server(1) == Reply(response) && server(2) == Reply(response);
    assert Retryable(Reply(response));
    LoopEnds(2, server);
    var r := Loop(2, server);
    assert |r.0| == 2;
    assert r.0[0] == Pow2(0) == 1;
    assert r.0[1] == Pow2(1) == 2;
    assert r.0 == [1, 2];
    assert r.1 == Decide(server(2));
  }
}

=== FILE: files.dfy ===
/** The file handling beneath the resolver of `tools/file_utils.py`:
    inline content is decoded and written to a temporary file, and a URL
    is downloaded into one, with a cap of 10 MiB. The resolver itself is
    the `Resolver` module.

    The file system is a map from places to contents. A place is either a
    path the caller named or the n-th temporary file `mkstemp` created;
    keeping the two apart, and numbering temporary files upwards, is how the
    model states `mkstemp`'s promise that it never reuses an existing name.
    The network, base64, UTF-8 encoding, MIME guessing and `~` expansion are
    the library functions of `Env`. */
module Files {
  import opened Wrappers
  import opened Text
  import opened Py

  const ChunkSize: nat := 512 * 1024
  const MaxDownloadSize: nat := 10 * 1024 * 1024
  const UploadHost: string := "https://files.dify.ai/"

  const NoSource: string := "ファイル情報に path/url/content のいずれも含まれていません"
  const Unreadable: string := "ファイルパラメータの構造を解釈できません"
  const EmptyPath: string := "ファイルパスが空です"
  const NotAFile: string := " はファイルではありません"
  const BadContent: string := "content/data には bytes か base64文字列を指定してください"
  const EmptyUrl: string := "ファイルURLが空です"
  const SizeExceeded: string := "ダウンロード中にファイルサイズが制限を超えました。最大 10MB まで対応しています"

  // ---- File system -----------------------------------------------------------

  datatype Place = Named(path: string) | Temp(n: nat, suffix: string)

  /** The files that exist, and how many temporary files were created. */
  datatype Fs = Fs(files: map<Place, seq<byte>>, created: nat)

  /** No temporary file carries a number not yet handed out. */
  predicate WellFormed(fs: Fs) {
    forall p | p in fs.files :: p.Temp? ==> p.n < fs.created
  }

  /** `tempfile.mkstemp(suffix=...)`: a new empty file. */
  function Mkstemp(fs: Fs, suffix: string): (r: (Fs, Place))
    ensures r.1 == Temp(fs.created, suffix) && r.0.created == fs.created + 1
    ensures WellFormed(fs) ==> r.1 !in fs.files && WellFormed(r.0)
    ensures r.0.files == fs.files[r.1 := []]
  {
    var p := Temp(fs.created, suffix);
    (Fs(fs.files[p := []], fs.created + 1), p)
  }

  /** `Path(p).unlink(missing_ok=True)` */
  function Unlink(fs: Fs, p: Place): (r: Fs)
    ensures p !in r.files && r.created == fs.created
    ensures forall q | q != p :: (q in r.files <==> q in fs.files)
    ensures forall q | q in r.files :: r.files[q] == fs.files[q]
  {
    Fs(fs.files - {p}, fs.created)
  }

  datatype ResolvedFile = ResolvedFile(place: Place, cleanup: bool)

  /** The library functions the resolver calls: strict base64 decoding,
      UTF-8 encoding, strict UTF-8 decoding (the message of the
      `UnicodeDecodeError` on failure), `mimetypes.guess_extension`,
      `os.path.expanduser`, and an HTTP GET with `raise_for_status`. */
  datatype Env = Env(
    b64decode: string -> Option<seq<byte>>,
    utf8: string -> seq<byte>,
    utf8Decode: seq<byte> -> Result<string, string>,
    guessExtension: string -> Option<string>,
    expandUser: string -> string,
    fetch: (string, Dict) -> Result<Reply, Exc>)

  /** A successful GET: the `Content-Length` header, the body chunks in the
      order they arrive, and the error that ends the stream early, if any. */
  datatype Reply = Reply(contentLength: Option<string>, chunks: seq<seq<byte>>, failure: Option<Exc>)

  // ---- Suffixes --------------------------------------------------------------

  /** Index of the last `c` in `s`. */
  function LastIndexOf(s: string, c: char): (r: Option<nat>)
    ensures r.Some? ==> r.value < |s| && s[r.value] == c && c !in s[r.value + 1..]
    ensures r.None? ==> c !in s
  {
    if |s| == 0 then None
    else if s[|s| - 1] == c then Some(|s| - 1)
    else
      var r := LastIndexOf(s[..|s| - 1], c);
      assert r.Some? ==> s[r.value + 1..] == s[..|s| - 1][r.value + 1..] + [s[|s| - 1]];
      assert r.None? ==> s == s[..|s| - 1] + [s[|s| - 1]];
      r
  }

  function PathComponent(c: string): Option<string> {
    if c == "" || c == "." then None else Some(c)
  }

  /** `PurePosixPath(s).name`: the last component, empty and `.`
      components not counting. */
  function PathName(s: string): (name: string)
    ensures '/' !in name
  {
    var parts := FilterMap(PathComponent, Split(s, '/'));
    if |parts| == 0 then ""
    else
      assert exists j :: 0 <= j < |Split(s, '/')| && PathComponent(Split(s, '/')[j]) == Some(parts[|parts| - 1]);
      parts[|parts| - 1]
  }

  /** `PurePosixPath(s).suffix`: from the last dot of the name, when that
      dot neither starts nor ends it. */
  function PathSuffix(s: string): (r: string)
    ensures r == "" || (|r| >= 2 && r[0] == '.' && '.' !in r[1..] && '/' !in r)
  {
    var name := PathName(s);
    match LastIndexOf(name, '.')
    case Some(i) =>
      if 0 < i < |name| - 1 then
        assert name[i..][1..] == name[i + 1..];
        assert forall k | 0 <= k < |name[i..]| :: name[i..][k] in name;
        name[i..]
      else ""
    case None => ""
  }

  /** A plain file name keeps its extension. */
  lemma SuffixOfFileName(stem: string, ext: string)
    requires stem != "" && '/' !in stem && '/' !in ext && '.' !in ext && ext != ""
    ensures PathSuffix(stem + "." + ext) == "." + ext
  {
    var s := stem + "." + ext;
    NameOfPlainFile(stem, ext);
    LastDotOfFileName(stem, ext);
    assert s[|stem|..] == "." + ext;
  }

  lemma NameOfPlainFile(stem: string, ext: string)
    requires stem != "" && '/' !in stem && '/' !in ext
    ensures PathName(stem + "." + ext) == stem + "." + ext
  {
    var s := stem + "." + ext;
    assert '/' !in s by {
      assert forall k | 0 <= k < |s| :: s[k] in stem || s[k] == '.' || s[k] in ext;
    }
    assert Split(s, '/') == [s];
    assert PathComponent(s) == Some(s);
    assert FilterMap(PathComponent, [s]) == [s];
  }

  lemma LastDotOfFileName(stem: string, ext: string)
    requires '.' !in ext
    ensures LastIndexOf(stem + "." + ext, '.') == Some(|stem|)
  {
    var s := stem + "." + ext;
    assert s[|stem|] == '.';
    assert s[|stem| + 1..] == ext;
    var i := LastIndexOf(s, '.');
    LastIsUnique(s, '.', i.value, |stem|);
  }

  /** Two positions of `c` with no `c` after either are the same. */
  lemma LastIsUnique(s: string, c: char, i: nat, j: nat)
    requires i < |s| && j < |s| && s[i] == c && s[j] == c
    requires c !in s[i + 1..] && c !in s[j + 1..]
    ensures i == j
  {
  }

  /** `_infer_suffix`: the extension of `filename` (or `name`), else the
      extension guessed from `mime_type` (or `content_type`), else none. */
  function InferSuffix(meta: Option<Dict>, env: Env): (r: Option<string>)
    ensures r.Some? ==> r.value != ""
    ensures meta.None? || meta == Some([]) ==> r.None?
    ensures (meta.Some? && meta.value != [] && Truthy(Or(Get(meta.value, "filename"), Get(meta.value, "name")))
      && PathSuffix(Str(Or(Get(meta.value, "filename"), Get(meta.value, "name")))) != "") ==>
      r == Some(PathSuffix(Str(Or(Get(meta.value, "filename"), Get(meta.value, "name")))))
  {
    if meta.None? || meta.value == [] then None
    else
      var m := meta.value;
      var filename := Or(Get(m, "filename"), Get(m, "name"));
      var mime := Or(Get(m, "mime_type"), Get(m, "content_type"));
      if Truthy(filename) && PathSuffix(Str(filename)) != "" then Some(PathSuffix(Str(filename)))
      else if Truthy(mime) && env.guessExtension(Str(mime)).Some? && env.guessExtension(Str(mime)).value != "" then
        env.guessExtension(Str(mime))
      else None
  }

  // ---- Inline content --------------------------------------------------------

  /** `_coerce_bytes`: bytes as they are; a string, stripped, as strict
      base64 when it decodes, else as its UTF-8 encoding; nothing else. */
  function CoerceBytes(v: Value, env: Env): (r: Result<seq<byte>, Exc>)
    ensures r.Ok? <==> v.VBytes? || v.VStr?
    ensures v.VBytes? ==> r == Ok(v.bytes)
    ensures v.VStr? && env.b64decode(Strip(v.s)).Some? ==> r == Ok(env.b64decode(Strip(v.s)).value)
    ensures v.VStr? && env.b64decode(Strip(v.s)).None? ==> r == Ok(env.utf8(Strip(v.s)))
    ensures r.Err? ==> r.error == ValueError(BadContent)
  {
    match v
    case VBytes(bs) => Ok(bs)
    case VStr(s) =>
      var stripped := Strip(s);
      (match env.b64decode(stripped)
       case Some(bs) => Ok(bs)
       case None => Ok(env.utf8(stripped)))
    case _ => Err(ValueError(BadContent))
  }

  /** `_write_temp`: a new temporary file holding the payload, to be
      cleaned up. */
  function WriteTemp(fs: Fs, payload: seq<byte>, suffix: Option<string>): (r: (Fs, ResolvedFile))
    ensures r.1 == ResolvedFile(Temp(fs.created, suffix.GetOr("")), true)
    ensures r.0 == Fs(fs.files[r.1.place := payload], fs.created + 1)
  {
    var (fs1, p) := Mkstemp(fs, suffix.GetOr(""));
    (Fs(fs1.files[p := payload], fs1.created), ResolvedFile(p, true))
  }

  // ---- Download --------------------------------------------------------------

  function HeaderEntry(acc: Dict, entry: (Value, Value)): Dict {
    if entry.0.VStr? && entry.1.VStr? && Strip(entry.0.s) != "" then Set(acc, Strip(entry.0.s), entry.1) else acc
  }

  /** Only text headers with a non-blank name pass, under the stripped name. */
  predicate CleanHeaders(h: Dict) {
    forall e | e in h :: e.0.VStr? && e.1.VStr? && e.0.s != "" && Strip(e.0.s) == e.0.s
  }

  /** Storing a value adds that entry and keeps only entries already there. */
  lemma {:induction false} SetEntries(h: Dict, key: string, v: Value)
    ensures forall e | e in Set(h, key, v) :: e in h || e == (VStr(key), v)
  {
    if |h| > 0 && h[0].0 != VStr(key) {
      SetEntries(h[1..], key, v);
      assert forall e | e in h[1..] :: e in h;
    } else if |h| > 0 {
      assert forall e | e in h[1..] :: e in h;
    }
  }

  function HeaderFold(entries: Dict, acc: Dict): (h: Dict)
    requires CleanHeaders(acc)
    ensures CleanHeaders(h)
    decreases |entries|
  {
    if |entries| == 0 then acc
    else
      var e := entries[0];
      if e.0.VStr? && e.1.VStr? && Strip(e.0.s) != "" then
        SetEntries(acc, Strip(e.0.s), e.1);
        HeaderFold(entries[1..], Set(acc, Strip(e.0.s), e.1))
      else HeaderFold(entries[1..], acc)
  }

  /** The request headers of a download: the text entries of `headers`
      under stripped names, then the stripped `authorization` (or `auth`)
      token as `Authorization` unless a header of exactly that name came
      first. */
  function DownloadHeaders(meta: Option<Dict>): (h: Dict)
    ensures meta.None? || meta == Some([]) ==> h == []
    ensures forall e | e in h :: e.0.VStr? && e.1.VStr? && Strip(e.0.s) == e.0.s
  {
    if meta.None? || meta.value == [] then []
    else
      var m := meta.value;
      var raw := Get(m, "headers");
      var named := if raw.VDict? then HeaderFold(raw.entries, []) else [];
      var token := Or(Get(m, "authorization"), Get(m, "auth"));
      if token.VStr? && !IsBlank(token.s) then
        WithAuthorization(named, Strip(token.s))
      else named
  }

  /** The stripped token added under `Authorization` unless present. */
  function WithAuthorization(named: Dict, token: string): (h: Dict)
    requires CleanHeaders(named)
    ensures forall e | e in h :: e.0.VStr? && e.1.VStr? && Strip(e.0.s) == e.0.s
  {
    SetEntries(named, "Authorization", VStr(token));
    AuthorizationStripped();
    SetDefault(named, "Authorization", VStr(token))
  }

  lemma AuthorizationStripped()
    ensures Strip("Authorization") == "Authorization"
  {
    assert !IsSpace('A') && !IsSpace('n');
  }

  /** The token from the metadata becomes the `Authorization` header
      exactly when no header of that name was given. */
  lemma AuthorizationToken(meta: Dict, token: string)
    requires meta != [] && Get(meta, "authorization") == VStr(token) && !IsBlank(token)
    ensures var raw := Get(meta, "headers");
      var named := if raw.VDict? then HeaderFold(raw.entries, []) else [];
      Lookup(DownloadHeaders(Some(meta)), VStr("Authorization"))
        == if HasKey(named, "Authorization") then Lookup(named, VStr("Authorization")) else Some(VStr(Strip(token)))
  {
    var raw := Get(meta, "headers");
    var named := if raw.VDict? then HeaderFold(raw.entries, []) else [];
    assert Or(Get(meta, "authorization"), Get(meta, "auth")) == VStr(token);
    assert DownloadHeaders(Some(meta)) == SetDefault(named, "Authorization", VStr(Strip(token)));
  }

  function Concat(chunks: seq<seq<byte>>): seq<byte> {
    if |chunks| == 0 then [] else chunks[0] + Concat(chunks[1..])
  }

  /** The streaming loop: each non-empty chunk is counted, and the count
      going above 10 MiB stops the loop before that chunk is written. */
  function Stream(chunks: seq<seq<byte>>, written: seq<byte>): (r: Result<seq<byte>, Exc>)
    requires |written| <= MaxDownloadSize
    ensures r.Ok? <==> |written| + |Concat(chunks)| <= MaxDownloadSize
    ensures r.Ok? ==> r.value == written + Concat(chunks) && |r.value| <= MaxDownloadSize
    ensures r.Err? ==> r.error == ValueError(SizeExceeded)
    decreases |chunks|
  {
    if |chunks| == 0 then Ok(written)
    else if |chunks[0]| == 0 then
      assert Concat(chunks) == Concat(chunks[1..]);
      Stream(chunks[1..], written)
    else if |written| + |chunks[0]| > MaxDownloadSize then Err(ValueError(SizeExceeded))
    else
      assert written + Concat(chunks) == (written + chunks[0]) + Concat(chunks[1..]);
      Stream(chunks[1..], written + chunks[0])
  }

  /** `size / 1024 / 1024` in tenths, as `.1f` rounds it: the nearest
      number of tenths of a MiB, a tie going to the even one. The
      quotient is taken exactly, which the double agrees with below 2**53. */
  function Tenths(size: nat): (t: nat)
    ensures 2 * (size * 10 - t * 1048576) <= 1048576
    ensures 2 * (t * 1048576 - size * 10) <= 1048576
    ensures 2 * (size * 10 - t * 1048576) == 1048576 || 2 * (t * 1048576 - size * 10) == 1048576 ==> t % 2 == 0
  {
    var q := (size * 10) / 1048576;
    var rem := (size * 10) % 1048576;
    if 2 * rem > 1048576 || (2 * rem == 1048576 && q % 2 == 1) then q + 1 else q
  }

  /** `f"{size / 1024 / 1024:.1f}"` */
  function Megabytes(size: nat): string {
    var tenths := Tenths(size);
    NatToString(tenths / 10) + "." + [DigitChar(tenths % 10)]
  }

  /** Twenty million bytes are shown as 19.1 MB. */
  lemma MegabytesOfTwentyMillion()
    ensures Megabytes(20000000) == "19.1"
  {
    assert Tenths(20000000) == 191;
    assert NatToString(19) == "19" by {
      assert NatToString(1) == "1";
    }
  }

  function TooLarge(size: nat): string {
    "ファイルサイズが大きすぎます (" + Megabytes(size) + "MB)。最大 10MB まで対応しています"
  }

  /** The least size for which `size / 1024` raises OverflowError:
      2**1034 - 2**980, where the quotient, rounded to a double, reaches
      2**1024. Its decimal text has 312 digits. */
  const DivisionOverflowSize: int := 0x3ff_ffff_ffff_fff0_0000_0000_0000_0000_0000_0000_0000_0000_0000_0000_0000_0000_0000_0000_0000_0000_0000_0000_0000_0000_0000_0000_0000_0000_0000_0000_0000_0000_0000_0000_0000_0000_0000_0000_0000_0000_0000_0000_0000_0000_0000_0000_0000_0000_0000_0000_0000_0000_0000_0000_0000_0000_0000_0000_0000_0000_0000_0000_0000_0000_0000

  const DivisionOverflow: string := "integer division result too large for a float"

  /** The size a `Content-Length` header announces: `int()` of a present,
      non-empty value, when it reads one. */
  function AnnouncedSize(contentLength: Option<string>): Option<int> {
    if contentLength.None? || contentLength.value == "" then None
    else ParseInt(contentLength.value)
  }

  /** The `Content-Length` test: for an announced size above 10 MiB, the
      `ValueError` it raises, or the OverflowError of `size / 1024` in its
      message when the size is too large for a double; a header `int()`
      rejects raises nothing. */
  function ContentLengthError(contentLength: Option<string>): (e: Option<Exc>)
    ensures e.Some? <==> contentLength.Some? && ParseInt(contentLength.value).Some? && ParseInt(contentLength.value).value > MaxDownloadSize
    ensures e.Some? && ParseInt(contentLength.value).value < DivisionOverflowSize ==>
      e.value == ValueError(TooLarge(ParseInt(contentLength.value).value))
    ensures e.Some? && ParseInt(contentLength.value).value >= DivisionOverflowSize ==>
      e.value == OverflowError(DivisionOverflow)
  {
    match AnnouncedSize(contentLength)
    case Some(size) =>
      if size <= MaxDownloadSize then None
      else if size >= DivisionOverflowSize then Some(OverflowError(DivisionOverflow))
      else Some(ValueError(TooLarge(size)))
    case None => None
  }

  /** A header announcing a size whose message cannot be formatted. */
  predicate DivisionOverflows(contentLength: Option<string>) {
    contentLength.Some? && ParseInt(contentLength.value).Some?
    && ParseInt(contentLength.value).value >= DivisionOverflowSize
  }

  /** The pre-check as written: its `ValueError` is caught by the handler
      meant for a malformed header, so only the OverflowError of a size
      too large for a double escapes. The handler also names `TypeError`,
      which neither `int()` on a `str` nor the check raises. */
  function PrecheckAsWritten(contentLength: Option<string>): (r: Option<Exc>)
    ensures r.Some? <==> DivisionOverflows(contentLength)
    ensures r.Some? ==> r.value == OverflowError(DivisionOverflow)
  {
    var raised := ContentLengthError(contentLength);
    if raised.Some? && raised.value.ValueError? then None else raised
  }

  /** The pre-check as intended: an announced size above 10 MiB stops the
      download before any file is created. */
  function Precheck(contentLength: Option<string>): (r: Option<Exc>)
    ensures r.Some? <==> (contentLength.Some? && ParseInt(contentLength.value).Some?
      && ParseInt(contentLength.value).value > MaxDownloadSize)
    ensures r.Some? && !DivisionOverflows(contentLength) ==>
      r.value == ValueError(TooLarge(ParseInt(contentLength.value).value))
  {
    ContentLengthError(contentLength)
  }

  /** Which of the two pre-checks a download runs. */
  datatype SizeCheck = AsWritten | Enforced

  function Prechecked(check: SizeCheck, contentLength: Option<string>): Option<Exc> {
    match check
    case AsWritten => PrecheckAsWritten(contentLength)
    case Enforced => Precheck(contentLength)
  }

  /** What resolving one file did to the file system: a file marked for
      cleanup is a temporary file that did not exist before and is the only
      change; any other file already existed, and nothing changed. */
  predicate Added(fs: Fs, fs2: Fs, f: ResolvedFile) {
    && WellFormed(fs2) && fs2.created >= fs.created
    && (if f.cleanup then
          && f.place.Temp? && fs.created <= f.place.n < fs2.created
          && f.place in fs2.files && fs2.files - {f.place} == fs.files
        else f.place in fs.files && fs2.files == fs.files)
  }

  /** The download after the GET succeeded: a new temporary file receives
      the stream, and is deleted again when the stream fails. */
  function Receive(fs: Fs, reply: Reply, suffix: Option<string>): (r: (Fs, Result<ResolvedFile, Exc>))
    requires WellFormed(fs)
    ensures WellFormed(r.0) && r.0.created == fs.created + 1
    ensures r.1.Err? ==> r.0.files == fs.files
    ensures r.1.Ok? <==> |Concat(reply.chunks)| <= MaxDownloadSize && reply.failure.None?
    ensures r.1.Ok? ==> (r.1.value == ResolvedFile(Temp(fs.created, suffix.GetOr("")), true)
      && Added(fs, r.0, r.1.value) && r.0.files[r.1.value.place] == Concat(reply.chunks))
  {
    var (fs1, p) := Mkstemp(fs, suffix.GetOr(""));
    assert fs1.files - {p} == fs.files;
    match Stream(reply.chunks, [])
    case Err(e) => (Unlink(fs1, p), Err(e))
    case Ok(body) =>
      if reply.failure.Some? then (Unlink(fs1, p), Err(reply.failure.value))
      else
        assert body == Concat(reply.chunks);
        var fs2 := Fs(fs1.files[p := body], fs1.created);
        assert fs2.files - {p} == fs.files;
        (fs2, Ok(ResolvedFile(p, true)))
  }

  /** `bytes.lstrip()` */
  function LStripBytes(bs: seq<byte>): (r: seq<byte>)
    ensures |r| <= |bs| && r == bs[|bs| - |r|..]
    ensures r == [] || !IsAsciiSpaceByte(r[0])
    ensures forall i | 0 <= i < |bs| - |r| :: IsAsciiSpaceByte(bs[i])
  {
    if |bs| > 0 && IsAsciiSpaceByte(bs[0]) then LStripBytes(bs[1..]) else bs
  }

  /** `bytes.strip()`: ASCII whitespace removed from both ends; nothing is
      left exactly when nothing else was there. */
  function StripBytes(bs: seq<byte>): (r: seq<byte>)
    ensures |r| <= |bs|
    ensures r == [] <==> forall i | 0 <= i < |bs| :: IsAsciiSpaceByte(bs[i])
    ensures r == [] || (!IsAsciiSpaceByte(r[0]) && !IsAsciiSpaceByte(r[|r| - 1]))
    decreases |bs|
  {
    var l := LStripBytes(bs);
    if l == [] then []
    else if IsAsciiSpaceByte(l[|l| - 1]) then
      var k := |bs| - |l|;
      assert bs[k] == l[0] && !IsAsciiSpaceByte(bs[k]);
      var r := StripBytes(l[..|l| - 1]);
      assert l[..|l| - 1][0] == l[0];
      assert r != [];
      r
    else l
  }

  /** The GET and what follows it, for a URL that is not empty. */
  function Fetch(check: SizeCheck, fs: Fs, env: Env, normalized: string, meta: Option<Dict>, suffix: Option<string>): (r: (Fs, Result<ResolvedFile, Exc>))
    requires WellFormed(fs)
    ensures WellFormed(r.0) && r.0.created >= fs.created
    ensures r.1.Err? ==> r.0.files == fs.files
    ensures r.1.Ok? ==> (r.1.value == ResolvedFile(Temp(fs.created, suffix.GetOr("")), true)
      && Added(fs, r.0, r.1.value) && |r.0.files[r.1.value.place]| <= MaxDownloadSize)
    ensures env.fetch(normalized, DownloadHeaders(meta)).Err? ==> r == (fs, Err(env.fetch(normalized, DownloadHeaders(meta)).error))
    ensures env.fetch(normalized, DownloadHeaders(meta)).Ok? && Prechecked(check, env.fetch(normalized, DownloadHeaders(meta)).value.contentLength).None?
      ==> r == Receive(fs, env.fetch(normalized, DownloadHeaders(meta)).value, suffix)
  {
    match env.fetch(normalized, DownloadHeaders(meta))
    case Err(e) => (fs, Err(e))
    case Ok(reply) =>
      if Prechecked(check, reply.contentLength).Some? then (fs, Err(Prechecked(check, reply.contentLength).value))
      else Receive(fs, reply, suffix)
  }

  /** `_download` with the given pre-check: the URL, stripped, must not be
      empty; the server's reply is checked, then streamed into a temporary
      file marked for cleanup. A bytes URL has `strip` too; `requests`
      decodes it as UTF-8 before the GET. */
  function DownloadWith(check: SizeCheck, fs: Fs, env: Env, url: Value, meta: Option<Dict>, suffix: Option<string>): (r: (Fs, Result<ResolvedFile, Exc>))
    requires WellFormed(fs)
    ensures WellFormed(r.0) && r.0.created >= fs.created
    ensures r.1.Err? ==> r.0.files == fs.files
    ensures r.1.Ok? ==> (r.1.value == ResolvedFile(Temp(fs.created, suffix.GetOr("")), true)
      && Added(fs, r.0, r.1.value) && |r.0.files[r.1.value.place]| <= MaxDownloadSize)
    ensures url.VStr? && IsBlank(url.s) ==> r == (fs, Err(ValueError(EmptyUrl)))
    ensures url.VBytes? && StripBytes(url.bytes) == [] ==> r == (fs, Err(ValueError(EmptyUrl)))
    ensures !url.VStr? && !url.VBytes? ==> r == (fs, Err(NoAttribute(url, "strip")))
    ensures url.VStr? && !IsBlank(url.s) ==> r == Fetch(check, fs, env, Strip(url.s), meta, suffix)
  {
    match url
    case VStr(s) =>
      var normalized := Strip(s);
      if normalized == "" then (fs, Err(ValueError(EmptyUrl)))
      else Fetch(check, fs, env, normalized, meta, suffix)
    case VBytes(bs) =>
      var normalized := StripBytes(bs);
      if normalized == [] then (fs, Err(ValueError(EmptyUrl)))
      else (match env.utf8Decode(normalized)
        case Err(msg) => (fs, Err(ValueError(msg)))
        case Ok(decoded) => Fetch(check, fs, env, decoded, meta, suffix))
    case _ => (fs, Err(NoAttribute(url, "strip")))
  }

  /** `_download` as written: the announced size is acted on only when it
      is too large to format, so a reply is otherwise accepted exactly when
      its body streams within the cap. */
  function DownloadAsWritten(fs: Fs, env: Env, url: Value, meta: Option<Dict>, suffix: Option<string>): (r: (Fs, Result<ResolvedFile, Exc>))
    requires WellFormed(fs)
    ensures WellFormed(r.0) && r.0.created >= fs.created
    ensures r.1.Err? ==> r.0.files == fs.files
    ensures r.1.Ok? ==> (r.1.value == ResolvedFile(Temp(fs.created, suffix.GetOr("")), true)
      && Added(fs, r.0, r.1.value) && |r.0.files[r.1.value.place]| <= MaxDownloadSize)
    ensures url.VStr? && IsBlank(url.s) ==> r == (fs, Err(ValueError(EmptyUrl)))
    ensures (url.VStr? && !IsBlank(url.s) && env.fetch(Strip(url.s), DownloadHeaders(meta)).Ok?) ==>
      var reply := env.fetch(Strip(url.s), DownloadHeaders(meta)).value;
      && (r.1.Ok? <==> |Concat(reply.chunks)| <= MaxDownloadSize && reply.failure.None? && !DivisionOverflows(reply.contentLength))
      && (DivisionOverflows(reply.contentLength) ==> r == (fs, Err(OverflowError(DivisionOverflow))))
  {
    DownloadWith(AsWritten, fs, env, url, meta, suffix)
  }

  /** `_download` with the size pre-check enforced: a reply announcing more
      than 10 MiB fails before any file exists. */
  function Download(fs: Fs, env: Env, url: Value, meta: Option<Dict>, suffix: Option<string>): (r: (Fs, Result<ResolvedFile, Exc>))
    requires WellFormed(fs)
    ensures WellFormed(r.0) && r.0.created >= fs.created
    ensures r.1.Err? ==> r.0.files == fs.files
    ensures r.1.Ok? ==> (r.1.value == ResolvedFile(Temp(fs.created, suffix.GetOr("")), true)
      && Added(fs, r.0, r.1.value) && |r.0.files[r.1.value.place]| <= MaxDownloadSize)
    ensures (url.VStr? && !IsBlank(url.s) && env.fetch(Strip(url.s), DownloadHeaders(meta)).Ok?
      && ContentLengthError(env.fetch(Strip(url.s), DownloadHeaders(meta)).value.contentLength).Some?)
      ==> r.0 == fs && r.1.Err?
  {
    DownloadWith(Enforced, fs, env, url, meta, suffix)
  }

  /** `int("20000000")` is twenty million. */
  lemma TwentyMillion()
    ensures ParseInt("20000000") == Some(20000000)
  {
    assert DigitsValue("2") == 2;
    assert DigitsValue("20") == 20 by { assert "20"[..1] == "2"; }
    assert DigitsValue("200") == 200 by { assert "200"[..2] == "20"; }
    assert DigitsValue("2000") == 2000 by { assert "2000"[..3] == "200"; }
    assert DigitsValue("20000") == 20000 by { assert "20000"[..4] == "2000"; }
    assert DigitsValue("200000") == 200000 by { assert "200000"[..5] == "20000"; }
    assert DigitsValue("2000000") == 2000000 by { assert "2000000"[..6] == "200000"; }
    assert DigitsValue("20000000") == 20000000 by { assert "20000000"[..7] == "2000000"; }
    ParseIntDigits("20000000");
  }

  /** A server announcing 20000000 bytes and sending a 3-byte body: the
      download as written accepts it; the intended one refuses it. */
  lemma AnnouncedSizeIgnored(fs: Fs, env: Env, url: string)
    requires WellFormed(fs) && !IsBlank(url)
    requires env.fetch(Strip(url), []) == Ok(Reply(Some("20000000"), [[1, 2, 3]], None))
    ensures DownloadAsWritten(fs, env, VStr(url), None, None).1.Ok?
  {
    var reply := Reply(Some("20000000"), [[1, 2, 3]], None);
    assert DownloadHeaders(None) == [];
    assert !DivisionOverflows(reply.contentLength) by {
      TwentyMillion();
    }
    assert Concat(reply.chunks) == [1, 2, 3];
    assert Receive(fs, reply, None).1.Ok?;
  }

  /** A reply announcing a size of 312 digits or more stops the download as
      written before any file exists: formatting the size raises
      OverflowError, which the handler does not catch. */
  lemma HugeAnnouncedSizeRaises(fs: Fs, env: Env, url: string, size: int, chunks: seq<seq<byte>>)
    requires WellFormed(fs) && !IsBlank(url) && size >= DivisionOverflowSize
    requires env.fetch(Strip(url), []) == Ok(Reply(Some(IntToString(size)), chunks, None))
    ensures DownloadAsWritten(fs, env, VStr(url), None, None) == (fs, Err(OverflowError(DivisionOverflow)))
  {
    assert DownloadHeaders(None) == [];
    ParseIntOfIntToString(size);
  }

  /** With the pre-check enforced, the same reply is refused. */
  lemma AnnouncedSizeRefused(fs: Fs, env: Env, url: string)
    requires WellFormed(fs) && !IsBlank(url)
    requires env.fetch(Strip(url), []) == Ok(Reply(Some("20000000"), [[1, 2, 3]], None))
    ensures Download(fs, env, VStr(url), None, None) == (fs, Err(ValueError(TooLarge(20000000))))
  {
    var reply := Reply(Some("20000000"), [[1, 2, 3]], None);
    var refusal := ValueError(TooLarge(20000000));
    assert Prechecked(Enforced, reply.contentLength) == Some(refusal) by {
      TwentyMillion();
    }
    assert Fetch(Enforced, fs, env, Strip(url), None, None) == (fs, Err(refusal)) by {
      assert DownloadHeaders(None) == [];
    }
    assert DownloadWith(Enforced, fs, env, VStr(url), None, None) == (fs, Err(refusal));
  }


  /** The bytes `bytes.strip()` removes. */
  predicate IsAsciiSpaceByte(b: byte) {
    b == 9 || b == 10 || b == 11 || b == 12 || b == 13 || b == 32
  }
}

=== FILE: mail_client.dfy ===
/** The mail client of the provider (`provider/http_client.py`): turning the
    tool's payload into the mail API's JSON body, masking that body for
    logs, authenticating and sending it through the shared retry loop, and
    turning error replies into messages. */
module MailClient {
  import opened Wrappers
  import opened Text
  import opened Py
  import opened Engine
  import opened Redact
  import opened RedactLaws

  const DefaultBaseUrl: string := "https://api.wordpress.com/v3"
  const SendPath: string := "/mail/send"
  const NoRecipientsMessage: string := "宛先(to)が指定されていません"
  const NoValidRecipientsMessage: string := "有効な宛先(to)メールアドレスがありません"
  const FailurePrefix: string := "wordpress APIリクエストに失敗しました: "
  /** Entries of an `errors` list that are looked at. */
  const MaxErrorEntries: nat := 5
  /** Characters of a non-JSON error body quoted in the message. */
  const MaxBodyPreview: nat := 500
  /** Rejected recipients quoted in the "no valid recipient" message. */
  const MaxRejectedShown: nat := 3
  const Mask: string := "***"

  /** The client: its API key as the context supplied it, base URL and
      retry budget. */
  datatype Client = Client(apiKey: Value, baseUrl: string, maxRetries: int)

  /** `from_context`: a missing or falsy `api_key` becomes the empty string;
      everything else keeps its defaults. */
  function FromContext(apiKey: Option<Value>): (c: Client)
    ensures apiKey.Some? && Truthy(apiKey.value) ==> c.apiKey == apiKey.value
    ensures !(apiKey.Some? && Truthy(apiKey.value)) ==> c.apiKey == VStr("")
    ensures c.baseUrl == DefaultBaseUrl && c.maxRetries == DefaultMaxRetries
  {
    Client(Or(apiKey.GetOr(VNone), VStr("")), DefaultBaseUrl, DefaultMaxRetries)
  }

  // ---- Recipients ----------------------------------------------------------

  /** The address checks `_normalize_recipient` makes: an `@`, something
      before the first one, and a `.` somewhere after it. */
  predicate ValidAddress(email: string) {
    '@' in email && 0 < IndexOf(email, '@') && '.' in email[IndexOf(email, '@') + 1..]
  }

  /** The stripped address, when it passes the checks. */
  function NormalizeAddress(raw: string): (r: Option<string>)
    ensures r.Some? <==> ValidAddress(Strip(raw))
    ensures r.Some? ==> r.value == Strip(raw) && |r.value| > 0
  {
    var e := Strip(raw);
    if ValidAddress(e) then Some(e) else None
  }

  /** An address that survived normalization survives it again unchanged. */
  lemma NormalizeAddressStable(raw: string)
    requires NormalizeAddress(raw).Some?
    ensures NormalizeAddress(NormalizeAddress(raw).value) == NormalizeAddress(raw)
  {
    var e := Strip(raw);
    assert Strip(e) == e;
  }

  /** A stripped non-empty display name. */
  predicate CleanName(n: string) {
    |n| > 0 && Strip(n) == n
  }

  /** A normalized recipient: an `email` that normalizes to itself, then
      optionally a clean `name`. */
  predicate Recipient(d: Dict) {
    && (|d| == 1 || |d| == 2)
    && d[0].0 == VStr("email") && d[0].1.VStr?
    && NormalizeAddress(d[0].1.s) == Some(d[0].1.s)
    && (|d| == 2 ==> d[1].0 == VStr("name") && d[1].1.VStr? && CleanName(d[1].1.s))
  }

  /** The optional `name` entry of a dict recipient. */
  function NameEntry(name: Value): (r: Dict)
    ensures |r| <= 1
    ensures |r| == 1 ==> r[0].0 == VStr("name") && r[0].1.VStr? && CleanName(r[0].1.s)
    ensures |r| == 1 <==> name.VStr? && !IsBlank(name.s)
  {
    if Truthy(name) && name.VStr? && |Strip(name.s)| > 0 then
      var n := Strip(name.s);
      assert Strip(n) == n;
      [(VStr("name"), VStr(n))]
    else []
  }

  /** A dict recipient: its `email` must be a string that passes the
      address checks; its `name` is kept when clean. */
  function NormalizeDict(d: Dict): (r: Option<Dict>)
    ensures r.Some? ==> Recipient(r.value)
    ensures r.Some? <==> GetOr(d, "email", VStr("")).VStr? && NormalizeAddress(GetOr(d, "email", VStr("")).s).Some?
  {
    var email := GetOr(d, "email", VStr(""));
    if !email.VStr? then None
    else
      var e := NormalizeAddress(email.s);
      if e.None? then None
      else
        NormalizeAddressStable(email.s);
        var name := NameEntry(Get(d, "name"));
        RecipientOf(e.value, name);
        Some([(VStr("email"), VStr(e.value))] + name)
  }

  lemma RecipientOf(e: string, name: Dict)
    requires NormalizeAddress(e) == Some(e)
    requires |name| <= 1
    requires |name| == 1 ==> name[0].0 == VStr("name") && name[0].1.VStr? && CleanName(name[0].1.s)
    ensures Recipient([(VStr("email"), VStr(e))] + name)
  {
    var d := [(VStr("email"), VStr(e))] + name;
    assert d[0] == (VStr("email"), VStr(e));
    assert |name| == 1 ==> d[1] == name[0];
  }

  /** `_normalize_recipient`: a string is an address; a dict carries one
      under `email` and maybe a `name`; anything else, or an address failing
      the checks, is `None`. */
  function NormalizeRecipient(v: Value): (r: Option<Dict>)
    ensures r.Some? ==> Recipient(r.value)
    ensures r.Some? ==> v.VStr? || v.VDict?
    ensures v.VStr? ==> (r.Some? <==> NormalizeAddress(v.s).Some?)
    ensures v.VDict? ==> r == NormalizeDict(v.entries)
  {
    match v
    case VStr(s) =>
      var e := NormalizeAddress(s);
      if e.Some? then
        NormalizeAddressStable(s);
        Some([(VStr("email"), VStr(e.value))])
      else None
    case VDict(d) => NormalizeDict(d)
    case _ => None
  }

  /** A tool parameter naming recipients: one string stands for a list of
      one; a list is taken as is; anything else names none. */
  function RecipientList(v: Value): (r: Option<seq<Value>>)
    ensures v.VStr? ==> r == Some([v])
    ensures v.VList? ==> r == Some(v.items)
    ensures !v.VStr? && !v.VList? ==> r.None?
  {
    match v
    case VStr(_) => Some([v])
    case VList(items) => Some(items)
    case _ => None
  }

  /** The values `f` drops, in order, each shown by `show`. */
  function Dropped<A>(f: A -> Option<Dict>, show: A -> string, xs: seq<A>): seq<string> {
    if |xs| == 0 then []
    else if f(xs[0]).Some? then Dropped(f, show, xs[1..])
    else [show(xs[0])] + Dropped(f, show, xs[1..])
  }

  /** The recipients that normalize, in order. */
  function Recipients(items: seq<Value>): (r: seq<Dict>)
    ensures |r| <= |items|
    ensures forall i | 0 <= i < |r| :: Recipient(r[i])
    ensures |r| > 0 <==> exists j :: 0 <= j < |items| && NormalizeRecipient(items[j]).Some?
  {
    FilterMap(NormalizeRecipient, items)
  }

  /** The recipients of a list made of two parts are those of the first
      part followed by those of the second. */
  lemma RecipientsAppend(a: seq<Value>, b: seq<Value>)
    ensures Recipients(a + b) == Recipients(a) + Recipients(b)
  {
    FilterMapAppend(NormalizeRecipient, a, b);
  }

  /** One value yields its normalized form, or nothing when it does not
      normalize. */
  lemma RecipientsSingle(v: Value)
    ensures Recipients([v]) == if NormalizeRecipient(v).Some? then [NormalizeRecipient(v).value] else []
  {
    assert [v][1..] == [];
  }

  /** Every recipient that normalizes is kept, after the ones kept before
      it and before the ones kept after it. */
  lemma RecipientKept(items: seq<Value>, j: nat)
    requires j < |items| && NormalizeRecipient(items[j]).Some?
    ensures Recipients(items)
      == Recipients(items[..j]) + ([NormalizeRecipient(items[j]).value] + Recipients(items[j + 1..]))
  {
    FilterMapAt(NormalizeRecipient, items, j);
  }

  /** `str()` of each recipient that does not normalize, in order. */
  function Rejected(items: seq<Value>): seq<string> {
    Dropped(NormalizeRecipient, Str, items)
  }

  /** Every value is either kept or dropped, never both or neither. */
  lemma {:induction false} FilterMapPartition<A>(f: A -> Option<Dict>, show: A -> string, xs: seq<A>)
    ensures |FilterMap(f, xs)| + |Dropped(f, show, xs)| == |xs|
  {
    if |xs| > 0 {
      FilterMapPartition(f, show, xs[1..]);
    }
  }

  /** Why a payload without a usable `to` is refused: no recipient list at
      all, or a list in which every entry was rejected, the first three of
      them quoted. */
  lemma ConvertRejection(payload: Dict)
    requires !HasValidTo(payload)
    ensures var listed := RecipientList(GetOr(payload, "to", VList([])));
      && (listed.None? || |listed.value| == 0 ==> ConvertPayload(payload) == Err(ValueError(NoRecipientsMessage)))
      && (listed.Some? && |listed.value| > 0 ==>
            && |Rejected(listed.value)| == |listed.value|
            && ConvertPayload(payload) == Err(ValueError(NoValidRecipientsMessage
                 + " (無効な宛先: " + Join(", ", Take(Rejected(listed.value), MaxRejectedShown)) + ")")))
  {
    var listed := RecipientList(GetOr(payload, "to", VList([])));
    if listed.Some? && |listed.value| > 0 {
      assert |Recipients(listed.value)| == 0;
      RecipientsPartition(listed.value);
      assert ConvertPayload(payload) == Err(NoValidRecipients(listed.value));
      var shown := Join(", ", Take(Rejected(listed.value), MaxRejectedShown));
      assert NoValidRecipientsMessage + (" (無効な宛先: " + shown + ")")
        == NoValidRecipientsMessage + " (無効な宛先: " + shown + ")";
    }
  }

  /** Every recipient is either kept or reported as rejected. */
  lemma RecipientsPartition(items: seq<Value>)
    ensures |Recipients(items)| + |Rejected(items)| == |items|
  {
    FilterMapPartition(NormalizeRecipient, Str, items);
  }

  /** A normalized recipient normalizes to itself: normalizing is idempotent. */
  lemma NormalizeRecipientIdempotent(d: Dict)
    requires Recipient(d)
    ensures NormalizeRecipient(VDict(d)) == Some(d)
  {
    RecipientFields(d);
    assert d == [(VStr("email"), VStr(d[0].1.s))] + d[1..];
  }

  /** Reading a normalized recipient's fields back. */
  lemma RecipientFields(d: Dict)
    requires |d| == 1 || |d| == 2
    requires d[0].0 == VStr("email")
    requires |d| == 2 ==> d[1].0 == VStr("name") && d[1].1.VStr? && CleanName(d[1].1.s)
    ensures GetOr(d, "email", VStr("")) == d[0].1
    ensures NameEntry(Get(d, "name")) == d[1..]
  {
    if |d| == 2 {
      SecondField(d, "name");
      NameEntryClean(d[1].1.s);
      assert d[1..] == [d[1]];
    } else {
      assert Lookup(d[1..], VStr("name")).None?;
    }
  }

  lemma NameEntryClean(n: string)
    requires CleanName(n)
    ensures NameEntry(VStr(n)) == [(VStr("name"), VStr(n))]
  {
  }

  /** A key stored second, after a different one. */
  lemma SecondField(d: Dict, key: string)
    requires |d| >= 2 && d[0].0 != VStr(key) && d[1].0 == VStr(key)
    ensures Lookup(d, VStr(key)) == Some(d[1].1)
  {
    assert d[1..][0] == d[1];
    assert Lookup(d[1..], VStr(key)) == Some(d[1].1);
  }

  /** Normalizing a normalized result again changes nothing, whatever the
      original value. */
  lemma NormalizeRecipientTwice(v: Value)
    requires NormalizeRecipient(v).Some?
    ensures NormalizeRecipient(VDict(NormalizeRecipient(v).value)) == NormalizeRecipient(v)
  {
    NormalizeRecipientIdempotent(NormalizeRecipient(v).value);
  }

  /** A normalized address is never blank, so the extra emptiness check
      the conversion makes after normalizing never rejects anything. */
  lemma NormalizedAddressNotBlank(v: Value)
    requires NormalizeRecipient(v).Some?
    ensures |Strip(NormalizeRecipient(v).value[0].1.s)| > 0
  {
    var e := NormalizeRecipient(v).value[0].1.s;
    assert NormalizeAddress(e) == Some(e);
  }

  // ---- Payload conversion --------------------------------------------------

  function AsValues(ds: seq<Dict>): (r: seq<Value>)
    ensures |r| == |ds| && forall i | 0 <= i < |ds| :: r[i] == VDict(ds[i])
  {
    seq(|ds|, i requires 0 <= i < |ds| => VDict(ds[i]))
  }

  /** Values that are all normalized recipients. */
  predicate RecipientValues(vs: seq<Value>) {
    forall i | 0 <= i < |vs| :: vs[i].VDict? && Recipient(vs[i].entries)
  }

  /** The `cc` or `bcc` entry of the personalization: present exactly when
      the parameter is a string or a non-empty list, and then holding the
      recipients that normalize, possibly none. */
  function OptionalRecipients(payload: Dict, key: string): (r: Dict)
    ensures |r| <= 1
    ensures |r| == 1 <==>
      var v := GetOr(payload, key, VList([]));
      v.VStr? || (v.VList? && |v.items| > 0)
    ensures |r| == 1 ==> r[0].0 == VStr(key)
    ensures RecipientEntries(r)
  {
    var listed := RecipientList(GetOr(payload, key, VList([])));
    if listed.Some? && |listed.value| > 0 then
      var x := VList(AsValues(Recipients(listed.value)));
      RecipientsAsValues(Recipients(listed.value));
      SingleEntry(key, x);
      [(VStr(key), x)]
    else []
  }

  lemma RecipientsAsValues(ds: seq<Dict>)
    requires forall i | 0 <= i < |ds| :: Recipient(ds[i])
    ensures RecipientValues(AsValues(ds))
  {
  }

  lemma SingleEntry(key: string, x: Value)
    requires x.VList? && RecipientValues(x.items)
    ensures RecipientEntries([(VStr(key), x)])
  {
  }

  /** `{"type": kind, "value": v}` */
  function ContentPart(kind: string, v: Value): Value {
    VDict([(VStr("type"), VStr(kind)), (VStr("value"), v)])
  }

  /** The body parts: plain text (`text_part`, else `text_body`) before HTML
      (`html_part`, else `html_body`), each only when non-empty. */
  function ContentParts(payload: Dict): (r: seq<Value>)
    ensures |r| <= 2
  {
    var text := Or(Get(payload, "text_part"), Get(payload, "text_body"));
    var html := Or(Get(payload, "html_part"), Get(payload, "html_body"));
    (if Truthy(text) then [ContentPart("text/plain", text)] else [])
      + (if Truthy(html) then [ContentPart("text/html", html)] else [])
  }

  /** Reading a body part's fields back. */
  lemma ContentPartFields(kind: string, v: Value)
    ensures Get(ContentPart(kind, v).entries, "type") == VStr(kind)
    ensures Get(ContentPart(kind, v).entries, "value") == v
  {
    SecondField(ContentPart(kind, v).entries, "value");
  }

  /** The body parts read back: every part has a type and a non-empty
      value; a plain-text part exists exactly when the payload has text and
      comes first, an HTML part exists exactly when it has HTML and comes
      last; each carries the payload's value. */
  lemma ContentPartsRead(payload: Dict)
    ensures var r := ContentParts(payload);
      var text := Or(Get(payload, "text_part"), Get(payload, "text_body"));
      var html := Or(Get(payload, "html_part"), Get(payload, "html_body"));
      && (forall i | 0 <= i < |r| :: r[i].VDict? && Truthy(Get(r[i].entries, "value")))
      && (forall i | 0 <= i < |r| :: Get(r[i].entries, "type") in {VStr("text/plain"), VStr("text/html")})
      && (Truthy(text) <==> |r| > 0 && Get(r[0].entries, "type") == VStr("text/plain"))
      && (Truthy(html) <==> |r| > 0 && Get(r[|r| - 1].entries, "type") == VStr("text/html"))
      && (forall i | 0 <= i < |r| && Get(r[i].entries, "type") == VStr("text/plain") :: Get(r[i].entries, "value") == text)
      && (forall i | 0 <= i < |r| && Get(r[i].entries, "type") == VStr("text/html") :: Get(r[i].entries, "value") == html)
  {
    var text := Or(Get(payload, "text_part"), Get(payload, "text_body"));
    var html := Or(Get(payload, "html_part"), Get(payload, "html_body"));
    ContentPartFields("text/plain", text);
    ContentPartFields("text/html", html);
  }

  /** The sender: `email` (empty when missing) and the `name` when it is
      truthy. */
  function Sender(f: Dict): (r: Dict)
    ensures |r| >= 1 && r[0] == (VStr("email"), GetOr(f, "email", VStr("")))
  {
    [(VStr("email"), GetOr(f, "email", VStr("")))]
      + (if Truthy(Get(f, "name")) then [(VStr("name"), Get(f, "name"))] else [])
  }

  /** The `ValueError` raised when no `to` recipient normalizes: it quotes
      the first three rejected ones. */
  function NoValidRecipients(items: seq<Value>): Exc {
    var rejected := Rejected(items);
    ValueError(NoValidRecipientsMessage
      + (if |rejected| > 0 then " (無効な宛先: " + Join(", ", Take(rejected, MaxRejectedShown)) + ")" else ""))
  }

  /** Some `to` recipient is usable. */
  predicate HasValidTo(payload: Dict) {
    var listed := RecipientList(GetOr(payload, "to", VList([])));
    listed.Some? && exists i :: 0 <= i < |listed.value| && NormalizeRecipient(listed.value[i]).Some?
  }

  /** Every entry of a personalization holds a list of normalized
      recipients. */
  predicate RecipientEntries(p: Dict) {
    forall i | 0 <= i < |p| :: p[i].1.VList? && RecipientValues(p[i].1.items)
  }

  /** Whatever a lookup in such a personalization finds is a recipient list. */
  lemma RecipientEntriesGet(p: Dict, key: string)
    requires RecipientEntries(p) && HasKey(p, key)
    ensures Get(p, key).VList? && RecipientValues(Get(p, key).items)
  {
    var i := LookupFound(p, VStr(key));
  }

  /** The shape every converted payload has: one personalization whose `to`
      list is non-empty and whose entries all list normalized recipients. */
  predicate WellFormedMail(out: Dict) {
    var ps := Get(out, "personalizations");
    && ps.VList? && |ps.items| == 1 && ps.items[0].VDict?
    && var p := ps.items[0].entries;
    && Get(p, "to").VList? && |Get(p, "to").items| > 0
    && RecipientEntries(p)
  }

  /** The personalization, once `to` is known to be usable: `to`, then the
      optional `cc` and `bcc`. */
  function Personalization(payload: Dict, to: seq<Dict>): (p: Dict)
    requires |to| > 0 && forall i | 0 <= i < |to| :: Recipient(to[i])
    ensures Get(p, "to") == VList(AsValues(to))
    ensures RecipientEntries(p)
    ensures HasKey(p, "cc") <==> |OptionalRecipients(payload, "cc")| == 1
    ensures HasKey(p, "bcc") <==> |OptionalRecipients(payload, "bcc")| == 1
  {
    var cc := OptionalRecipients(payload, "cc");
    var bcc := OptionalRecipients(payload, "bcc");
    var x := VList(AsValues(to));
    RecipientsAsValues(to);
    PersonalizationKeys(x, cc, bcc);
    PersonalizationEntries(x, cc, bcc);
    [(VStr("to"), x)] + (cc + bcc)
  }

  /** Where `to`, `cc` and `bcc` are found in a personalization. */
  lemma PersonalizationKeys(x: Value, cc: Dict, bcc: Dict)
    requires |cc| <= 1 && (|cc| == 1 ==> cc[0].0 == VStr("cc"))
    requires |bcc| <= 1 && (|bcc| == 1 ==> bcc[0].0 == VStr("bcc"))
    ensures Get([(VStr("to"), x)] + (cc + bcc), "to") == x
    ensures HasKey([(VStr("to"), x)] + (cc + bcc), "cc") <==> |cc| == 1
    ensures HasKey([(VStr("to"), x)] + (cc + bcc), "bcc") <==> |bcc| == 1
  {
    var head := [(VStr("to"), x)];
    LookupAppend(head, cc + bcc, VStr("to"));
    LookupAppend(head, cc + bcc, VStr("cc"));
    LookupAppend(head, cc + bcc, VStr("bcc"));
    LookupAppend(cc, bcc, VStr("cc"));
    LookupAppend(cc, bcc, VStr("bcc"));
  }

  lemma PersonalizationEntries(x: Value, cc: Dict, bcc: Dict)
    requires x.VList? && RecipientValues(x.items)
    requires RecipientEntries(cc) && RecipientEntries(bcc)
    ensures RecipientEntries([(VStr("to"), x)] + (cc + bcc))
  {
    var p := [(VStr("to"), x)] + (cc + bcc);
    forall i | 0 <= i < |p| ensures p[i].1.VList? && RecipientValues(p[i].1.items) {
      if i == 0 {
      } else if i <= |cc| {
        assert p[i] == cc[i - 1];
      } else {
        assert p[i] == bcc[i - 1 - |cc|];
      }
    }
  }

  /** `_convert_to_wordpress_format` without attachments. */
  function ConvertPayload(payload: Dict): (r: Result<Dict, Exc>)
    ensures r.Err? <==> !HasValidTo(payload)
    ensures r.Err? ==> r.error.ValueError?
    ensures r.Ok? ==> WellFormedMail(r.value)
    ensures r.Ok? ==> (HasKey(r.value, "from") <==> GetOr(payload, "from", VDict([])).VDict?)
    ensures r.Ok? ==> (HasKey(r.value, "subject") <==> Truthy(Get(payload, "subject")))
    ensures r.Ok? ==> (Get(Get(r.value, "personalizations").items[0].entries, "to")
                       == VList(AsValues(Recipients(RecipientList(GetOr(payload, "to", VList([]))).value))))
  {
    var listed := RecipientList(GetOr(payload, "to", VList([])));
    if listed.None? || |listed.value| == 0 then Err(ValueError(NoRecipientsMessage))
    else
      var to := Recipients(listed.value);
      if |to| == 0 then Err(NoValidRecipients(listed.value))
      else
        AssembledTo(payload, to);
        Ok(Assemble(payload, to))
  }

  /** A dict entry present only when `present` holds. */
  function Entry(present: bool, key: string, v: Value): (r: Dict)
    ensures |r| <= 1
    ensures |r| == 1 <==> present
    ensures |r| == 1 ==> r[0] == (VStr(key), v)
  {
    if present then [(VStr(key), v)] else []
  }

  /** `reply_to`: a truthy string becomes `{"email": s}`, a truthy dict
      keeps only its `email`; anything else is dropped. */
  function ReplyTo(v: Value): (r: Dict)
    ensures |r| <= 1
    ensures |r| == 1 <==> Truthy(v) && (v.VStr? || v.VDict?)
    ensures |r| == 1 ==> r[0].0 == VStr("reply_to")
  {
    if Truthy(v) && v.VStr? then [(VStr("reply_to"), VDict([(VStr("email"), v)]))]
    else if Truthy(v) && v.VDict? then [(VStr("reply_to"), VDict([(VStr("email"), GetOr(v.entries, "email", VStr("")))]))]
    else []
  }

  /** Looking past an optional entry under a different key. */
  lemma SkipEntry(seg: Dict, rest: Dict, key: Value)
    requires |seg| <= 1 && (|seg| == 1 ==> seg[0].0 != key)
    ensures Lookup(seg + rest, key) == Lookup(rest, key)
  {
    LookupAppend(seg, rest, key);
  }

  /** Finding an optional entry, or looking past its absence. */
  lemma FindEntry(seg: Dict, rest: Dict, key: Value)
    requires |seg| <= 1 && (|seg| == 1 ==> seg[0].0 == key)
    requires Lookup(rest, key).None?
    ensures Lookup(seg + rest, key).Some? <==> |seg| == 1
  {
    LookupAppend(seg, rest, key);
  }

  /** The converted payload once `to` is known to be usable: `from`,
      `personalizations`, `subject`, `content`, `headers`, `reply_to`, each
      only when the payload supplies it, in that order. */
  function Assemble(payload: Dict, to: seq<Dict>): (out: Dict)
    requires |to| > 0 && forall i | 0 <= i < |to| :: Recipient(to[i])
    ensures WellFormedMail(out)
    ensures HasKey(out, "from") <==> GetOr(payload, "from", VDict([])).VDict?
    ensures HasKey(out, "subject") <==> Truthy(Get(payload, "subject"))
  {
    var fromField := GetOr(payload, "from", VDict([]));
    var from := Entry(fromField.VDict?, "from", VDict(Sender(if fromField.VDict? then fromField.entries else [])));
    var p := Personalization(payload, to);
    var pers := [(VStr("personalizations"), VList([VDict(p)]))];
    var subjectField := Get(payload, "subject");
    var subject := Entry(Truthy(subjectField), "subject", subjectField);
    var late := LateEntries(payload);
    AssembledKeys(from, pers, subject, late);
    from + (pers + (subject + late))
  }

  /** The `to` list of the assembled payload is the given recipients, in
      order. */
  lemma AssembledTo(payload: Dict, to: seq<Dict>)
    requires |to| > 0 && forall i | 0 <= i < |to| :: Recipient(to[i])
    ensures Get(Get(Assemble(payload, to), "personalizations").items[0].entries, "to") == VList(AsValues(to))
  {
    var fromField := GetOr(payload, "from", VDict([]));
    var from := Entry(fromField.VDict?, "from", VDict(Sender(if fromField.VDict? then fromField.entries else [])));
    var p := Personalization(payload, to);
    var pers := [(VStr("personalizations"), VList([VDict(p)]))];
    var subjectField := Get(payload, "subject");
    var subject := Entry(Truthy(subjectField), "subject", subjectField);
    var late := LateEntries(payload);
    AssembledKeys(from, pers, subject, late);
    assert Assemble(payload, to) == from + (pers + (subject + late));
  }

  /** The entries after the subject: `content`, `headers`, `reply_to`. */
  function LateEntries(payload: Dict): (late: Dict)
    ensures Lookup(late, VStr("from")).None? && Lookup(late, VStr("subject")).None?
  {
    var parts := ContentParts(payload);
    var content := Entry(|parts| > 0, "content", VList(parts));
    var headersField := GetOr(payload, "custom_headers", VDict([]));
    var headers := Entry(Truthy(headersField) && headersField.VDict?, "headers", headersField);
    var reply := ReplyTo(Get(payload, "reply_to"));
    LateKeys(content, headers, reply, VStr("from"));
    LateKeys(content, headers, reply, VStr("subject"));
    content + (headers + reply)
  }

  /** None of the late entries is stored under `key`. */
  lemma LateKeys(content: Dict, headers: Dict, reply: Dict, key: Value)
    requires |content| <= 1 && (|content| == 1 ==> content[0].0 != key)
    requires |headers| <= 1 && (|headers| == 1 ==> headers[0].0 != key)
    requires |reply| <= 1 && (|reply| == 1 ==> reply[0].0 != key)
    ensures Lookup(content + (headers + reply), key).None?
  {
    SkipEntry(content, headers + reply, key);
    SkipEntry(headers, reply, key);
    SkipEntry(reply, [], key);
    assert reply + [] == reply;
  }

  lemma AssembledKeys(from: Dict, pers: Dict, subject: Dict, late: Dict)
    requires |from| <= 1 && (|from| == 1 ==> from[0].0 == VStr("from"))
    requires |pers| == 1 && pers[0].0 == VStr("personalizations")
    requires |subject| <= 1 && (|subject| == 1 ==> subject[0].0 == VStr("subject"))
    requires Lookup(late, VStr("from")).None? && Lookup(late, VStr("subject")).None?
    ensures Lookup(from + (pers + (subject + late)), VStr("personalizations")) == Some(pers[0].1)
    ensures HasKey(from + (pers + (subject + late)), "from") <==> |from| == 1
    ensures HasKey(from + (pers + (subject + late)), "subject") <==> |subject| == 1
  {
    SkipEntry(from, pers + (subject + late), VStr("personalizations"));
    SkipEntry(subject, late, VStr("from"));
    SkipEntry(pers, subject + late, VStr("from"));
    FindEntry(from, pers + (subject + late), VStr("from"));
    FindEntry(subject, late, VStr("subject"));
    SkipEntry(pers, subject + late, VStr("subject"));
    SkipEntry(from, pers + (subject + late), VStr("subject"));
  }


  // ---- Masking for logs ----------------------------------------------------

  /** What every recipient becomes in the log copy. */
  const MaskedRecipient: Value := VDict([(VStr("email"), VStr(Mask))])

  /** One masked recipient per element iterated over. */
  function Stars(n: nat): (r: seq<Value>)
    ensures |r| == n && forall i | 0 <= i < n :: r[i] == MaskedRecipient
  {
    seq(n, _ => MaskedRecipient)
  }

  /** How many elements `for _ in v` visits; a value that cannot be
      iterated raises `TypeError`. */
  function IterLen(v: Value): (r: Result<nat, Exc>)
    ensures r.Ok? <==> v.VStr? || v.VBytes? || v.VList? || v.VDict?
    ensures v.VList? ==> r == Ok(|v.items|)
    ensures r.Err? ==> r.error.TypeError?
  {
    match v
    case VStr(s) => Ok(|s|)
    case VBytes(bs) => Ok(|bs|)
    case VList(items) => Ok(|items|)
    case VDict(entries) => Ok(|entries|)
    case _ => Err(TypeError("'" + TypeName(v) + "' object is not iterable"))
  }

  /** A recipient list that shows no address. */
  predicate MaskedList(v: Value) {
    v.VList? && forall i | 0 <= i < |v.items| :: v.items[i] == MaskedRecipient
  }

  /** One of `to`, `cc`, `bcc`, when present, replaced by as many masked
      recipients as it has elements. */
  function MaskField(p: Dict, key: string): (r: Result<Dict, Exc>)
    ensures r.Ok? ==> (HasKey(r.value, key) <==> HasKey(p, key))
    ensures r.Ok? && HasKey(p, key) ==> MaskedList(Get(r.value, key))
    ensures r.Ok? ==> forall k | k != VStr(key) :: Lookup(r.value, k) == Lookup(p, k)
    ensures r.Err? <==> HasKey(p, key) && IterLen(Get(p, key)).Err?
    ensures HasKey(p, key) && Get(p, key).VList? ==> r.Ok? && |Get(r.value, key).items| == |Get(p, key).items|
  {
    if HasKey(p, key) then
      var n :- IterLen(Get(p, key));
      Ok(Set(p, key, VList(Stars(n))))
    else Ok(p)
  }

  /** A personalization whose recipient lists show no address. */
  predicate MaskedPersonalization(p: Dict) {
    forall k | k in {"to", "cc", "bcc"} && HasKey(p, k) :: MaskedList(Get(p, k))
  }

  /** The recipient lists of one personalization, masked. */
  function MaskPersonalization(p: Dict): (r: Result<Dict, Exc>)
    ensures r.Ok? ==> MaskedPersonalization(r.value)
    ensures r.Ok? ==> forall k | k in {"to", "cc", "bcc"} :: HasKey(r.value, k) <==> HasKey(p, k)
  {
    var a :- MaskField(p, "to");
    var b :- MaskField(a, "cc");
    MaskField(b, "bcc")
  }

  /** Every personalization that is a dict, masked; other elements are left
      as they are. */
  function MaskAll(items: seq<Value>): (r: Result<seq<Value>, Exc>)
    ensures r.Ok? ==> |r.value| == |items|
    ensures r.Ok? ==> forall i | 0 <= i < |items| ::
      r.value[i].VDict? == items[i].VDict? && (items[i].VDict? ==> MaskedPersonalization(r.value[i].entries))
    ensures r.Ok? ==> forall i | 0 <= i < |items| && !items[i].VDict? :: r.value[i] == items[i]
  {
    if |items| == 0 then Ok([])
    else
      var head :- if items[0].VDict? then
          var q :- MaskPersonalization(items[0].entries);
          Ok(VDict(q))
        else Ok(items[0]);
      var rest :- MaskAll(items[1..]);
      Ok([head] + rest)
  }

  /** The sender in the log copy: the address hidden, the name kept (or
      hidden when there is none). */
  function MaskedSender(f: Dict): Value {
    VDict([(VStr("email"), VStr(Mask)), (VStr("name"), GetOr(f, "name", VStr(Mask)))])
  }

  /** `_mask_sensitive_data`: a copy of the payload for logging in which
      the sender's address, every recipient and the reply-to address are
      replaced by `***`. Iterating a recipient entry that is not iterable
      raises `TypeError`. */
  function MaskSensitive(payload: Dict): (r: Result<Dict, Exc>)
    ensures r.Ok? ==> MaskedPayload(r.value)
    ensures r.Ok? ==> (HasKey(r.value, "from") <==> HasKey(payload, "from"))
    ensures r.Ok? ==> (HasKey(r.value, "personalizations") <==> HasKey(payload, "personalizations"))
    ensures r.Ok? ==> (HasKey(r.value, "reply_to") <==> HasKey(payload, "reply_to"))
  {
    var a := MaskFrom(payload);
    var b :- MaskPersonalizations(a);
    var c := MaskReplyTo(b);
    assert Lookup(b, VStr("from")) == Lookup(a, VStr("from"));
    assert Lookup(c, VStr("from")) == Lookup(b, VStr("from"));
    assert Lookup(c, VStr("personalizations")) == Lookup(b, VStr("personalizations"));
    assert Lookup(a, VStr("reply_to")) == Lookup(payload, VStr("reply_to"));
    assert Lookup(b, VStr("reply_to")) == Lookup(a, VStr("reply_to"));
    assert Lookup(a, VStr("personalizations")) == Lookup(payload, VStr("personalizations"));
    SenderMaskedKept(a, c);
    PersonalizationsMaskedKept(b, c);
    Ok(c)
  }

  lemma SenderMaskedKept(a: Dict, c: Dict)
    requires SenderMasked(a) && Lookup(c, VStr("from")) == Lookup(a, VStr("from"))
    ensures SenderMasked(c)
  {
  }

  lemma PersonalizationsMaskedKept(b: Dict, c: Dict)
    requires PersonalizationsMasked(b) && Lookup(c, VStr("personalizations")) == Lookup(b, VStr("personalizations"))
    ensures PersonalizationsMasked(c)
  {
  }

  /** The sender, when a dict, replaced by its masked copy. */
  function MaskFrom(payload: Dict): (a: Dict)
    ensures forall k | k != VStr("from") :: Lookup(a, k) == Lookup(payload, k)
    ensures HasKey(a, "from") <==> HasKey(payload, "from")
    ensures SenderMasked(a)
  {
    var from := Get(payload, "from");
    if HasKey(payload, "from") && from.VDict? then Set(payload, "from", MaskedSender(from.entries)) else payload
  }

  /** The personalizations, when a list, each masked. */
  function MaskPersonalizations(a: Dict): (r: Result<Dict, Exc>)
    ensures r.Ok? ==> forall k | k != VStr("personalizations") :: Lookup(r.value, k) == Lookup(a, k)
    ensures r.Ok? ==> (HasKey(r.value, "personalizations") <==> HasKey(a, "personalizations"))
    ensures r.Ok? ==> PersonalizationsMasked(r.value)
  {
    var ps := Get(a, "personalizations");
    if HasKey(a, "personalizations") && ps.VList? then
      var items :- MaskAll(ps.items);
      Ok(Set(a, "personalizations", VList(items)))
    else Ok(a)
  }

  /** The reply-to address, when a dict, replaced by `***`. */
  function MaskReplyTo(b: Dict): (c: Dict)
    ensures forall k | k != VStr("reply_to") :: Lookup(c, k) == Lookup(b, k)
    ensures HasKey(c, "reply_to") <==> HasKey(b, "reply_to")
    ensures ReplyToMasked(c)
  {
    if HasKey(b, "reply_to") && Get(b, "reply_to").VDict? then Set(b, "reply_to", MaskedRecipient) else b
  }

  /** A dict sender is `***` plus a name. */
  predicate SenderMasked(q: Dict) {
    HasKey(q, "from") && Get(q, "from").VDict? ==>
      var f := Get(q, "from").entries;
      |f| == 2 && f[0] == (VStr("email"), VStr(Mask)) && f[1].0 == VStr("name")
  }

  /** Every dict personalization is masked. */
  predicate PersonalizationsMasked(q: Dict) {
    HasKey(q, "personalizations") && Get(q, "personalizations").VList? ==>
      var items := Get(q, "personalizations").items;
      forall i | 0 <= i < |items| && items[i].VDict? :: MaskedPersonalization(items[i].entries)
  }

  /** A dict reply-to is `***`. */
  predicate ReplyToMasked(q: Dict) {
    HasKey(q, "reply_to") && Get(q, "reply_to").VDict? ==> Get(q, "reply_to") == MaskedRecipient
  }

  /** A log copy with no address left. */
  predicate MaskedPayload(q: Dict) {
    SenderMasked(q) && PersonalizationsMasked(q) && ReplyToMasked(q)
  }

  /** A masked list is masked again to itself. */
  lemma MaskFieldMasked(p: Dict, key: string)
    requires HasKey(p, key) ==> MaskedList(Get(p, key))
    ensures MaskField(p, key) == Ok(p)
  {
    if HasKey(p, key) {
      var v := Get(p, key);
      assert Stars(|v.items|) == v.items;
      SetExisting(p, key, v);
    }
  }

  /** A masked personalization is its own masking. */
  lemma MaskPersonalizationMasked(p: Dict)
    requires MaskedPersonalization(p)
    ensures MaskPersonalization(p) == Ok(p)
  {
    MaskFieldMasked(p, "to");
    MaskFieldMasked(p, "cc");
    MaskFieldMasked(p, "bcc");
  }

  lemma {:induction false} MaskAllMasked(items: seq<Value>)
    requires forall i | 0 <= i < |items| && items[i].VDict? :: MaskedPersonalization(items[i].entries)
    ensures MaskAll(items) == Ok(items)
  {
    if |items| > 0 {
      if items[0].VDict? {
        MaskPersonalizationMasked(items[0].entries);
      }
      MaskAllMasked(items[1..]);
      assert items == [items[0]] + items[1..];
    }
  }

  /** A log copy is a fixed point of masking. */
  lemma MaskSensitiveMasked(q: Dict)
    requires MaskedPayload(q)
    ensures MaskSensitive(q) == Ok(q)
  {
    MaskFromMasked(q);
    MaskPersonalizationsMasked(q);
    MaskReplyToMasked(q);
  }

  lemma MaskFromMasked(q: Dict)
    requires SenderMasked(q)
    ensures MaskFrom(q) == q
  {
    var from := Get(q, "from");
    if HasKey(q, "from") && from.VDict? {
      var f := from.entries;
      SecondField(f, "name");
      assert MaskedSender(f) == VDict([f[0], f[1]]);
      assert [f[0], f[1]] == f;
      SetExisting(q, "from", from);
    }
  }

  lemma MaskPersonalizationsMasked(q: Dict)
    requires PersonalizationsMasked(q)
    ensures MaskPersonalizations(q) == Ok(q)
  {
    var ps := Get(q, "personalizations");
    if HasKey(q, "personalizations") && ps.VList? {
      MaskAllMasked(ps.items);
      SetExisting(q, "personalizations", ps);
    }
  }

  lemma MaskReplyToMasked(q: Dict)
    requires ReplyToMasked(q)
    ensures MaskReplyTo(q) == q
  {
    if HasKey(q, "reply_to") && Get(q, "reply_to").VDict? {
      SetExisting(q, "reply_to", MaskedRecipient);
    }
  }

  /** Masking is idempotent: the log copy of a log copy is the same. */
  lemma MaskSensitiveIdempotent(payload: Dict)
    requires MaskSensitive(payload).Ok?
    ensures MaskSensitive(MaskSensitive(payload).value) == MaskSensitive(payload)
  {
    MaskSensitiveMasked(MaskSensitive(payload).value);
  }

  /** Masking a converted payload never fails, and keeps one masked
      recipient for each real one. */
  lemma MaskConverted(out: Dict)
    requires WellFormedMail(out)
    ensures MaskSensitive(out).Ok?
  {
    var p := Get(out, "personalizations").items[0].entries;
    forall k | k in {"to", "cc", "bcc"} && HasKey(p, k) ensures Get(p, k).VList? {
      RecipientEntriesGet(p, k);
    }
    MaskPersonalizationLists(p);
    var items := Get(out, "personalizations").items;
    assert MaskAll(items[1..]) == Ok([]);
    assert MaskAll(items).Ok?;
    var a := MaskFrom(out);
    assert Lookup(a, VStr("personalizations")) == Lookup(out, VStr("personalizations"));
  }

  /** Masking a personalization whose recipient entries are lists never
      fails and keeps each list's length. */
  lemma MaskPersonalizationLists(p: Dict)
    requires forall k | k in {"to", "cc", "bcc"} && HasKey(p, k) :: Get(p, k).VList?
    ensures MaskPersonalization(p).Ok?
    ensures forall k | k in {"to", "cc", "bcc"} && HasKey(p, k) ::
      |Get(MaskPersonalization(p).value, k).items| == |Get(p, k).items|
  {
    assert HasKey(p, "to") ==> Get(p, "to").VList?;
    assert HasKey(p, "cc") ==> Get(p, "cc").VList?;
    assert HasKey(p, "bcc") ==> Get(p, "bcc").VList?;
    var a := MaskField(p, "to").value;
    assert Lookup(a, VStr("cc")) == Lookup(p, VStr("cc"));
    assert Lookup(a, VStr("bcc")) == Lookup(p, VStr("bcc"));
    var b := MaskField(a, "cc").value;
    assert Lookup(b, VStr("bcc")) == Lookup(p, VStr("bcc"));
    assert Lookup(b, VStr("to")) == Lookup(a, VStr("to"));
    var c := MaskField(b, "bcc").value;
    assert Lookup(c, VStr("to")) == Lookup(a, VStr("to"));
    assert Lookup(c, VStr("cc")) == Lookup(b, VStr("cc"));
  }

  /** Masking puts in only strings and values already there, so a payload
      `json.dumps` accepts keeps a log copy it accepts. */
  lemma MaskKeepsDumpable(payload: Dict)
    requires JsonDumpable(VDict(payload)) && MaskSensitive(payload).Ok?
    ensures JsonDumpable(VDict(MaskSensitive(payload).value))
  {
    var a := MaskFrom(payload);
    MaskFromDumpable(payload);
    var b := MaskPersonalizations(a).value;
    MaskPersonalizationsDumpable(a);
    if HasKey(b, "reply_to") && Get(b, "reply_to").VDict? {
      SetDumpable(b, "reply_to", MaskedRecipient);
    }
  }

  lemma MaskFromDumpable(payload: Dict)
    requires JsonDumpable(VDict(payload))
    ensures JsonDumpable(VDict(MaskFrom(payload)))
  {
    var from := Get(payload, "from");
    if HasKey(payload, "from") && from.VDict? {
      LookupDumpable(payload, VStr("from"));
      var f := from.entries;
      if HasKey(f, "name") {
        LookupDumpable(f, VStr("name"));
      }
      SetDumpable(payload, "from", MaskedSender(f));
    }
  }

  lemma MaskPersonalizationsDumpable(a: Dict)
    requires JsonDumpable(VDict(a)) && MaskPersonalizations(a).Ok?
    ensures JsonDumpable(VDict(MaskPersonalizations(a).value))
  {
    var ps := Get(a, "personalizations");
    if HasKey(a, "personalizations") && ps.VList? {
      LookupDumpable(a, VStr("personalizations"));
      MaskAllDumpable(ps.items);
      SetDumpable(a, "personalizations", VList(MaskAll(ps.items).value));
    }
  }

  lemma {:induction false} MaskAllDumpable(items: seq<Value>)
    requires JsonDumpable(VList(items)) && MaskAll(items).Ok?
    ensures JsonDumpable(VList(MaskAll(items).value))
  {
    if |items| > 0 {
      ListDumpableSplit(items);
      MaskAllDumpable(items[1..]);
      var head := if items[0].VDict? then VDict(MaskPersonalization(items[0].entries).value) else items[0];
      if items[0].VDict? {
        MaskPersonalizationDumpable(items[0].entries);
      }
      assert MaskAll(items).value == [head] + MaskAll(items[1..]).value;
      ListDumpableCons(head, MaskAll(items[1..]).value);
    }
  }

  lemma MaskPersonalizationDumpable(p: Dict)
    requires JsonDumpable(VDict(p)) && MaskPersonalization(p).Ok?
    ensures JsonDumpable(VDict(MaskPersonalization(p).value))
  {
    var a := MaskField(p, "to").value;
    MaskFieldDumpable(p, "to");
    var b := MaskField(a, "cc").value;
    MaskFieldDumpable(a, "cc");
    MaskFieldDumpable(b, "bcc");
  }

  lemma MaskFieldDumpable(p: Dict, key: string)
    requires JsonDumpable(VDict(p)) && MaskField(p, key).Ok?
    ensures JsonDumpable(VDict(MaskField(p, key).value))
  {
    if HasKey(p, key) {
      var n := IterLen(Get(p, key)).value;
      assert JsonDumpable(MaskedRecipient);
      assert JsonDumpable(VList(Stars(n)));
      SetDumpable(p, key, VList(Stars(n)));
    }
  }

  // ---- Error messages ------------------------------------------------------

  /** The prefix of every error message: the status in parentheses. */
  function ErrorHead(status: int): string {
    ErrorLead + IntToString(status) + ")"
  }

  /** The status stands in the prefix between the lead and the closing
      parenthesis, from where `int()` reads it back. */
  lemma ErrorHeadStatus(status: int)
    ensures var r := ErrorHead(status);
      && StartsWith(r, ErrorLead) && |r| > |ErrorLead| && r[|r| - 1] == ')'
      && ParseInt(r[|ErrorLead|..|r| - 1]) == Some(status)
  {
    var d := IntToString(status);
    ParseIntOfIntToString(status);
    Framed(ErrorLead, d, ")");
  }

  const ErrorLead: string := "wordpress APIエラー ("

  /** What one entry of an `errors` list contributes: a dict's truthy
      `message`, prefixed with its `field` when that is truthy; a string
      as it is, even when empty; nothing otherwise. */
  function EntryMessage(e: Value): (r: Option<Value>)
    ensures r.Some? ==> e.VStr? || e.VDict?
    ensures e.VStr? ==> r == Some(e)
  {
    match e
    case VDict(d) =>
      var message := GetOr(d, "message", VStr(""));
      var field := GetOr(d, "field", VStr(""));
      if !Truthy(message) then None
      else if Truthy(field) then Some(VStr(Str(field) + ": " + Str(message)))
      else Some(message)
    case VStr(_) => Some(e)
    case _ => None
  }

  /** The messages collected from the first five entries of a JSON
      object's `errors` list; none when the body is not such an object. */
  function ListedMessages(data: Option<Value>): (r: seq<Value>)
    ensures |r| <= MaxErrorEntries
  {
    if data.Some? && data.value.VDict? && Get(data.value.entries, "errors").VList? then
      FilterMap(EntryMessage, Take(Get(data.value.entries, "errors").items, MaxErrorEntries))
    else []
  }

  /** Each collected message sanitized; sanitizing anything but a string
      raises `TypeError`. */
  function SanitizeAll(msgs: seq<Value>): (r: Result<seq<string>, Exc>)
    ensures r.Ok? <==> forall i | 0 <= i < |msgs| :: msgs[i].VStr?
    ensures r.Ok? ==> |r.value| == |msgs| && forall i | 0 <= i < |msgs| :: r.value[i] == SanitizeMail(msgs[i].s)
    ensures r.Err? ==> r.error.TypeError?
  {
    if |msgs| == 0 then Ok([])
    else if !msgs[0].VStr? then Err(TypeError("expected string or bytes-like object, got '" + TypeName(msgs[0]) + "'"))
    else
      var rest :- SanitizeAll(msgs[1..]);
      Ok([SanitizeMail(msgs[0].s)] + rest)
  }

  /** The `message`, else `error`, of a JSON object, when that is a string. */
  function MessageField(data: Option<Value>): Option<string> {
    if data.Some? && data.value.VDict? then
      var m := Or(Get(data.value.entries, "message"), Get(data.value.entries, "error"));
      if m.VStr? then Some(m.s) else None
    else None
  }

  /** `_extract_error_message`: the collected `errors` messages, else the
      `message`/`error` string, else the first 500 characters of the body,
      each sanitized after the status prefix; the bare prefix for an empty
      body. `parse` is `response.json()`, `None` where it raises. */
  function MailErrorMessage(response: Response, parse: string -> Option<Value>): (r: Result<string, Exc>)
    ensures r.Ok? ==> StartsWith(r.value, ErrorHead(response.status))
    ensures r.Err? <==> exists i :: 0 <= i < |ListedMessages(parse(response.text))| && !ListedMessages(parse(response.text))[i].VStr?
    ensures r.Err? ==> r.error.TypeError?
  {
    var head := ErrorHead(response.status);
    var data := parse(response.text);
    var listed := ListedMessages(data);
    if |listed| > 0 then
      var clean :- SanitizeAll(listed);
      Ok(head + ": " + Join("; ", clean))
    else if MessageField(data).Some? then
      Ok(head + ": " + SanitizeMail(MessageField(data).value))
    else if |response.text| > 0 then
      Ok(head + ": " + SanitizeMail(Take(response.text, MaxBodyPreview)))
    else Ok(head)
  }

  /** Sanitized text is at most this long. */
  const MaxSanitized: nat := MaxLogLength + |TruncationMarker|

  /** `sep.join` of pieces no longer than `m` is no longer than
      `|parts| * (m + |sep|)`. */
  lemma {:induction false} JoinBounded(sep: string, parts: seq<string>, m: nat)
    requires forall i | 0 <= i < |parts| :: |parts[i]| <= m
    ensures |Join(sep, parts)| <= |parts| * (m + |sep|)
  {
    if |parts| > 1 {
      JoinBounded(sep, parts[1..], m);
    }
  }

  /** However long the reply, the error message stays short: the prefix
      plus at most five sanitized, truncated pieces. */
  lemma MailErrorMessageBounded(response: Response, parse: string -> Option<Value>)
    requires MailErrorMessage(response, parse).Ok?
    ensures |MailErrorMessage(response, parse).value|
      <= |ErrorHead(response.status)| + 2 + MaxErrorEntries * (MaxSanitized + 2)
  {
    var head := ErrorHead(response.status);
    var data := parse(response.text);
    var listed := ListedMessages(data);
    var m := MailErrorMessage(response, parse).value;
    if |listed| > 0 {
      var clean := SanitizeAll(listed).value;
      forall i | 0 <= i < |clean| ensures |clean[i]| <= MaxSanitized {
        SanitizeMailGuarantees(listed[i].s);
      }
      JoinedBounded(clean);
      assert m == head + ": " + Join("; ", clean);
    } else if MessageField(data).Some? {
      SanitizeMailGuarantees(MessageField(data).value);
      assert m == head + ": " + SanitizeMail(MessageField(data).value);
    } else {
      SanitizeMailGuarantees(Take(response.text, MaxBodyPreview));
      assert |m| <= |head| + 2 + MaxSanitized;
    }
  }

  /** At most five sanitized pieces joined with `; ` stay short. */
  lemma JoinedBounded(clean: seq<string>)
    requires |clean| <= MaxErrorEntries
    requires forall i | 0 <= i < |clean| :: |clean[i]| <= MaxSanitized
    ensures |Join("; ", clean)| <= MaxErrorEntries * (MaxSanitized + 2)
  {
    JoinBounded("; ", clean, MaxSanitized);
    assert |clean| * (MaxSanitized + 2) <= MaxErrorEntries * (MaxSanitized + 2);
  }

  /** Only the first five entries of `errors` are read: what follows them
      never changes the message. */
  lemma ErrorsAfterFifthIgnored(response: Response, parse1: string -> Option<Value>, parse2: string -> Option<Value>,
                                d1: Dict, d2: Dict, items: seq<Value>, more: seq<Value>)
    requires |items| >= MaxErrorEntries
    requires parse1(response.text) == Some(VDict(d1)) && parse2(response.text) == Some(VDict(d2))
    requires Get(d1, "errors") == VList(items) && Get(d2, "errors") == VList(items + more)
    requires Get(d1, "message") == Get(d2, "message") && Get(d1, "error") == Get(d2, "error")
    ensures MailErrorMessage(response, parse1) == MailErrorMessage(response, parse2)
  {
    assert Take(items + more, MaxErrorEntries) == Take(items, MaxErrorEntries);
  }

  /** A body that is not JSON is quoted, sanitized, up to 500 characters. */
  lemma NonJsonBodyQuoted(response: Response, parse: string -> Option<Value>)
    requires parse(response.text).None? && |response.text| > 0
    ensures MailErrorMessage(response, parse)
      == Ok(ErrorHead(response.status) + ": " + SanitizeMail(Take(response.text, MaxBodyPreview)))
  {
  }

  // ---- Requests ------------------------------------------------------------

  /** A request as handed to the session: method, URL, headers and body. */
  datatype Request = Request(verb: string, url: string, headers: Dict, body: Value)

  /** The headers `_request` sends: the caller's, plus a bearer
      `Authorization` and a JSON `Content-Type` unless the caller set them. */
  function MailHeaders(given: Dict, apiKey: Value): (h: Dict)
    ensures Lookup(h, VStr("Authorization")) == Some(Lookup(given, VStr("Authorization")).GetOr(VStr("Bearer " + Str(apiKey))))
    ensures Lookup(h, VStr("Content-Type")) == Some(Lookup(given, VStr("Content-Type")).GetOr(VStr("application/json")))
    ensures forall k | k != VStr("Authorization") && k != VStr("Content-Type") :: Lookup(h, k) == Lookup(given, k)
  {
    SetDefault(SetDefault(given, "Authorization", VStr("Bearer " + Str(apiKey))), "Content-Type", VStr("application/json"))
  }

  /** How the client reports the end of the retry loop: a reply below 400
      is returned; a refusal raises the client error with the status, the
      extracted message and the sanitized body; a transport failure (or a
      loop that never ran, whose last error is `None`) raises it without a
      status; the `OverflowError` of `time.sleep` escapes as it is. */
  function MailOutcome(o: Outcome, parse: string -> Option<Value>): (r: Result<Response, Exc>)
    ensures r.Ok? <==> o.Delivered?
    ensures r.Ok? ==> r.value == o.response
    ensures o.Refused? ==> r.Err? && (r.error.TypeError? || r.error.HttpError?)
    ensures o.Refused? && r.error.HttpError? ==>
      && r.error.status == Some(o.response.status)
      && StartsWith(r.error.msg, ErrorHead(o.response.status))
      && r.error.body == Some(SanitizeMail(o.response.text))
    ensures o.TransportFailed? ==> r == Err(HttpError(None, FailurePrefix + SanitizeMail(o.msg), None))
    ensures o.NoAttempt? ==> r == Err(HttpError(None, FailurePrefix + SanitizeMail("None"), None))
    ensures o.SleepFailed? ==> r == Err(OverflowError(o.msg))
  {
    match o
    case Delivered(response) => Ok(response)
    case Refused(response) =>
      var message :- MailErrorMessage(response, parse);
      Err(HttpError(Some(response.status), message, Some(SanitizeMail(response.text))))
    case TransportFailed(msg) => Err(HttpError(None, FailurePrefix + SanitizeMail(msg), None))
    case NoAttempt => Err(HttpError(None, FailurePrefix + SanitizeMail("None"), None))
    case SleepFailed(msg) => Err(OverflowError(msg))
  }

  /** What one call of `_request` does: the request it sends, the seconds
      it sleeps, and its return value or exception. The network is the
      `server` oracle. */
  function MailRequest(client: Client, verb: string, path: string, body: Value, headers: Dict,
                       server: nat -> Attempt, parse: string -> Option<Value>): (r: (Request, seq<nat>, Result<Response, Exc>))
    ensures r.0 == Request(verb, client.baseUrl + path, MailHeaders(headers, client.apiKey), body)
  {
    var run := Loop(client.maxRetries, server);
    (Request(verb, client.baseUrl + path, MailHeaders(headers, client.apiKey), body), run.0, MailOutcome(run.1, parse))
  }

  /** With a non-negative budget, `_request` returns exactly the first
      reply below 400 that ends the loop, and otherwise raises: with the
      status of the refusing reply, or without one after a transport
      failure, or with the `OverflowError` of a wait `time.sleep` cannot
      take: a 429's `Retry-After`, or `2**attempt` from attempt 34 on. */
  lemma MailRequestOutcome(client: Client, verb: string, path: string, body: Value, headers: Dict,
                           server: nat -> Attempt, parse: string -> Option<Value>)
    requires client.maxRetries >= 0
    ensures var r := MailRequest(client, verb, path, body, headers, server, parse);
      var last := server(|r.1|);
      && |r.1| <= client.maxRetries
      && (r.2.Ok? <==> last.Reply? && last.response.status < 400)
      && (r.2.Ok? ==> r.2.value == last.response)
      && (r.2.Err? && r.2.error.HttpError? && r.2.error.status.Some? ==>
            last.Reply? && r.2.error.status.value == last.response.status && last.response.status >= 400)
      && (r.2.Err? && r.2.error.HttpError? && r.2.error.status.None? ==> last.Transport?)
      && (r.2 == Err(OverflowError(SleepOverflowMessage)) <==>
            |r.1| < client.maxRetries && Retryable(last) && Backoff(last, |r.1|).None?)
  {
    LoopOutcome(client.maxRetries, server);
    var run := Loop(client.maxRetries, server);
    MailOutcomeOf(run.1, server(|run.0|), parse);
  }

  /** What `_request` returns or raises, for an outcome decided by `last` or
      ended by a sleep that overflowed after a retryable `last`. */
  lemma MailOutcomeOf(o: Outcome, last: Attempt, parse: string -> Option<Value>)
    requires o.SleepFailed? ==> Retryable(last) && o == SleepFailed(SleepOverflowMessage)
    requires !o.SleepFailed? ==> o == Decide(last)
    ensures var r := MailOutcome(o, parse);
      && (r.Ok? <==> last.Reply? && last.response.status < 400)
      && (r.Ok? ==> r.value == last.response)
      && (r.Err? && r.error.HttpError? && r.error.status.Some? ==>
            last.Reply? && r.error.status.value == last.response.status && last.response.status >= 400)
      && (r.Err? && r.error.HttpError? && r.error.status.None? ==> last.Transport?)
      && (r == Err(OverflowError(SleepOverflowMessage)) <==> o.SleepFailed?)
  {
  }

  // ---- Sending -------------------------------------------------------------

  /** `headers.get("X-Message-Id", "")`, else an id from the clock. */
  function MessageId(response: Response, now: int): (id: string)
    ensures |id| > 0
    ensures var h := HeaderGet(response.headers, "X-Message-Id");
      h.Some? && |h.value| > 0 ==> id == h.value
  {
    var h := HeaderGet(response.headers, "X-Message-Id").GetOr("");
    if |h| > 0 then h else "msg_" + IntToString(now)
  }

  /** Without a message id header, the id carries the clock reading, which
      reads back from it. */
  lemma MessageIdFromClock(response: Response, now: int)
    requires HeaderGet(response.headers, "X-Message-Id").GetOr("") == ""
    ensures StartsWith(MessageId(response, now), "msg_")
    ensures ParseInt(MessageId(response, now)[4..]) == Some(now)
  {
    var id := MessageId(response, now);
    assert id[4..] == IntToString(now);
    ParseIntOfIntToString(now);
  }

  /** The result of `send_transactional_email`: the request sent (none when
      the payload is rejected first), the seconds slept, and the message id
      or the exception. */
  datatype Sent = Sent(request: Option<Request>, delays: seq<nat>, result: Result<string, Exc>)

  /** The masked copy of a converted payload, which is dumped to the debug
      log outside any `try`. */
  function LogCopy(converted: Dict): (q: Dict)
    requires WellFormedMail(converted)
    ensures MaskSensitive(converted) == Ok(q) && MaskedPayload(q)
  {
    MaskConverted(converted);
    MaskSensitive(converted).value
  }

  /** The `TypeError` that stops a converted payload before anything is
      sent: first from dumping the log copy, then from `requests`
      serializing the body. */
  function SerializeError(converted: Dict): (e: Option<string>)
    requires WellFormedMail(converted)
    ensures e.None? <==> JsonDumpable(VDict(converted))
  {
    DumpErrorExactly(VDict(LogCopy(converted)));
    LogCopyDumpable(converted);
    DumpErrorExactly(VDict(converted));
    if DumpError(VDict(LogCopy(converted))).Some? then DumpError(VDict(LogCopy(converted)))
    else DumpError(VDict(converted))
  }

  /** The log copy of a payload `json.dumps` accepts is accepted too. */
  lemma LogCopyDumpable(converted: Dict)
    requires WellFormedMail(converted)
    ensures JsonDumpable(VDict(converted)) ==> JsonDumpable(VDict(LogCopy(converted)))
  {
    var q := LogCopy(converted);
    if JsonDumpable(VDict(converted)) {
      MaskKeepsDumpable(converted);
    }
  }

  /** `send_transactional_email` without attachments: convert, dump the
      masked copy for the log, then POST the payload to `/mail/send` and
      return the message id. A value `json.dumps` refuses (bytes in the
      subject, a body part, the custom headers or an address) raises
      `TypeError` before any request; the log output itself is not
      modelled. */
  function SendTransactional(client: Client, payload: Dict, server: nat -> Attempt,
                             parse: string -> Option<Value>, now: int): (r: Sent)
    ensures !HasValidTo(payload) ==> r == Sent(None, [], r.result) && r.result.Err? && r.result.error.ValueError?
    ensures HasValidTo(payload) ==>
      (r.request.Some? <==> JsonDumpable(VDict(ConvertPayload(payload).value)))
    ensures r.request.None? ==> r.delays == [] && r.result.Err?
    ensures HasValidTo(payload) && r.request.None? ==> r.result == Err(TypeError(SerializeError(ConvertPayload(payload).value).value))
    ensures r.request.Some? ==>
      && r.request.value.verb == "POST"
      && r.request.value.url == client.baseUrl + SendPath
      && r.request.value.body == VDict(ConvertPayload(payload).value)
      && WellFormedMail(r.request.value.body.entries) && JsonDumpable(r.request.value.body)
    ensures r.result.Ok? ==> |r.result.value| > 0
  {
    match ConvertPayload(payload)
    case Err(e) => Sent(None, [], Err(e))
    case Ok(converted) =>
      match SerializeError(converted)
      case Some(msg) => Sent(None, [], Err(TypeError(msg)))
      case None => Post(client, converted, server, parse, now)
  }

  /** Posting a converted payload: the request made, the seconds slept,
      and the message id or the exception. */
  function Post(client: Client, converted: Dict, server: nat -> Attempt,
                parse: string -> Option<Value>, now: int): (r: Sent)
    ensures r.request == Some(Request("POST", client.baseUrl + SendPath, MailHeaders([], client.apiKey), VDict(converted)))
    ensures r.result.Ok? ==> |r.result.value| > 0
  {
    var call := MailRequest(client, "POST", SendPath, VDict(converted), [], server, parse);
    Sent(Some(call.0), call.1, MessageResult(call.2, now))
  }

  /** The message id of a delivered reply; an exception passes through. */
  function MessageResult(reply: Result<Response, Exc>, now: int): (r: Result<string, Exc>)
    ensures r.Ok? <==> reply.Ok?
    ensures r.Ok? ==> r.value == MessageId(reply.value, now) && |r.value| > 0
    ensures r.Err? ==> r.error == reply.error
  {
    match reply
    case Ok(response) => Ok(MessageId(response, now))
    case Err(e) => Err(e)
  }

  /** Once the request is sent, the call returns a message id exactly when
      the retry loop ends on a reply below 400, and that id is the reply's
      `X-Message-Id` or, without one, the clock-based id. */
  lemma SendOutcome(client: Client, payload: Dict, server: nat -> Attempt,
                    parse: string -> Option<Value>, now: int)
    requires client.maxRetries >= 0
    ensures var r := SendTransactional(client, payload, server, parse, now);
      r.request.Some? ==>
        var last := server(|r.delays|);
        && |r.delays| <= client.maxRetries
        && (r.result.Ok? <==> last.Reply? && last.response.status < 400)
        && (r.result.Ok? ==> r.result.value == MessageId(last.response, now))
  {
    var r := SendTransactional(client, payload, server, parse, now);
    if r.request.Some? {
      var converted := ConvertPayload(payload).value;
      MailRequestOutcome(client, "POST", SendPath, VDict(converted), [], server, parse);
    }
  }
}

=== FILE: media_tools.dfy ===
/** The media tools (`tools/update_media.py`, `tools/upload_media.py`,
    `tools/delete_media.py`). The upload resolves its file with the file
    resolver and removes any temporary copy afterwards, whatever happened in
    between. */
module MediaTools {
  import opened Wrappers
  import opened Text
  import opened Py
  import opened Validators
  import opened ToolBase
  import opened Files
  import opened Resolver

  const MediaNothingToUpdate: string := "更新する項目（title, caption, alt_text, description）を少なくとも1つ指定してください"
  const FileRequired: string := "ファイルを指定してください"
  const UploadedPrefix: string := "WordPressにメディアをアップロードしました (ID: "

  // ---- update_media ----------------------------------------------------------

  /** A text field of `update_media`: `x.strip() if x else ""` whenever it is
      not `None`, so a falsy value clears the field and a truthy value that is
      not a string has no `strip`. */
  function MediaText(v: Value): (r: Result<Option<Value>, Exc>)
    ensures v == VNone ==> r == Ok(None)
    ensures v != VNone && !Truthy(v) ==> r == Ok(Some(VStr("")))
    ensures Truthy(v) ==> (r.Ok? <==> v.VStr?)
    ensures Truthy(v) && v.VStr? ==> r == Ok(Some(VStr(Strip(v.s))))
    ensures r.Err? ==> r.error == NoAttribute(v, "strip")
  {
    if v == VNone then Ok(None)
    else if !Truthy(v) then Ok(Some(VStr("")))
    else if v.VStr? then Ok(Some(VStr(Strip(v.s))))
    else Err(NoAttribute(v, "strip"))
  }

  function MediaFields(title: Option<Value>, caption: Option<Value>, altText: Option<Value>, description: Option<Value>): seq<Field> {
    [("title", title), ("caption", caption), ("alt_text", altText), ("description", description)]
  }

  lemma MediaReads(title: Option<Value>, caption: Option<Value>, altText: Option<Value>, description: Option<Value>)
    ensures var d := Payload(MediaFields(title, caption, altText, description));
      && Lookup(d, VStr("title")) == title && Lookup(d, VStr("caption")) == caption
      && Lookup(d, VStr("alt_text")) == altText && Lookup(d, VStr("description")) == description
      && (d == [] <==> title.None? && caption.None? && altText.None? && description.None?)
  {
    var fields := MediaFields(title, caption, altText, description);
    assert DistinctKeys(fields);
    assert fields[0].1 == title && fields[1].1 == caption && fields[2].1 == altText && fields[3].1 == description;
    PayloadLookup(fields, 0);
    PayloadLookup(fields, 1);
    PayloadLookup(fields, 2);
    PayloadLookup(fields, 3);
  }

  predicate MediaTextsValid(params: Dict) {
    && MediaText(Get(params, "title")).Ok?
    && MediaText(Get(params, "caption")).Ok?
    && MediaText(Get(params, "alt_text")).Ok?
    && MediaText(Get(params, "description")).Ok?
  }

  /** `update_media`: the id (a post id), then the four text fields in
      order; an update with all four `None` fails. */
  function UpdateMedia(params: Dict): (r: Result<Update, Exc>)
    ensures r.Ok? <==>
      && ValidateId(PostId, Get(params, "id")).Ok? && MediaTextsValid(params)
      && (Get(params, "title") != VNone || Get(params, "caption") != VNone
          || Get(params, "alt_text") != VNone || Get(params, "description") != VNone)
    ensures r.Ok? ==> r.value == Update(ToInt(Get(params, "id")).value, Payload(MediaFields(
      MediaText(Get(params, "title")).value, MediaText(Get(params, "caption")).value,
      MediaText(Get(params, "alt_text")).value, MediaText(Get(params, "description")).value)))
  {
    var id :- ValidateId(PostId, Get(params, "id"));
    var title :- MediaText(Get(params, "title"));
    var caption :- MediaText(Get(params, "caption"));
    var altText :- MediaText(Get(params, "alt_text"));
    var description :- MediaText(Get(params, "description"));
    MediaReads(title, caption, altText, description);
    var data := Payload(MediaFields(title, caption, altText, description));
    if data == [] then Err(ValueError(MediaNothingToUpdate)) else Ok(Update(id, data))
  }

  /** A stripped string, or nothing. */
  predicate StrippedText(v: Option<Value>) {
    v.Some? ==> v.value.VStr? && Strip(v.value.s) == v.value.s
  }

  /** What the media text rule yields is stripped. */
  lemma MediaTextStripped(v: Value)
    requires MediaText(v).Ok?
    ensures StrippedText(MediaText(v).value)
  {
    if Truthy(v) {
      StripStripped(v.s);
    }
  }

  /** A stripped string passes the media text rule unchanged. */
  lemma MediaTextStable(v: Option<Value>)
    requires StrippedText(v)
    ensures MediaText(v.GetOr(VNone)) == Ok(v)
  {
  }

  lemma MediaFieldsBack(id: int, title: Option<Value>, caption: Option<Value>, altText: Option<Value>, description: Option<Value>)
    ensures var u := Addressed(id, Payload(MediaFields(title, caption, altText, description)));
      && Get(u, "id") == VInt(id)
      && Get(u, "title") == title.GetOr(VNone) && Get(u, "caption") == caption.GetOr(VNone)
      && Get(u, "alt_text") == altText.GetOr(VNone) && Get(u, "description") == description.GetOr(VNone)
  {
    var d := Payload(MediaFields(title, caption, altText, description));
    MediaReads(title, caption, altText, description);
    AddressedGet(id, d, "title");
    AddressedGet(id, d, "caption");
    AddressedGet(id, d, "alt_text");
    AddressedGet(id, d, "description");
  }

  /** `update_media` on parameters whose fields are already stripped. */
  lemma UpdateMediaOf(u: Dict, id: int, title: Option<Value>, caption: Option<Value>, altText: Option<Value>, description: Option<Value>)
    requires Get(u, "id") == VInt(id) && id > 0
    requires MediaText(Get(u, "title")) == Ok(title) && MediaText(Get(u, "caption")) == Ok(caption)
    requires MediaText(Get(u, "alt_text")) == Ok(altText) && MediaText(Get(u, "description")) == Ok(description)
    requires title.Some? || caption.Some? || altText.Some? || description.Some?
    ensures UpdateMedia(u) == Ok(Update(id, Payload(MediaFields(title, caption, altText, description))))
  {
    assert ValidateId(PostId, Get(u, "id")) == Ok(id);
    MediaReads(title, caption, altText, description);
  }

  /** What `update_media` sends is already normal: the same fields given
      back to it with any valid id are sent again unchanged. */
  lemma UpdateMediaIdempotent(params: Dict, id: int)
    requires UpdateMedia(params).Ok? && id > 0
    ensures var sent := UpdateMedia(params).value.data;
      UpdateMedia(Addressed(id, sent)) == Ok(Update(id, sent))
  {
    var title, caption := MediaText(Get(params, "title")).value, MediaText(Get(params, "caption")).value;
    var altText, description := MediaText(Get(params, "alt_text")).value, MediaText(Get(params, "description")).value;
    MediaReads(title, caption, altText, description);
    MediaFieldsBack(id, title, caption, altText, description);
    MediaTextStripped(Get(params, "title"));
    MediaTextStripped(Get(params, "caption"));
    MediaTextStripped(Get(params, "alt_text"));
    MediaTextStripped(Get(params, "description"));
    MediaTextStable(title);
    MediaTextStable(caption);
    MediaTextStable(altText);
    MediaTextStable(description);
    UpdateMediaOf(Addressed(id, Payload(MediaFields(title, caption, altText, description))), id, title, caption, altText, description);
  }

  // ---- upload_media ----------------------------------------------------------

  /** A text field of `upload_media`: `x.strip()`, but only when truthy. */
  function UploadText(v: Value): (r: Result<Option<Value>, Exc>)
    ensures !Truthy(v) ==> r == Ok(None)
    ensures Truthy(v) ==> (r.Ok? <==> v.VStr?)
    ensures Truthy(v) && v.VStr? ==> r == Ok(Some(VStr(Strip(v.s))))
    ensures r.Err? ==> r.error == NoAttribute(v, "strip")
  {
    if !Truthy(v) then Ok(None)
    else if v.VStr? then Ok(Some(VStr(Strip(v.s))))
    else Err(NoAttribute(v, "strip"))
  }

  /** The form data sent with the file; `None` when it would be empty. */
  function UploadData(params: Dict): (r: Result<Option<Dict>, Exc>)
    ensures r.Ok? <==>
      && UploadText(Get(params, "title")).Ok? && UploadText(Get(params, "caption")).Ok?
      && UploadText(Get(params, "alt_text")).Ok? && UploadText(Get(params, "description")).Ok?
    ensures r.Ok? ==> (r.value.None? <==>
      !Truthy(Get(params, "title")) && !Truthy(Get(params, "caption"))
      && !Truthy(Get(params, "alt_text")) && !Truthy(Get(params, "description")))
    ensures r.Ok? && r.value.Some? ==> r.value.value == Payload(MediaFields(
      UploadText(Get(params, "title")).value, UploadText(Get(params, "caption")).value,
      UploadText(Get(params, "alt_text")).value, UploadText(Get(params, "description")).value))
  {
    var title :- UploadText(Get(params, "title"));
    var caption :- UploadText(Get(params, "caption"));
    var altText :- UploadText(Get(params, "alt_text"));
    var description :- UploadText(Get(params, "description"));
    MediaReads(title, caption, altText, description);
    var data := Payload(MediaFields(title, caption, altText, description));
    Ok(if data == [] then None else Some(data))
  }

  /** What the upload text rule yields is stripped. */
  lemma UploadTextStripped(v: Value)
    requires UploadText(v).Ok?
    ensures StrippedText(UploadText(v).value)
  {
    if Truthy(v) {
      StripStripped(v.s);
    }
  }

  /** The form data an upload sends, given to `update_media` with any valid
      id, is sent again unchanged: both tools normalize the same way. */
  lemma UploadedFieldsUpdate(params: Dict, id: int)
    requires UploadData(params).Ok? && UploadData(params).value.Some? && id > 0
    ensures var sent := UploadData(params).value.value;
      UpdateMedia(Addressed(id, sent)) == Ok(Update(id, sent))
  {
    var title, caption := UploadText(Get(params, "title")).value, UploadText(Get(params, "caption")).value;
    var altText, description := UploadText(Get(params, "alt_text")).value, UploadText(Get(params, "description")).value;
    MediaReads(title, caption, altText, description);
    MediaFieldsBack(id, title, caption, altText, description);
    UploadTextStripped(Get(params, "title"));
    UploadTextStripped(Get(params, "caption"));
    UploadTextStripped(Get(params, "alt_text"));
    UploadTextStripped(Get(params, "description"));
    MediaTextStable(title);
    MediaTextStable(caption);
    MediaTextStable(altText);
    MediaTextStable(description);
    UpdateMediaOf(Addressed(id, Payload(MediaFields(title, caption, altText, description))), id, title, caption, altText, description);
  }

  /** The result text of an upload: the id the server gave, and the URL when
      it has one. The reply's `title` must be a dict when present. */
  function UploadMessage(reply: Value): (r: Result<string, Exc>)
    ensures r.Ok? <==> reply.VDict? && GetOr(reply.entries, "title", VDict([])).VDict?
    ensures r.Ok? ==>
      var url := GetOr(reply.entries, "source_url", VStr(""));
      && (Truthy(url) ==> r.value == UploadedPrefix + Str(Get(reply.entries, "id")) + ")\nURL: " + Str(url))
      && (!Truthy(url) ==> r.value == UploadedPrefix + Str(Get(reply.entries, "id")) + ")")
  {
    if !reply.VDict? then Err(NoAttribute(reply, "get"))
    else
      var title := GetOr(reply.entries, "title", VDict([]));
      if !title.VDict? then Err(NoAttribute(title, "get"))
      else
        var url := GetOr(reply.entries, "source_url", VStr(""));
        var text := UploadedPrefix + Str(Get(reply.entries, "id")) + ")";
        Ok(if Truthy(url) then text + "\nURL: " + Str(url) else text)
  }

  /** The part of the upload between resolving the file and cleaning it up:
      the form data, the call (`upload` stands for the client's
      `upload_media`, which reads the file at the place it is given), and
      the reply. */
  function UploadResolved(place: Place, params: Dict, upload: (Place, Option<Dict>) -> Result<Value, Exc>): (r: Result<string, Exc>)
    ensures r.Ok? <==>
      && UploadData(params).Ok?
      && upload(place, UploadData(params).value).Ok?
      && UploadMessage(upload(place, UploadData(params).value).value).Ok?
  {
    var data :- UploadData(params);
    var reply :- upload(place, data);
    UploadMessage(reply)
  }

  /** `upload_media`: a file is required; it is resolved (downloaded or
      decoded into a temporary file when need be), uploaded, and the
      temporary copy removed in every case. */
  function UploadMedia(fs: Fs, env: Env, params: Dict, upload: (Place, Option<Dict>) -> Result<Value, Exc>): (r: (Fs, Result<string, Exc>))
    requires WellFormed(fs)
    ensures r.0.files == fs.files
    ensures !Truthy(Get(params, "file")) ==> r == (fs, Err(ValueError(FileRequired)))
    ensures Truthy(Get(params, "file")) ==> (r.1.Ok? <==>
      var resolved := ResolveFiles(fs, env, [Get(params, "file")]).1;
      resolved.Ok? && UploadResolved(resolved.value[0].place, params, upload).Ok?)
  {
    var file := Get(params, "file");
    if !Truthy(file) then (fs, Err(ValueError(FileRequired)))
    else
      var (fs1, resolved) := ResolveFiles(fs, env, [file]);
      match resolved
      case Err(e) =>
        SingleFailureLeavesNothing(fs, env, file);
        (fs1, Err(e))
      case Ok(rs) =>
        ResolveThenCleanup(fs, env, [file]);
        assert rs == [rs[0]];
        (CleanupFiles(fs1, [rs[0]]), UploadResolved(rs[0].place, params, upload))
  }

  /** The upload sends the server exactly the resolved file: inline content
      and downloads arrive as a fresh temporary file, a local path as
      itself. */
  lemma UploadSendsResolved(fs: Fs, env: Env, params: Dict, upload: (Place, Option<Dict>) -> Result<Value, Exc>)
    requires WellFormed(fs) && Truthy(Get(params, "file"))
    requires ResolveFiles(fs, env, [Get(params, "file")]).1.Ok?
    ensures var (fs1, rs) := ResolveFiles(fs, env, [Get(params, "file")]);
      && rs.value[0].place in fs1.files
      && (rs.value[0].cleanup ==> rs.value[0].place.Temp? && rs.value[0].place !in fs.files)
      && (!rs.value[0].cleanup ==> rs.value[0].place in fs.files)
  {
    ResolveFilesAdded(fs, env, [Get(params, "file")]);
    var (fs1, rs) := ResolveFiles(fs, env, [Get(params, "file")]);
    if rs.value[0].cleanup {
      assert rs.value[0].place in Owned(rs.value);
    } else {
      assert rs.value[0].place !in Owned(rs.value);
    }
  }

  // ---- delete_media ----------------------------------------------------------

  /** `delete_media`: media ids are validated as post ids. */
  function DeleteMedia(params: Dict, server: Deletion -> Result<Value, Exc>): (r: (Option<Deletion>, Result<string, Exc>))
    ensures r.0.Some? <==> ValidateId(PostId, Get(params, "id")).Ok?
    ensures r.0.Some? ==> r.0.value == Deletion(ToInt(Get(params, "id")).value, NormalizeForce(GetOr(params, "force", VBool(false))))
    ensures r.1.Ok? ==> r.0.Some? && server(r.0.value).Ok? && r.1 == DeleteMessage("メディア", server(r.0.value).value)
  {
    DeleteTool(PostId, "メディア", params, server)
  }
}

=== FILE: post_tools.dfy ===
/** The post and page tools (`tools/update_post.py`, `tools/update_page.py`,
    `tools/create_page.py`, `tools/get_posts.py`, `tools/delete_post.py`,
    `tools/delete_page.py`): how their parameters become the request sent
    to the REST API, and which parameters make them fail before anything is
    sent. */
module PostTools {
  import opened Wrappers
  import opened Text
  import opened Py
  import opened Validators
  import opened ToolBase

  const PostNothingToUpdate: string :=
    "更新する項目（title, content, status, featured_media, categories, tags）を少なくとも1つ指定してください"
  const PageNothingToUpdate: string :=
    "更新する項目（title, content, status, featured_media, parent）を少なくとも1つ指定してください"
  const PostsMaxPerPage: int := 100

  // ---- Shared field rules ----------------------------------------------------

  /** An update's title: stripped and valid when given. */
  function UpdatedTitle(title: Value): (r: Result<Option<Value>, Exc>)
    ensures title == VNone ==> r == Ok(None)
    ensures title != VNone ==> (r.Ok? <==> title.VStr? && ValidatePostTitle(VStr(Strip(title.s))).Ok?)
    ensures r.Ok? && title != VNone ==> r.value == Some(VStr(Strip(title.s)))
  {
    if title == VNone then Ok(None)
    else if !title.VStr? then Err(NoAttribute(title, "strip"))
    else
      var stripped := Strip(title.s);
      var _ :- ValidatePostTitle(VStr(stripped));
      Ok(Some(VStr(stripped)))
  }

  /** A status, checked and sent as given, but only when truthy. */
  function CheckedStatus(status: Value): (r: Result<Option<Value>, Exc>)
    ensures r.Ok? <==> !Truthy(status) || ValidatePostStatus(status).Ok?
    ensures r.Ok? ==> r.value == WhenTruthy(status)
  {
    if !Truthy(status) then Ok(None)
    else
      var _ :- ValidatePostStatus(status);
      Ok(Some(status))
  }

  /** Category or tag ids an update sends whenever given, as a list of the
      normalized ids; `[]` is sent too. */
  function GivenTerms(t: Terms, v: Value): (r: Result<Option<Value>, Exc>)
    ensures v == VNone ==> r == Ok(None)
    ensures v != VNone ==> (r.Ok? <==> NormalizeIds(t, v).Ok?)
    ensures v != VNone && r.Ok? ==> r.value == Some(VList(IdValues(NormalizeIds(t, v).value)))
  {
    if v == VNone then Ok(None)
    else
      var ids :- NormalizeIds(t, v);
      Ok(Some(VList(IdValues(ids))))
  }

  // ---- update_post -----------------------------------------------------------

  function UpdatePostFields(params: Dict, title: Option<Value>, status: Option<Value>,
                            categories: Option<Value>, tags: Option<Value>): seq<Field> {
    [("title", title), ("content", Given(Get(params, "content"))), ("status", status),
     ("featured_media", ClearableId(Get(params, "featured_media"))), ("categories", categories), ("tags", tags)]
  }

  /** Every parameter `update_post` checks passes. */
  predicate PostUpdateValid(params: Dict) {
    && ValidateId(PostId, Get(params, "id")).Ok?
    && UpdatedTitle(Get(params, "title")).Ok?
    && (!Truthy(Get(params, "status")) || ValidatePostStatus(Get(params, "status")).Ok?)
    && (Get(params, "categories") == VNone || NormalizeIds(Categories, Get(params, "categories")).Ok?)
    && (Get(params, "tags") == VNone || NormalizeIds(Tags, Get(params, "tags")).Ok?)
  }

  /** Something to change: a title, content, a truthy status, a featured
      image id of at least 0, or category or tag ids. */
  predicate PostUpdateNonEmpty(params: Dict) {
    || Get(params, "title") != VNone
    || Get(params, "content") != VNone
    || Truthy(Get(params, "status"))
    || ClearableId(Get(params, "featured_media")).Some?
    || Get(params, "categories") != VNone
    || Get(params, "tags") != VNone
  }

  /** `update_post`: the id, title, status, categories and tags are checked
      in that order; an update with nothing to change fails. */
  function UpdatePost(params: Dict): (r: Result<Update, Exc>)
    ensures r.Ok? <==> PostUpdateValid(params) && PostUpdateNonEmpty(params)
    ensures PostUpdateValid(params) && !PostUpdateNonEmpty(params) ==> r == Err(ValueError(PostNothingToUpdate))
    ensures r.Ok? ==> r.value.id == ToInt(Get(params, "id")).value > 0
  {
    var id :- ValidateId(PostId, Get(params, "id"));
    var title :- UpdatedTitle(Get(params, "title"));
    var status :- CheckedStatus(Get(params, "status"));
    var categories :- GivenTerms(Categories, Get(params, "categories"));
    var tags :- GivenTerms(Tags, Get(params, "tags"));
    var data := Payload(UpdatePostFields(params, title, status, categories, tags));
    UpdatePostNonEmpty(params, title, status, categories, tags);
    if data == [] then Err(ValueError(PostNothingToUpdate)) else Ok(Update(id, data))
  }

  /** The payload of `update_post` is empty exactly when nothing is given
      to change. */
  lemma UpdatePostNonEmpty(params: Dict, title: Option<Value>, status: Option<Value>, categories: Option<Value>, tags: Option<Value>)
    requires title.Some? <==> Get(params, "title") != VNone
    requires status.Some? <==> Truthy(Get(params, "status"))
    requires categories.Some? <==> Get(params, "categories") != VNone
    requires tags.Some? <==> Get(params, "tags") != VNone
    ensures Payload(UpdatePostFields(params, title, status, categories, tags)) != [] <==> PostUpdateNonEmpty(params)
  {
    var f := UpdatePostFields(params, title, status, categories, tags);
    assert f[0].1 == title && f[1].1 == Given(Get(params, "content")) && f[2].1 == status;
    assert f[3].1 == ClearableId(Get(params, "featured_media")) && f[4].1 == categories && f[5].1 == tags;
  }

  lemma UpdatePostReads(params: Dict, title: Option<Value>, status: Option<Value>, categories: Option<Value>, tags: Option<Value>)
    ensures var d := Payload(UpdatePostFields(params, title, status, categories, tags));
      && Lookup(d, VStr("title")) == title
      && Lookup(d, VStr("content")) == Given(Get(params, "content"))
      && Lookup(d, VStr("status")) == status
      && Lookup(d, VStr("featured_media")) == ClearableId(Get(params, "featured_media"))
      && Lookup(d, VStr("categories")) == categories
      && Lookup(d, VStr("tags")) == tags
  {
    var fields := UpdatePostFields(params, title, status, categories, tags);
    assert DistinctKeys(fields);
    PayloadLookup(fields, 0);
    PayloadLookup(fields, 1);
    PayloadLookup(fields, 2);
    PayloadLookup(fields, 3);
    PayloadLookup(fields, 4);
    PayloadLookup(fields, 5);
  }

  /** What an accepted `update_post` sends for its post fields: the
      stripped title and the content when given, the status when truthy,
      and a featured image id of at least 0. */
  lemma UpdatePostSends(params: Dict)
    requires UpdatePost(params).Ok?
    ensures var d, title := UpdatePost(params).value.data, Get(params, "title");
      && Lookup(d, VStr("title")) == (if title == VNone then None else Some(VStr(Strip(title.s))))
      && Lookup(d, VStr("content")) == Given(Get(params, "content"))
      && Lookup(d, VStr("status")) == WhenTruthy(Get(params, "status"))
      && Lookup(d, VStr("featured_media")) == ClearableId(Get(params, "featured_media"))
  {
    var title := UpdatedTitle(Get(params, "title")).value;
    var status := CheckedStatus(Get(params, "status")).value;
    var categories := GivenTerms(Categories, Get(params, "categories")).value;
    var tags := GivenTerms(Tags, Get(params, "tags")).value;
    UpdatePostReads(params, title, status, categories, tags);
  }

  /** What an accepted `update_post` sends for its terms: the normalized
      category and tag ids, as lists, whenever given. */
  lemma UpdatePostSendsTerms(params: Dict)
    requires UpdatePost(params).Ok?
    ensures var d := UpdatePost(params).value.data;
      && Lookup(d, VStr("categories")) ==
           (if Get(params, "categories") == VNone then None
            else Some(VList(IdValues(NormalizeIds(Categories, Get(params, "categories")).value))))
      && Lookup(d, VStr("tags")) ==
           (if Get(params, "tags") == VNone then None
            else Some(VList(IdValues(NormalizeIds(Tags, Get(params, "tags")).value))))
  {
    var title := UpdatedTitle(Get(params, "title")).value;
    var status := CheckedStatus(Get(params, "status")).value;
    var categories := GivenTerms(Categories, Get(params, "categories")).value;
    var tags := GivenTerms(Tags, Get(params, "tags")).value;
    UpdatePostReads(params, title, status, categories, tags);
  }

  /** Reading a two-entry dict with distinct keys. */
  lemma TwoEntries(a: string, va: Value, b: string, vb: Value, key: string)
    requires a != b
    ensures Get([(VStr(a), va), (VStr(b), vb)], key) == if key == a then va else if key == b then vb else VNone
  {
    var d := [(VStr(a), va), (VStr(b), vb)];
    var rest := [(VStr(b), vb)];
    assert d[1..] == rest && rest[1..] == [];
    if key != a {
      assert d[0].0 != VStr(key);
      assert Lookup(d, VStr(key)) == Lookup(rest, VStr(key));
      if key != b {
        assert rest[0].0 != VStr(key);
        assert Lookup(rest, VStr(key)) == Lookup(rest[1..], VStr(key)) == None;
      }
    }
  }

  /** A negative featured image id alone is no update: it is dropped
      silently, and the tool then has nothing to send. */
  lemma NegativeFeaturedMediaAlone(id: int, media: int)
    requires id > 0 && media < 0
    ensures UpdatePost([(VStr("id"), VInt(id)), (VStr("featured_media"), VInt(media))]) == Err(ValueError(PostNothingToUpdate))
  {
    var params := [(VStr("id"), VInt(id)), (VStr("featured_media"), VInt(media))];
    TwoEntries("id", VInt(id), "featured_media", VInt(media), "title");
    TwoEntries("id", VInt(id), "featured_media", VInt(media), "content");
    TwoEntries("id", VInt(id), "featured_media", VInt(media), "status");
    TwoEntries("id", VInt(id), "featured_media", VInt(media), "categories");
    TwoEntries("id", VInt(id), "featured_media", VInt(media), "tags");
    TwoEntries("id", VInt(id), "featured_media", VInt(media), "id");
    TwoEntries("id", VInt(id), "featured_media", VInt(media), "featured_media");
    assert PostUpdateValid(params);
    assert !PostUpdateNonEmpty(params);
  }

  // ---- update_page -----------------------------------------------------------

  function UpdatePageFields(params: Dict, title: Option<Value>, status: Option<Value>): seq<Field> {
    [("title", title), ("content", Given(Get(params, "content"))), ("status", status),
     ("featured_media", ClearableId(Get(params, "featured_media"))), ("parent", ClearableId(Get(params, "parent")))]
  }

  predicate PageUpdateValid(params: Dict) {
    && ValidateId(PostId, Get(params, "id")).Ok?
    && UpdatedTitle(Get(params, "title")).Ok?
    && (!Truthy(Get(params, "status")) || ValidatePostStatus(Get(params, "status")).Ok?)
  }

  /** Something to change: a title, content, a truthy status, or a featured
      image or parent id of at least 0. */
  predicate PageUpdateNonEmpty(params: Dict) {
    || Get(params, "title") != VNone
    || Get(params, "content") != VNone
    || Truthy(Get(params, "status"))
    || ClearableId(Get(params, "featured_media")).Some?
    || ClearableId(Get(params, "parent")).Some?
  }

  /** `update_page`: the id (a post id), title and status are checked; an
      update with nothing to change fails. */
  function UpdatePage(params: Dict): (r: Result<Update, Exc>)
    ensures r.Ok? <==> PageUpdateValid(params) && PageUpdateNonEmpty(params)
    ensures PageUpdateValid(params) && !PageUpdateNonEmpty(params) ==> r == Err(ValueError(PageNothingToUpdate))
    ensures r.Ok? ==> r.value.id == ToInt(Get(params, "id")).value > 0
  {
    var id :- ValidateId(PostId, Get(params, "id"));
    var title :- UpdatedTitle(Get(params, "title"));
    var status :- CheckedStatus(Get(params, "status"));
    var data := Payload(UpdatePageFields(params, title, status));
    UpdatePageNonEmpty(params, title, status);
    if data == [] then Err(ValueError(PageNothingToUpdate)) else Ok(Update(id, data))
  }

  /** The payload of `update_page` is empty exactly when nothing is given
      to change. */
  lemma UpdatePageNonEmpty(params: Dict, title: Option<Value>, status: Option<Value>)
    requires title.Some? <==> Get(params, "title") != VNone
    requires status.Some? <==> Truthy(Get(params, "status"))
    ensures Payload(UpdatePageFields(params, title, status)) != [] <==> PageUpdateNonEmpty(params)
  {
    var f := UpdatePageFields(params, title, status);
    assert f[0].1 == title && f[1].1 == Given(Get(params, "content")) && f[2].1 == status;
    assert f[3].1 == ClearableId(Get(params, "featured_media")) && f[4].1 == ClearableId(Get(params, "parent"));
  }

  lemma UpdatePageReads(params: Dict, title: Option<Value>, status: Option<Value>)
    ensures var d := Payload(UpdatePageFields(params, title, status));
      && Lookup(d, VStr("title")) == title
      && Lookup(d, VStr("content")) == Given(Get(params, "content"))
      && Lookup(d, VStr("status")) == status
      && Lookup(d, VStr("featured_media")) == ClearableId(Get(params, "featured_media"))
      && Lookup(d, VStr("parent")) == ClearableId(Get(params, "parent"))
  {
    var fields := UpdatePageFields(params, title, status);
    assert DistinctKeys(fields);
    PayloadLookup(fields, 0);
    PayloadLookup(fields, 1);
    PayloadLookup(fields, 2);
    PayloadLookup(fields, 3);
    PayloadLookup(fields, 4);
  }

  /** What an accepted `update_page` sends, field by field; a parent of 0
      detaches the page. */
  lemma UpdatePageSends(params: Dict)
    requires UpdatePage(params).Ok?
    ensures var d, title := UpdatePage(params).value.data, Get(params, "title");
      && Lookup(d, VStr("title")) == (if title == VNone then None else Some(VStr(Strip(title.s))))
      && Lookup(d, VStr("content")) == Given(Get(params, "content"))
      && Lookup(d, VStr("status")) == WhenTruthy(Get(params, "status"))
      && Lookup(d, VStr("featured_media")) == ClearableId(Get(params, "featured_media"))
      && Lookup(d, VStr("parent")) == ClearableId(Get(params, "parent"))
  {
    var title := UpdatedTitle(Get(params, "title")).value;
    var status := CheckedStatus(Get(params, "status")).value;
    UpdatePageReads(params, title, status);
  }

  // ---- create_page -----------------------------------------------------------

  datatype PageDraft = PageDraft(title: string, content: Value)

  /** The title and content `create_page` checks: `(title or "").strip()`
      must be a valid title and `content or ""` valid content. */
  function PageDraftOf(params: Dict): (r: Result<PageDraft, Exc>)
    ensures r.Ok? ==> ValidatePostTitle(VStr(r.value.title)).Ok? && r.value.title == Strip(r.value.title)
    ensures r.Ok? ==> r.value.content == Or(Get(params, "content"), VStr(""))
    ensures var title := StripOrEmpty(Get(params, "title"));
      r.Ok? <==> && title.Ok? && ValidatePostTitle(VStr(title.value)).Ok?
                 && ValidatePostContent(Or(Get(params, "content"), VStr(""))).Ok?
    ensures StripOrEmpty(Get(params, "title")).Err? ==> r.Err? && r.error.AttributeError?
    ensures r.Ok? ==> StripOrEmpty(Get(params, "title")) == Ok(r.value.title)
  {
    var title :- StripOrEmpty(Get(params, "title"));
    var content := Or(Get(params, "content"), VStr(""));
    var _ :- ValidatePostTitle(VStr(title));
    var _ :- ValidatePostContent(content);
    Ok(PageDraft(title, content))
  }

  function CreatePageFields(params: Dict, draft: PageDraft): seq<Field> {
    [("title", Some(VStr(draft.title))), ("content", Some(draft.content)), ("status", WhenTruthy(Get(params, "status"))),
     ("featured_media", PositiveId(Get(params, "featured_media"))), ("parent", PositiveId(Get(params, "parent")))]
  }

  lemma CreatePageReads(params: Dict, draft: PageDraft)
    ensures var d := Payload(CreatePageFields(params, draft));
      && Lookup(d, VStr("title")) == Some(VStr(draft.title))
      && Lookup(d, VStr("content")) == Some(draft.content)
      && Lookup(d, VStr("status")) == WhenTruthy(Get(params, "status"))
      && Lookup(d, VStr("featured_media")) == PositiveId(Get(params, "featured_media"))
      && Lookup(d, VStr("parent")) == PositiveId(Get(params, "parent"))
  {
    var fields := CreatePageFields(params, draft);
    assert DistinctKeys(fields);
    PayloadLookup(fields, 0);
    PayloadLookup(fields, 1);
    PayloadLookup(fields, 2);
    PayloadLookup(fields, 3);
    PayloadLookup(fields, 4);
  }

  /** `create_page`: a valid title and content, then a status checked when
      truthy; the title and content are always sent. */
  function CreatePage(params: Dict): (r: Result<Dict, Exc>)
    ensures r.Ok? <==> PageDraftOf(params).Ok? && (!Truthy(Get(params, "status")) || ValidatePostStatus(Get(params, "status")).Ok?)
    ensures r.Ok? ==> (StripOrEmpty(Get(params, "title")).Ok?
      && r.value == Payload(CreatePageFields(params, PageDraft(StripOrEmpty(Get(params, "title")).value, Or(Get(params, "content"), VStr(""))))))
  {
    var draft :- PageDraftOf(params);
    var _ :- CheckedStatus(Get(params, "status"));
    Ok(Payload(CreatePageFields(params, draft)))
  }

  /** What an accepted `create_page` sends: the stripped title and the
      content always, the status when truthy, and a featured image or
      parent id only when above 0. */
  lemma CreatePageSends(params: Dict)
    requires CreatePage(params).Ok?
    ensures var d := CreatePage(params).value;
      && Lookup(d, VStr("title")) == Some(VStr(StripOrEmpty(Get(params, "title")).value))
      && Lookup(d, VStr("content")) == Some(Or(Get(params, "content"), VStr("")))
      && Lookup(d, VStr("status")) == WhenTruthy(Get(params, "status"))
      && Lookup(d, VStr("featured_media")) == PositiveId(Get(params, "featured_media"))
      && Lookup(d, VStr("parent")) == PositiveId(Get(params, "parent"))
  {
    CreatePageReads(params, PageDraftOf(params).value);
  }

  // ---- get_posts -------------------------------------------------------------

  /** `",".join(str(i) for i in ids)` */
  function IdList(ids: seq<int>): (r: string)
    ensures r == "" <==> ids == []
    ensures forall i | 0 <= i < |ids| :: Contains(r, IntToString(ids[i]))
  {
    var parts := seq(|ids|, i requires 0 <= i < |ids| => IntToString(ids[i]));
    JoinContainsAll(",", parts);
    assert forall i | 0 <= i < |ids| :: parts[i] == IntToString(ids[i]);
    if |ids| > 0 then
      JoinStartsWith(",", parts);
      Join(",", parts)
    else ""
  }

  /** The comma-joined ids read back, piece by piece, as the same ids. */
  lemma IdListReadsBack(ids: seq<int>)
    requires |ids| > 0
    ensures var pieces := Split(IdList(ids), ',');
      |pieces| == |ids| && forall i | 0 <= i < |ids| :: ParseInt(pieces[i]) == Some(ids[i])
  {
    var parts := seq(|ids|, i requires 0 <= i < |ids| => IntToString(ids[i]));
    forall k | 0 <= k < |parts| ensures ',' !in parts[k] {
      IntToStringWithout(ids[k], ',');
    }
    SplitJoin(',', parts);
    forall i | 0 <= i < |ids| ensures ParseInt(parts[i]) == Some(ids[i]) {
      ParseIntOfIntToString(ids[i]);
    }
  }

  /** The filters of a listing: ids when the parameter is truthy, none
      otherwise. */
  function TruthyTerms(t: Terms, v: Value): (r: Result<seq<int>, Exc>)
    ensures !Truthy(v) ==> r == Ok([])
    ensures Truthy(v) ==> r == NormalizeIds(t, v)
  {
    if Truthy(v) then NormalizeIds(t, v) else Ok([])
  }

  function JoinedIds(ids: seq<int>): Option<Value> {
    if ids == [] then None else Some(VStr(IdList(ids)))
  }

  function GetPostsFields(params: Dict, perPage: int, page: int, search: Option<string>,
                          categories: seq<int>, tags: seq<int>): seq<Field> {
    [("per_page", Some(VInt(perPage))), ("page", Some(VInt(page))), ("search", SearchField(search)),
     ("status", WhenTruthy(Get(params, "status"))), ("categories", JoinedIds(categories)), ("tags", JoinedIds(tags))]
  }

  lemma GetPostsReads(params: Dict, perPage: int, page: int, search: Option<string>, categories: seq<int>, tags: seq<int>)
    ensures var d := Payload(GetPostsFields(params, perPage, page, search, categories, tags));
      && Lookup(d, VStr("per_page")) == Some(VInt(perPage))
      && Lookup(d, VStr("page")) == Some(VInt(page))
      && Lookup(d, VStr("search")) == SearchField(search)
      && Lookup(d, VStr("status")) == WhenTruthy(Get(params, "status"))
      && Lookup(d, VStr("categories")) == JoinedIds(categories)
      && Lookup(d, VStr("tags")) == JoinedIds(tags)
  {
    var fields := GetPostsFields(params, perPage, page, search, categories, tags);
    assert DistinctKeys(fields);
    PayloadLookup(fields, 0);
    PayloadLookup(fields, 1);
    PayloadLookup(fields, 2);
    PayloadLookup(fields, 3);
    PayloadLookup(fields, 4);
    PayloadLookup(fields, 5);
  }

  predicate GetPostsValid(params: Dict) {
    && ValidatePerPage(Get(params, "per_page"), PostsMaxPerPage).Ok?
    && ValidatePageNumber(Get(params, "page")).Ok?
    && ValidateSearchQuery(Get(params, "search")).Ok?
    && (!Truthy(Get(params, "status")) || ValidatePostStatus(Get(params, "status")).Ok?)
    && TruthyTerms(Categories, Get(params, "categories")).Ok?
    && TruthyTerms(Tags, Get(params, "tags")).Ok?
  }

  /** `get_posts`: the query parameters of the listing. */
  function GetPosts(params: Dict): (r: Result<Dict, Exc>)
    ensures r.Ok? <==> GetPostsValid(params)
  {
    var perPage :- ValidatePerPage(Get(params, "per_page"), PostsMaxPerPage);
    var page :- ValidatePageNumber(Get(params, "page"));
    var search :- ValidateSearchQuery(Get(params, "search"));
    var _ :- CheckedStatus(Get(params, "status"));
    var categories :- TruthyTerms(Categories, Get(params, "categories"));
    var tags :- TruthyTerms(Tags, Get(params, "tags"));
    Ok(Payload(GetPostsFields(params, perPage, page, search, categories, tags)))
  }

  /** What an accepted `get_posts` asks for: a page size between 1 and 100
      (10 by default) and a page of at least 1 always; the search only when
      not blank; the status when truthy; category and tag ids, when any are
      left, as one comma-joined string. */
  lemma GetPostsSends(params: Dict)
    requires GetPosts(params).Ok?
    ensures var d := GetPosts(params).value;
      && Lookup(d, VStr("per_page")) == Some(VInt(ValidatePerPage(Get(params, "per_page"), PostsMaxPerPage).value))
      && 1 <= ValidatePerPage(Get(params, "per_page"), PostsMaxPerPage).value <= PostsMaxPerPage
      && Lookup(d, VStr("page")) == Some(VInt(ValidatePageNumber(Get(params, "page")).value))
      && Lookup(d, VStr("search")) == SearchField(ValidateSearchQuery(Get(params, "search")).value)
      && Lookup(d, VStr("status")) == WhenTruthy(Get(params, "status"))
      && Lookup(d, VStr("categories")) == JoinedIds(TruthyTerms(Categories, Get(params, "categories")).value)
      && Lookup(d, VStr("tags")) == JoinedIds(TruthyTerms(Tags, Get(params, "tags")).value)
  {
    GetPostsReads(params, ValidatePerPage(Get(params, "per_page"), PostsMaxPerPage).value,
      ValidatePageNumber(Get(params, "page")).value, ValidateSearchQuery(Get(params, "search")).value,
      TruthyTerms(Categories, Get(params, "categories")).value, TruthyTerms(Tags, Get(params, "tags")).value);
  }

  // ---- delete_post, delete_page ----------------------------------------------

  /** `delete_post` */
  function DeletePost(params: Dict, server: Deletion -> Result<Value, Exc>): (r: (Option<Deletion>, Result<string, Exc>))
    ensures r.0.Some? <==> ValidateId(PostId, Get(params, "id")).Ok?
    ensures r.0.Some? ==> r.0.value == Deletion(ToInt(Get(params, "id")).value, NormalizeForce(GetOr(params, "force", VBool(false))))
    ensures r.1.Ok? ==> r.0.Some? && server(r.0.value).Ok? && r.1 == DeleteMessage("投稿", server(r.0.value).value)
  {
    DeleteTool(PostId, "投稿", params, server)
  }

  /** `delete_page`: pages are validated as post ids. */
  function DeletePage(params: Dict, server: Deletion -> Result<Value, Exc>): (r: (Option<Deletion>, Result<string, Exc>))
    ensures r.0.Some? <==> ValidateId(PostId, Get(params, "id")).Ok?
    ensures r.0.Some? ==> r.0.value == Deletion(ToInt(Get(params, "id")).value, NormalizeForce(GetOr(params, "force", VBool(false))))
    ensures r.1.Ok? ==> r.0.Some? && server(r.0.value).Ok? && r.1 == DeleteMessage("ページ", server(r.0.value).value)
  {
    DeleteTool(PostId, "ページ", params, server)
  }
}

=== FILE: provider.dfy ===
/** The provider's credential check (`provider/provider.py`), run when the
    plugin is configured in the Dify console: a site URL with an http(s)
    scheme and a host, a user name, and an application password of at least
    twenty characters once its spaces are removed. */
module Provider {
  import opened Wrappers
  import opened Text
  import opened Py

  const UrlRequired: string := "WordPressサイトURLを入力してください"
  const SchemeMissing: string := "WordPressサイトURLにはプロトコル（http://またはhttps://）を含めてください"
  const SchemeUnsupported: string := "WordPressサイトURLはhttp://またはhttps://で始まる必要があります"
  const HostMissing: string := "WordPressサイトURLが不正です"
  const UrlFormatPrefix: string := "WordPressサイトURLの形式が不正です: "
  const UserRequired: string := "WordPressユーザー名を入力してください"
  const PasswordRequired: string := "アプリケーションパスワードを入力してください"
  const PasswordTooShort: string := "アプリケーションパスワードが短すぎます。WordPress管理画面から正しい値をコピーしてください"
  const MinPasswordLength: nat := 20

  /** The parts of `urlparse(url)` the credential check reads. */
  datatype UrlParts = UrlParts(scheme: string, netloc: string)

  /** The standard library's `urlparse`: the parts it finds, or the message
      of the `ValueError` it raises. */
  type UrlParser = string -> Result<UrlParts, string>

  /** The message of the exception raised inside the URL `try` block, if
      any: the parser's own, or one of the three checks on its parts. */
  function UrlProblem(url: string, urlparse: UrlParser): (m: Option<string>)
    ensures m.None? <==>
      urlparse(url).Ok? && urlparse(url).value.scheme in ["http", "https"] && urlparse(url).value.netloc != ""
    ensures urlparse(url).Err? ==> m == Some(urlparse(url).error)
    ensures urlparse(url).Ok? && m.Some? ==> m.value in [SchemeMissing, SchemeUnsupported, HostMissing]
  {
    match urlparse(url)
    case Err(msg) => Some(msg)
    case Ok(parts) =>
      if parts.scheme == "" then Some(SchemeMissing)
      else if parts.scheme !in ["http", "https"] then Some(SchemeUnsupported)
      else if parts.netloc == "" then Some(HostMissing)
      else None
  }

  /** The password length the credential check measures: spaces removed. */
  function PasswordLength(password: string): nat {
    |RemoveChar(password, ' ')|
  }

  /** What a console entry must look like to be accepted, stated on the raw
      values: three strings, a URL that is not blank and parses with an
      http(s) scheme and a host, a user name that is not blank, and a
      password with at least twenty characters besides its spaces. */
  predicate Acceptable(credentials: Dict, urlparse: UrlParser) {
    var u, n, p := Get(credentials, "wordpress_url"), Get(credentials, "username"), Get(credentials, "application_password");
    && u.VStr? && n.VStr? && p.VStr?
    && !IsBlank(u.s) && UrlProblem(Strip(u.s), urlparse).None?
    && !IsBlank(n.s)
    && PasswordLength(Strip(p.s)) >= MinPasswordLength
  }

  /** The checks after stripping, on the stripped URL, user name and
      password, in source order. */
  function CheckStripped(url: string, username: string, password: string, urlparse: UrlParser): (r: Result<(), Exc>)
    ensures r.Ok? <==>
      url != "" && UrlProblem(url, urlparse).None? && username != "" && PasswordLength(password) >= MinPasswordLength
    ensures r.Err? ==> r.error.CredentialError?
    ensures url != "" && UrlProblem(url, urlparse).Some? ==>
      r == Err(CredentialError(UrlFormatPrefix + UrlProblem(url, urlparse).value))
  {
    if url == "" then Err(CredentialError(UrlRequired))
    else if UrlProblem(url, urlparse).Some? then
      Err(CredentialError(UrlFormatPrefix + UrlProblem(url, urlparse).value))
    else if username == "" then Err(CredentialError(UserRequired))
    else if password == "" then Err(CredentialError(PasswordRequired))
    else if PasswordLength(password) < MinPasswordLength then Err(CredentialError(PasswordTooShort))
    else Ok(())
  }

  /** `_validate_credentials`. All three values are read as `(value or
      "").strip()` before any check, so a value of another type fails there
      first. The checks then run in source order: URL present, URL parses
      well (a parser error and the three checks on its parts alike
      reworded as a format error), user name present, password present
      and long enough. The user-name pattern and the plain-http notice
      only log. */
  function ValidateCredentials(credentials: Dict, urlparse: UrlParser): (r: Result<(), Exc>)
    ensures r.Ok? <==> Acceptable(credentials, urlparse)
    ensures r.Err? ==> r.error.CredentialError? || r.error.AttributeError?
    ensures var u, n, p := Get(credentials, "wordpress_url"), Get(credentials, "username"), Get(credentials, "application_password");
      && (u.VStr? || !Truthy(u)) && (n.VStr? || !Truthy(n)) && (p.VStr? || !Truthy(p))
      && u.VStr? && !IsBlank(u.s) && UrlProblem(Strip(u.s), urlparse).Some?
      ==> r == Err(CredentialError(UrlFormatPrefix + UrlProblem(Strip(u.s), urlparse).value))
  {
    CheckValues(Get(credentials, "wordpress_url"), Get(credentials, "username"), Get(credentials, "application_password"), urlparse)
  }

  /** The credential check on the three values read from the console. */
  function CheckValues(url: Value, username: Value, password: Value, urlparse: UrlParser): (r: Result<(), Exc>)
    ensures r.Ok? <==>
      && url.VStr? && username.VStr? && password.VStr?
      && !IsBlank(url.s) && UrlProblem(Strip(url.s), urlparse).None?
      && !IsBlank(username.s)
      && PasswordLength(Strip(password.s)) >= MinPasswordLength
    ensures r.Err? ==> r.error.CredentialError? || r.error.AttributeError?
    ensures
      && (url.VStr? || !Truthy(url)) && (username.VStr? || !Truthy(username)) && (password.VStr? || !Truthy(password))
      && url.VStr? && !IsBlank(url.s) && UrlProblem(Strip(url.s), urlparse).Some?
      ==> r == Err(CredentialError(UrlFormatPrefix + UrlProblem(Strip(url.s), urlparse).value))
  {
    var u := StripOrEmpty(url);
    var n := StripOrEmpty(username);
    var p := StripOrEmpty(password);
    if u.Err? then Err(u.error)
    else if n.Err? then Err(n.error)
    else if p.Err? then Err(p.error)
    else
      StrippedField(url);
      StrippedField(username);
      StrippedField(password);
      CheckStripped(u.value, n.value, p.value, urlparse)
  }

  /** What `(v or "").strip()` yields, in terms of the raw value. */
  lemma StrippedField(v: Value)
    requires StripOrEmpty(v).Ok?
    ensures StripOrEmpty(v).value != "" <==> v.VStr? && !IsBlank(v.s)
    ensures StripOrEmpty(v).value != "" ==> StripOrEmpty(v).value == Strip(v.s)
  {
  }

  /** The characters of a user name never matter: any two non-blank names
      get the same verdict, whatever the URL and password. */
  lemma UsernameOnlyWarns(url: Value, password: Value, urlparse: UrlParser, a: string, b: string)
    requires !IsBlank(a) && !IsBlank(b)
    ensures CheckValues(url, VStr(a), password, urlparse) == CheckValues(url, VStr(b), password, urlparse)
  {
    var u, p := StripOrEmpty(url), StripOrEmpty(password);
    StrippedName(a);
    StrippedName(b);
    if u.Ok? && p.Ok? {
      CheckValuesStripped(url, VStr(a), password, urlparse);
      CheckValuesStripped(url, VStr(b), password, urlparse);
      CheckStrippedUser(u.value, Strip(a), Strip(b), p.value, urlparse);
    } else {
      CheckValuesEarly(url, VStr(a), password, urlparse);
      CheckValuesEarly(url, VStr(b), password, urlparse);
    }
  }

  lemma StrippedName(a: string)
    requires !IsBlank(a)
    ensures StripOrEmpty(VStr(a)) == Ok(Strip(a)) && Strip(a) != ""
  {
    assert |a| > 0;
    assert StripValue(VStr(a)) == Ok(Strip(a));
  }

  /** Once all three values are read, the verdict is that of the checks on
      the stripped text. */
  lemma CheckValuesStripped(url: Value, username: Value, password: Value, urlparse: UrlParser)
    requires StripOrEmpty(url).Ok? && StripOrEmpty(username).Ok? && StripOrEmpty(password).Ok?
    ensures CheckValues(url, username, password, urlparse) ==
      CheckStripped(StripOrEmpty(url).value, StripOrEmpty(username).value, StripOrEmpty(password).value, urlparse)
  {
  }

  /** A URL or password that cannot be read fails before the user name
      matters. */
  lemma CheckValuesEarly(url: Value, username: Value, password: Value, urlparse: UrlParser)
    requires StripOrEmpty(username).Ok? && (StripOrEmpty(url).Err? || StripOrEmpty(password).Err?)
    ensures CheckValues(url, username, password, urlparse) ==
      Err(if StripOrEmpty(url).Err? then StripOrEmpty(url).error else StripOrEmpty(password).error)
  {
  }

  lemma CheckStrippedUser(url: string, n1: string, n2: string, password: string, urlparse: UrlParser)
    requires n1 != "" && n2 != ""
    ensures CheckStripped(url, n1, password, urlparse) == CheckStripped(url, n2, password, urlparse)
  {
  }

  /** Removing a character distributes over concatenation. */
  lemma {:induction false} RemoveCharAppend(a: string, b: string, c: char)
    ensures RemoveChar(a + b, c) == RemoveChar(a, c) + RemoveChar(b, c)
  {
    if |a| > 0 {
      assert (a + b)[1..] == a[1..] + b;
      RemoveCharAppend(a[1..], b, c);
    } else {
      assert a + b == b;
    }
  }

  function TotalLength(groups: seq<string>): nat {
    if |groups| == 0 then 0 else |groups[0]| + TotalLength(groups[1..])
  }

  /** Spaces between space-free groups do not count towards the length. */
  lemma {:induction false} SpacedGroupsLength(groups: seq<string>)
    requires forall k | 0 <= k < |groups| :: ' ' !in groups[k]
    ensures PasswordLength(Join(" ", groups)) == TotalLength(groups)
  {
    if |groups| == 1 {
      assert TotalLength(groups[1..]) == 0;
    } else if |groups| > 1 {
      SpacedGroupsLength(groups[1..]);
      RemoveCharAppend(groups[0] + " ", Join(" ", groups[1..]), ' ');
      RemoveCharAppend(groups[0], " ", ' ');
      assert RemoveChar(" ", ' ') == "";
    }
  }

  /** The last character of a join of non-empty groups ends its last group. */
  lemma {:induction false} JoinLast(groups: seq<string>)
    requires |groups| > 0 && forall k | 0 <= k < |groups| :: |groups[k]| > 0
    ensures var j := Join(" ", groups); |j| > 0 && j[|j| - 1] == groups[|groups| - 1][|groups[|groups| - 1]| - 1]
  {
    if |groups| > 1 {
      JoinLast(groups[1..]);
    }
  }

  /** The password format WordPress hands out, six groups of four characters
      separated by spaces, is long enough: twenty-four characters count. */
  lemma WordPressPasswordLongEnough(groups: seq<string>)
    requires |groups| == 6
    requires forall k | 0 <= k < 6 :: |groups[k]| == 4 && forall i | 0 <= i < 4 :: !IsSpace(groups[k][i])
    ensures var pw := Join(" ", groups); Strip(pw) == pw && PasswordLength(pw) == 24 >= MinPasswordLength
  {
    var pw := Join(" ", groups);
    forall k | 0 <= k < 6 ensures ' ' !in groups[k] {
      assert forall i | 0 <= i < 4 :: groups[k][i] != ' ';
    }
    SpacedGroupsLength(groups);
    assert TotalLength(groups[5..]) == 4;
    assert TotalLength(groups[4..]) == 8;
    assert TotalLength(groups[3..]) == 12;
    assert TotalLength(groups[2..]) == 16;
    assert TotalLength(groups[1..]) == 20;
    JoinLast(groups);
    assert pw == groups[0] + " " + Join(" ", groups[1..]);
    assert pw[0] == groups[0][0];
  }
}

=== FILE: py.dfy ===
/** The dynamic Python values the plugin receives (tool parameters,
    credentials, file references, decoded JSON bodies) and the handful of
    built-ins it applies to them: truthiness, `str()`, `int()`, `.strip()`,
    `dict.get`. Decoded JSON uses the same type, since `json.loads` yields
    exactly these shapes. */
module Py {
  import opened Wrappers
  import opened Text

  type byte = x: int | 0 <= x < 256

  datatype Value =
    | VNone
    | VBool(b: bool)
    | VInt(i: int)
    | VStr(s: string)
    | VBytes(bytes: seq<byte>)
    | VList(items: seq<Value>)
    | VDict(entries: seq<(Value, Value)>)

  /** A Python `dict`, in insertion order. */
  type Dict = seq<(Value, Value)>

  /** The exceptions the modelled code raises or lets escape. `str(e)` is
      `msg`. */
  datatype Exc =
    | ValueError(msg: string)
      /** TypeError: an operand of the wrong type. */
    | TypeError(msg: string)
      /** AttributeError: a method the value's type does not have. */
    | AttributeError(msg: string)
    | FileNotFound(msg: string)
      /** The client's HTTP error: status (None for transport failures),
          message and an optional body snippet. */
    | HttpError(status: Option<int>, msg: string, body: Option<string>)
      /** An exception of the `requests` library escaping a download. */
    | RequestError(msg: string)
      /** The provider's credential-validation error shown in the console. */
    | CredentialError(msg: string)
      /** OverflowError: a number too large for the C type it must fit. */
    | OverflowError(msg: string)

  /** Python truthiness: only `None`, `False`, zero and the empty
      containers are falsy. */
  function Truthy(v: Value): (b: bool)
    ensures !b <==> v in {VNone, VBool(false), VInt(0), VStr(""), VBytes([]), VList([]), VDict([])}
  {
    match v
    case VNone => false
    case VBool(b) => b
    case VInt(i) => i != 0
    case VStr(s) => |s| > 0
    case VBytes(bs) => |bs| > 0
    case VList(items) => |items| > 0
    case VDict(entries) => |entries| > 0
  }

  /** `a or b` */
  function Or(a: Value, b: Value): (r: Value)
    ensures Truthy(r) <==> Truthy(a) || Truthy(b)
  {
    if Truthy(a) then a else b
  }

  function TypeName(v: Value): string {
    match v
    case VNone => "NoneType"
    case VBool(_) => "bool"
    case VInt(_) => "int"
    case VStr(_) => "str"
    case VBytes(_) => "bytes"
    case VList(_) => "list"
    case VDict(_) => "dict"
  }

  // ---- dict ----------------------------------------------------------------

  /** The value of the first entry stored under `key`, if any. */
  function Lookup(d: Dict, key: Value): Option<Value> {
    if |d| == 0 then None
    else if d[0].0 == key then Some(d[0].1)
    else Lookup(d[1..], key)
  }

  /** A key is looked up in the first part of a dict before the rest. */
  lemma {:induction false} LookupAppend(a: Dict, b: Dict, key: Value)
    ensures Lookup(a + b, key) == if Lookup(a, key).Some? then Lookup(a, key) else Lookup(b, key)
  {
    if |a| > 0 {
      assert (a + b)[1..] == a[1..] + b;
      LookupAppend(a[1..], b, key);
    } else {
      assert a + b == b;
    }
  }

  /** What a lookup finds is stored in some entry. */
  lemma {:induction false} LookupFound(d: Dict, key: Value) returns (i: nat)
    requires Lookup(d, key).Some?
    ensures i < |d| && d[i] == (key, Lookup(d, key).value)
  {
    if d[0].0 == key {
      i := 0;
    } else {
      var j := LookupFound(d[1..], key);
      i := j + 1;
    }
  }

  /** `d.get(key)` for a `str` key: `None` when absent. */
  function Get(d: Dict, key: string): Value {
    Lookup(d, VStr(key)).GetOr(VNone)
  }

  /** `d.get(key, default)` for a `str` key. */
  function GetOr(d: Dict, key: string, default: Value): Value {
    Lookup(d, VStr(key)).GetOr(default)
  }

  predicate HasKey(d: Dict, key: string) {
    Lookup(d, VStr(key)).Some?
  }

  /** `d[key] = v`: replaces an existing entry in place, else appends. */
  function Set(d: Dict, key: string, v: Value): (r: Dict)
    ensures Lookup(r, VStr(key)) == Some(v)
    ensures forall k | k != VStr(key) :: Lookup(r, k) == Lookup(d, k)
    ensures |r| == |d| || |r| == |d| + 1
  {
    if |d| == 0 then [(VStr(key), v)]
    else if d[0].0 == VStr(key) then [(VStr(key), v)] + d[1..]
    else [d[0]] + Set(d[1..], key, v)
  }

  /** Storing the value a key already has changes nothing. */
  lemma {:induction false} SetExisting(d: Dict, key: string, v: Value)
    requires Lookup(d, VStr(key)) == Some(v)
    ensures Set(d, key, v) == d
  {
    if d[0].0 != VStr(key) {
      SetExisting(d[1..], key, v);
    }
  }

  /** `d.setdefault(key, v)`: an existing entry wins. */
  function SetDefault(d: Dict, key: string, v: Value): (r: Dict)
    ensures Lookup(r, VStr(key)) == Some(Lookup(d, VStr(key)).GetOr(v))
    ensures forall k | k != VStr(key) :: Lookup(r, k) == Lookup(d, k)
    ensures HasKey(d, key) ==> r == d
  {
    if HasKey(d, key) then d else Set(d, key, v)
  }

  // ---- str() and repr() ----------------------------------------------------

  function HexDigit(d: nat): char
    requires d < 16
  {
    if d < 10 then DigitChar(d) else (('a' as int) + d - 10) as char
  }

  /** `repr(b)` for one byte inside a bytes literal. */
  function ByteRepr(b: byte): string {
    if b == 0x5c then "\\\\"
    else if b == 0x27 then "\\'"
    else if 0x20 <= b < 0x7f then [b as char]
    else "\\x" + [HexDigit(b / 16), HexDigit(b % 16)]
  }

  function BytesRepr(bs: seq<byte>): string {
    if |bs| == 0 then "" else ByteRepr(bs[0]) + BytesRepr(bs[1..])
  }

  /** `str(v)`. Strings inside containers are shown between single quotes
      without escaping. */
  function Str(v: Value): (r: string)
    ensures v.VStr? ==> r == v.s
    ensures v.VInt? ==> ParseInt(r) == Some(v.i)
    ensures v.VList? ==> |r| >= 2 && r[0] == '[' && r[|r| - 1] == ']'
    ensures v.VDict? ==> |r| >= 2 && r[0] == '{' && r[|r| - 1] == '}'
    decreases v, 1
  {
    match v
    case VNone => "None"
    case VBool(b) => if b then "True" else "False"
    case VInt(i) => ParseIntOfIntToString(i); IntToString(i)
    case VStr(s) => s
    case VBytes(bs) => "b'" + BytesRepr(bs) + "'"
    case VList(items) => "[" + Join(", ", ReprAll(v, items)) + "]"
    case VDict(entries) => "{" + Join(", ", ReprEntries(v, entries)) + "}"
  }

  /** `repr(v)` */
  function Repr(v: Value): string
    decreases v, 2
  {
    match v
    case VStr(s) => "'" + s + "'"
    case _ => Str(v)
  }

  function ReprAll(ghost parent: Value, items: seq<Value>): seq<string>
    requires forall x | x in items :: x < parent
    decreases parent, 0, |items|
  {
    if |items| == 0 then []
    else
      assert items[0] in items;
      assert forall x | x in items[1..] :: x in items;
      [Repr(items[0])] + ReprAll(parent, items[1..])
  }

  function ReprEntries(ghost parent: Value, entries: seq<(Value, Value)>): seq<string>
    requires forall e | e in entries :: e.0 < parent && e.1 < parent
    decreases parent, 0, |entries|
  {
    if |entries| == 0 then []
    else
      assert entries[0] in entries;
      assert forall e | e in entries[1..] :: e in entries;
      [Repr(entries[0].0) + ": " + Repr(entries[0].1)] + ReprEntries(parent, entries[1..])
  }

  // ---- int() and .strip() ------------------------------------------------

  /** The bytes of `bs` read as ASCII text, when every byte is one `int()`
      would accept as a character of a literal or its surrounding space. */
  predicate IntLiteralBytes(bs: seq<byte>) {
    forall i | 0 <= i < |bs| :: bs[i] < 0x80 && !(0x1c <= bs[i] <= 0x1f)
  }

  /** `int(v)`; `None` is the ValueError or TypeError Python raises. */
  function ToInt(v: Value): (r: Option<int>)
    ensures v.VInt? ==> r == Some(v.i)
    ensures v.VNone? || v.VList? || v.VDict? ==> r == None
    ensures v.VStr? ==> r == ParseInt(v.s)
  {
    match v
    case VNone => None
    case VBool(b) => Some(if b then 1 else 0)
    case VInt(i) => Some(i)
    case VStr(s) => ParseInt(s)
    case VBytes(bs) =>
      if IntLiteralBytes(bs) then ParseInt(seq(|bs|, i requires 0 <= i < |bs| => bs[i] as char)) else None
    case VList(_) => None
    case VDict(_) => None
  }

  function NoAttribute(v: Value, attr: string): Exc {
    AttributeError("'" + TypeName(v) + "' object has no attribute '" + attr + "'")
  }

  /** `v.strip()`, which only a `str` supports here: a `bytes` value is
      treated as having no `strip`, since JSON parameters never carry one. */
  function StripValue(v: Value): (r: Result<string, Exc>)
    ensures v.VStr? <==> r.Ok?
    ensures r.Ok? ==> r.value == Strip(v.s)
    ensures r.Err? ==> r.error.AttributeError?
  {
    if v.VStr? then Ok(Strip(v.s)) else Err(NoAttribute(v, "strip"))
  }

  /** `(v or "").strip()` */
  function StripOrEmpty(v: Value): (r: Result<string, Exc>)
    ensures !Truthy(v) ==> r == Ok("")
    ensures Truthy(v) ==> r == StripValue(v)
    ensures r.Err? ==> r.error.AttributeError?
  {
    if Truthy(v) then StripValue(v) else Ok("")
  }

  // ---- json.dumps ------------------------------------------------------------

  /** A dict key `json.dumps` accepts: a string, number, boolean or None. */
  predicate JsonKey(k: Value) {
    k.VNone? || k.VBool? || k.VInt? || k.VStr?
  }

  /** What `json.dumps` serializes: bytes nowhere, and only such keys. */
  predicate JsonDumpable(v: Value)
    decreases v
  {
    match v
    case VBytes(_) => false
    case VList(items) => forall i | 0 <= i < |items| :: JsonDumpable(items[i])
    case VDict(entries) => forall i | 0 <= i < |entries| :: JsonKey(entries[i].0) && JsonDumpable(entries[i].1)
    case _ => true
  }

  /** The message of the `TypeError` `json.dumps` raises first, walking
      the value in order, each key checked before its value. */
  function DumpError(v: Value): (e: Option<string>)
    decreases v, 1
  {
    match v
    case VBytes(_) => Some("Object of type bytes is not JSON serializable")
    case VList(_) => ItemsDumpError(v, 0)
    case VDict(_) => EntriesDumpError(v, 0)
    case _ => None
  }

  function ItemsDumpError(v: Value, i: nat): Option<string>
    requires v.VList? && i <= |v.items|
    decreases v, 0, |v.items| - i
  {
    if i == |v.items| then None
    else if DumpError(v.items[i]).Some? then DumpError(v.items[i])
    else ItemsDumpError(v, i + 1)
  }

  function EntriesDumpError(v: Value, i: nat): Option<string>
    requires v.VDict? && i <= |v.entries|
    decreases v, 0, |v.entries| - i
  {
    if i == |v.entries| then None
    else if !JsonKey(v.entries[i].0) then
      Some("keys must be str, int, float, bool or None, not " + TypeName(v.entries[i].0))
    else if DumpError(v.entries[i].1).Some? then DumpError(v.entries[i].1)
    else EntriesDumpError(v, i + 1)
  }

  /** `json.dumps` raises exactly on the values that are not dumpable. */
  lemma {:induction false} DumpErrorExactly(v: Value)
    ensures DumpError(v).None? <==> JsonDumpable(v)
    decreases v, 1
  {
    match v
    case VList(items) => ItemsDumpErrorExactly(v, 0);
    case VDict(entries) => EntriesDumpErrorExactly(v, 0);
    case _ =>
  }

  lemma {:induction false} ItemsDumpErrorExactly(v: Value, i: nat)
    requires v.VList? && i <= |v.items|
    ensures ItemsDumpError(v, i).None? <==> forall j | i <= j < |v.items| :: JsonDumpable(v.items[j])
    decreases v, 0, |v.items| - i
  {
    if i < |v.items| {
      DumpErrorExactly(v.items[i]);
      ItemsDumpErrorExactly(v, i + 1);
    }
  }

  lemma {:induction false} EntriesDumpErrorExactly(v: Value, i: nat)
    requires v.VDict? && i <= |v.entries|
    ensures EntriesDumpError(v, i).None? <==>
      forall j | i <= j < |v.entries| :: JsonKey(v.entries[j].0) && JsonDumpable(v.entries[j].1)
    decreases v, 0, |v.entries| - i
  {
    if i < |v.entries| {
      DumpErrorExactly(v.entries[i].1);
      EntriesDumpErrorExactly(v, i + 1);
    }
  }

  /** A value found in a dumpable dict is dumpable. */
  lemma LookupDumpable(d: Dict, key: Value)
    requires JsonDumpable(VDict(d)) && Lookup(d, key).Some?
    ensures JsonDumpable(Lookup(d, key).value)
  {
    var i := LookupFound(d, key);
  }

  /** Storing a dumpable value under a string key keeps a dict dumpable. */
  lemma {:induction false} SetDumpable(d: Dict, key: string, v: Value)
    requires JsonDumpable(VDict(d)) && JsonDumpable(v)
    ensures JsonDumpable(VDict(Set(d, key, v)))
  {
    if |d| > 0 {
      assert forall i | 0 <= i < |d[1..]| :: d[1..][i] == d[i + 1];
      if d[0].0 != VStr(key) {
        SetDumpable(d[1..], key, v);
        var r := Set(d, key, v);
        assert forall i | 1 <= i < |r| :: r[i] == Set(d[1..], key, v)[i - 1];
      }
    }
  }

  /** The head and the tail of a dumpable list are dumpable. */
  lemma ListDumpableSplit(items: seq<Value>)
    requires JsonDumpable(VList(items)) && |items| > 0
    ensures JsonDumpable(items[0]) && JsonDumpable(VList(items[1..]))
  {
    assert forall i | 0 <= i < |items[1..]| :: items[1..][i] == items[i + 1];
  }

  /** A dumpable value in front of a dumpable list. */
  lemma ListDumpableCons(head: Value, rest: seq<Value>)
    requires JsonDumpable(head) && JsonDumpable(VList(rest))
    ensures JsonDumpable(VList([head] + rest))
  {
    assert forall i | 1 <= i < |[head] + rest| :: ([head] + rest)[i] == rest[i - 1];
  }
}

=== FILE: redact.dfy ===
/** The log/error-text redactors `_sanitize_for_log` of the two clients.
    Each `re.sub` is a left-to-right scan: at every position the pattern is
    tried; a match is replaced and the scan resumes after it, otherwise one
    character is copied. All repetitions in the patterns are greedy over
    disjoint character classes, so a match is decided without backtracking,
    which is how the matchers below are written. */
module Redact {
  import opened Wrappers
  import opened Text

  /** `_MAX_LOG_BODY_LENGTH` in both clients. */
  const MaxLogLength: nat := 200
  const TruncationMarker: string := "... (truncated)"
  /** Length of the run of alphanumerics `[A-Za-z0-9]{32,}` masks. */
  const LongRun: nat := 32
  /** Minimum length of the credential after `Bearer`/`Basic`. */
  const MinToken: nat := 20

  datatype CharClass =
    | Space    // \s
    | Token    // [A-Za-z0-9+/=] under re.IGNORECASE
    | Alnum    // [A-Za-z0-9]
    | Local    // [a-zA-Z0-9._+-]
    | Domain   // [a-zA-Z0-9.-]

  /** Case folding as `re.IGNORECASE` applies it to ASCII letters: besides
      `A`-`Z`, dotted/dotless I, long s and the Kelvin sign fold onto
      ASCII letters. */
  function Fold(c: char): char {
    if 'A' <= c <= 'Z' then ((c as int) + 32) as char
    else if c == '\U{130}' || c == '\U{131}' then 'i'
    else if c == '\U{17F}' then 's'
    else if c == '\U{212A}' then 'k'
    else c
  }

  predicate InClass(c: char, k: CharClass) {
    match k
    case Space => IsSpace(c)
    case Token =>
      var f := Fold(c);
      ('a' <= f <= 'z') || IsDigit(f) || f == '+' || f == '/' || f == '='
    case Alnum => IsAsciiAlnum(c)
    case Local => IsAsciiAlnum(c) || c == '.' || c == '_' || c == '+' || c == '-'
    case Domain => IsAsciiAlnum(c) || c == '.' || c == '-'
  }

  /** Length of the longest prefix of `s` inside class `k`. */
  function RunLen(s: string, k: CharClass): (n: nat)
    ensures n <= |s|
    ensures forall i | 0 <= i < n :: InClass(s[i], k)
    ensures n == |s| || !InClass(s[n], k)
  {
    if |s| == 0 || !InClass(s[0], k) then 0 else 1 + RunLen(s[1..], k)
  }

  lemma {:induction false} RunLenConcat(a: string, b: string, k: CharClass)
    ensures RunLen(a + b, k) == if RunLen(a, k) < |a| then RunLen(a, k) else |a| + RunLen(b, k)
    decreases |a|
  {
    if |a| > 0 {
      assert (a + b)[0] == a[0];
      if InClass(a[0], k) {
        assert (a + b)[1..] == a[1..] + b;
        RunLenConcat(a[1..], b, k);
      }
    } else {
      assert a + b == b;
    }
  }

  /** Two strings whose characters agree on membership of class `k` have
      runs of the same length. */
  lemma {:induction false} RunLenSameClass(a: string, b: string, k: CharClass)
    requires |a| == |b|
    requires forall i | 0 <= i < |a| :: InClass(a[i], k) == InClass(b[i], k)
    ensures RunLen(a, k) == RunLen(b, k)
    decreases |a|
  {
    if |a| > 0 && InClass(a[0], k) {
      RunLenSameClass(a[1..], b[1..], k);
    }
  }

  // ---- Authorization credentials ---------------------------------------

  /** `keyword` (lower case) read case-insensitively at the start of `s`. */
  predicate KeywordAt(s: string, keyword: string) {
    |keyword| <= |s| && forall i | 0 <= i < |keyword| :: Fold(s[i]) == keyword[i]
  }

  /** Length of a match of `Keyword\s+[A-Za-z0-9+/=]{20,}` (IGNORECASE) at
      the start of `s`. */
  function SchemeMatch(s: string, keyword: string): (r: Option<nat>)
    ensures r.Some? ==> |keyword| + 1 + MinToken <= r.value <= |s|
  {
    if !KeywordAt(s, keyword) then None
    else
      var rest := s[|keyword|..];
      var w := RunLen(rest, Space);
      var t := RunLen(rest[w..], Token);
      if w >= 1 && t >= MinToken then Some(|keyword| + w + t) else None
  }

  /** `re.sub(keyword\s+[A-Za-z0-9+/=]{20,}, replacement, s, flags=re.IGNORECASE)` */
  function MaskScheme(s: string, keyword: string, replacement: string): string
    decreases |s|
  {
    if |s| == 0 then ""
    else match SchemeMatch(s, keyword)
      case Some(n) => replacement + MaskScheme(s[n..], keyword, replacement)
      case None => [s[0]] + MaskScheme(s[1..], keyword, replacement)
  }

  /** A replacement no longer than the shortest credential never lengthens
      the text, and a non-empty one leaves non-empty text non-empty. */
  lemma {:induction false} MaskSchemeLength(s: string, keyword: string, replacement: string)
    ensures var r := MaskScheme(s, keyword, replacement);
      && (|replacement| <= |keyword| + 1 + MinToken ==> |r| <= |s|)
      && (|replacement| > 0 ==> (r == [] <==> s == []))
    decreases |s|
  {
    if |s| > 0 {
      match SchemeMatch(s, keyword)
      case Some(n) => MaskSchemeLength(s[n..], keyword, replacement);
      case None => MaskSchemeLength(s[1..], keyword, replacement);
    }
  }

  /** No position of `s` starts a credential match. */
  predicate NoSchemeMatch(s: string, keyword: string) {
    forall i | 0 <= i < |s| :: SchemeMatch(s[i..], keyword).None?
  }

  /** Masking leaves text without a credential untouched. */
  lemma {:induction false} MaskSchemeIdentity(s: string, keyword: string, replacement: string)
    requires NoSchemeMatch(s, keyword)
    ensures MaskScheme(s, keyword, replacement) == s
    decreases |s|
  {
    if |s| > 0 {
      assert s[0..] == s;
      assert NoSchemeMatch(s[1..], keyword) by {
        forall i | 0 <= i < |s| - 1 ensures SchemeMatch(s[1..][i..], keyword).None? {
          assert s[1..][i..] == s[i + 1..];
        }
      }
      MaskSchemeIdentity(s[1..], keyword, replacement);
    }
  }

  /** A credential at the start of the text is replaced as a whole. */
  lemma MaskSchemeReplacesMatch(s: string, keyword: string, replacement: string)
    requires SchemeMatch(s, keyword).Some?
    ensures var n := SchemeMatch(s, keyword).value;
      MaskScheme(s, keyword, replacement) == replacement + MaskScheme(s[n..], keyword, replacement)
  {
  }

  // ---- Long alphanumeric runs ------------------------------------------

  /** `re.sub(r'[A-Za-z0-9]{32,}', '***', s)` */
  function MaskLongRuns(s: string): string
    decreases |s|
  {
    if |s| == 0 then ""
    else if RunLen(s, Alnum) >= LongRun then "***" + MaskLongRuns(s[RunLen(s, Alnum)..])
    else [s[0]] + MaskLongRuns(s[1..])
  }

  /** Masking runs never lengthens the text and empties only empty text. */
  lemma {:induction false} MaskLongRunsLength(s: string)
    ensures |MaskLongRuns(s)| <= |s|
    ensures MaskLongRuns(s) == [] <==> s == []
    decreases |s|
  {
    if |s| > 0 {
      if RunLen(s, Alnum) >= LongRun {
        MaskLongRunsLength(s[RunLen(s, Alnum)..]);
      } else {
        MaskLongRunsLength(s[1..]);
      }
    }
  }

  /** No run of 32 or more ASCII alphanumerics starts anywhere in `s`. */
  predicate NoLongRun(s: string) {
    forall i | 0 <= i < |s| :: RunLen(s[i..], Alnum) < LongRun
  }

  lemma {:induction false} MaskLongRunsPrefix(s: string)
    ensures RunLen(MaskLongRuns(s), Alnum) == if RunLen(s, Alnum) >= LongRun then 0 else RunLen(s, Alnum)
    decreases |s|
  {
    if |s| > 0 && RunLen(s, Alnum) < LongRun {
      var out := MaskLongRuns(s);
      assert out == [s[0]] + MaskLongRuns(s[1..]);
      if InClass(s[0], Alnum) {
        MaskLongRunsPrefix(s[1..]);
        RunLenConcat([s[0]], MaskLongRuns(s[1..]), Alnum);
      }
    }
  }

  /** After masking, no run of 32+ alphanumerics is left. */
  lemma {:induction false} MaskLongRunsNoLongRun(s: string)
    ensures NoLongRun(MaskLongRuns(s))
    decreases |s|
  {
    if |s| > 0 {
      var out := MaskLongRuns(s);
      var n := RunLen(s, Alnum);
      if n >= LongRun {
        var tail := MaskLongRuns(s[n..]);
        MaskLongRunsNoLongRun(s[n..]);
        forall i | 0 <= i < |out| ensures RunLen(out[i..], Alnum) < LongRun {
          if i >= 3 {
            assert out[i..] == tail[i - 3..];
          }
        }
      } else {
        var tail := MaskLongRuns(s[1..]);
        MaskLongRunsNoLongRun(s[1..]);
        MaskLongRunsPrefix(s);
        forall i | 0 <= i < |out| ensures RunLen(out[i..], Alnum) < LongRun {
          if i >= 1 {
            assert out[i..] == tail[i - 1..];
          } else {
            assert out[i..] == out;
          }
        }
      }
    }
  }

  /** Text without long runs is left alone, so masking is idempotent. */
  lemma {:induction false} MaskLongRunsIdentity(s: string)
    requires NoLongRun(s)
    ensures MaskLongRuns(s) == s
    decreases |s|
  {
    if |s| > 0 {
      assert s[0..] == s;
      assert NoLongRun(s[1..]) by {
        forall i | 0 <= i < |s| - 1 ensures RunLen(s[1..][i..], Alnum) < LongRun {
          assert s[1..][i..] == s[i + 1..];
        }
      }
      MaskLongRunsIdentity(s[1..]);
    }
  }

  lemma MaskLongRunsIdempotent(s: string)
    ensures MaskLongRuns(MaskLongRuns(s)) == MaskLongRuns(s)
  {
    MaskLongRunsNoLongRun(s);
    MaskLongRunsIdentity(MaskLongRuns(s));
  }

  // ---- Quoted e-mail addresses -----------------------------------------

  predicate IsQuote(c: char) {
    c == '"' || c == '\''
  }

  /** Length of a match of `["']([a-zA-Z0-9._+-]+@[a-zA-Z0-9.-]+)["']` at
      the start of `s`. */
  function EmailMatch(s: string): (r: Option<nat>)
    ensures r.Some? ==> 5 <= r.value <= |s| && IsQuote(s[0]) && IsQuote(s[r.value - 1])
  {
    if |s| == 0 || !IsQuote(s[0]) then None
    else
      var l := RunLen(s[1..], Local);
      if l == 0 || 1 + l >= |s| || s[1 + l] != '@' then None
      else
        var d := RunLen(s[2 + l..], Domain);
        if d == 0 || 2 + l + d >= |s| || !IsQuote(s[2 + l + d]) then None
        else Some(3 + l + d)
  }

  /** `re.sub(r'["\']([a-zA-Z0-9._+-]+@[a-zA-Z0-9.-]+)["\']', r'"\1"', s)` */
  function Requote(s: string): (r: string)
    ensures |r| == |s|
    decreases |s|
  {
    if |s| == 0 then ""
    else match EmailMatch(s)
      case Some(n) => "\"" + s[1..n - 1] + "\"" + Requote(s[n..])
      case None => [s[0]] + Requote(s[1..])
  }

  /** `a` and `b` differ at most in which quote character they use. */
  predicate QuoteVariant(a: string, b: string) {
    && |a| == |b|
    && forall i | 0 <= i < |a| :: a[i] == b[i] || (IsQuote(a[i]) && IsQuote(b[i]))
  }

  /** `r` keeps `s` except that some quote characters became `"`. */
  predicate Requoted(s: string, r: string) {
    && |r| == |s|
    && forall i | 0 <= i < |s| :: r[i] == s[i] || (IsQuote(s[i]) && r[i] == '"')
  }

  lemma RequotedPrepend(p: string, q: string, s: string, r: string)
    requires Requoted(p, q) && Requoted(s, r)
    ensures Requoted(p + s, q + r)
  {
    forall i | 0 <= i < |p| + |s| ensures (q + r)[i] == (p + s)[i] || (IsQuote((p + s)[i]) && (q + r)[i] == '"') {
      if i >= |p| {
        assert (q + r)[i] == r[i - |p|] && (p + s)[i] == s[i - |p|];
      } else {
        assert (q + r)[i] == q[i] && (p + s)[i] == p[i];
      }
    }
  }

  /** A matched address comes out between double quotes, verbatim. */
  lemma RequotedAddress(s: string, n: nat)
    requires EmailMatch(s) == Some(n)
    ensures Requoted(s[..n], "\"" + s[1..n - 1] + "\"")
  {
    var q := "\"" + s[1..n - 1] + "\"";
    forall i | 0 <= i < n ensures q[i] == s[..n][i] || (IsQuote(s[..n][i]) && q[i] == '"') {
      if 0 < i < n - 1 {
        assert q[i] == s[i];
      }
    }
  }

  /** Where no address starts, requoting copies one character. */
  lemma RequoteNoAddress(s: string)
    requires |s| > 0 && EmailMatch(s).None?
    ensures Requote(s) == [s[0]] + Requote(s[1..])
  {
  }

  /** At an address, requoting emits it between double quotes. */
  lemma RequoteAddress(s: string, n: nat)
    requires EmailMatch(s) == Some(n)
    ensures Requote(s) == "\"" + s[1..n - 1] + "\"" + Requote(s[n..])
  {
  }

  /** Requoting changes nothing but quote characters, each into `"`: the
      address between the quotes is kept verbatim. */
  lemma {:induction false} RequoteOnlyRequotes(s: string)
    ensures Requoted(s, Requote(s))
    decreases |s|
  {
    if |s| > 0 {
      match EmailMatch(s)
      case Some(n) =>
        RequoteOnlyRequotes(s[n..]);
        RequotedAtAddress(s, n);
      case None =>
        RequoteOnlyRequotes(s[1..]);
        RequoteNoAddress(s);
        RequotedCons(s, Requote(s), Requote(s[1..]));
    }
  }

  lemma RequotedAtAddress(s: string, n: nat)
    requires EmailMatch(s) == Some(n) && Requoted(s[n..], Requote(s[n..]))
    ensures Requoted(s, Requote(s))
  {
    RequoteAddress(s, n);
    RequotedAddress(s, n);
    RequotedPrepend(s[..n], "\"" + s[1..n - 1] + "\"", s[n..], Requote(s[n..]));
    assert s[..n] + s[n..] == s;
  }

  /** Requoted text after a copied character stays requoted. */
  lemma RequotedCons(s: string, rs: string, r: string)
    requires |s| > 0 && rs == [s[0]] + r && Requoted(s[1..], r)
    ensures Requoted(s, rs)
  {
    RequotedPrepend([s[0]], [s[0]], s[1..], r);
    assert [s[0]] + s[1..] == s;
  }

  lemma RequotedIsVariant(s: string, r: string)
    requires Requoted(s, r)
    ensures QuoteVariant(s, r)
  {
  }

  /** Strings that differ only in their quote characters have the same
      runs of every class, since no class holds a quote. */
  lemma QuoteVariantRuns(a: string, b: string, k: CharClass)
    requires QuoteVariant(a, b)
    ensures RunLen(a, k) == RunLen(b, k)
  {
    RunLenSameClass(a, b, k);
  }

  lemma QuoteVariantSuffix(a: string, b: string, j: nat)
    requires QuoteVariant(a, b) && j <= |a|
    ensures QuoteVariant(a[j..], b[j..])
  {
  }

  /** The e-mail matcher only looks at the quotes, the `@` and the lengths
      of the two runs. */
  lemma EmailMatchSameShape(a: string, b: string, l: nat, d: nat)
    requires |a| == |b| && |a| > 0 && IsQuote(a[0]) == IsQuote(b[0])
    requires l == RunLen(a[1..], Local) == RunLen(b[1..], Local)
    requires l > 0 && 1 + l < |a| ==> (a[1 + l] == '@') == (b[1 + l] == '@')
    requires l > 0 && 1 + l < |a| ==> d == RunLen(a[2 + l..], Domain) == RunLen(b[2 + l..], Domain)
    requires l > 0 && 2 + l + d < |a| ==> IsQuote(a[2 + l + d]) == IsQuote(b[2 + l + d])
    ensures EmailMatch(a) == EmailMatch(b)
  {
  }

  /** The e-mail matcher cannot tell quote characters apart. */
  lemma EmailMatchQuoteBlind(a: string, b: string)
    requires QuoteVariant(a, b)
    ensures EmailMatch(a) == EmailMatch(b)
  {
    if |a| > 0 {
      QuoteVariantSuffix(a, b, 1);
      QuoteVariantRuns(a[1..], b[1..], Local);
      var l := RunLen(a[1..], Local);
      var d := 0;
      if l > 0 && 1 + l < |a| {
        QuoteVariantSuffix(a, b, 2 + l);
        QuoteVariantRuns(a[2 + l..], b[2 + l..], Domain);
        d := RunLen(a[2 + l..], Domain);
      }
      EmailMatchSameShape(a, b, l, d);
    }
  }

  /** The scan over `Requote(s)` finds the addresses the scan over `s`
      found, at the same places. */
  lemma RequoteHead(s: string)
    ensures EmailMatch(Requote(s)) == EmailMatch(s)
  {
    RequoteOnlyRequotes(s);
    RequotedIsVariant(s, Requote(s));
    EmailMatchQuoteBlind(s, Requote(s));
  }

  // ---- Truncation and the two pipelines ---------------------------------

  /** `text[:200] + "... (truncated)"` when longer than 200 characters. */
  function Truncate(s: string): (r: string)
    ensures |s| <= MaxLogLength ==> r == s
    ensures |s| > MaxLogLength ==> r == s[..MaxLogLength] + TruncationMarker
  {
    if |s| > MaxLogLength then s[..MaxLogLength] + TruncationMarker else s
  }

  lemma TruncateBounded(s: string)
    ensures |Truncate(s)| <= MaxLogLength + |TruncationMarker|
    ensures StartsWith(s, Truncate(s)) || StartsWith(Truncate(s), s[..MaxLogLength])
  {
  }

  lemma TruncateIdempotent(s: string)
    ensures Truncate(Truncate(s)) == Truncate(s)
  {
    if |s| > MaxLogLength {
      assert Truncate(s)[..MaxLogLength] == s[..MaxLogLength];
    }
  }

  /** The mail client's redactor (`provider/http_client.py`). */
  function SanitizeMail(text: string): string
  {
    if |text| == 0 then text
    else Truncate(Requote(MaskLongRuns(MaskScheme(text, "bearer", "Bearer ***"))))
  }

  /** The WordPress client's redactor (`tools/http_client.py`). */
  function SanitizeWordPress(text: string): string
  {
    if |text| == 0 then text
    else Truncate(MaskLongRuns(MaskScheme(text, "basic", "Basic ***")))
  }
}

=== FILE: redact_laws.dfy ===
/** What the two redactors guarantee: no credential after `Bearer`/`Basic`
    and no run of 32 alphanumerics survives, the output is at most 215
    characters long, and a second pass changes nothing. */
module RedactLaws {
  import opened Wrappers
  import opened Text
  import opened Redact

  // ---- Runs --------------------------------------------------------------

  /** A run that ends inside a common prefix is the same in both strings. */
  lemma RunLenAgree(x: string, y: string, m: nat, k: CharClass)
    requires m <= |x| && m <= |y| && x[..m] == y[..m]
    requires RunLen(x, k) < m
    ensures RunLen(y, k) == RunLen(x, k)
  {
    var n := RunLen(x, k);
    assert forall i | 0 <= i <= n :: y[i] == y[..m][i] == x[..m][i] == x[i];
  }

  /** A run is exactly as long as its class holds from the start. */
  lemma RunLenPrefix(s: string, n: nat, k: CharClass)
    requires n < |s| && !InClass(s[n], k)
    requires forall i | 0 <= i < n :: InClass(s[i], k)
    ensures RunLen(s, k) == n
  {
    var m := RunLen(s, k);
    assert m <= n;
  }

  lemma DropConcat(u: string, r: string, w: nat)
    requires w <= |u|
    ensures (u + r)[w..] == u[w..] + r
  {
  }

  /** Credential keywords are spelled in lower-case ASCII letters. */
  predicate LowerKeyword(keyword: string) {
    forall i | 0 <= i < |keyword| :: 'a' <= keyword[i] <= 'z'
  }

  /** A character that neither continues the whitespace nor the credential
      after a keyword, nor spells part of a keyword. */
  predicate Stopper(c: char) {
    !IsSpace(c) && !InClass(c, Token)
  }

  /** What the two keyword/replacement pairs share and the proofs rely on:
      the replacement spells the keyword, then ` ***`; the keyword's first
      letter does not recur in it nor in the truncation marker. */
  predicate WellFormedScheme(keyword: string, replacement: string) {
    && 1 <= |keyword| < MinToken
    && LowerKeyword(keyword)
    && |replacement| == |keyword| + 4
    && (forall i | 0 <= i < |keyword| :: Fold(replacement[i]) == keyword[i])
    && (forall i | 1 <= i < |keyword| :: keyword[i] != keyword[0])
    && replacement[|keyword|..] == " ***"
    && (forall i | 0 <= i < |TruncationMarker| :: TruncationMarker[i] != keyword[0])
  }

  lemma SchemesWellFormed()
    ensures WellFormedScheme("bearer", "Bearer ***")
    ensures WellFormedScheme("basic", "Basic ***")
  {
  }

  // ---- Credential matches under extension and cutting -------------------

  /** A credential match is not undone by appending text. */
  lemma SchemeMatchExtend(a: string, c: string, keyword: string)
    ensures SchemeMatch(a, keyword).Some? ==> SchemeMatch(a + c, keyword).Some?
  {
    if SchemeMatch(a, keyword).Some? {
      var k := |keyword|;
      assert forall i | 0 <= i < k :: (a + c)[i] == a[i];
      assert (a + c)[k..] == a[k..] + c;
      RunsExtend(a[k..], c);
    }
  }

  /** Whitespace followed by a long enough token stays so when text is
      appended. */
  lemma RunsExtend(ra: string, c: string)
    requires RunLen(ra, Space) >= 1 && RunLen(ra[RunLen(ra, Space)..], Token) >= MinToken
    ensures var w := RunLen(ra + c, Space); w >= 1 && RunLen((ra + c)[w..], Token) >= MinToken
  {
    var w := RunLen(ra, Space);
    var rest := ra[w..];
    assert w < |ra| by {
      assert |rest| >= RunLen(rest, Token) >= MinToken;
    }
    RunLenConcat(ra, c, Space);
    assert RunLen(ra + c, Space) == w;
    assert (ra + c)[w..] == rest + c;
    RunLenConcat(rest, c, Token);
    assert RunLen(rest + c, Token) >= RunLen(rest, Token);
  }

  /** Text behind a stopper character cannot complete a credential match. */
  lemma SchemeMatchStopped(a: string, c: string, keyword: string)
    requires LowerKeyword(keyword)
    requires |c| > 0 && Stopper(c[0])
    ensures SchemeMatch(a + c, keyword).Some? ==> SchemeMatch(a, keyword).Some?
  {
    var x := a + c;
    var k := |keyword|;
    if |a| < k {
      assert x[|a|] == c[0];
    } else {
      var ra := a[k..];
      assert x[k..] == ra + c;
      RunLenConcat(ra, c, Space);
      var w := RunLen(ra, Space);
      if w == |ra| {
        assert (ra + c)[w..] == c;
      } else {
        DropConcat(ra, c, w);
        RunLenConcat(ra[w..], c, Token);
      }
    }
  }

  lemma NoSchemeMatchSuffix(s: string, keyword: string, j: nat)
    requires j <= |s|
    requires NoSchemeMatch(s, keyword)
    ensures NoSchemeMatch(s[j..], keyword)
  {
    forall i | 0 <= i < |s| - j ensures SchemeMatch(s[j..][i..], keyword).None? {
      assert s[j..][i..] == s[j + i..];
    }
  }

  // ---- The credential mask leaves no credential -------------------------

  /** The first position at or after `from` where a credential starts. */
  function FirstScheme(s: string, keyword: string, from: nat): (j: nat)
    requires from <= |s|
    ensures from <= j <= |s|
    ensures forall i | from <= i < j :: SchemeMatch(s[i..], keyword).None?
    ensures j < |s| ==> SchemeMatch(s[j..], keyword).Some?
    decreases |s| - from
  {
    if from == |s| || SchemeMatch(s[from..], keyword).Some? then from
    else FirstScheme(s, keyword, from + 1)
  }

  /** The scan copies everything before the first credential. */
  lemma {:induction false} MaskSchemeUpTo(s: string, j: nat, keyword: string, replacement: string)
    requires j <= |s|
    requires forall i | 0 <= i < j :: SchemeMatch(s[i..], keyword).None?
    ensures MaskScheme(s, keyword, replacement) == s[..j] + MaskScheme(s[j..], keyword, replacement)
    decreases j
  {
    if j == 0 {
      assert s[..0] + s[0..] == s;
    } else {
      assert SchemeMatch(s[j - 1..], keyword).None?;
      MaskSchemeUpTo(s, j - 1, keyword, replacement);
      MaskSchemeCopyStep(s, j - 1, keyword, replacement);
    }
  }

  lemma MaskSchemeCopyStep(s: string, i: nat, keyword: string, replacement: string)
    requires i < |s|
    requires SchemeMatch(s[i..], keyword).None?
    ensures s[..i] + MaskScheme(s[i..], keyword, replacement) == s[..i + 1] + MaskScheme(s[i + 1..], keyword, replacement)
  {
    var t := s[i..];
    MaskSchemeCopy(t, keyword, replacement);
    assert t[1..] == s[i + 1..] && t[0] == s[i];
    var m := MaskScheme(s[i + 1..], keyword, replacement);
    assert s[..i + 1] == s[..i] + [s[i]];
    assert s[..i] + ([s[i]] + m) == (s[..i] + [s[i]]) + m;
  }

  /** Where no credential starts, the scan copies one character. */
  lemma MaskSchemeCopy(t: string, keyword: string, replacement: string)
    requires |t| > 0 && SchemeMatch(t, keyword).None?
    ensures MaskScheme(t, keyword, replacement) == [t[0]] + MaskScheme(t[1..], keyword, replacement)
  {
  }

  /** The replacement's own credential run is just its keyword. */
  lemma ReplacementTokens(replacement: string, z: string, keyword: string)
    requires WellFormedScheme(keyword, replacement)
    ensures RunLen(replacement + z, Token) == |keyword|
    ensures RunLen(replacement + z, Space) == 0
  {
    ReplacementRuns(replacement, keyword);
    RunLenConcat(replacement, z, Token);
    RunLenConcat(replacement, z, Space);
  }

  lemma ReplacementRuns(replacement: string, keyword: string)
    requires WellFormedScheme(keyword, replacement)
    ensures RunLen(replacement, Token) == |keyword|
    ensures RunLen(replacement, Space) == 0
  {
    var k := |keyword|;
    assert replacement[k] == " ***"[0] == ' ';
    assert Fold(replacement[0]) == keyword[0];
    assert forall i | 0 <= i < k :: InClass(replacement[i], Token) by {
      forall i | 0 <= i < k ensures InClass(replacement[i], Token) {
        assert Fold(replacement[i]) == keyword[i];
      }
    }
    RunLenPrefix(replacement, k, Token);
  }

  /** Text that starts with a keyword has at least a keyword's worth of
      credential characters, and does not start with whitespace. */
  lemma KeywordTokens(t: string, keyword: string)
    requires LowerKeyword(keyword) && |keyword| >= 1
    requires KeywordAt(t, keyword)
    ensures RunLen(t, Token) >= |keyword|
    ensures RunLen(t, Space) == 0
  {
    assert Fold(t[0]) == keyword[0];
    assert forall i | 0 <= i < |keyword| :: InClass(t[i], Token) by {
      forall i | 0 <= i < |keyword| ensures InClass(t[i], Token) {
        assert Fold(t[i]) == keyword[i];
      }
    }
  }

  /** The replacement emitted at the start of the text is no credential. */
  lemma ReplacementHeadNoMatch(replacement: string, z: string, keyword: string)
    requires WellFormedScheme(keyword, replacement)
    ensures SchemeMatch(replacement + z, keyword).None?
  {
    var k := |keyword|;
    var x := replacement + z;
    var rest := x[k..];
    assert rest[0] == ' ' && rest[1] == '*';
    assert !IsSpace('*') && !InClass('*', Token);
    assert RunLen(rest, Space) == 1;
    assert rest[1..][0] == '*';
    assert RunLen(rest[1..], Token) == 0;
  }

  /** Copied text followed by a replacement does not start a credential:
      where it would, the input already had one. */
  lemma NoMatchBeforeReplacement(s: string, j: nat, keyword: string, replacement: string, z: string)
    requires WellFormedScheme(keyword, replacement)
    requires 1 <= j < |s|
    requires SchemeMatch(s, keyword).None?
    requires SchemeMatch(s[j..], keyword).Some?
    ensures SchemeMatch(s[..j] + (replacement + z), keyword).None?
  {
    if j < |keyword| {
      ReplacementInsideKeyword(s[..j], replacement + z, keyword, replacement);
    } else {
      ReplacementTokens(replacement, z, keyword);
      ReplacementAfterKeyword(s, j, keyword, replacement + z);
    }
  }

  /** A replacement cannot sit where the keyword's letters are. */
  lemma ReplacementInsideKeyword(a: string, r: string, keyword: string, replacement: string)
    requires WellFormedScheme(keyword, replacement)
    requires 1 <= |a| < |keyword|
    requires StartsWith(r, replacement)
    ensures !KeywordAt(a + r, keyword)
  {
    var x := a + r;
    var j := |a|;
    assert x[j] == r[0] == replacement[0];
    assert Fold(x[j]) == keyword[0] != keyword[j];
  }

  /** Where the keyword precedes the replacement, a match of the output
      implies a longer one in the input: the input's credential run goes on
      through the keyword the replacement stands for. */
  lemma ReplacementAfterKeyword(s: string, j: nat, keyword: string, r: string)
    requires LowerKeyword(keyword) && 1 <= |keyword| < MinToken
    requires RunLen(r, Token) == |keyword| && RunLen(r, Space) == 0
    requires |keyword| <= j < |s|
    requires KeywordAt(s[j..], keyword)
    ensures SchemeMatch(s[..j] + r, keyword).Some? ==> SchemeMatch(s, keyword).Some?
  {
    var x := s[..j] + r;
    var k := |keyword|;
    KeywordAtPrefix(x, s, j, keyword);
    var u := s[k..j];
    assert x[k..] == u + r;
    assert s[k..] == u + s[j..];
    KeywordTokens(s[j..], keyword);
    RunLenConcat(u, r, Space);
    RunLenConcat(u, s[j..], Space);
    var w := RunLen(u, Space);
    if w == |u| {
      assert (u + r)[w..] == r;
      assert (u + s[j..])[w..] == s[j..];
    } else {
      DropConcat(u, r, w);
      DropConcat(u, s[j..], w);
      RunLenConcat(u[w..], r, Token);
      RunLenConcat(u[w..], s[j..], Token);
    }
    SchemeMatchDominated(x, s, keyword, w);
  }

  /** Texts that agree on a prefix covering the keyword agree on whether
      they start with it. */
  lemma KeywordAtPrefix(a: string, b: string, m: nat, keyword: string)
    requires |keyword| <= m <= |a| && m <= |b| && a[..m] == b[..m]
    ensures KeywordAt(a, keyword) == KeywordAt(b, keyword)
  {
    assert forall i | 0 <= i < m :: a[i] == a[..m][i] && b[i] == b[..m][i];
  }

  /** A text whose keyword, space run and credential run are at least
      those of a matching text matches too. */
  lemma SchemeMatchDominated(x: string, s: string, keyword: string, w: nat)
    requires |keyword| <= |x| && |keyword| <= |s|
    requires KeywordAt(x, keyword) ==> KeywordAt(s, keyword)
    requires w == RunLen(x[|keyword|..], Space) == RunLen(s[|keyword|..], Space)
    requires RunLen(x[|keyword|..][w..], Token) <= RunLen(s[|keyword|..][w..], Token)
    ensures SchemeMatch(x, keyword).Some? ==> SchemeMatch(s, keyword).Some?
  {
  }

  /** A copied first character never starts a credential in the output. */
  lemma NoMatchAtCopiedStart(s: string, keyword: string, replacement: string)
    requires WellFormedScheme(keyword, replacement)
    requires |s| > 0 && SchemeMatch(s, keyword).None?
    ensures SchemeMatch(MaskScheme(s, keyword, replacement), keyword).None?
  {
    var j := FirstScheme(s, keyword, 1);
    assert s[0..] == s;
    MaskSchemeUpTo(s, j, keyword, replacement);
    var out := MaskScheme(s, keyword, replacement);
    if j == |s| {
      assert s[j..] == [];
      assert out == s[..j] + [];
      assert s[..j] == s;
      assert out == s;
      assert SchemeMatch(out, keyword).None?;
    } else {
      var n := SchemeMatch(s[j..], keyword).value;
      var z := MaskScheme(s[j..][n..], keyword, replacement);
      assert MaskScheme(s[j..], keyword, replacement) == replacement + z;
      assert out == s[..j] + (replacement + z);
      NoMatchBeforeReplacement(s, j, keyword, replacement, z);
      assert SchemeMatch(out, keyword).None?;
    }
  }

  /** A replacement in front of clean text leaves it clean. */
  lemma ReplacementKeepsClean(replacement: string, tail: string, keyword: string)
    requires WellFormedScheme(keyword, replacement)
    requires NoSchemeMatch(tail, keyword)
    ensures NoSchemeMatch(replacement + tail, keyword)
  {
    var out := replacement + tail;
    forall i | 0 <= i < |out| ensures SchemeMatch(out[i..], keyword).None? {
      if i >= |replacement| {
        assert out[i..] == tail[i - |replacement|..];
      } else if i > 0 {
        assert out[i..][0] == replacement[i];
        if i < |keyword| {
          assert Fold(replacement[i]) == keyword[i];
        } else {
          assert replacement[i] == " ***"[i - |keyword|];
        }
      } else {
        assert out[i..] == out;
        ReplacementHeadNoMatch(replacement, tail, keyword);
      }
    }
  }

  /** A character copied in front of the masked rest leaves it clean. */
  lemma CopyKeepsClean(s: string, keyword: string, replacement: string)
    requires WellFormedScheme(keyword, replacement)
    requires |s| > 0 && SchemeMatch(s, keyword).None?
    requires NoSchemeMatch(MaskScheme(s[1..], keyword, replacement), keyword)
    ensures NoSchemeMatch(MaskScheme(s, keyword, replacement), keyword)
  {
    var out := MaskScheme(s, keyword, replacement);
    var tail := MaskScheme(s[1..], keyword, replacement);
    assert out == [s[0]] + tail;
    forall i | 0 <= i < |out| ensures SchemeMatch(out[i..], keyword).None? {
      if i >= 1 {
        assert out[i..] == tail[i - 1..];
      } else {
        assert out[i..] == out;
        NoMatchAtCopiedStart(s, keyword, replacement);
      }
    }
  }

  /** The credential mask leaves no credential behind: `Bearer ***` is
      itself no match, and no match can form across it. */
  lemma {:induction false} MaskSchemeClean(s: string, keyword: string, replacement: string)
    requires WellFormedScheme(keyword, replacement)
    ensures NoSchemeMatch(MaskScheme(s, keyword, replacement), keyword)
    decreases |s|
  {
    if |s| > 0 {
      match SchemeMatch(s, keyword)
      case Some(n) =>
        MaskSchemeClean(s[n..], keyword, replacement);
        ReplacementKeepsClean(replacement, MaskScheme(s[n..], keyword, replacement), keyword);
      case None =>
        MaskSchemeClean(s[1..], keyword, replacement);
        CopyKeepsClean(s, keyword, replacement);
    }
  }

  // ---- The later stages keep the text clean ------------------------------

  /** Text before a stopper character starts a credential only where the
      original text already did. */
  lemma StopperKeepsNoMatch(s: string, j: nat, c: string, keyword: string)
    requires LowerKeyword(keyword)
    requires j <= |s| && |c| > 0 && Stopper(c[0])
    ensures SchemeMatch(s[..j] + c, keyword).Some? ==> SchemeMatch(s, keyword).Some?
  {
    SchemeMatchStopped(s[..j], c, keyword);
    SchemeMatchExtend(s[..j], s[j..], keyword);
    assert s[..j] + s[j..] == s;
  }

  /** The first position at or after `from` where a long alphanumeric run
      starts. */
  function FirstLongRun(s: string, from: nat): (j: nat)
    requires from <= |s|
    ensures from <= j <= |s|
    ensures forall i | from <= i < j :: RunLen(s[i..], Alnum) < LongRun
    ensures j < |s| ==> RunLen(s[j..], Alnum) >= LongRun
    decreases |s| - from
  {
    if from == |s| || RunLen(s[from..], Alnum) >= LongRun then from
    else FirstLongRun(s, from + 1)
  }

  lemma {:induction false} MaskLongRunsUpTo(s: string, j: nat)
    requires j <= |s|
    requires forall i | 0 <= i < j :: RunLen(s[i..], Alnum) < LongRun
    ensures MaskLongRuns(s) == s[..j] + MaskLongRuns(s[j..])
    decreases j
  {
    if j == 0 {
      assert s[..0] + s[0..] == s;
    } else {
      assert RunLen(s[j - 1..], Alnum) < LongRun;
      MaskLongRunsUpTo(s, j - 1);
      MaskLongRunsCopyStep(s, j - 1);
    }
  }

  lemma MaskLongRunsCopyStep(s: string, i: nat)
    requires i < |s| && RunLen(s[i..], Alnum) < LongRun
    ensures s[..i] + MaskLongRuns(s[i..]) == s[..i + 1] + MaskLongRuns(s[i + 1..])
  {
    var t := s[i..];
    MaskLongRunsCopy(t);
    assert t[1..] == s[i + 1..] && t[0] == s[i];
    var m := MaskLongRuns(s[i + 1..]);
    assert s[..i + 1] == s[..i] + [s[i]];
    assert s[..i] + ([s[i]] + m) == (s[..i] + [s[i]]) + m;
  }

  /** Where no long run starts, the scan copies one character. */
  lemma MaskLongRunsCopy(t: string)
    requires |t| > 0 && RunLen(t, Alnum) < LongRun
    ensures MaskLongRuns(t) == [t[0]] + MaskLongRuns(t[1..])
  {
  }

  lemma StarIsStopper()
    ensures Stopper('*') && !IsAsciiAlnum('*')
  {
    assert Fold('*') == '*';
  }

  /** A text starting with a stopper does not start with a keyword. */
  lemma StopperHeadNoKeyword(c: char, tail: string, keyword: string)
    requires LowerKeyword(keyword) && |keyword| >= 1
    requires Stopper(c)
    ensures !KeywordAt([c] + tail, keyword)
  {
    assert ([c] + tail)[0] == c;
  }

  /** Stars in front of clean text leave it clean. */
  lemma StarsKeepClean(tail: string, keyword: string)
    requires LowerKeyword(keyword) && |keyword| >= 1
    requires NoSchemeMatch(tail, keyword)
    ensures NoSchemeMatch("***" + tail, keyword)
  {
    var out := "***" + tail;
    StarIsStopper();
    forall i | 0 <= i < |out| ensures SchemeMatch(out[i..], keyword).None? {
      if i >= 3 {
        assert out[i..] == tail[i - 3..];
      } else {
        assert out[i..] == ['*'] + out[i + 1..];
        StopperHeadNoKeyword('*', out[i + 1..], keyword);
      }
    }
  }

  /** Up to the first long run after the head, the run mask copies. */
  lemma MaskLongRunsSplit(s: string) returns (j: nat)
    requires |s| > 0 && RunLen(s, Alnum) < LongRun
    ensures 1 <= j <= |s|
    ensures MaskLongRuns(s) == s[..j] + MaskLongRuns(s[j..])
    ensures j < |s| ==> RunLen(s[j..], Alnum) >= LongRun
  {
    j := FirstLongRun(s, 1);
    assert s[0..] == s;
    assert forall i | 0 <= i < j :: RunLen(s[i..], Alnum) < LongRun;
    MaskLongRunsUpTo(s, j);
  }

  /** The run mask's output at a long run starts with a star. */
  lemma MaskLongRunsAtLongRun(s: string)
    requires RunLen(s, Alnum) >= LongRun
    ensures |MaskLongRuns(s)| > 0 && Stopper(MaskLongRuns(s)[0])
  {
    StarIsStopper();
  }

  /** A copied first character never starts a credential in the output of
      the run mask. */
  lemma MaskLongRunsNoMatchAtStart(s: string, keyword: string)
    requires LowerKeyword(keyword) && |keyword| >= 1
    requires |s| > 0 && RunLen(s, Alnum) < LongRun
    requires SchemeMatch(s, keyword).None?
    ensures SchemeMatch(MaskLongRuns(s), keyword).None?
  {
    var j := MaskLongRunsSplit(s);
    if j == |s| {
      assert MaskLongRuns(s[j..]) == [];
      assert MaskLongRuns(s) == s;
    } else {
      var c := MaskLongRuns(s[j..]);
      MaskLongRunsAtLongRun(s[j..]);
      StopperKeepsNoMatch(s, j, c, keyword);
    }
  }

  /** Masking long runs creates no credential. */
  lemma {:induction false} MaskLongRunsKeepsClean(s: string, keyword: string)
    requires LowerKeyword(keyword) && |keyword| >= 1
    requires NoSchemeMatch(s, keyword)
    ensures NoSchemeMatch(MaskLongRuns(s), keyword)
    decreases |s|
  {
    if |s| > 0 {
      var n := RunLen(s, Alnum);
      assert s[0..] == s;
      if n >= LongRun {
        NoSchemeMatchSuffix(s, keyword, n);
        MaskLongRunsKeepsClean(s[n..], keyword);
        StarsKeepClean(MaskLongRuns(s[n..]), keyword);
      } else {
        var out := MaskLongRuns(s);
        var tail := MaskLongRuns(s[1..]);
        NoSchemeMatchSuffix(s, keyword, 1);
        MaskLongRunsKeepsClean(s[1..], keyword);
        assert out == [s[0]] + tail;
        forall i | 0 <= i < |out| ensures SchemeMatch(out[i..], keyword).None? {
          if i >= 1 {
            assert out[i..] == tail[i - 1..];
          } else {
            assert out[i..] == out;
            MaskLongRunsNoMatchAtStart(s, keyword);
          }
        }
      }
    }
  }

  lemma KeywordQuoteBlind(a: string, b: string, keyword: string)
    requires LowerKeyword(keyword)
    requires QuoteVariant(a, b)
    ensures KeywordAt(a, keyword) == KeywordAt(b, keyword)
  {
    if |keyword| <= |a| {
      forall i | 0 <= i < |keyword| ensures (Fold(a[i]) == keyword[i]) == (Fold(b[i]) == keyword[i]) {
        if a[i] != b[i] {
          assert Fold(a[i]) == a[i] && Fold(b[i]) == b[i];
        }
      }
    }
  }

  /** The credential matcher only looks at keyword letters and at the
      lengths of the two runs after them. */
  lemma SchemeMatchSameShape(a: string, b: string, keyword: string)
    requires |a| == |b|
    requires KeywordAt(a, keyword) == KeywordAt(b, keyword)
    requires |keyword| <= |a| ==>
      && RunLen(a[|keyword|..], Space) == RunLen(b[|keyword|..], Space)
      && RunLen(a[|keyword|..][RunLen(a[|keyword|..], Space)..], Token)
         == RunLen(b[|keyword|..][RunLen(a[|keyword|..], Space)..], Token)
    ensures SchemeMatch(a, keyword) == SchemeMatch(b, keyword)
  {
  }

  /** The credential matcher cannot tell quote characters apart. */
  lemma SchemeMatchQuoteBlind(a: string, b: string, keyword: string)
    requires LowerKeyword(keyword)
    requires QuoteVariant(a, b)
    ensures SchemeMatch(a, keyword) == SchemeMatch(b, keyword)
  {
    var k := |keyword|;
    KeywordQuoteBlind(a, b, keyword);
    if k <= |a| {
      QuoteVariantSuffix(a, b, k);
      QuoteVariantRuns(a[k..], b[k..], Space);
      var w := RunLen(a[k..], Space);
      QuoteVariantSuffix(a[k..], b[k..], w);
      QuoteVariantRuns(a[k..][w..], b[k..][w..], Token);
    }
    SchemeMatchSameShape(a, b, keyword);
  }

  /** Requoting creates no credential and no long run. */
  lemma RequoteKeepsClean(s: string, keyword: string)
    requires LowerKeyword(keyword)
    ensures NoSchemeMatch(s, keyword) ==> NoSchemeMatch(Requote(s), keyword)
    ensures NoLongRun(s) ==> NoLongRun(Requote(s))
  {
    var r := Requote(s);
    RequoteOnlyRequotes(s);
    RequotedIsVariant(s, r);
    forall i | 0 <= i < |s|
      ensures SchemeMatch(r[i..], keyword) == SchemeMatch(s[i..], keyword)
      ensures RunLen(r[i..], Alnum) == RunLen(s[i..], Alnum)
    {
      QuoteVariantSuffix(s, r, i);
      SchemeMatchQuoteBlind(s[i..], r[i..], keyword);
      QuoteVariantRuns(s[i..], r[i..], Alnum);
    }
  }

  /** Truncation creates no credential and no long run: the marker starts
      with a character that ends both. */
  lemma TruncateKeepsClean(s: string, keyword: string, replacement: string)
    requires WellFormedScheme(keyword, replacement)
    ensures NoSchemeMatch(s, keyword) ==> NoSchemeMatch(Truncate(s), keyword)
    ensures NoLongRun(s) ==> NoLongRun(Truncate(s))
  {
    if |s| > MaxLogLength {
      var out := Truncate(s);
      forall i | 0 <= i < |out|
        ensures SchemeMatch(out[i..], keyword).None? || (i < MaxLogLength && SchemeMatch(s[i..], keyword).Some?)
        ensures RunLen(out[i..], Alnum) < LongRun || (i < MaxLogLength && RunLen(s[i..], Alnum) >= LongRun)
      {
        if i < MaxLogLength {
          TruncatedBefore(s, i, keyword);
        } else {
          TruncatedMarker(s, i - MaxLogLength, keyword, replacement);
        }
      }
    }
  }

  /** Before the cut, the truncated text only loses matches. */
  lemma TruncatedBefore(s: string, i: nat, keyword: string)
    requires LowerKeyword(keyword)
    requires i < MaxLogLength < |s|
    ensures SchemeMatch(Truncate(s)[i..], keyword).Some? ==> SchemeMatch(s[i..], keyword).Some?
    ensures RunLen(Truncate(s)[i..], Alnum) >= LongRun ==> RunLen(s[i..], Alnum) >= LongRun
  {
    var p := s[..MaxLogLength];
    assert Truncate(s)[i..] == p[i..] + TruncationMarker;
    assert s[i..] == p[i..] + s[MaxLogLength..];
    assert p[i..] == s[i..][..MaxLogLength - i];
    assert Stopper(TruncationMarker[0]) && !IsAsciiAlnum(TruncationMarker[0]);
    StopperKeepsNoMatch(s[i..], MaxLogLength - i, TruncationMarker, keyword);
    RunLenConcat(p[i..], TruncationMarker, Alnum);
    RunLenConcat(p[i..], s[MaxLogLength..], Alnum);
  }

  /** Inside the marker there is neither a credential nor a long run. */
  lemma TruncatedMarker(s: string, j: nat, keyword: string, replacement: string)
    requires WellFormedScheme(keyword, replacement)
    requires MaxLogLength < |s| && j < |TruncationMarker|
    ensures SchemeMatch(Truncate(s)[MaxLogLength + j..], keyword).None?
    ensures RunLen(Truncate(s)[MaxLogLength + j..], Alnum) < LongRun
  {
    var t := TruncationMarker[j..];
    assert Truncate(s)[MaxLogLength + j..] == t;
    assert Fold(t[0]) == t[0] != keyword[0];
  }

  // ---- Requoting survives truncation -------------------------------------

  predicate QuoteFree(s: string) {
    forall i | 0 <= i < |s| :: !IsQuote(s[i])
  }

  lemma {:induction false} RequoteQuoteFree(s: string)
    requires QuoteFree(s)
    ensures Requote(s) == s
    decreases |s|
  {
    if |s| > 0 {
      RequoteQuoteFree(s[1..]);
    }
  }

  /** The pieces of an address match: a quote, the local part, `@`, the
      domain and a closing quote. */
  predicate EmailParts(s: string, l: nat, d: nat) {
    && 3 + l + d <= |s| && l >= 1 && d >= 1
    && IsQuote(s[0]) && s[1 + l] == '@' && IsQuote(s[2 + l + d])
    && RunLen(s[1..], Local) == l && RunLen(s[2 + l..], Domain) == d
  }

  lemma EmailMatchParts(s: string, n: nat) returns (l: nat, d: nat)
    requires EmailMatch(s) == Some(n)
    ensures EmailParts(s, l, d) && n == 3 + l + d
  {
    l := RunLen(s[1..], Local);
    d := RunLen(s[2 + l..], Domain);
  }

  lemma EmailPartsMatch(s: string, l: nat, d: nat)
    requires EmailParts(s, l, d)
    ensures EmailMatch(s) == Some(3 + l + d)
  {
  }

  /** An address match reads nothing beyond its closing quote. */
  lemma EmailMatchLocal(x: string, y: string, n: nat)
    requires EmailMatch(x) == Some(n)
    requires n <= |y| && x[..n] == y[..n]
    ensures EmailMatch(y) == Some(n)
  {
    var l, d := EmailMatchParts(x, n);
    EmailPartsLocal(x, y, l, d);
    EmailPartsMatch(y, l, d);
  }

  lemma EmailPartsLocal(x: string, y: string, l: nat, d: nat)
    requires EmailParts(x, l, d)
    requires 3 + l + d <= |y| && x[..3 + l + d] == y[..3 + l + d]
    ensures EmailParts(y, l, d)
  {
    var n := 3 + l + d;
    PrefixAgree(x, y, n, 0);
    PrefixAgree(x, y, n, 1);
    PrefixAgree(x, y, n, 1 + l);
    PrefixAgree(x, y, n, 2 + l);
    PrefixAgree(x, y, n, 2 + l + d);
    RunLenAgree(x[1..], y[1..], n - 1, Local);
    RunLenAgree(x[2 + l..], y[2 + l..], n - 2 - l, Domain);
  }

  /** Strings with a common prefix agree on its characters and on the
      rest of it from any point. */
  lemma PrefixAgree(x: string, y: string, n: nat, k: nat)
    requires k < n <= |x| && n <= |y| && x[..n] == y[..n]
    ensures x[k] == y[k]
    ensures x[k..][..n - k] == y[k..][..n - k]
  {
    assert x[k] == x[..n][k] && y[k] == y[..n][k];
    assert x[k..][..n - k] == x[..n][k..];
    assert y[k..][..n - k] == y[..n][k..];
  }

  /** Between its quotes an address holds no quote. */
  lemma EmailInterior(y: string, n: nat)
    requires EmailMatch(y) == Some(n)
    ensures forall i | 1 <= i < n - 1 :: !IsQuote(y[i])
  {
    var l := RunLen(y[1..], Local);
    forall i | 1 <= i < n - 1 ensures !IsQuote(y[i]) {
      if i <= l {
        assert InClass(y[1..][i - 1], Local);
      } else if i > l + 1 {
        assert InClass(y[2 + l..][i - 2 - l], Domain);
      }
    }
  }

  /** Cutting text and appending quote-free text creates no new address:
      any match closes before the cut and is one of the original's. */
  lemma EmailMatchCut(y: string, m: nat, c: string)
    requires m <= |y| && QuoteFree(c)
    ensures EmailMatch(y[..m] + c).Some? ==>
      EmailMatch(y[..m] + c).value <= m && EmailMatch(y) == EmailMatch(y[..m] + c)
  {
    var x := y[..m] + c;
    if EmailMatch(x).Some? {
      var n := EmailMatch(x).value;
      if n - 1 < m {
        assert x[..n] == y[..n];
        EmailMatchLocal(x, y, n);
      }
    }
  }

  /** Requoted text stays so when cut and given a quote-free tail. */
  lemma {:induction false} RequoteCut(x: string, m: nat, c: string)
    requires m <= |x| && QuoteFree(c)
    ensures Requote(Requote(x)[..m] + c) == Requote(x)[..m] + c
    decreases |x|
  {
    var y := Requote(x);
    var out := y[..m] + c;
    if m == 0 {
      assert out == c;
      RequoteQuoteFree(c);
    } else {
      RequoteHead(x);
      EmailMatchCut(y, m, c);
      match EmailMatch(x)
      case Some(n) =>
        if n <= m {
          RequoteCutAfterMatch(x, m, c, n);
        } else {
          RequoteCutInsideMatch(x, m, c, n);
        }
      case None =>
        var tail := Requote(x[1..]);
        RequoteNoAddress(x);
        assert y == [x[0]] + tail;
        assert out[1..] == tail[..m - 1] + c;
        RequoteCut(x[1..], m - 1, c);
        RequoteNoAddress(out);
    }
  }

  /** A cut through an address leaves only quote-free text after its
      opening quote. */
  lemma RequoteCutInsideMatch(x: string, m: nat, c: string, n: nat)
    requires 0 < m < n && QuoteFree(c)
    requires EmailMatch(x) == Some(n) && EmailMatch(Requote(x)) == Some(n)
    ensures Requote(Requote(x)[..m] + c) == Requote(x)[..m] + c
  {
    var y := Requote(x);
    var out := y[..m] + c;
    EmailMatchCut(y, m, c);
    EmailInterior(y, n);
    QuoteFreeAfterCut(y, m, n, c);
    RequoteQuoteFree(out[1..]);
    RequoteNoAddress(out);
    assert out == [out[0]] + out[1..];
  }

  lemma QuoteFreeAfterCut(y: string, m: nat, n: nat, c: string)
    requires 0 < m < n <= |y| && QuoteFree(c)
    requires forall i | 1 <= i < n - 1 :: !IsQuote(y[i])
    ensures QuoteFree((y[..m] + c)[1..])
  {
    var t := (y[..m] + c)[1..];
    forall i | 0 <= i < |t| ensures !IsQuote(t[i]) {
      if i < m - 1 {
        assert t[i] == y[i + 1];
      } else {
        assert t[i] == c[i - (m - 1)];
      }
    }
  }

  /** The requoted text at an address: double quotes around the verbatim
      address, then the requoted rest. */
  lemma RequoteAtAddress(x: string, n: nat)
    requires EmailMatch(x) == Some(n)
    ensures Requote(x)[0] == '"' && Requote(x)[n - 1] == '"'
    ensures Requote(x)[n..] == Requote(x[n..])
  {
    RequoteAddress(x, n);
    QuotedShape(x[1..n - 1], Requote(x[n..]));
  }

  /** Where the quotes and the tail sit in a double-quoted piece of text
      followed by a tail. */
  lemma QuotedShape(mid: string, tail: string)
    ensures var s := "\"" + mid + "\"" + tail;
      s[0] == '"' && s[|mid| + 1] == '"' && s[|mid| + 2..] == tail
  {
  }

  /** Requoting text that opens with an address whose quotes are already
      double quotes leaves that address as it is. */
  lemma RequoteKeepsAddress(out: string, n: nat)
    requires EmailMatch(out) == Some(n) && out[0] == '"' && out[n - 1] == '"'
    ensures Requote(out) == out[..n] + Requote(out[n..])
  {
    RequoteAddress(out, n);
    DoubleQuoted(out, n);
    var tail := Requote(out[n..]);
    assert Requote(out) == ("\"" + out[1..n - 1] + "\"") + tail;
  }

  lemma DoubleQuoted(s: string, n: nat)
    requires 2 <= n <= |s| && s[0] == '"' && s[n - 1] == '"'
    ensures s[..n] == "\"" + s[1..n - 1] + "\""
  {
  }

  lemma CutShape(y: string, m: nat, n: nat, c: string)
    requires n <= m <= |y|
    ensures (y[..m] + c)[..n] == y[..n]
    ensures (y[..m] + c)[n..] == y[n..][..m - n] + c
  {
  }

  lemma {:induction false} RequoteCutAfterMatch(x: string, m: nat, c: string, n: nat)
    requires m <= |x| && QuoteFree(c)
    requires EmailMatch(x) == Some(n) && EmailMatch(Requote(x)) == Some(n) && n <= m
    ensures Requote(Requote(x)[..m] + c) == Requote(x)[..m] + c
    decreases |x|, 0
  {
    var out := Requote(x)[..m] + c;
    assert m - n <= |x[n..]|;
    var t := Requote(x[n..])[..m - n] + c;
    CutAfterAddress(x, m, c, n);
    assert out[n..] == t;
    RequoteCut(x[n..], m - n, c);
    assert Requote(t) == t;
    RequotedAfterAddress(out, n, Requote(out), Requote(out[n..]));
  }

  /** Cut requoted text that opens with an address: the address is kept
      and the rest is the requoted rest of the input, cut. */
  lemma CutAfterAddress(x: string, m: nat, c: string, n: nat)
    requires m <= |x| && QuoteFree(c)
    requires EmailMatch(x) == Some(n) && EmailMatch(Requote(x)) == Some(n) && n <= m
    ensures var out := Requote(x)[..m] + c;
      && Requote(out) == out[..n] + Requote(out[n..])
      && out[n..] == Requote(x[n..])[..m - n] + c
  {
    var y := Requote(x);
    var out := y[..m] + c;
    RequoteAtAddress(x, n);
    CutShape(y, m, n, c);
    EmailMatchLocal(y, out, n);
    assert out[0] == out[..n][0] && out[n - 1] == out[..n][n - 1];
    RequoteKeepsAddress(out, n);
  }

  /** Text whose requoting `whole` keeps its first `n` characters and
      requotes the rest to `rest`, which is that rest unchanged, is
      requoted: `whole` and `rest` stand for `Requote(out)` and
      `Requote(out[n..])`. */
  lemma RequotedAfterAddress(out: string, n: nat, whole: string, rest: string)
    requires n <= |out| && whole == out[..n] + rest && rest == out[n..]
    ensures whole == out
  {
    assert out[..n] + out[n..] == out;
  }

  /** Requoting is idempotent: the output's addresses are the input's, and
      each is already between double quotes. */
  lemma RequoteIdempotent(s: string)
    ensures Requote(Requote(s)) == Requote(s)
  {
    RequoteCut(s, |s|, "");
    assert Requote(s)[..|s|] + "" == Requote(s);
  }

  /** Truncating requoted text keeps it requoted: the marker holds no
      quote and a cut address no longer matches. */
  lemma TruncateKeepsRequoted(x: string)
    ensures Requote(Truncate(Requote(x))) == Truncate(Requote(x))
  {
    if |Requote(x)| > MaxLogLength {
      assert QuoteFree(TruncationMarker);
      RequoteCut(x, MaxLogLength, TruncationMarker);
    } else {
      RequoteIdempotent(x);
    }
  }

  // ---- The two redactors -------------------------------------------------

  /** The mail client's redactor leaves no `Bearer` credential, no run of
      32 alphanumerics and no single-quoted address, and its output is at
      most 215 characters long. */
  lemma SanitizeMailGuarantees(text: string)
    ensures NoSchemeMatch(SanitizeMail(text), "bearer")
    ensures NoLongRun(SanitizeMail(text))
    ensures Requote(SanitizeMail(text)) == SanitizeMail(text)
    ensures |SanitizeMail(text)| <= MaxLogLength + |TruncationMarker|
    ensures Truncate(SanitizeMail(text)) == SanitizeMail(text)
  {
    if |text| > 0 {
      var kw, repl := "bearer", "Bearer ***";
      SchemesWellFormed();
      var a := MaskScheme(text, kw, repl);
      MaskSchemeClean(text, kw, repl);
      var b := MaskLongRuns(a);
      MaskLongRunsNoLongRun(a);
      MaskLongRunsKeepsClean(a, kw);
      var c := Requote(b);
      RequoteKeepsClean(b, kw);
      TruncateKeepsClean(c, kw, repl);
      TruncateKeepsRequoted(b);
      TruncateBounded(c);
      TruncateIdempotent(c);
    }
  }

  /** The mail redactor never lengthens text of at most 200 characters and
      empties only empty text. */
  lemma SanitizeMailLength(text: string)
    ensures |text| <= MaxLogLength ==> |SanitizeMail(text)| <= |text|
    ensures SanitizeMail(text) == [] <==> text == []
  {
    if |text| > 0 {
      var a := MaskScheme(text, "bearer", "Bearer ***");
      MaskSchemeLength(text, "bearer", "Bearer ***");
      MaskLongRunsLength(a);
    }
  }

  /** Text the mail redactor leaves alone is exactly text with none of what
      it removes and no more than 200 characters before any marker. */
  lemma SanitizeMailFixedPoint(text: string)
    ensures SanitizeMail(text) == text <==>
      && NoSchemeMatch(text, "bearer")
      && NoLongRun(text)
      && Requote(text) == text
      && Truncate(text) == text
  {
    SanitizeMailGuarantees(text);
    if NoSchemeMatch(text, "bearer") && NoLongRun(text) && Requote(text) == text && Truncate(text) == text {
      MaskSchemeIdentity(text, "bearer", "Bearer ***");
      MaskLongRunsIdentity(text);
    }
  }

  /** Redacting mail-client text twice is redacting it once. */
  lemma SanitizeMailIdempotent(text: string)
    ensures SanitizeMail(SanitizeMail(text)) == SanitizeMail(text)
  {
    var o := SanitizeMail(text);
    SanitizeMailGuarantees(text);
    SanitizeMailFixedPoint(o);
  }

  /** The WordPress client's redactor leaves no `Basic` credential and no run
      of 32 alphanumerics, and its output is at most 215 characters long. */
  lemma SanitizeWordPressGuarantees(text: string)
    ensures NoSchemeMatch(SanitizeWordPress(text), "basic")
    ensures NoLongRun(SanitizeWordPress(text))
    ensures |SanitizeWordPress(text)| <= MaxLogLength + |TruncationMarker|
    ensures Truncate(SanitizeWordPress(text)) == SanitizeWordPress(text)
  {
    if |text| > 0 {
      var kw, repl := "basic", "Basic ***";
      SchemesWellFormed();
      var a := MaskScheme(text, kw, repl);
      MaskSchemeClean(text, kw, repl);
      var b := MaskLongRuns(a);
      MaskLongRunsNoLongRun(a);
      MaskLongRunsKeepsClean(a, kw);
      TruncateKeepsClean(b, kw, repl);
      TruncateBounded(b);
      TruncateIdempotent(b);
    }
  }

  /** The WordPress redactor never lengthens text of at most 200 characters
      and empties only empty text. */
  lemma SanitizeWordPressLength(text: string)
    ensures |text| <= MaxLogLength ==> |SanitizeWordPress(text)| <= |text|
    ensures SanitizeWordPress(text) == [] <==> text == []
  {
    if |text| > 0 {
      var a := MaskScheme(text, "basic", "Basic ***");
      MaskSchemeLength(text, "basic", "Basic ***");
      MaskLongRunsLength(a);
    }
  }

  /** Text the WordPress redactor leaves alone is exactly text with none of
      what it removes. */
  lemma SanitizeWordPressFixedPoint(text: string)
    ensures SanitizeWordPress(text) == text <==>
      && NoSchemeMatch(text, "basic")
      && NoLongRun(text)
      && Truncate(text) == text
  {
    SanitizeWordPressGuarantees(text);
    if NoSchemeMatch(text, "basic") && NoLongRun(text) && Truncate(text) == text {
      MaskSchemeIdentity(text, "basic", "Basic ***");
      MaskLongRunsIdentity(text);
    }
  }

  /** Redacting WordPress-client text twice is redacting it once. */
  lemma SanitizeWordPressIdempotent(text: string)
    ensures SanitizeWordPress(SanitizeWordPress(text)) == SanitizeWordPress(text)
  {
    SanitizeWordPressGuarantees(text);
    SanitizeWordPressFixedPoint(SanitizeWordPress(text));
  }
}

=== FILE: resolver.dfy ===
/** Resolving the file references a tool receives (`resolve_files` and
    `cleanup_files` in `tools/file_utils.py`): a path is used where it is,
    inline content is written to a temporary file, and a URL or an upload
    id is downloaded into one as `Files.DownloadAsWritten` does. The files
    the resolver creates are exactly the ones it marks for cleanup, so
    cleaning up restores the file system the caller had. */
module Resolver {
  import opened Wrappers
  import opened Text
  import opened Py
  import opened Files

  predicate HasWebScheme(s: string) {
    StartsWith(s, "http://") || StartsWith(s, "https://")
  }

  /** `_resolve_pathlike`: the value, stripped, must not be empty; an
      http(s) URL is downloaded; anything else must name an existing file,
      which is used in place and never cleaned up. Bytes are a path
      `os.fspath` accepts but `startswith` then rejects. */
  function ResolvePathlike(fs: Fs, env: Env, v: Value): (r: (Fs, Result<ResolvedFile, Exc>))
    requires WellFormed(fs)
    ensures WellFormed(r.0) && r.0.created >= fs.created
    ensures r.1.Err? ==> r.0.files == fs.files
    ensures r.1.Ok? ==> Added(fs, r.0, r.1.value)
    ensures r.1.Ok? && !r.1.value.cleanup ==> v.VStr? && r.1.value.place == Named(env.expandUser(Strip(v.s)))
    ensures v.VStr? && IsBlank(v.s) ==> r == (fs, Err(ValueError(EmptyPath)))
  {
    match v
    case VStr(s) =>
      var p := Strip(s);
      if p == "" then (fs, Err(ValueError(EmptyPath)))
      else if HasWebScheme(p) then
        var got := DownloadAsWritten(fs, env, VStr(p), None, None);
        assert got.1.Ok? ==> got.1.value.cleanup;
        got
      else
        var expanded := env.expandUser(p);
        if Named(expanded) !in fs.files then (fs, Err(FileNotFound(p + NotAFile)))
        else (fs, Ok(ResolvedFile(Named(expanded), false)))
    case VBytes(bs) =>
      if forall i | 0 <= i < |bs| :: IsAsciiSpaceByte(bs[i]) then (fs, Err(ValueError(EmptyPath)))
      else (fs, Err(TypeError("startswith first arg must be bytes or a tuple of bytes, not str")))
    case _ =>
      (fs, Err(TypeError("expected str, bytes or os.PathLike object, not " + TypeName(v))))
  }

  /** Inline content, decoded and written to a temporary file named with
      the inferred suffix. */
  function ResolveContent(fs: Fs, env: Env, content: Value, d: Dict): (r: (Fs, Result<ResolvedFile, Exc>))
    requires WellFormed(fs)
    ensures WellFormed(r.0) && r.0.created >= fs.created
    ensures r.1.Err? ==> r.0.files == fs.files
    ensures r.1.Ok? ==> (r.1.value.cleanup && Added(fs, r.0, r.1.value)
      && CoerceBytes(content, env) == Ok(r.0.files[r.1.value.place]))
  {
    match CoerceBytes(content, env)
    case Err(e) => (fs, Err(e))
    case Ok(payload) =>
      var (fs1, f) := WriteTemp(fs, payload, InferSuffix(Some(d), env));
      assert fs1.files - {f.place} == fs.files;
      (fs1, Ok(f))
  }

  /** `_resolve_single`: a string is a path; a dict is looked at for, in
      this order, a `path`, inline `content` (or `data`), a `url`, and an
      `upload_file_id` on Dify's file host; nothing else is understood. */
  function ResolveSingle(fs: Fs, env: Env, info: Value): (r: (Fs, Result<ResolvedFile, Exc>))
    requires WellFormed(fs)
    ensures WellFormed(r.0) && r.0.created >= fs.created
    ensures r.1.Err? ==> r.0.files == fs.files
    ensures r.1.Ok? ==> Added(fs, r.0, r.1.value)
    ensures !info.VStr? && !info.VDict? ==> r == (fs, Err(ValueError(Unreadable)))
    ensures info.VDict? && !Truthy(Get(info.entries, "path")) && !Truthy(Or(Get(info.entries, "content"), Get(info.entries, "data")))
      && !Truthy(Get(info.entries, "url")) && !Truthy(Get(info.entries, "upload_file_id"))
      ==> r == (fs, Err(ValueError(NoSource)))
  {
    match info
    case VStr(_) => ResolvePathlike(fs, env, info)
    case VDict(d) =>
      var path := Get(d, "path");
      var content := Or(Get(d, "content"), Get(d, "data"));
      var url := Get(d, "url");
      var upload := Get(d, "upload_file_id");
      if Truthy(path) then ResolvePathlike(fs, env, path)
      else if Truthy(content) then ResolveContent(fs, env, content, d)
      else if Truthy(url) then DownloadAsWritten(fs, env, url, Some(d), InferSuffix(Some(d), env))
      else if Truthy(upload) then DownloadAsWritten(fs, env, VStr(UploadHost + Str(upload)), Some(d), InferSuffix(Some(d), env))
      else (fs, Err(ValueError(NoSource)))
    case _ => (fs, Err(ValueError(Unreadable)))
  }

  /** The places marked for cleanup. */
  function Owned(rs: seq<ResolvedFile>): set<Place> {
    set i | 0 <= i < |rs| && rs[i].cleanup :: rs[i].place
  }

  lemma OwnedCons(f: ResolvedFile, rest: seq<ResolvedFile>)
    ensures Owned([f] + rest) == (if f.cleanup then {f.place} else {}) + Owned(rest)
  {
    var all := [f] + rest;
    forall p | p in Owned(all) ensures p in (if f.cleanup then {f.place} else {}) + Owned(rest) {
      var i :| 0 <= i < |all| && all[i].cleanup && all[i].place == p;
      if i > 0 { assert all[i] == rest[i - 1]; }
    }
    forall p | p in Owned(rest) ensures p in Owned(all) {
      var i :| 0 <= i < |rest| && rest[i].cleanup && rest[i].place == p;
      assert all[i + 1] == rest[i];
    }
    if f.cleanup { assert all[0] == f; }
  }

  /** The files a resolution of several inputs created are exactly the ones
      it marks for cleanup, all temporary and numbered from `fs.created`. */
  predicate AddedAll(fs: Fs, fs2: Fs, rs: seq<ResolvedFile>) {
    && WellFormed(fs2) && fs2.created >= fs.created
    && fs2.files - Owned(rs) == fs.files
    && (forall p | p in Owned(rs) :: p.Temp? && fs.created <= p.n < fs2.created)
    && (forall i | 0 <= i < |rs| :: rs[i].place in fs2.files)
  }

  /** `resolve_files`: each input resolved in turn; the first failure
      propagates, leaving the files created before it in place. */
  function ResolveFiles(fs: Fs, env: Env, inputs: seq<Value>): (r: (Fs, Result<seq<ResolvedFile>, Exc>))
    requires WellFormed(fs)
    ensures WellFormed(r.0) && r.0.created >= fs.created
    ensures r.1.Ok? ==> |r.1.value| == |inputs|
    decreases |inputs|
  {
    if |inputs| == 0 then (fs, Ok([]))
    else
      var (fs1, first) := ResolveSingle(fs, env, inputs[0]);
      match first
      case Err(e) => (fs1, Err(e))
      case Ok(f) =>
        var (fs2, rest) := ResolveFiles(fs1, env, inputs[1..]);
        match rest
        case Err(e) => (fs2, Err(e))
        case Ok(later) => (fs2, Ok([f] + later))
  }

  /** The files a successful resolution created are exactly the ones it
      marks for cleanup; every resolved file exists. */
  lemma {:induction false} ResolveFilesAdded(fs: Fs, env: Env, inputs: seq<Value>)
    requires WellFormed(fs)
    ensures var (fs1, rs) := ResolveFiles(fs, env, inputs);
      rs.Ok? ==> AddedAll(fs, fs1, rs.value)
    decreases |inputs|
  {
    if |inputs| == 0 {
      assert fs.files - {} == fs.files;
    } else {
      var (fs1, first) := ResolveSingle(fs, env, inputs[0]);
      if first.Ok? {
        ResolveFilesAdded(fs1, env, inputs[1..]);
        var (fs2, rest) := ResolveFiles(fs1, env, inputs[1..]);
        if rest.Ok? {
          ResolveStep(fs, fs1, fs2, first.value, rest.value);
        }
      }
    }
  }

  /** One resolution followed by the rest keeps the accounting. */
  lemma ResolveStep(fs: Fs, fs1: Fs, fs2: Fs, f: ResolvedFile, rest: seq<ResolvedFile>)
    requires WellFormed(fs) && Added(fs, fs1, f) && AddedAll(fs1, fs2, rest)
    ensures AddedAll(fs, fs2, [f] + rest)
  {
    var all := [f] + rest;
    OwnedCons(f, rest);
    if f.cleanup {
      assert f.place !in Owned(rest);
      assert fs2.files - Owned(all) == (fs2.files - Owned(rest)) - {f.place};
    } else {
      assert f.place !in Owned(rest);
      assert Owned(all) == Owned(rest);
    }
    forall i | 0 <= i < |all| ensures all[i].place in fs2.files {
      if i > 0 {
        assert all[i] == rest[i - 1];
      } else {
        assert f.place !in Owned(rest);
        assert f.place in fs2.files - Owned(rest);
      }
    }
  }

  /** `cleanup_files`: every file marked for cleanup is deleted if it still
      exists; nothing else is touched and nothing fails. */
  function CleanupFiles(fs: Fs, rs: seq<ResolvedFile>): (r: Fs)
    ensures r.files == fs.files - Owned(rs) && r.created == fs.created
    decreases |rs|
  {
    if |rs| == 0 then
      assert fs.files - {} == fs.files;
      fs
    else
      var fs1 := if rs[0].cleanup then Unlink(fs, rs[0].place) else fs;
      OwnedCons(rs[0], rs[1..]);
      assert rs == [rs[0]] + rs[1..];
      var r := CleanupFiles(fs1, rs[1..]);
      assert r.files == fs.files - Owned(rs);
      r
  }

  /** Resolving files and then cleaning them up leaves the file system as
      it was: every file the resolver created is deleted, and no file the
      caller named is. */
  lemma ResolveThenCleanup(fs: Fs, env: Env, inputs: seq<Value>)
    requires WellFormed(fs)
    ensures var (fs1, rs) := ResolveFiles(fs, env, inputs);
      rs.Ok? ==> CleanupFiles(fs1, rs.value).files == fs.files
  {
    ResolveFilesAdded(fs, env, inputs);
  }

  /** Resolving a list is resolving its first part, then the rest. */
  lemma {:induction false} ResolveFilesAppend(fs: Fs, env: Env, a: seq<Value>, b: seq<Value>)
    requires WellFormed(fs)
    ensures var mid := ResolveFiles(fs, env, a); var rest := ResolveFiles(mid.0, env, b);
      mid.1.Ok? ==> ResolveFiles(fs, env, a + b) == (rest.0, if rest.1.Ok? then Ok(mid.1.value + rest.1.value) else rest.1)
    decreases |a|, 1
  {
    if |a| == 0 {
      assert a + b == b;
      var rest := ResolveFiles(fs, env, b);
      if rest.1.Ok? {
        assert [] + rest.1.value == rest.1.value;
      }
    } else {
      ConsSplit(a, b);
      ResolveAppendStep(fs, env, a[0], a[1..], b);
    }
  }

  lemma ConsSplit(a: seq<Value>, b: seq<Value>)
    requires |a| > 0
    ensures a == [a[0]] + a[1..] && a + b == [a[0]] + (a[1..] + b)
  {
  }

  lemma {:induction false} ResolveAppendStep(fs: Fs, env: Env, x: Value, tail: seq<Value>, b: seq<Value>)
    requires WellFormed(fs)
    ensures var mid := ResolveFiles(fs, env, [x] + tail); var rest := ResolveFiles(mid.0, env, b);
      mid.1.Ok? ==> ResolveFiles(fs, env, [x] + (tail + b)) == (rest.0, if rest.1.Ok? then Ok(mid.1.value + rest.1.value) else rest.1)
    decreases |tail| + 1, 0
  {
    if ResolveFiles(fs, env, [x] + tail).1.Err? {
      return;
    }
    var one := ResolveSingle(fs, env, x);
    ResolveFilesCons(fs, env, x, tail);
    var mid := ResolveFiles(one.0, env, tail);
    assert one.1.Ok? && mid.1.Ok?;
    assert ResolveFiles(fs, env, [x] + tail) == (mid.0, Ok([one.1.value] + mid.1.value));
    ResolveFilesAppend(one.0, env, tail, b);
    var rest := ResolveFiles(mid.0, env, b);
    var joined := ResolveFiles(one.0, env, tail + b);
    assert joined == (rest.0, if rest.1.Ok? then Ok(mid.1.value + rest.1.value) else rest.1);
    ResolveFilesCons(fs, env, x, tail + b);
    assert ResolveFiles(fs, env, [x] + (tail + b)) == (joined.0, if joined.1.Ok? then Ok([one.1.value] + joined.1.value) else joined.1);
    if rest.1.Ok? {
      ConcatAssociative([one.1.value], mid.1.value, rest.1.value);
    }
  }

  lemma ResolveFilesCons(fs: Fs, env: Env, x: Value, rest: seq<Value>)
    requires WellFormed(fs)
    ensures var one := ResolveSingle(fs, env, x);
      ResolveFiles(fs, env, [x] + rest) ==
        if one.1.Err? then (one.0, Err(one.1.error))
        else
          var later := ResolveFiles(one.0, env, rest);
          (later.0, if later.1.Ok? then Ok([one.1.value] + later.1.value) else later.1)
  {
    assert ([x] + rest)[0] == x && ([x] + rest)[1..] == rest;
  }

  lemma ConcatAssociative(a: seq<ResolvedFile>, b: seq<ResolvedFile>, c: seq<ResolvedFile>)
    ensures a + (b + c) == (a + b) + c
  {
  }

  /** A single failing input leaves no file behind. */
  lemma SingleFailureLeavesNothing(fs: Fs, env: Env, info: Value)
    requires WellFormed(fs)
    ensures ResolveFiles(fs, env, [info]).1.Err? ==> ResolveFiles(fs, env, [info]).0.files == fs.files
  {
  }

  /** A local path resolves without the fetcher. */
  lemma PathlikeStaysLocal(fs: Fs, env: Env, fetch: (string, Dict) -> Result<Reply, Exc>, v: Value)
    requires WellFormed(fs)
    requires v.VStr? && !HasWebScheme(Strip(v.s))
    ensures ResolvePathlike(fs, env, v) == ResolvePathlike(fs, env.(fetch := fetch), v)
  {
  }

  /** Inline content resolves without the fetcher. */
  lemma ContentStaysLocal(fs: Fs, env: Env, fetch: (string, Dict) -> Result<Reply, Exc>, content: Value, d: Dict)
    requires WellFormed(fs)
    ensures ResolveContent(fs, env, content, d) == ResolveContent(fs, env.(fetch := fetch), content, d)
  {
    var env' := env.(fetch := fetch);
    assert env'.b64decode == env.b64decode && env'.utf8 == env.utf8 && env'.guessExtension == env.guessExtension;
    assert CoerceBytes(content, env) == CoerceBytes(content, env');
    assert InferSuffix(Some(d), env) == InferSuffix(Some(d), env');
  }

  /** A path or inline content never reaches the network: the result is the
      same whatever the server would answer. */
  lemma LocalSourcesStayLocal(fs: Fs, env: Env, fetch: (string, Dict) -> Result<Reply, Exc>, d: Dict)
    requires WellFormed(fs)
    requires (Truthy(Get(d, "path")) && Get(d, "path").VStr? && !HasWebScheme(Strip(Get(d, "path").s)))
      || (!Truthy(Get(d, "path")) && Truthy(Or(Get(d, "content"), Get(d, "data"))))
    ensures ResolveSingle(fs, env, VDict(d)) == ResolveSingle(fs, env.(fetch := fetch), VDict(d))
  {
    var path := Get(d, "path");
    if Truthy(path) {
      PathlikeStaysLocal(fs, env, fetch, path);
    } else {
      ContentStaysLocal(fs, env, fetch, Or(Get(d, "content"), Get(d, "data")), d);
    }
  }
}

=== FILE: term_tools.dfy ===
/** The category and tag tools (`tools/create_category.py`,
    `tools/update_category.py`, `tools/create_tag.py`,
    `tools/update_tag.py`): the payload each sends, and the checks that stop
    it first. */
module TermTools {
  import opened Wrappers
  import opened Text
  import opened Py
  import opened Validators
  import opened ToolBase

  const CategoryNameRequired: string := "カテゴリー名を入力してください"
  const CategoryNameBlank: string := "カテゴリー名が空です"
  const CategoryNothingToUpdate: string := "更新する項目（name, description, slug, parent）を少なくとも1つ指定してください"
  const TagNameRequired: string := "タグ名を入力してください"
  const TagNameBlank: string := "タグ名が空です"
  const TagNothingToUpdate: string := "更新する項目（name, description, slug）を少なくとも1つ指定してください"

  // ---- Shared field rules ----------------------------------------------------

  /** The slug an update sends when given and not blank, stripped; a blank
      one is dropped silently. */
  function GivenSlug(v: Value): (r: Option<Value>)
    ensures r.Some? <==> v != VNone && !IsBlank(Str(v))
    ensures r.Some? ==> r.value == VStr(Strip(Str(v)))
  {
    if v == VNone then None else NonBlankStr(v)
  }

  // ---- Categories ------------------------------------------------------------

  function CategoryFields(name: Option<Value>, description: Option<Value>, slug: Option<Value>, parent: Option<Value>): seq<Field> {
    [("name", name), ("description", description), ("slug", slug), ("parent", parent)]
  }

  /** `create_category`: a name is required; a description is sent when
      truthy, a slug when truthy and not blank, a parent id when above 0. */
  function CreateCategory(params: Dict): (r: Result<Dict, Exc>)
    ensures r.Ok? <==> RequiredText(Get(params, "name"), CategoryNameRequired).Ok?
  {
    var name :- RequiredText(Get(params, "name"), CategoryNameRequired);
    Ok(Payload(CategoryFields(Some(VStr(name)), WhenTruthy(Get(params, "description")),
      TruthyNonBlank(Get(params, "slug")), PositiveId(Get(params, "parent")))))
  }

  /** A new category sends the stripped name, a truthy description, a
      slug when truthy and not blank, and a parent id only when above 0. */
  lemma CreateCategorySends(params: Dict)
    requires CreateCategory(params).Ok?
    ensures var d := CreateCategory(params).value;
      && Lookup(d, VStr("name")) == Some(VStr(Strip(Get(params, "name").s)))
      && Lookup(d, VStr("description")) == WhenTruthy(Get(params, "description"))
      && Lookup(d, VStr("slug")) == TruthyNonBlank(Get(params, "slug"))
      && Lookup(d, VStr("parent")) == PositiveId(Get(params, "parent"))
  {
    var name := RequiredText(Get(params, "name"), CategoryNameRequired).value;
    CategoryReads(Some(VStr(name)), WhenTruthy(Get(params, "description")),
      TruthyNonBlank(Get(params, "slug")), PositiveId(Get(params, "parent")));
  }

  /** Something to change: a name, a description, a slug that is not
      blank, or a parent id of at least 0. */
  predicate CategoryUpdateNonEmpty(params: Dict) {
    || Get(params, "name") != VNone
    || Get(params, "description") != VNone
    || GivenSlug(Get(params, "slug")).Some?
    || ClearableId(Get(params, "parent")).Some?
  }

  /** `update_category`: the id is checked first, then the name; an update
      with nothing to change fails. */
  function UpdateCategory(params: Dict): (r: Result<Update, Exc>)
    ensures r.Ok? <==>
      && ValidateId(CategoryId, Get(params, "id")).Ok?
      && GivenText(Get(params, "name"), CategoryNameBlank).Ok?
      && CategoryUpdateNonEmpty(params)
    ensures r.Ok? ==> r.value.id == ToInt(Get(params, "id")).value
    ensures r.Ok? ==> r.value.data == Payload(CategoryFields(
      GivenText(Get(params, "name"), CategoryNameBlank).value, Given(Get(params, "description")),
      GivenSlug(Get(params, "slug")), ClearableId(Get(params, "parent"))))
    ensures (ValidateId(CategoryId, Get(params, "id")).Ok? && GivenText(Get(params, "name"), CategoryNameBlank).Ok?
      && !CategoryUpdateNonEmpty(params)) ==> r == Err(ValueError(CategoryNothingToUpdate))
  {
    var id :- ValidateId(CategoryId, Get(params, "id"));
    var name :- GivenText(Get(params, "name"), CategoryNameBlank);
    var data := Payload(CategoryFields(name, Given(Get(params, "description")), GivenSlug(Get(params, "slug")), ClearableId(Get(params, "parent"))));
    CategoryEmpty(name, Given(Get(params, "description")), GivenSlug(Get(params, "slug")), ClearableId(Get(params, "parent")));
    if data == [] then Err(ValueError(CategoryNothingToUpdate)) else Ok(Update(id, data))
  }

  lemma CategoryEmpty(name: Option<Value>, description: Option<Value>, slug: Option<Value>, parent: Option<Value>)
    ensures Payload(CategoryFields(name, description, slug, parent)) == [] <==>
      name.None? && description.None? && slug.None? && parent.None?
  {
    var fields := CategoryFields(name, description, slug, parent);
    assert fields[0].1 == name && fields[1].1 == description && fields[2].1 == slug && fields[3].1 == parent;
  }

  /** Each category field reads back from its payload as given. */
  lemma CategoryReads(name: Option<Value>, description: Option<Value>, slug: Option<Value>, parent: Option<Value>)
    ensures var d := Payload(CategoryFields(name, description, slug, parent));
      && Lookup(d, VStr("name")) == name && Lookup(d, VStr("description")) == description
      && Lookup(d, VStr("slug")) == slug && Lookup(d, VStr("parent")) == parent
  {
    var fields := CategoryFields(name, description, slug, parent);
    assert DistinctKeys(fields);
    PayloadLookup(fields, 0);
    PayloadLookup(fields, 1);
    PayloadLookup(fields, 2);
    PayloadLookup(fields, 3);
  }

  /** `update_category` on parameters whose fields are already known. */
  lemma UpdateCategoryOf(u: Dict, id: int, name: Option<Value>, description: Option<Value>, slug: Option<Value>, parent: Option<Value>)
    requires Get(u, "id") == VInt(id) && id > 0
    requires GivenText(Get(u, "name"), CategoryNameBlank) == Ok(name) && name.Some?
    requires Given(Get(u, "description")) == description
    requires GivenSlug(Get(u, "slug")) == slug && ClearableId(Get(u, "parent")) == parent
    ensures UpdateCategory(u) == Ok(Update(id, Payload(CategoryFields(name, description, slug, parent))))
  {
    assert ValidateId(CategoryId, Get(u, "id")) == Ok(id);
    assert CategoryUpdateNonEmpty(u);
  }

  /** Normalized values pass the update rules unchanged. */
  lemma NormalizedStable(name: Value, description: Option<Value>, slug: Option<Value>, parent: Option<Value>, blank: string)
    requires Normalized(name)
    requires description.Some? ==> description.value != VNone
    requires slug.Some? ==> Normalized(slug.value)
    requires parent.Some? ==> parent.value.VInt? && parent.value.i > 0
    ensures GivenText(name, blank) == Ok(Some(name))
    ensures Given(description.GetOr(VNone)) == description
    ensures GivenSlug(slug.GetOr(VNone)) == slug
    ensures ClearableId(parent.GetOr(VNone)) == parent
  {
    NormalizedText(name);
    if slug.Some? {
      NormalizedText(slug.value);
    }
  }

  /** The category fields, read back as update parameters. */
  lemma CategoryFieldsBack(id: int, name: Value, description: Option<Value>, slug: Option<Value>, parent: Option<Value>)
    ensures var u := Addressed(id, Payload(CategoryFields(Some(name), description, slug, parent)));
      && Get(u, "id") == VInt(id)
      && Get(u, "name") == name
      && Get(u, "description") == description.GetOr(VNone)
      && Get(u, "slug") == slug.GetOr(VNone)
      && Get(u, "parent") == parent.GetOr(VNone)
  {
    var d := Payload(CategoryFields(Some(name), description, slug, parent));
    CategoryReads(Some(name), description, slug, parent);
    AddressedGet(id, d, "name");
    AddressedGet(id, d, "description");
    AddressedGet(id, d, "slug");
    AddressedGet(id, d, "parent");
  }

  /** Creation normalizes for good: the payload `create_category` sends,
      given back to `update_category` with any valid id, is sent again
      unchanged. */
  lemma CreatedCategoryUpdates(params: Dict, id: int)
    requires CreateCategory(params).Ok? && id > 0
    ensures var created := CreateCategory(params).value;
      UpdateCategory(Addressed(id, created)) == Ok(Update(id, created))
  {
    var name := VStr(Strip(Get(params, "name").s));
    StripStripped(Get(params, "name").s);
    if TruthyNonBlank(Get(params, "slug")).Some? {
      StripStripped(Str(Get(params, "slug")));
    }
    CategoryFieldsBack(id, name, WhenTruthy(Get(params, "description")), TruthyNonBlank(Get(params, "slug")), PositiveId(Get(params, "parent")));
    NormalizedStable(name, WhenTruthy(Get(params, "description")), TruthyNonBlank(Get(params, "slug")), PositiveId(Get(params, "parent")), CategoryNameBlank);
    UpdateCategoryOf(Addressed(id, CreateCategory(params).value), id, Some(VStr(Strip(Get(params, "name").s))),
      WhenTruthy(Get(params, "description")), TruthyNonBlank(Get(params, "slug")), PositiveId(Get(params, "parent")));
  }

  // ---- Tags ------------------------------------------------------------------

  function TagFields(name: Option<Value>, description: Option<Value>, slug: Option<Value>): seq<Field> {
    [("name", name), ("description", description), ("slug", slug)]
  }

  /** `create_tag`: a name is required; a description is sent when truthy,
      a slug when truthy and not blank. */
  function CreateTag(params: Dict): (r: Result<Dict, Exc>)
    ensures r.Ok? <==> RequiredText(Get(params, "name"), TagNameRequired).Ok?
  {
    var name :- RequiredText(Get(params, "name"), TagNameRequired);
    Ok(Payload(TagFields(Some(VStr(name)), WhenTruthy(Get(params, "description")), TruthyNonBlank(Get(params, "slug")))))
  }

  /** A new tag sends the stripped name, a truthy description, and a slug
      when truthy and not blank. */
  lemma CreateTagSends(params: Dict)
    requires CreateTag(params).Ok?
    ensures var d := CreateTag(params).value;
      && Lookup(d, VStr("name")) == Some(VStr(Strip(Get(params, "name").s)))
      && Lookup(d, VStr("description")) == WhenTruthy(Get(params, "description"))
      && Lookup(d, VStr("slug")) == TruthyNonBlank(Get(params, "slug"))
  {
    var name := RequiredText(Get(params, "name"), TagNameRequired).value;
    TagReads(Some(VStr(name)), WhenTruthy(Get(params, "description")), TruthyNonBlank(Get(params, "slug")));
  }

  predicate TagUpdateNonEmpty(params: Dict) {
    || Get(params, "name") != VNone
    || Get(params, "description") != VNone
    || GivenSlug(Get(params, "slug")).Some?
  }

  /** `update_tag`: the id is checked first, then the name; an update with
      nothing to change fails. */
  function UpdateTag(params: Dict): (r: Result<Update, Exc>)
    ensures r.Ok? <==>
      && ValidateId(TagId, Get(params, "id")).Ok?
      && GivenText(Get(params, "name"), TagNameBlank).Ok?
      && TagUpdateNonEmpty(params)
    ensures r.Ok? ==> r.value.id == ToInt(Get(params, "id")).value
    ensures r.Ok? ==> r.value.data == Payload(TagFields(
      GivenText(Get(params, "name"), TagNameBlank).value, Given(Get(params, "description")), GivenSlug(Get(params, "slug"))))
    ensures (ValidateId(TagId, Get(params, "id")).Ok? && GivenText(Get(params, "name"), TagNameBlank).Ok?
      && !TagUpdateNonEmpty(params)) ==> r == Err(ValueError(TagNothingToUpdate))
  {
    var id :- ValidateId(TagId, Get(params, "id"));
    var name :- GivenText(Get(params, "name"), TagNameBlank);
    var data := Payload(TagFields(name, Given(Get(params, "description")), GivenSlug(Get(params, "slug"))));
    TagEmpty(name, Given(Get(params, "description")), GivenSlug(Get(params, "slug")));
    if data == [] then Err(ValueError(TagNothingToUpdate)) else Ok(Update(id, data))
  }

  lemma TagEmpty(name: Option<Value>, description: Option<Value>, slug: Option<Value>)
    ensures Payload(TagFields(name, description, slug)) == [] <==> name.None? && description.None? && slug.None?
  {
    var fields := TagFields(name, description, slug);
    assert fields[0].1 == name && fields[1].1 == description && fields[2].1 == slug;
  }

  lemma TagReads(name: Option<Value>, description: Option<Value>, slug: Option<Value>)
    ensures var d := Payload(TagFields(name, description, slug));
      Lookup(d, VStr("name")) == name && Lookup(d, VStr("description")) == description && Lookup(d, VStr("slug")) == slug
  {
    var fields := TagFields(name, description, slug);
    assert DistinctKeys(fields);
    PayloadLookup(fields, 0);
    PayloadLookup(fields, 1);
    PayloadLookup(fields, 2);
  }

  lemma UpdateTagOf(u: Dict, id: int, name: Option<Value>, description: Option<Value>, slug: Option<Value>)
    requires Get(u, "id") == VInt(id) && id > 0
    requires GivenText(Get(u, "name"), TagNameBlank) == Ok(name) && name.Some?
    requires Given(Get(u, "description")) == description && GivenSlug(Get(u, "slug")) == slug
    ensures UpdateTag(u) == Ok(Update(id, Payload(TagFields(name, description, slug))))
  {
    assert ValidateId(TagId, Get(u, "id")) == Ok(id);
    assert TagUpdateNonEmpty(u);
  }

  lemma TagFieldsBack(id: int, name: Value, description: Option<Value>, slug: Option<Value>)
    ensures var u := Addressed(id, Payload(TagFields(Some(name), description, slug)));
      && Get(u, "id") == VInt(id)
      && Get(u, "name") == name
      && Get(u, "description") == description.GetOr(VNone)
      && Get(u, "slug") == slug.GetOr(VNone)
  {
    var d := Payload(TagFields(Some(name), description, slug));
    TagReads(Some(name), description, slug);
    AddressedGet(id, d, "name");
    AddressedGet(id, d, "description");
    AddressedGet(id, d, "slug");
  }

  /** The payload `create_tag` sends, given back to `update_tag` with any
      valid id, is sent again unchanged. */
  lemma CreatedTagUpdates(params: Dict, id: int)
    requires CreateTag(params).Ok? && id > 0
    ensures var created := CreateTag(params).value;
      UpdateTag(Addressed(id, created)) == Ok(Update(id, created))
  {
    var name := VStr(Strip(Get(params, "name").s));
    StripStripped(Get(params, "name").s);
    if TruthyNonBlank(Get(params, "slug")).Some? {
      StripStripped(Str(Get(params, "slug")));
    }
    TagFieldsBack(id, name, WhenTruthy(Get(params, "description")), TruthyNonBlank(Get(params, "slug")));
    NormalizedStable(name, WhenTruthy(Get(params, "description")), TruthyNonBlank(Get(params, "slug")), None, TagNameBlank);
    UpdateTagOf(Addressed(id, CreateTag(params).value), id, Some(VStr(Strip(Get(params, "name").s))),
      WhenTruthy(Get(params, "description")), TruthyNonBlank(Get(params, "slug")));
  }
}

=== FILE: text.dfy ===
/** The slice of Python's `str` behaviour the plugin relies on: `strip`,
    `lower`, `startswith`/`endswith`, `in`, `split`, `join`, `rstrip("/")`,
    `replace(" ", "")`, and `int(...)`/`str(...)` on integers. */
module Text {
  import opened Wrappers

  /** Python's `str.isspace()`, which is also what `strip()` removes and what
      `\s` matches in a `re` pattern over `str`. */
  predicate IsSpace(c: char) {
    || c == ' '
    || ('\t' <= c <= '\r')
    || ('\U{1C}' <= c <= '\U{1F}')
    || c == '\U{85}'
    || c == '\U{A0}'
    || c == '\U{1680}'
    || ('\U{2000}' <= c <= '\U{200A}')
    || c == '\U{2028}'
    || c == '\U{2029}'
    || c == '\U{202F}'
    || c == '\U{205F}'
    || c == '\U{3000}'
  }

  predicate IsBlank(s: string) {
    forall i | 0 <= i < |s| :: IsSpace(s[i])
  }

  predicate IsDigit(c: char) {
    '0' <= c <= '9'
  }

  predicate IsAsciiLetter(c: char) {
    ('a' <= c <= 'z') || ('A' <= c <= 'Z')
  }

  predicate IsAsciiAlnum(c: char) {
    IsAsciiLetter(c) || IsDigit(c)
  }

  predicate AllDigits(s: string) {
    forall i | 0 <= i < |s| :: IsDigit(s[i])
  }

  /** `s.lstrip()` */
  function LStrip(s: string): (r: string)
    ensures |r| <= |s| && r == s[|s| - |r|..]
    ensures r == [] || !IsSpace(r[0])
    ensures forall i | 0 <= i < |s| - |r| :: IsSpace(s[i])
  {
    if |s| > 0 && IsSpace(s[0]) then LStrip(s[1..]) else s
  }

  /** `s.rstrip()` */
  function RStrip(s: string): (r: string)
    ensures |r| <= |s| && r == s[..|r|]
    ensures r == [] || !IsSpace(r[|r| - 1])
    ensures forall i | |r| <= i < |s| :: IsSpace(s[i])
  {
    if |s| > 0 && IsSpace(s[|s| - 1]) then RStrip(s[..|s| - 1]) else s
  }

  /** `needle` occurs in `s` starting at index `i`. */
  predicate OccursAt(s: string, needle: string, i: int) {
    0 <= i <= |s| - |needle| && s[i..i + |needle|] == needle
  }

  /** An occurrence in `b` is one in `a + b`, shifted by `|a|`. */
  lemma OccursAfter(a: string, b: string, needle: string, j: nat)
    requires OccursAt(b, needle, j)
    ensures OccursAt(a + b, needle, |a| + j)
  {
    assert (a + b)[|a| + j..|a| + j + |needle|] == b[j..j + |needle|];
  }

  /** `r` is the infix of `s` that begins where `s.lstrip()` begins. */
  predicate CutFrom(s: string, r: string) {
    OccursAt(s, r, |s| - |LStrip(s)|)
  }

  /** `s.strip()`: the longest infix that neither starts nor ends with
      whitespace, everything cut away being whitespace. */
  function Strip(s: string): (r: string)
    ensures r == [] || (!IsSpace(r[0]) && !IsSpace(r[|r| - 1]))
    ensures r == [] <==> IsBlank(s)
    ensures (s == [] || (!IsSpace(s[0]) && !IsSpace(s[|s| - 1]))) ==> r == s
  {
    StripShape(s);
    RStrip(LStrip(s))
  }

  /** The facts `Strip` promises, about its body. */
  lemma StripShape(s: string)
    ensures var r := RStrip(LStrip(s));
      && (r == [] || (!IsSpace(r[0]) && !IsSpace(r[|r| - 1])))
      && (r == [] <==> IsBlank(s))
      && ((s == [] || (!IsSpace(s[0]) && !IsSpace(s[|s| - 1]))) ==> r == s)
  {
    StripEnds(s);
    StripBlank(s);
    StripTrimmed(s);
  }

  /** What `strip()` keeps is the infix after the leading whitespace, and
      what it cuts away on either side is whitespace. */
  lemma {:induction false} StripInfix(s: string)
    ensures CutFrom(s, Strip(s))
    ensures IsBlank(s[..|s| - |LStrip(s)|])
    ensures IsBlank(s[|s| - |LStrip(s)| + |Strip(s)|..])
  {
    var l := LStrip(s);
    var r := Strip(s);
    assert r == RStrip(l);
    assert |l| <= |s| && l == s[|s| - |l|..];
    assert forall i | 0 <= i < |s| - |l| :: IsSpace(s[i]);
    assert |r| <= |l| && r == l[..|r|];
    assert forall i | |r| <= i < |l| :: IsSpace(l[i]);
    StripParts(s, l, r);
  }

  /** A prefix `r` of a suffix `l` of `s`, with only whitespace before `l`
      and after `r`, sits in `s` between two blank pieces. */
  lemma StripParts(s: string, l: string, r: string)
    requires |l| <= |s| && l == s[|s| - |l|..]
    requires forall i | 0 <= i < |s| - |l| :: IsSpace(s[i])
    requires |r| <= |l| && r == l[..|r|]
    requires forall i | |r| <= i < |l| :: IsSpace(l[i])
    ensures OccursAt(s, r, |s| - |l|)
    ensures IsBlank(s[..|s| - |l|])
    ensures IsBlank(s[|s| - |l| + |r|..])
  {
    SuffixPrefix(s, l, r);
    BlankHead(s, |s| - |l|);
    BlankTail(s, l, r);
  }

  /** A prefix whose every character is whitespace is blank. */
  lemma BlankHead(s: string, k: nat)
    requires k <= |s|
    requires forall i | 0 <= i < k :: IsSpace(s[i])
    ensures IsBlank(s[..k])
  {
    forall i | 0 <= i < k
      ensures IsSpace(s[..k][i])
    {
      assert s[..k][i] == s[i];
    }
  }

  /** What `rstrip()` cuts from a suffix `l` of `s` is a blank tail of `s`. */
  lemma BlankTail(s: string, l: string, r: string)
    requires |l| <= |s| && l == s[|s| - |l|..]
    requires |r| <= |l| && r == l[..|r|]
    requires forall i | |r| <= i < |l| :: IsSpace(l[i])
    ensures IsBlank(s[|s| - |l| + |r|..])
  {
    var t := s[|s| - |l| + |r|..];
    forall i | 0 <= i < |t|
      ensures IsSpace(t[i])
    {
      assert t[i] == l[|r| + i];
    }
  }

  /** A prefix of a suffix of `s` occurs in `s` where the suffix starts. */
  lemma SuffixPrefix(s: string, l: string, r: string)
    requires |l| <= |s| && l == s[|s| - |l|..]
    requires |r| <= |l| && r == l[..|r|]
    ensures OccursAt(s, r, |s| - |l|)
  {
    var k := |s| - |l|;
    assert s[k..k + |r|] == s[k..][..|r|];
  }

  /** What `strip()` keeps starts and ends with a non-space. */
  lemma StripEnds(s: string)
    ensures var r := RStrip(LStrip(s)); r == [] || (!IsSpace(r[0]) && !IsSpace(r[|r| - 1]))
  {
    var l := LStrip(s);
    var r := RStrip(l);
    if r != [] {
      assert r[0] == l[0];
    }
  }

  /** Only blank text strips to nothing. */
  lemma StripBlank(s: string)
    ensures RStrip(LStrip(s)) == [] <==> IsBlank(s)
  {
    var l := LStrip(s);
    assert RStrip(l) == [] ==> l == [];
    assert l == s[|s| - |l|..];
  }

  /** Text already trimmed at both ends is left alone. */
  lemma StripTrimmed(s: string)
    ensures (s == [] || (!IsSpace(s[0]) && !IsSpace(s[|s| - 1]))) ==> RStrip(LStrip(s)) == s
  {
    if s != [] && !IsSpace(s[0]) && !IsSpace(s[|s| - 1]) {
      assert LStrip(s) == s;
      assert RStrip(s) == s;
    }
  }

  function LowerChar(c: char): char {
    if 'A' <= c <= 'Z' then ((c as int) + 32) as char else c
  }

  /** `s.lower()` on the ASCII range; other characters are left alone. */
  function Lower(s: string): (r: string)
    ensures |r| == |s|
    ensures forall i | 0 <= i < |s| :: r[i] == LowerChar(s[i])
  {
    seq(|s|, i requires 0 <= i < |s| => LowerChar(s[i]))
  }

  /** Lowering twice is lowering once. */
  lemma LowerIdempotent(s: string)
    ensures Lower(Lower(s)) == Lower(s)
  {
  }

  /** A needle without ASCII letters is found in the lowered text exactly
      where it is found in the text itself. */
  lemma ContainsLowerBlind(s: string, needle: string)
    requires forall i | 0 <= i < |needle| :: !IsAsciiLetter(needle[i])
    ensures Contains(Lower(s), needle) == Contains(s, needle)
  {
    var l := Lower(s);
    forall i | 0 <= i <= |s| - |needle|
      ensures OccursAt(l, needle, i) <==> OccursAt(s, needle, i)
    {
      if OccursAt(l, needle, i) {
        forall k | 0 <= k < |needle| ensures s[i + k] == needle[k] {
          assert LowerChar(s[i + k]) == needle[k];
        }
        assert s[i..i + |needle|] == needle;
      }
      if OccursAt(s, needle, i) {
        forall k | 0 <= k < |needle| ensures l[i + k] == needle[k] {
          assert s[i + k] == needle[k];
        }
        assert l[i..i + |needle|] == needle;
      }
    }
  }

  predicate StartsWith(s: string, prefix: string) {
    |prefix| <= |s| && s[..|prefix|] == prefix
  }

  predicate EndsWith(s: string, suffix: string) {
    |suffix| <= |s| && s[|s| - |suffix|..] == suffix
  }

  /** Where the parts of `lead + tag + tail` sit. */
  lemma Framed(lead: string, tag: string, tail: string)
    ensures var d := lead + tag + tail;
      StartsWith(d, lead) && OccursAt(d, tag, |lead|) && EndsWith(d, tail)
  {
    var d := lead + tag + tail;
    assert d[..|lead|] == lead;
    assert d[|lead|..|lead| + |tag|] == tag;
    assert d[|d| - |tail|..] == tail;
  }

  /** Python's `needle in s` for strings. */
  function Contains(s: string, needle: string): (b: bool)
    ensures b <==> exists i :: OccursAt(s, needle, i)
    decreases |s|
  {
    if StartsWith(s, needle) then
      assert OccursAt(s, needle, 0);
      true
    else if |s| == 0 then
      false
    else
      var b := Contains(s[1..], needle);
      assert b ==> exists i :: OccursAt(s, needle, i) by {
        if b {
          var j :| OccursAt(s[1..], needle, j);
          assert s[j + 1..j + 1 + |needle|] == s[1..][j..j + |needle|];
          assert OccursAt(s, needle, j + 1);
        }
      }
      assert (exists i :: OccursAt(s, needle, i)) ==> b by {
        if exists i :: OccursAt(s, needle, i) {
          var i :| OccursAt(s, needle, i);
          assert i != 0;
          assert s[1..][i - 1..i - 1 + |needle|] == s[i..i + |needle|];
          assert OccursAt(s[1..], needle, i - 1);
        }
      }
      b
  }

  /** `needle in s` where `needle` is a single character. */
  predicate HasChar(s: string, c: char) {
    c in s
  }

  /** Index of the first `c` in `s`. */
  function IndexOf(s: string, c: char): (i: nat)
    requires c in s
    ensures i < |s| && s[i] == c && c !in s[..i]
  {
    if s[0] == c then 0 else 1 + IndexOf(s[1..], c)
  }

  /** `sep.join(parts)` */
  function Join(sep: string, parts: seq<string>): string
  {
    if |parts| == 0 then ""
    else if |parts| == 1 then parts[0]
    else parts[0] + sep + Join(sep, parts[1..])
  }

  /** Each part occurs in the join. */
  lemma {:induction false} JoinOccurs(sep: string, parts: seq<string>, i: nat) returns (j: nat)
    requires i < |parts|
    ensures OccursAt(Join(sep, parts), parts[i], j)
  {
    if |parts| == 1 {
      j := 0;
    } else {
      assert Join(sep, parts) == (parts[0] + sep) + Join(sep, parts[1..]);
      if i == 0 {
        j := 0;
      } else {
        var j1 := JoinOccurs(sep, parts[1..], i - 1);
        OccursAfter(parts[0] + sep, Join(sep, parts[1..]), parts[i], j1);
        j := |parts[0] + sep| + j1;
      }
    }
  }

  /** Every part is found in the join. */
  lemma JoinContainsAll(sep: string, parts: seq<string>)
    ensures forall i | 0 <= i < |parts| :: Contains(Join(sep, parts), parts[i])
  {
    forall i | 0 <= i < |parts|
      ensures Contains(Join(sep, parts), parts[i])
    {
      var j := JoinOccurs(sep, parts, i);
    }
  }

  /** `s.split(sep)` for a one-character separator: the pieces between
      consecutive separators, including empty ones. */
  function Split(s: string, sep: char): (parts: seq<string>)
    ensures |parts| >= 1
    ensures forall k | 0 <= k < |parts| :: sep !in parts[k]
    ensures Join([sep], parts) == s
    decreases |s|
  {
    if sep !in s then [s]
    else
      var i := IndexOf(s, sep);
      var rest := Split(s[i + 1..], sep);
      assert s == s[..i] + [sep] + s[i + 1..];
      [s[..i]] + rest
  }

  /** The first `c` of `a + [c] + b`, when `a` has none, is the one after `a`. */
  lemma IndexOfAfter(a: string, c: char, b: string)
    requires c !in a
    ensures IndexOf(a + [c] + b, c) == |a|
  {
    var s := a + [c] + b;
    var i := IndexOf(s, c);
    assert s[|a|] == c;
  }

  /** Splitting after a first piece that holds no separator yields that
      piece, then the split of the rest. */
  lemma SplitAfter(a: string, sep: char, b: string)
    requires sep !in a
    ensures Split(a + [sep] + b, sep) == [a] + Split(b, sep)
  {
    var s := a + [sep] + b;
    IndexOfAfter(a, sep, b);
    assert s[..|a|] == a;
    assert s[|a| + 1..] == b;
  }

  /** Splitting a join on a separator no part contains gives the parts
      back. */
  lemma {:induction false} SplitJoin(sep: char, parts: seq<string>)
    requires |parts| >= 1 && forall k | 0 <= k < |parts| :: sep !in parts[k]
    ensures Split(Join([sep], parts), sep) == parts
  {
    if |parts| > 1 {
      SplitJoin(sep, parts[1..]);
      SplitAfter(parts[0], sep, Join([sep], parts[1..]));
      assert Join([sep], parts) == parts[0] + [sep] + Join([sep], parts[1..]);
    }
  }

  /** `"/a".split("/")` is `["", "a"]` and `"/a/b".split("/")` is
      `["", "a", "b"]` when neither piece holds the separator. */
  lemma SplitPieces(sep: char, a: string, b: string)
    requires sep !in a && sep !in b
    ensures Split([sep] + a, sep) == ["", a]
    ensures Split([sep] + a + [sep] + b, sep) == ["", a, b]
  {
    SplitAfter("", sep, a);
    assert "" + [sep] + a == [sep] + a;
    SplitAfter(a, sep, b);
    SplitAfter("", sep, a + [sep] + b);
    assert "" + [sep] + (a + [sep] + b) == [sep] + a + [sep] + b;
  }

  /** The part of `s` after its last `c`, or all of `s` without one. */
  function LastSegment(s: string, c: char): (r: string)
    ensures c !in r
    ensures EndsWith(s, r)
    ensures |r| < |s| ==> s[|s| - |r| - 1] == c
    decreases |s|
  {
    if |s| == 0 || s[|s| - 1] == c then []
    else
      var r := LastSegment(s[..|s| - 1], c) + [s[|s| - 1]];
      assert s[|s| - |r|..] == s[..|s| - 1][|s| - |r|..] + [s[|s| - 1]];
      r
  }

  /** The values `f` keeps, in order. */
  function FilterMap<A, B>(f: A -> Option<B>, xs: seq<A>): (r: seq<B>)
    ensures |r| <= |xs|
    ensures forall i | 0 <= i < |r| :: exists j :: 0 <= j < |xs| && f(xs[j]) == Some(r[i])
    ensures |r| > 0 <==> exists j :: 0 <= j < |xs| && f(xs[j]).Some?
  {
    if |xs| == 0 then []
    else
      var rest := FilterMap(f, xs[1..]);
      assert forall j | 0 <= j < |xs| - 1 :: xs[1..][j] == xs[j + 1];
      match f(xs[0])
      case Some(y) => [y] + rest
      case None => rest
  }

  /** Filtering distributes over concatenation: what is kept keeps its
      order. */
  lemma {:induction false} FilterMapAppend<A, B>(f: A -> Option<B>, a: seq<A>, b: seq<A>)
    ensures FilterMap(f, a + b) == FilterMap(f, a) + FilterMap(f, b)
  {
    if |a| == 0 {
      assert a + b == b;
    } else {
      assert (a + b)[1..] == a[1..] + b;
      FilterMapAppend(f, a[1..], b);
    }
  }

  /** A kept element sits between what is kept before and after it. */
  lemma FilterMapAt<A, B>(f: A -> Option<B>, xs: seq<A>, j: nat)
    requires j < |xs| && f(xs[j]).Some?
    ensures FilterMap(f, xs) == FilterMap(f, xs[..j]) + ([f(xs[j]).value] + FilterMap(f, xs[j + 1..]))
  {
    assert xs == xs[..j] + ([xs[j]] + xs[j + 1..]);
    FilterMapAppend(f, xs[..j], [xs[j]] + xs[j + 1..]);
    assert ([xs[j]] + xs[j + 1..])[1..] == xs[j + 1..];
  }

  /** `s[:n]` for a slice bound `n >= 0`. */
  function Take<T>(s: seq<T>, n: nat): (r: seq<T>)
    ensures |r| <= n && |r| <= |s| && r == s[..|r|]
    ensures |s| <= n ==> r == s
    ensures |s| > n ==> |r| == n
  {
    if |s| <= n then s else s[..n]
  }

  /** `s.rstrip(c)` for a single character. */
  function RStripChar(s: string, c: char): (r: string)
    ensures |r| <= |s| && r == s[..|r|]
    ensures r == [] || r[|r| - 1] != c
    ensures forall i | |r| <= i < |s| :: s[i] == c
  {
    if |s| > 0 && s[|s| - 1] == c then RStripChar(s[..|s| - 1], c) else s
  }

  /** `s.replace(c, "")` for a single character. */
  function RemoveChar(s: string, c: char): (r: string)
    ensures c !in r
    ensures |r| <= |s|
    ensures c !in s ==> r == s
  {
    if |s| == 0 then ""
    else if s[0] == c then RemoveChar(s[1..], c)
    else [s[0]] + RemoveChar(s[1..], c)
  }

  // ---- Integers ----------------------------------------------------------

  function DigitValue(c: char): nat
    requires IsDigit(c)
  {
    (c as int) - ('0' as int)
  }

  function DigitChar(d: nat): (c: char)
    requires d < 10
    ensures IsDigit(c) && DigitValue(c) == d
  {
    (('0' as int) + d) as char
  }

  /** Decimal digits of `n`, most significant first, no leading zero. */
  function NatToString(n: nat): (s: string)
    ensures |s| >= 1 && AllDigits(s)
    decreases n
  {
    if n < 10 then [DigitChar(n)] else NatToString(n / 10) + [DigitChar(n % 10)]
  }

  /** `str(n)` for a Python int. */
  function IntToString(n: int): string
  {
    if n < 0 then ['-'] + NatToString(-n) else NatToString(n)
  }

  /** `str(n)` holds only digits and a leading minus sign, so no other
      character. */
  lemma IntToStringWithout(n: int, c: char)
    requires !IsDigit(c) && c != '-'
    ensures c !in IntToString(n)
  {
    var d := NatToString(if n < 0 then -n else n);
    assert c !in d;
  }

  function DigitsValue(s: string): nat
    requires AllDigits(s)
  {
    if |s| == 0 then 0 else DigitsValue(s[..|s| - 1]) * 10 + DigitValue(s[|s| - 1])
  }

  /** `int(s)` for a `str`: optional surrounding whitespace, an optional
      sign, then one or more ASCII digits. `None` is Python's ValueError. */
  function ParseInt(s: string): (r: Option<int>)
    ensures IsBlank(s) ==> r.None?
    ensures r.Some? ==> var t := Strip(s); |t| > 0 && IsDigit(t[|t| - 1])
  {
    var t := Strip(s);
    LiteralEndsInDigit(t);
    ParseLiteral(t)
  }

  /** A literal `int()` accepts ends in a digit. */
  lemma LiteralEndsInDigit(t: string)
    ensures ParseLiteral(t).Some? ==> |t| > 0 && IsDigit(t[|t| - 1])
  {
    if |t| > 0 && (t[0] == '-' || t[0] == '+') && |t[1..]| > 0 {
      assert t[|t| - 1] == t[1..][|t| - 2];
    }
  }

  /** An integer literal without surrounding whitespace. */
  function ParseLiteral(t: string): Option<int>
  {
    if |t| > 0 && (t[0] == '-' || t[0] == '+') then
      var d := t[1..];
      if |d| > 0 && AllDigits(d) then
        var v: int := DigitsValue(d);
        Some(if t[0] == '-' then -v else v)
      else None
    else if |t| > 0 && AllDigits(t) then Some(DigitsValue(t))
    else None
  }

  lemma {:induction false} DigitsValueOfNatToString(n: nat)
    ensures DigitsValue(NatToString(n)) == n
    decreases n
  {
    if n >= 10 {
      var s := NatToString(n);
      assert s[..|s| - 1] == NatToString(n / 10);
      DigitsValueOfNatToString(n / 10);
    }
  }

  /** `int(str(n)) == n`: the decimal rendering used in messages, query
      strings and identifiers can be read back. */
  lemma ParseIntOfIntToString(n: int)
    ensures ParseInt(IntToString(n)) == Some(n)
  {
    var m: nat := if n < 0 then -n else n;
    var d := NatToString(m);
    DigitsValueOfNatToString(m);
    if n < 0 {
      assert IntToString(n) == ['-'] + d;
      ParseIntNegative(d);
    } else {
      assert IntToString(n) == d;
      ParseIntDigits(d);
    }
  }

  lemma ParseIntDigits(d: string)
    requires |d| >= 1 && AllDigits(d)
    ensures ParseInt(d) == Some(DigitsValue(d))
  {
    assert IsDigit(d[0]) && IsDigit(d[|d| - 1]);
    StripUnchanged(d);
  }

  lemma ParseIntNegative(d: string)
    requires |d| >= 1 && AllDigits(d)
    ensures ParseInt(['-'] + d) == Some(-(DigitsValue(d) as int))
  {
    var s := ['-'] + d;
    assert s[|s| - 1] == d[|d| - 1];
    StripUnchanged(s);
    NegativeLiteral(s, d);
  }

  lemma StripUnchanged(s: string)
    requires |s| > 0 && !IsSpace(s[0]) && !IsSpace(s[|s| - 1])
    ensures ParseInt(s) == ParseLiteral(s)
  {
    assert Strip(s) == s;
  }

  lemma NegativeLiteral(t: string, d: string)
    requires |d| >= 1 && AllDigits(d) && t == ['-'] + d
    ensures ParseLiteral(t) == Some(-(DigitsValue(d) as int))
  {
    assert t[1..] == d;
  }
}

=== FILE: tool_base.dfy ===
/** What every tool shares (`tools/base.py`): loading the provider context
    from the runtime's credentials, and turning any failure into the text the
    user sees, with hints chosen by what the message mentions. Also the small
    rules the tools repeat when they build a request payload. */
module ToolBase {
  import opened Wrappers
  import opened Text
  import opened Py
  import Validators
  import WpClient

  // ---- Provider context ------------------------------------------------------

  const UrlNotSet: string := "WordPressサイトURLを設定してください。Difyのプロバイダー設定でWordPressサイトURLを確認してください。"
  const UserNotSet: string := "WordPressユーザー名を設定してください。Difyのプロバイダー設定でユーザー名を確認してください。"
  const PasswordNotSet: string := "アプリケーションパスワードを設定してください。Difyのプロバイダー設定でアプリケーションパスワードを確認してください。"
  const SchemeRequiredPrefix: string := "WordPressサイトURLはhttp://またはhttps://で始まる必要があります。現在の値: "
  const LocalhostPrefix: string :=
    "WordPressサイトURLがlocalhost:8080になっています。これは通常のWordPressサイトではありません。\n"
    + "正しいWordPressサイトURL（例: https://example.com）をDifyのプロバイダー設定で設定してください。\n"
    + "現在の値: "
  const DevServer: string := "localhost:8080"

  datatype ProviderContext = ProviderContext(url: string, username: string, password: string)

  /** `getattr(runtime, "credentials", {}) or {}`, then `.get`: a missing or
      falsy value reads as the empty dict; a truthy value that is not a dict
      has no `get`. */
  function CredentialsDict(credentials: Value): (r: Result<Dict, Exc>)
    ensures r.Ok? <==> credentials.VDict? || !Truthy(credentials)
    ensures credentials.VDict? ==> r == Ok(credentials.entries)
    ensures !Truthy(credentials) ==> r == Ok([])
  {
    if !Truthy(credentials) then Ok([])
    else if credentials.VDict? then Ok(credentials.entries)
    else Err(NoAttribute(credentials, "get"))
  }

  /** The refusal of the development server's address, as written: a
      case-blind search plus two exact comparisons. */
  predicate PointsAtDevServer(url: string) {
    || Contains(Lower(url), DevServer)
    || Strip(url) == "http://localhost:8080"
    || Strip(url) == "https://localhost:8080"
  }

  /** `s` is what `(v or "").strip()` gave: empty exactly when `v` is not
      text with something besides whitespace, and otherwise `v` stripped. */
  predicate ReadAs(v: Value, s: string) {
    && (s != "" <==> v.VStr? && !IsBlank(v.s))
    && (s != "" ==> s == Strip(v.s))
    && Strip(s) == s
  }

  /** The three stripped values, or the error reading them raises. */
  function StrippedCredentials(d: Dict): (r: Result<ProviderContext, Exc>)
    ensures var u, n, p := Get(d, "wordpress_url"), Get(d, "username"), Get(d, "application_password");
      && (r.Ok? <==> StripOrEmpty(u).Ok? && StripOrEmpty(n).Ok? && StripOrEmpty(p).Ok?)
      && (r.Ok? ==> ReadAs(u, r.value.url) && ReadAs(n, r.value.username) && ReadAs(p, r.value.password))
    ensures r.Err? ==> r.error.AttributeError?
  {
    var u := StripOrEmpty(Get(d, "wordpress_url"));
    var n := StripOrEmpty(Get(d, "username"));
    var p := StripOrEmpty(Get(d, "application_password"));
    if u.Err? then Err(u.error)
    else if n.Err? then Err(n.error)
    else if p.Err? then Err(p.error)
    else
      StrippedField(Get(d, "wordpress_url"), u.value);
      StrippedField(Get(d, "username"), n.value);
      StrippedField(Get(d, "application_password"), p.value);
      Ok(ProviderContext(u.value, n.value, p.value))
  }


  /** `_load_provider_context`: the three stripped credentials, required in
      the order URL, user name, password; the URL must start with http(s)
      and must not name the development server at `localhost:8080`. */
  function LoadProviderContext(credentials: Value): (r: Result<ProviderContext, Exc>)
    ensures r.Ok? ==>
      && r.value.url != "" && r.value.username != "" && r.value.password != ""
      && Strip(r.value.url) == r.value.url && Strip(r.value.username) == r.value.username
      && Strip(r.value.password) == r.value.password
      && Validators.HasWebScheme(r.value.url) && !Contains(Lower(r.value.url), DevServer)
    ensures r.Ok? <==>
      && CredentialsDict(credentials).Ok?
      && var d := CredentialsDict(credentials).value;
      && var u, n, p := Get(d, "wordpress_url"), Get(d, "username"), Get(d, "application_password");
      && u.VStr? && n.VStr? && p.VStr? && !IsBlank(u.s) && !IsBlank(n.s) && !IsBlank(p.s)
      && Validators.HasWebScheme(Strip(u.s)) && !Contains(Lower(Strip(u.s)), DevServer)
    ensures r.Err? ==> r.error.ValueError? || r.error.AttributeError?
  {
    match CredentialsDict(credentials)
    case Err(e) => Err(e)
    case Ok(d) => ContextFromDict(d)
  }

  /** The provider context read from the credentials dict. */
  function ContextFromDict(d: Dict): (r: Result<ProviderContext, Exc>)
    ensures r.Ok? ==>
      && r.value.url != "" && r.value.username != "" && r.value.password != ""
      && Strip(r.value.url) == r.value.url && Strip(r.value.username) == r.value.username
      && Strip(r.value.password) == r.value.password
      && Validators.HasWebScheme(r.value.url) && !Contains(Lower(r.value.url), DevServer)
    ensures r.Ok? <==>
      && var u, n, p := Get(d, "wordpress_url"), Get(d, "username"), Get(d, "application_password");
      && u.VStr? && n.VStr? && p.VStr? && !IsBlank(u.s) && !IsBlank(n.s) && !IsBlank(p.s)
      && Validators.HasWebScheme(Strip(u.s)) && !Contains(Lower(Strip(u.s)), DevServer)
    ensures r.Err? ==> r.error.ValueError? || r.error.AttributeError?
  {
    match StrippedCredentials(d)
    case Err(e) =>
      UnreadableCredentials(d);
      Err(e)
    case Ok(ctx) =>
      CheckedCredentials(d, ctx);
      CheckContext(ctx)
  }

  /** Credentials that cannot be read include one that is not text. */
  lemma UnreadableCredentials(d: Dict)
    requires StrippedCredentials(d).Err?
    ensures !(Get(d, "wordpress_url").VStr? && Get(d, "username").VStr? && Get(d, "application_password").VStr?)
  {
    if Get(d, "wordpress_url").VStr? && Get(d, "username").VStr? && Get(d, "application_password").VStr? {
      StripTextOk(Get(d, "wordpress_url"));
      StripTextOk(Get(d, "username"));
      StripTextOk(Get(d, "application_password"));
    }
  }

  lemma StripTextOk(v: Value)
    requires v.VStr?
    ensures StripOrEmpty(v).Ok?
  {
  }

  /** The checks on the stripped values, restated on the raw ones. */
  lemma CheckedCredentials(d: Dict, ctx: ProviderContext)
    requires StrippedCredentials(d) == Ok(ctx)
    ensures CheckContext(ctx).Ok? ==>
      && ctx.url != "" && ctx.username != "" && ctx.password != ""
      && Strip(ctx.url) == ctx.url && Strip(ctx.username) == ctx.username && Strip(ctx.password) == ctx.password
      && Validators.HasWebScheme(ctx.url) && !Contains(Lower(ctx.url), DevServer)
      && CheckContext(ctx).value == ctx
    ensures CheckContext(ctx).Err? ==> CheckContext(ctx).error.ValueError?
    ensures var u, n, p := Get(d, "wordpress_url"), Get(d, "username"), Get(d, "application_password");
      CheckContext(ctx).Ok? <==>
        && u.VStr? && n.VStr? && p.VStr? && !IsBlank(u.s) && !IsBlank(n.s) && !IsBlank(p.s)
        && Validators.HasWebScheme(Strip(u.s)) && !Contains(Lower(Strip(u.s)), DevServer)
  {
  }

  /** The checks on the stripped values, in source order. */
  function CheckContext(ctx: ProviderContext): (r: Result<ProviderContext, Exc>)
    ensures r.Ok? <==>
      ctx.url != "" && ctx.username != "" && ctx.password != ""
      && Validators.HasWebScheme(ctx.url) && !Contains(Lower(ctx.url), DevServer)
    ensures r.Ok? ==> r.value == ctx
    ensures r.Err? ==> r.error.ValueError?
  {
    if ctx.url == "" then Err(ValueError(UrlNotSet))
    else if ctx.username == "" then Err(ValueError(UserNotSet))
    else if ctx.password == "" then Err(ValueError(PasswordNotSet))
    else if !Validators.HasWebScheme(ctx.url) then Err(ValueError(SchemeRequiredPrefix + ctx.url))
    else if PointsAtDevServer(ctx.url) then
      DevServerTestsRedundant(ctx.url);
      Err(ValueError(LocalhostPrefix + ctx.url))
    else
      DevServerTestsRedundant(ctx.url);
      Ok(ctx)
  }

  /** What `(v or "").strip()` yields, in terms of the raw value, once
      it is known to be `s`. */
  lemma StrippedField(v: Value, s: string)
    requires StripOrEmpty(v) == Ok(s)
    ensures ReadAs(v, s)
  {
    if Truthy(v) {
      assert v.VStr? && s == Strip(v.s);
      StripStripped(v.s);
    } else {
      assert s == "";
      assert v.VStr? ==> v.s == "";
    }
  }

  /** An occurrence of text without capitals survives lowering. */
  lemma OccursLowered(s: string, needle: string, i: int)
    requires OccursAt(s, needle, i) && forall k | 0 <= k < |needle| :: LowerChar(needle[k]) == needle[k]
    ensures OccursAt(Lower(s), needle, i)
  {
    forall k | 0 <= k < |needle| ensures Lower(s)[i + k] == needle[k] {
      assert s[i + k] == needle[k];
    }
  }

  /** An occurrence inside an occurrence. */
  lemma OccursWithin(s: string, t: string, needle: string, i: int, j: int)
    requires OccursAt(s, t, i) && OccursAt(t, needle, j)
    ensures OccursAt(s, needle, i + j)
  {
    forall k | 0 <= k < |needle| ensures s[i + j + k] == needle[k] {
      assert s[i + (j + k)] == t[j + k];
    }
  }

  /** Both exact addresses contain the development server's. */
  lemma DevServerAddresses()
    ensures OccursAt("http://localhost:8080", DevServer, 7)
    ensures OccursAt("https://localhost:8080", DevServer, 8)
    ensures forall k | 0 <= k < |DevServer| :: LowerChar(DevServer[k]) == DevServer[k]
  {
  }

  /** The two exact comparisons add nothing: a URL that strips to the
      development server's address already contains it. */
  lemma DevServerTestsRedundant(url: string)
    ensures PointsAtDevServer(url) <==> Contains(Lower(url), DevServer)
  {
    var t := Strip(url);
    if t == "http://localhost:8080" || t == "https://localhost:8080" {
      StripInfix(url);
      var i := |url| - |LStrip(url)|;
      DevServerAddresses();
      var j := if t == "http://localhost:8080" then 7 else 8;
      OccursWithin(url, t, DevServer, i, j);
      OccursLowered(url, DevServer, i + j);
    }
  }

  /** A context that loads always yields a client: it has all three values,
      and its URL is not blank. */
  lemma ContextMakesClient(credentials: Value)
    requires LoadProviderContext(credentials).Ok?
    ensures var ctx := LoadProviderContext(credentials).value;
      var c := WpClient.FromContext(Some(VStr(ctx.url)), Some(VStr(ctx.username)), Some(VStr(ctx.password)));
      c.Ok? && c.value.baseUrl == WpClient.NormalizeBase(ctx.url)
  {
    var ctx := LoadProviderContext(credentials).value;
    ClientFromContext(ctx);
  }

  lemma ClientFromContext(ctx: ProviderContext)
    requires ctx.url != "" && Strip(ctx.url) == ctx.url && ctx.username != "" && ctx.password != ""
    ensures var c := WpClient.FromContext(Some(VStr(ctx.url)), Some(VStr(ctx.username)), Some(VStr(ctx.password)));
      c.Ok? && c.value.baseUrl == WpClient.NormalizeBase(ctx.url)
  {
    StrippedNotBlank(ctx.url);
  }

  /** Stripped text that is not empty is not blank. */
  lemma StrippedNotBlank(s: string)
    requires Strip(s) == s && s != ""
    ensures !IsBlank(s)
  {
  }

  // ---- Failure messages ------------------------------------------------------

  const FailedLabel: string := " に失敗しました: "
  const HintLabel: string := "ヒント: "
  const CredentialsHint: string := "WordPressの認証情報（ユーザー名またはアプリケーションパスワード）が無効です。"
  const PasswordHint: string := "WordPress管理画面でアプリケーションパスワードが正しく生成されているか確認してください。"
  const PermissionHint: string := "WordPressユーザーに必要な権限がありません。"
  const RoleHint: string := "投稿の作成・編集・削除には適切な権限が必要です。"
  const MissingHint: string := "指定されたリソース（投稿IDなど）が見つかりません。"
  const IdHint: string := "正しいIDを指定しているか確認してください。"
  const RateHint: string := "短時間にリクエストしすぎている可能性があります。数秒待って再実行してください"
  const ParameterHint: string := "リクエストパラメータの形式を確認してください（タイトル、本文など）"
  const ServerHint: string := "WordPressサーバーでエラーが発生しました。"
  const ServerLogHint: string := "WordPressサイトのログを確認してください。"
  const MaxBodyDetail: nat := 500
  const DetailLead: string := "\n詳細: "

  /** A hint rule: it fires when the message contains one of `inMessage`,
      or the lowered original error text contains one of `inLowered`. */
  datatype HintRule = HintRule(inMessage: seq<string>, inLowered: seq<string>, hints: seq<string>)

  /** The rules in the order `_handle_error` tries them. */
  const HintRules: seq<HintRule> := [
    HintRule(["401"], ["unauthorized"], [CredentialsHint, PasswordHint]),
    HintRule(["403"], ["forbidden"], [PermissionHint, RoleHint]),
    HintRule(["404"], ["not found"], [MissingHint, IdHint]),
    HintRule([], ["rate", "429"], [RateHint]),
    HintRule(["400"], ["validation", "invalid"], [ParameterHint]),
    HintRule(["500"], ["internal server error"], [ServerHint, ServerLogHint])
  ]

  /** Some needle occurs in `s`. */
  function AnyIn(s: string, needles: seq<string>): (b: bool)
    ensures b <==> exists k :: 0 <= k < |needles| && Contains(s, needles[k])
  {
    if |needles| == 0 then false
    else Contains(s, needles[0]) || AnyIn(s, needles[1..])
  }

  predicate Fires(rule: HintRule, message: string, lowered: string) {
    AnyIn(message, rule.inMessage) || AnyIn(lowered, rule.inLowered)
  }

  predicate GivesHints(rules: seq<HintRule>) {
    forall k | 0 <= k < |rules| :: |rules[k].hints| > 0
  }

  /** The hints of the rules that fire, rule by rule. */
  function Hints(rules: seq<HintRule>, message: string, lowered: string): (hs: seq<string>)
    requires GivesHints(rules)
    ensures |hs| == 0 <==> forall k | 0 <= k < |rules| :: !Fires(rules[k], message, lowered)
    ensures forall h :: h in hs <==> exists k :: 0 <= k < |rules| && Fires(rules[k], message, lowered) && h in rules[k].hints
  {
    if |rules| == 0 then []
    else
      var rest := Hints(rules[1..], message, lowered);
      assert forall k | 0 <= k < |rules| - 1 :: rules[1..][k] == rules[k + 1];
      (if Fires(rules[0], message, lowered) then rules[0].hints else []) + rest
  }

  /** Hints keep the order of their rules: those of earlier rules come first. */
  lemma {:induction false} HintsAppend(a: seq<HintRule>, b: seq<HintRule>, message: string, lowered: string)
    requires GivesHints(a) && GivesHints(b)
    ensures GivesHints(a + b)
    ensures Hints(a + b, message, lowered) == Hints(a, message, lowered) + Hints(b, message, lowered)
  {
    GivesHintsAppend(a, b);
    if |a| == 0 {
      assert a + b == b;
    } else {
      HintsAppend(a[1..], b, message, lowered);
      HintsCons(a, b, message, lowered);
    }
  }

  lemma GivesHintsAppend(a: seq<HintRule>, b: seq<HintRule>)
    requires GivesHints(a) && GivesHints(b)
    ensures GivesHints(a + b) && (|a| > 0 ==> GivesHints(a[1..]) && GivesHints(a[1..] + b))
  {
  }

  /** One step of the append law: the first rule of `a` leads both sides. */
  lemma HintsCons(a: seq<HintRule>, b: seq<HintRule>, message: string, lowered: string)
    requires |a| > 0 && GivesHints(a) && GivesHints(b) && GivesHints(a + b) && GivesHints(a[1..]) && GivesHints(a[1..] + b)
    requires Hints(a[1..] + b, message, lowered) == Hints(a[1..], message, lowered) + Hints(b, message, lowered)
    ensures Hints(a + b, message, lowered) == Hints(a, message, lowered) + Hints(b, message, lowered)
  {
    RulesSplit(a, b);
    HintsUnfold(a + b, message, lowered);
    HintsUnfold(a, message, lowered);
    ConcatAssoc(Lead(a[0], message, lowered), Hints(a[1..], message, lowered), Hints(b, message, lowered));
  }

  /** The hints one rule contributes. */
  function Lead(rule: HintRule, message: string, lowered: string): seq<string> {
    if Fires(rule, message, lowered) then rule.hints else []
  }

  lemma HintsUnfold(rules: seq<HintRule>, message: string, lowered: string)
    requires |rules| > 0 && GivesHints(rules) && GivesHints(rules[1..])
    ensures Hints(rules, message, lowered) == Lead(rules[0], message, lowered) + Hints(rules[1..], message, lowered)
  {
  }

  lemma RulesSplit(a: seq<HintRule>, b: seq<HintRule>)
    requires |a| > 0
    ensures (a + b)[0] == a[0] && (a + b)[1..] == a[1..] + b
  {
  }

  lemma ConcatAssoc(x: seq<string>, y: seq<string>, z: seq<string>)
    ensures x + (y + z) == (x + y) + z
  {
  }

  /** The heading of an HTTP error: with the status when there is a non-zero
      one. */
  function ApiErrorHead(status: Option<int>): string {
    if status.Some? && status.value != 0 then "WordPress APIエラー (HTTP " + IntToString(status.value) + "): "
    else "WordPress APIエラー: "
  }

  /** `[code] message` from a WordPress error body, when it has a message. */
  function CodeDetail(body: Dict): string {
    var code, message := GetOr(body, "code", VStr("")), GetOr(body, "message", VStr(""));
    if !Truthy(message) then ""
    else if Truthy(code) then DetailLead + ("[" + Str(code) + "] ") + Str(message)
    else DetailLead + Str(message)
  }

  function ParamPair(entry: (Value, Value)): Option<string> {
    Some(Str(entry.0) + ": " + Str(entry.1))
  }

  /** The `param: msg` pairs of `data.params`, when that is a non-empty dict. */
  function ParamDetail(body: Dict): string {
    var data := GetOr(body, "data", VDict([]));
    if !data.VDict? then ""
    else match Lookup(data.entries, VStr("params"))
      case Some(VDict(params)) =>
        if |params| == 0 then "" else "\nパラメータエラー: " + Join("; ", FilterMap(ParamPair, params))
      case _ => ""
  }

  /** What an HTTP error's body adds: details from a JSON object, nothing
      for other JSON, its first 500 characters when it is not JSON. */
  function BodyDetail(body: string, parse: string -> Option<Value>): string {
    match parse(body)
    case None => DetailLead + Take(body, MaxBodyDetail)
    case Some(VDict(d)) => CodeDetail(d) + ParamDetail(d)
    case Some(_) => ""
  }

  /** A non-zero status can be read back from the heading, just after
      `(HTTP `; without one the heading carries no digit at all. */
  lemma ApiErrorHeadStatus(status: Option<int>)
    ensures status.Some? && status.value != 0 ==>
      var h, k := ApiErrorHead(status), |"WordPress APIエラー (HTTP "|;
      k + |IntToString(status.value)| <= |h| && ParseInt(h[k..k + |IntToString(status.value)|]) == Some(status.value)
    ensures !(status.Some? && status.value != 0) ==>
      forall i | 0 <= i < |ApiErrorHead(status)| :: !IsDigit(ApiErrorHead(status)[i])
  {
    if status.Some? && status.value != 0 {
      var p, d := "WordPress APIエラー (HTTP ", IntToString(status.value);
      var h := p + d + "): ";
      assert ApiErrorHead(status) == h;
      assert h[|p|..|p| + |d|] == d;
      ParseIntOfIntToString(status.value);
    }
  }

  /** The code detail is there exactly when the body has a truthy
      `message`; it then opens with its lead, ends with the message, and
      shows a truthy `code` in brackets right after the lead. */
  lemma CodeDetailShown(body: Dict)
    ensures var code, message, d := GetOr(body, "code", VStr("")), GetOr(body, "message", VStr("")), CodeDetail(body);
      && (d != "" <==> Truthy(message))
      && (d != "" ==> StartsWith(d, DetailLead) && EndsWith(d, Str(message)))
      && (d != "" && Truthy(code) ==> OccursAt(d, "[" + Str(code) + "] ", |DetailLead|))
  {
    var code, message := GetOr(body, "code", VStr("")), GetOr(body, "message", VStr(""));
    if Truthy(message) && Truthy(code) {
      Framed(DetailLead, "[" + Str(code) + "] ", Str(message));
    } else if Truthy(message) {
      Framed(DetailLead, [], Str(message));
      assert DetailLead + [] == DetailLead;
    }
  }

  /** The parameter errors of a body: `data.params`, when `data` is a dict
      and `params` inside it is a non-empty dict. */
  predicate HasParamErrors(body: Dict, params: Dict) {
    var data := GetOr(body, "data", VDict([]));
    data.VDict? && Lookup(data.entries, VStr("params")) == Some(VDict(params)) && |params| > 0
  }

  /** The parameter detail is there exactly when the body has parameter
      errors, and it then names every `param: msg` pair among them. */
  lemma ParamDetailShown(body: Dict)
    ensures ParamDetail(body) != "" <==> exists params :: HasParamErrors(body, params)
    ensures forall params: Dict, k: int | HasParamErrors(body, params) && 0 <= k < |params| ::
      Contains(ParamDetail(body), Str(params[k].0) + ": " + Str(params[k].1))
  {
    forall params: Dict, k: int | HasParamErrors(body, params) && 0 <= k < |params|
      ensures Contains(ParamDetail(body), Str(params[k].0) + ": " + Str(params[k].1))
    {
      ParamPairShown(body, params, k);
    }
    if ParamDetail(body) != "" {
      var data := GetOr(body, "data", VDict([]));
      var params := Lookup(data.entries, VStr("params")).value.entries;
      assert HasParamErrors(body, params);
    }
  }

  lemma ParamPairShown(body: Dict, params: Dict, k: nat)
    requires HasParamErrors(body, params) && k < |params|
    ensures Contains(ParamDetail(body), Str(params[k].0) + ": " + Str(params[k].1))
  {
    var pair := Str(params[k].0) + ": " + Str(params[k].1);
    var parts := FilterMap(ParamPair, params);
    FilterMapAt(ParamPair, params, k);
    var i := |FilterMap(ParamPair, params[..k])|;
    assert parts[i] == pair;
    var j := JoinOccurs("; ", parts, i);
    var lead := "\nパラメータエラー: ";
    assert ParamDetail(body) == lead + Join("; ", parts);
    OccursAfter(lead, Join("; ", parts), pair, j);
  }

  /** A body that is not JSON is quoted after its lead, at most its first
      500 characters; JSON that is not an object adds nothing. */
  lemma BodyDetailShown(body: string, parse: string -> Option<Value>)
    ensures var d, lead := BodyDetail(body, parse), DetailLead;
      parse(body).None? ==>
        StartsWith(d, lead) && |d| <= |lead| + MaxBodyDetail && StartsWith(body, d[|lead|..])
    ensures parse(body).Some? && !parse(body).value.VDict? ==> BodyDetail(body, parse) == ""
  {
    if parse(body).None? {
      var lead, quoted := DetailLead, Take(body, MaxBodyDetail);
      var d := lead + quoted;
      assert BodyDetail(body, parse) == d;
      assert d[..|lead|] == lead;
      assert d[|lead|..] == quoted;
    }
  }

  /** The message shown for an error: `str(error)`, and for an HTTP error a
      heading with its status and the details its body adds. */
  function Detail(error: Exc, parse: string -> Option<Value>): (m: string)
    ensures !error.HttpError? ==> m == error.msg
    ensures error.HttpError? ==> StartsWith(m, ApiErrorHead(error.status) + error.msg)
    ensures error.HttpError? && (error.body == None || error.body == Some("")) ==> m == ApiErrorHead(error.status) + error.msg
    ensures error.HttpError? && error.body.Some? && error.body.value != "" && parse(error.body.value).None? ==>
      m == ApiErrorHead(error.status) + error.msg + DetailLead + Take(error.body.value, MaxBodyDetail)
  {
    if !error.HttpError? then error.msg
    else
      var head := ApiErrorHead(error.status) + error.msg;
      if error.body.None? || error.body.value == "" then head
      else head + BodyDetail(error.body.value, parse)
  }

  function HintLines(hints: seq<string>): (lines: seq<string>)
    ensures |lines| == |hints|
    ensures forall i | 0 <= i < |hints| :: lines[i] == HintLabel + hints[i]
  {
    seq(|hints|, i requires 0 <= i < |hints| => HintLabel + hints[i])
  }

  /** The hint section: empty without hints. */
  function HintSection(hints: seq<string>): string {
    if |hints| == 0 then "" else "\n\n" + Join("\n", HintLines(hints))
  }

  /** `_handle_error`: `"{action} に失敗しました: {message}"`, then the hints
      of every rule that fires, in rule order. The `401`-style codes are
      looked for in the composed message, the words in the lowered original
      error text. */
  function HandleError(error: Exc, action: string, parse: string -> Option<Value>): (text: string)
    ensures var m := Detail(error, parse);
      && StartsWith(text, action + FailedLabel + m)
      && (text == action + FailedLabel + m <==> forall k | 0 <= k < |HintRules| :: !Fires(HintRules[k], m, Lower(error.msg)))
  {
    var m := Detail(error, parse);
    var hints := Hints(HintRules, m, Lower(error.msg));
    var text := action + FailedLabel + m + HintSection(hints);
    assert |hints| > 0 ==> |HintSection(hints)| > 0;
    text
  }

  /** With hints, the text is the message, a blank line and the hint lines. */
  lemma HandleErrorHinted(error: Exc, action: string, parse: string -> Option<Value>)
    ensures var m := Detail(error, parse);
      var hs := Hints(HintRules, m, Lower(error.msg));
      |hs| > 0 ==> HandleError(error, action, parse) == action + FailedLabel + m + "\n\n" + Join("\n", HintLines(hs))
  {
    var m := Detail(error, parse);
    var hs := Hints(HintRules, m, Lower(error.msg));
    if |hs| > 0 {
      var a, j := action + FailedLabel + m, Join("\n", HintLines(hs));
      assert a + ("\n\n" + j) == a + "\n\n" + j;
    }
  }

  /** Every hint of every rule that fires is shown, behind its label. */
  lemma HandleErrorShowsHints(error: Exc, action: string, parse: string -> Option<Value>, k: nat, h: string)
    requires k < |HintRules| && h in HintRules[k].hints
    requires Fires(HintRules[k], Detail(error, parse), Lower(error.msg))
    ensures Contains(HandleError(error, action, parse), HintLabel + h)
  {
    var m := Detail(error, parse);
    var hs := Hints(HintRules, m, Lower(error.msg));
    assert h in hs;
    var i :| 0 <= i < |hs| && hs[i] == h;
    var lines := HintLines(hs);
    var pre := action + FailedLabel + m + "\n\n";
    assert HandleError(error, action, parse) == pre + Join("\n", lines) by {
      HandleErrorHinted(error, action, parse);
    }
    var j := JoinOccurs("\n", lines, i);
    OccursAfter(pre, Join("\n", lines), lines[i], j);
  }

  /** An HTTP 401 always leads its hints with the credentials hint, since
      the heading shows the status. */
  lemma UnauthorizedHintFirst(msg: string, body: Option<string>, action: string, parse: string -> Option<Value>)
    ensures var e := HttpError(Some(401), msg, body);
      StartsWith(HandleError(e, action, parse),
        action + FailedLabel + Detail(e, parse) + "\n\n" + (HintLabel + CredentialsHint))
  {
    var e := HttpError(Some(401), msg, body);
    var m := Detail(e, parse);
    var lowered := Lower(msg);
    var hints := Hints(HintRules, m, lowered);
    assert |hints| > 0 && hints[0] == CredentialsHint by {
      StatusInHead(401, msg, m);
      FirstRuleFirst(HintRules, m, lowered);
    }
    var lines := HintLines(hints);
    var pre := action + FailedLabel + m + "\n\n";
    assert HandleError(e, action, parse) == pre + Join("\n", lines) by {
      HandleErrorHinted(e, action, parse);
    }
    JoinStartsWith("\n", lines);
    StartsWithAppend(pre, Join("\n", lines), lines[0]);
  }

  /** The heading of an HTTP error shows its status. */
  lemma StatusInHead(status: int, msg: string, m: string)
    requires status == 401
    requires StartsWith(m, ApiErrorHead(Some(status)) + msg)
    ensures Fires(HintRules[0], m, Lower(msg))
  {
    var head := "WordPress APIエラー (HTTP ";
    assert IntToString(401) == "401";
    var whole := head + "401" + "): " + msg;
    assert ApiErrorHead(Some(status)) + msg == whole;
    assert m[..|whole|] == whole;
    assert whole[|head|..|head| + 3] == "401";
    PrefixSlice(m, whole, |head|, |head| + 3);
    assert OccursAt(m, "401", |head|);
    assert Contains(m, HintRules[0].inMessage[0]);
  }

  /** A slice inside a prefix is the prefix's slice. */
  lemma PrefixSlice(m: string, w: string, i: nat, j: nat)
    requires |w| <= |m| && m[..|w|] == w && i <= j <= |w|
    ensures m[i..j] == w[i..j]
  {
    assert forall k | i <= k < j :: m[k] == m[..|w|][k];
  }

  /** When the first rule fires, its hints lead. */
  lemma FirstRuleFirst(rules: seq<HintRule>, message: string, lowered: string)
    requires |rules| > 0 && GivesHints(rules) && Fires(rules[0], message, lowered)
    ensures var hs := Hints(rules, message, lowered); |hs| > 0 && hs[0] == rules[0].hints[0]
  {
  }

  lemma JoinStartsWith(sep: string, parts: seq<string>)
    requires |parts| > 0
    ensures StartsWith(Join(sep, parts), parts[0])
  {
    if |parts| > 1 {
      assert Join(sep, parts) == parts[0] + (sep + Join(sep, parts[1..]));
    }
  }

  lemma StartsWithAppend(p: string, s: string, t: string)
    requires StartsWith(s, t)
    ensures StartsWith(p + s, p + t)
  {
    assert (p + s)[..|p + t|] == p + s[..|t|];
  }

  // ---- Payload fields --------------------------------------------------------

  /** A request field: its key, and its value when the tool sends it. */
  type Field = (string, Option<Value>)

  function FieldEntry(f: Field): Option<(Value, Value)> {
    if f.1.Some? then Some((VStr(f.0), f.1.value)) else None
  }

  /** The dict a tool builds by assigning each sent field once, in order. */
  function Payload(fields: seq<Field>): (d: Dict)
    ensures |d| <= |fields|
    ensures |d| == 0 <==> forall i | 0 <= i < |fields| :: fields[i].1.None?
  {
    FilterMap(FieldEntry, fields)
  }

  predicate DistinctKeys(fields: seq<Field>) {
    forall i, j | 0 <= i < j < |fields| :: fields[i].0 != fields[j].0
  }

  /** Each field of a payload with distinct keys reads back as given: its
      value when sent, absent otherwise. */
  lemma {:induction false} PayloadLookup(fields: seq<Field>, i: int)
    requires DistinctKeys(fields) && 0 <= i < |fields|
    ensures Lookup(Payload(fields), VStr(fields[i].0)) == fields[i].1
  {
    var rest := fields[1..];
    assert Payload(fields) == (if fields[0].1.Some? then [(VStr(fields[0].0), fields[0].1.value)] else []) + Payload(rest);
    if i == 0 {
      PayloadAbsent(rest, fields[0].0);
      LookupAppend(if fields[0].1.Some? then [(VStr(fields[0].0), fields[0].1.value)] else [], Payload(rest), VStr(fields[0].0));
    } else {
      assert rest[i - 1] == fields[i];
      PayloadLookup(rest, i - 1);
      LookupAppend(if fields[0].1.Some? then [(VStr(fields[0].0), fields[0].1.value)] else [], Payload(rest), VStr(fields[i].0));
    }
  }

  /** A key no field has is not in the payload. */
  lemma {:induction false} PayloadAbsent(fields: seq<Field>, key: string)
    requires forall i | 0 <= i < |fields| :: fields[i].0 != key
    ensures Lookup(Payload(fields), VStr(key)) == None
  {
    if |fields| > 0 {
      PayloadAbsent(fields[1..], key);
      assert Payload(fields) == (if fields[0].1.Some? then [(VStr(fields[0].0), fields[0].1.value)] else []) + Payload(fields[1..]);
      LookupAppend(if fields[0].1.Some? then [(VStr(fields[0].0), fields[0].1.value)] else [], Payload(fields[1..]), VStr(key));
    }
  }

  /** An id field an update sends when the value is an integer of at least
      0, where 0 clears the link; anything else is dropped without error. */
  function ClearableId(v: Value): (r: Option<Value>)
    ensures r.Some? <==> ToInt(v).Some? && ToInt(v).value >= 0
    ensures r.Some? ==> r.value == VInt(ToInt(v).value)
  {
    if v == VNone then None
    else match ToInt(v)
      case Some(n) => if n >= 0 then Some(VInt(n)) else None
      case None => None
  }

  /** An id field a create sends only when the value is truthy and an
      integer above 0; anything else is dropped without error. */
  function PositiveId(v: Value): (r: Option<Value>)
    ensures r.Some? <==> ToInt(v).Some? && ToInt(v).value > 0
    ensures r.Some? ==> r.value == VInt(ToInt(v).value)
  {
    if !Truthy(v) then None
    else match ToInt(v)
      case Some(n) => if n > 0 then Some(VInt(n)) else None
      case None => None
  }

  /** `str(v).strip()` kept only when not blank. */
  function NonBlankStr(v: Value): (r: Option<Value>)
    ensures r.Some? <==> !IsBlank(Str(v))
    ensures r.Some? ==> r.value == VStr(Strip(Str(v))) && Strip(Str(v)) != ""
  {
    StripBlank(Str(v));
    if Strip(Str(v)) == "" then None else Some(VStr(Strip(Str(v))))
  }

  /** A field sent whenever the parameter is not `None`, as given. */
  function Given(v: Value): (r: Option<Value>)
    ensures r.Some? <==> v != VNone
    ensures r.Some? ==> r.value == v
  {
    if v == VNone then None else Some(v)
  }

  /** A field sent only when the parameter is truthy, as given. */
  function WhenTruthy(v: Value): (r: Option<Value>)
    ensures r.Some? <==> Truthy(v)
    ensures r.Some? ==> r.value == v
  {
    if Truthy(v) then Some(v) else None
  }

  /** A text field sent only when the parameter is truthy and its `str()`
      is not blank, stripped. */
  function TruthyNonBlank(v: Value): (r: Option<Value>)
    ensures r.Some? <==> Truthy(v) && !IsBlank(Str(v))
    ensures r.Some? ==> r.value == VStr(Strip(Str(v)))
  {
    if Truthy(v) then NonBlankStr(v) else None
  }

  /** A text an update sends when given: its `str()`, stripped; a blank
      one is an error. */
  function GivenText(v: Value, blank: string): (r: Result<Option<Value>, Exc>)
    ensures v == VNone ==> r == Ok(None)
    ensures v != VNone ==> (r.Ok? <==> !IsBlank(Str(v)))
    ensures v != VNone && r.Ok? ==> r.value == Some(VStr(Strip(Str(v))))
    ensures r.Err? ==> r.error == ValueError(blank)
  {
    if v == VNone then Ok(None)
    else if NonBlankStr(v).None? then Err(ValueError(blank))
    else Ok(NonBlankStr(v))
  }

  /** A text a creation requires: `(v or "").strip()`, not empty. */
  function RequiredText(v: Value, missing: string): (r: Result<string, Exc>)
    ensures r.Ok? <==> StripOrEmpty(v).Ok? && StripOrEmpty(v).value != ""
    ensures r.Ok? ==> v.VStr? && r.value == Strip(v.s) && r.value != ""
    ensures StripOrEmpty(v).Ok? && StripOrEmpty(v).value == "" ==> r == Err(ValueError(missing))
  {
    var name :- StripOrEmpty(v);
    if name == "" then Err(ValueError(missing)) else Ok(name)
  }

  /** Stripping is idempotent. */
  lemma StripStripped(s: string)
    ensures Strip(Strip(s)) == Strip(s)
  {
  }

  /** The parameters of an update addressed to `id` and carrying `d`. */
  function Addressed(id: int, d: Dict): Dict {
    [(VStr("id"), VInt(id))] + d
  }

  lemma AddressedGet(id: int, d: Dict, key: string)
    requires key != "id"
    ensures Get(Addressed(id, d), key) == Get(d, key)
  {
    assert Addressed(id, d)[1..] == d;
  }

  /** A normalized text field: a non-empty string that strips to itself. */
  predicate Normalized(v: Value) {
    v.VStr? && v.s != "" && Strip(v.s) == v.s
  }

  /** A normalized text is not blank and is its own `str()`. */
  lemma NormalizedText(v: Value)
    requires Normalized(v)
    ensures Str(v) == v.s && !IsBlank(v.s) && NonBlankStr(v) == Some(v)
  {
    assert Str(v) == v.s;
    assert Strip(v.s) != [];
  }

  /** The search a listing sends: only a query that is not blank. */
  function SearchField(search: Option<string>): Option<Value> {
    if search.Some? then Some(VStr(search.value)) else None
  }

  /** An update request: the validated id and the fields to change. */
  datatype Update = Update(id: int, data: Dict)

  // ---- Deletion --------------------------------------------------------------

  /** The force flag of the delete tools: a string is true when, lowered, it
      is `true`, `1` or `yes`; a bool is itself; anything else is its
      truthiness. */
  function NormalizeForce(v: Value): (force: bool)
    ensures v.VBool? ==> force == v.b
    ensures v.VStr? ==> (force <==> Lower(v.s) in ["true", "1", "yes"])
    ensures !v.VStr? && !v.VBool? ==> force == Truthy(v)
  {
    match v
    case VStr(s) => Lower(s) in ["true", "1", "yes"]
    case VBool(b) => b
    case _ => Truthy(v)
  }

  /** Letter case never matters to the force flag, and a normalized flag
      normalizes to itself. */
  lemma NormalizeForceStable(v: Value)
    ensures NormalizeForce(VBool(NormalizeForce(v))) == NormalizeForce(v)
    ensures v.VStr? ==> NormalizeForce(VStr(Lower(v.s))) == NormalizeForce(v)
  {
    if v.VStr? {
      LowerIdempotent(v.s);
    }
  }

  /** A delete tool's force parameter decides whether the request asks for
      permanent deletion: `force=true` is sent exactly when it normalizes
      to true. */
  lemma ForceReachesRequest(e: WpClient.Endpoint, id: int, force: Value)
    requires e !in {WpClient.Users, WpClient.Settings, WpClient.Plugins}
    ensures var c := WpClient.CallOf(WpClient.Delete(e, id, NormalizeForce(force)));
      c.Some? && (c.value.query == Some([(VStr("force"), VStr("true"))]) <==> NormalizeForce(force))
  {
    WpClient.DeleteForce(e, id, NormalizeForce(force));
  }

  /** The delete tools' result text: removed for good when the reply says
      `deleted`, moved to the trash otherwise; the id shown is the reply's. */
  function DeleteMessage(noun: string, reply: Value): (r: Result<string, Exc>)
    ensures r.Ok? <==> reply.VDict?
    ensures r.Ok? ==>
      var id := Str(Get(reply.entries, "id"));
      (Truthy(GetOr(reply.entries, "deleted", VBool(false))) ==> r.value == "WordPressの" + noun + "を削除しました (ID: " + id + ")")
      && (!Truthy(GetOr(reply.entries, "deleted", VBool(false))) ==> r.value == "WordPressの" + noun + "をゴミ箱に移動しました (ID: " + id + ")")
  {
    if !reply.VDict? then Err(NoAttribute(reply, "get"))
    else
      var id := Str(Get(reply.entries, "id"));
      if Truthy(GetOr(reply.entries, "deleted", VBool(false))) then Ok("WordPressの" + noun + "を削除しました (ID: " + id + ")")
      else Ok("WordPressの" + noun + "をゴミ箱に移動しました (ID: " + id + ")")
  }

  /** The request a delete tool makes: the validated id and the
      normalized force flag. */
  datatype Deletion = Deletion(id: int, force: bool)

  /** A delete tool (`delete_post.py` and its three siblings): the id is
      validated before anything is sent; `force` defaults to false and is
      normalized; the server's reply decides the text. The result is the
      request made, if any, and the outcome. */
  function DeleteTool(kind: Validators.IdKind, noun: string, params: Dict, server: Deletion -> Result<Value, Exc>)
    : (r: (Option<Deletion>, Result<string, Exc>))
    ensures r.0.Some? <==> Validators.ValidateId(kind, Get(params, "id")).Ok?
    ensures r.0.Some? ==> r.0.value.id > 0 && r.0.value.id == ToInt(Get(params, "id")).value
    ensures r.0.Some? ==> r.0.value.force == NormalizeForce(GetOr(params, "force", VBool(false)))
    ensures r.0.None? ==> r.1 == Err(Validators.ValidateId(kind, Get(params, "id")).error)
    ensures r.1.Ok? <==> r.0.Some? && server(r.0.value).Ok? && server(r.0.value).value.VDict?
    ensures r.1.Ok? ==> r.1 == DeleteMessage(noun, server(r.0.value).value)
  {
    match Validators.ValidateId(kind, Get(params, "id"))
    case Err(e) => (None, Err(e))
    case Ok(id) =>
      var request := Deletion(id, NormalizeForce(GetOr(params, "force", VBool(false))));
      match server(request)
      case Err(e) => (Some(request), Err(e))
      case Ok(reply) => (Some(request), DeleteMessage(noun, reply))
  }

  // ---- Listing ---------------------------------------------------------------

  /** The items a listing tool reports: the reply when it is a list,
      otherwise none. */
  function Listed(reply: Value): (items: seq<Value>)
    ensures !reply.VList? ==> items == []
    ensures reply.VList? ==> items == reply.items
  {
    if reply.VList? then reply.items else []
  }

  /** The listing tools' result text: the count, or that nothing was found. */
  function ListMessage(noun: string, reply: Value): (text: string)
    ensures |Listed(reply)| == 0 ==> text == "WordPressから" + noun + "が見つかりませんでした"
    ensures |Listed(reply)| > 0 ==> text == "WordPressから" + IntToString(|Listed(reply)|) + "件の" + noun + "を取得しました"
  {
    var n := |Listed(reply)|;
    if n == 0 then "WordPressから" + noun + "が見つかりませんでした"
    else "WordPressから" + IntToString(n) + "件の" + noun + "を取得しました"
  }
}

=== FILE: user_tools.dfy ===
/** The user tools (`tools/update_user.py`, `tools/get_site_users.py`). A
    role list given as comma-separated text is split by the update and
    joined again by the listing; the two are inverse on the lists the update
    produces. */
module UserTools {
  import opened Wrappers
  import opened Text
  import opened Py
  import opened Validators
  import opened ToolBase

  const UsersMaxPerPage: int := 100
  const NameBlank: string := "ユーザー名が空です"
  const EmailBlank: string := "メールアドレスが空です"
  const EmailInvalidPrefix: string := "無効なメールアドレス形式です: "
  const UrlInvalidPrefix: string := "URLはhttp://またはhttps://で始まる必要があります: "
  const RolesInvalidPrefix: string := "ロールの形式が不正です: "
  const UserNothingToUpdate: string := "更新する項目（name, email, description, url, roles）を少なくとも1つ指定してください"

  // ---- update_user fields ----------------------------------------------------

  /** The name: when given, a string whose stripped text is not empty. */
  function UserName(v: Value): (r: Result<Option<Value>, Exc>)
    ensures v == VNone ==> r == Ok(None)
    ensures v != VNone ==> (r.Ok? <==> v.VStr? && !IsBlank(v.s))
    ensures v != VNone && r.Ok? ==> r.value == Some(VStr(Strip(v.s)))
    ensures v.VStr? && IsBlank(v.s) ==> r == Err(ValueError(NameBlank))
  {
    if v == VNone then Ok(None)
    else
      var name :- StripValue(v);
      if name == "" then Err(ValueError(NameBlank)) else Ok(Some(VStr(name)))
  }

  /** The domain part the address check looks at: `email.split("@")[-1]`,
      what follows the last `@`. */
  function Domain(email: string): string {
    LastSegment(email, '@')
  }

  /** The simple address check: an `@`, and a `.` after the last one. */
  predicate EmailShaped(email: string) {
    '@' in email && '.' in Domain(email)
  }

  /** The e-mail: when given, a string whose stripped text is not empty and
      is shaped like an address. */
  function UserEmail(v: Value): (r: Result<Option<Value>, Exc>)
    ensures v == VNone ==> r == Ok(None)
    ensures v != VNone ==> (r.Ok? <==> v.VStr? && !IsBlank(v.s) && EmailShaped(Strip(v.s)))
    ensures v != VNone && r.Ok? ==> r.value == Some(VStr(Strip(v.s)))
    ensures v.VStr? && IsBlank(v.s) ==> r == Err(ValueError(EmailBlank))
    ensures v.VStr? && !IsBlank(v.s) && !EmailShaped(Strip(v.s)) ==> r == Err(ValueError(EmailInvalidPrefix + Strip(v.s)))
  {
    if v == VNone then Ok(None)
    else
      var email :- StripValue(v);
      if email == "" then Err(ValueError(EmailBlank))
      else if !EmailShaped(email) then Err(ValueError(EmailInvalidPrefix + email))
      else Ok(Some(VStr(email)))
  }

  /** The domain is what follows the last `@`, whatever comes before it. */
  lemma DomainAfterLastAt(a: string, b: string)
    requires '@' !in b
    ensures Domain(a + ['@'] + b) == b
  {
    var s := a + ['@'] + b;
    var r := Domain(s);
    assert s[|s| - |b|..] == b;
    assert s[|s| - |b| - 1] == '@';
    assert |r| == |b|;
    assert s[|s| - |r|..] == r;
  }

  /** An address with a dot after its only `@` is accepted. */
  lemma EmailAccepted()
    ensures EmailShaped("a@b.c")
  {
    DomainAfterLastAt("a", "b.c");
    assert "a" + ['@'] + "b.c" == "a@b.c";
  }

  /** A dot before the `@` does not count. */
  lemma EmailDotBeforeAt()
    ensures !EmailShaped("a.b@c")
  {
    DomainAfterLastAt("a.b", "c");
    assert "a.b" + ['@'] + "c" == "a.b@c";
  }

  /** Only the part after the last `@` is looked at. */
  lemma EmailDotBetweenAts()
    ensures !EmailShaped("a@b.c@d")
  {
    DomainAfterLastAt("a@b.c", "d");
    assert "a@b.c" + ['@'] + "d" == "a@b.c@d";
  }

  /** The URL: when given, a string stripped; empty is dropped, anything
      else must start with an http(s) scheme. */
  function UserUrl(v: Value): (r: Result<Option<Value>, Exc>)
    ensures v == VNone ==> r == Ok(None)
    ensures v != VNone ==> (r.Ok? <==> v.VStr? && (IsBlank(v.s) || StartsWith(Strip(v.s), "http://") || StartsWith(Strip(v.s), "https://")))
    ensures v != VNone && r.Ok? ==> (r.value.Some? <==> !IsBlank(v.s)) && (r.value.Some? ==> r.value.value == VStr(Strip(v.s)))
    ensures v.VStr? && !IsBlank(v.s) && r.Err? ==> r.error == ValueError(UrlInvalidPrefix + Strip(v.s))
  {
    if v == VNone then Ok(None)
    else
      var url :- StripValue(v);
      if url == "" then Ok(None)
      else if !StartsWith(url, "http://") && !StartsWith(url, "https://") then Err(ValueError(UrlInvalidPrefix + url))
      else Ok(Some(VStr(url)))
  }

  // ---- Roles -----------------------------------------------------------------

  /** `[r.strip() for r in pieces if r.strip()]` */
  function KeptRoles(pieces: seq<string>): (names: seq<string>)
    ensures |names| <= |pieces|
  {
    if |pieces| == 0 then []
    else (if Strip(pieces[0]) == "" then [] else [Strip(pieces[0])]) + KeptRoles(pieces[1..])
  }

  /** The role names in comma-separated text: each one non-empty,
      stripped and free of commas. */
  function RoleNames(roles: string): (names: seq<string>)
    ensures AllClean(names)
  {
    KeptRolesClean(Split(roles, ','));
    KeptRoles(Split(roles, ','))
  }

  function RoleValues(names: seq<string>): (vs: seq<Value>)
    ensures |vs| == |names| && forall i | 0 <= i < |names| :: vs[i] == VStr(names[i])
  {
    seq(|names|, i requires 0 <= i < |names| => VStr(names[i]))
  }

  /** The roles: a list is sent as given (even an empty one); text is split
      on commas and sent when some name is left; anything else is an error. */
  function UserRoles(v: Value): (r: Result<Option<Value>, Exc>)
    ensures v == VNone || v.VList? || v.VStr? <==> r.Ok?
    ensures v.VList? ==> r == Ok(Some(v))
    ensures v.VStr? ==> r == Ok(if RoleNames(v.s) == [] then None else Some(VList(RoleValues(RoleNames(v.s)))))
    ensures r.Err? ==> r.error == ValueError(RolesInvalidPrefix + Str(v))
  {
    if v == VNone then Ok(None)
    else if v.VList? then Ok(Some(v))
    else if v.VStr? then
      var names := RoleNames(v.s);
      Ok(if names == [] then None else Some(VList(RoleValues(names))))
    else Err(ValueError(RolesInvalidPrefix + Str(v)))
  }

  /** A role name as the split leaves it: not empty, stripped, no comma. */
  predicate CleanRole(name: string) {
    name != "" && Strip(name) == name && ',' !in name
  }

  /** A character absent from a text is absent from any infix of it. */
  lemma AbsentFromInfix(s: string, r: string, i: int, c: char)
    requires OccursAt(s, r, i) && c !in s
    ensures c !in r
  {
    forall k | 0 <= k < |r| ensures r[k] != c {
      assert s[i + k] == r[k];
    }
  }

  /** No piece holds a comma. */
  predicate CommaFree(pieces: seq<string>) {
    forall k | 0 <= k < |pieces| :: ',' !in pieces[k]
  }

  /** Every name is clean. */
  predicate AllClean(names: seq<string>) {
    forall k | 0 <= k < |names| :: CleanRole(names[k])
  }

  /** A stripped piece with no comma gives a clean name, when not empty. */
  lemma StrippedPieceClean(piece: string)
    requires ',' !in piece && Strip(piece) != ""
    ensures CleanRole(Strip(piece))
  {
    StripStripped(piece);
    StripInfix(piece);
    var i := |piece| - |LStrip(piece)|;
    AbsentFromInfix(piece, Strip(piece), i, ',');
  }

  /** Every name kept from comma-free pieces is clean. */
  lemma {:induction false} KeptRolesClean(pieces: seq<string>)
    requires CommaFree(pieces)
    ensures AllClean(KeptRoles(pieces))
  {
    if |pieces| > 0 {
      var rest := pieces[1..];
      assert forall k | 0 <= k < |rest| :: rest[k] == pieces[k + 1];
      KeptRolesClean(rest);
      var head := if Strip(pieces[0]) == "" then [] else [Strip(pieces[0])];
      if Strip(pieces[0]) != "" {
        StrippedPieceClean(pieces[0]);
      }
      assert KeptRoles(pieces) == head + KeptRoles(rest);
      assert AllClean(head);
    }
  }

  /** Dropping the first of clean names leaves clean names. */
  lemma AllCleanTail(names: seq<string>)
    requires |names| > 0 && AllClean(names)
    ensures AllClean(names[1..])
  {
    var rest := names[1..];
    forall k | 0 <= k < |rest|
      ensures CleanRole(rest[k])
    {
      assert rest[k] == names[k + 1];
    }
  }

  /** A clean first name is kept as it is. */
  lemma CleanHeadKept(names: seq<string>)
    requires |names| > 0 && CleanRole(names[0])
    ensures KeptRoles(names) == [names[0]] + KeptRoles(names[1..])
  {
  }

  /** Clean names pass the filter unchanged. */
  lemma {:induction false} CleanNamesKept(names: seq<string>)
    requires AllClean(names)
    ensures KeptRoles(names) == names
  {
    if |names| > 0 {
      AllCleanTail(names);
      CleanNamesKept(names[1..]);
      CleanHeadKept(names);
      assert names == [names[0]] + names[1..];
    }
  }

  // ---- get_site_users --------------------------------------------------------

  /** `str()` of each item. */
  function Strs(items: seq<Value>): (r: seq<string>)
    ensures |r| == |items|
  {
    if |items| == 0 then [] else [Str(items[0])] + Strs(items[1..])
  }

  /** `str()` gives back the strings a list of strings was made from. */
  lemma {:induction false} StrsOfStrings(names: seq<string>)
    ensures Strs(RoleValues(names)) == names
  {
    if |names| > 0 {
      var items := RoleValues(names);
      assert items[1..] == RoleValues(names[1..]);
      StrsOfStrings(names[1..]);
      assert Str(items[0]) == names[0];
    }
  }

  /** The `roles` filter of a listing, when truthy: a list joined with
      commas after `str()` of each item, anything else as its `str()`. */
  function RolesFilter(v: Value): (r: Option<Value>)
    ensures r.Some? <==> Truthy(v)
    ensures r.Some? && v.VList? ==> r.value == VStr(Join(",", Strs(v.items)))
    ensures r.Some? && !v.VList? ==> r.value == VStr(Str(v))
  {
    if !Truthy(v) then None
    else if v.VList? then Some(VStr(Join(",", Strs(v.items))))
    else Some(VStr(Str(v)))
  }

  /** Splitting and joining roles are inverse: the list `update_user` makes
      from comma-separated text, sent as a `get_site_users` filter, becomes
      text that `update_user` splits into the same list again. */
  lemma RolesRoundTrip(roles: string)
    requires RoleNames(roles) != []
    ensures var names := RoleNames(roles);
      && RolesFilter(VList(RoleValues(names))) == Some(VStr(Join(",", names)))
      && RoleNames(Join(",", names)) == names
      && UserRoles(VStr(Join(",", names))) == UserRoles(VStr(roles))
  {
    var names := RoleNames(roles);
    JoinedRoleValues(names);
    RejoinedRoles(names);
  }

  /** A non-empty list of role names is sent as the names joined by commas. */
  lemma JoinedRoleValues(names: seq<string>)
    requires names != []
    ensures RolesFilter(VList(RoleValues(names))) == Some(VStr(Join(",", names)))
  {
    var items := RoleValues(names);
    assert Truthy(VList(items));
    StrsOfStrings(names);
  }

  /** Clean names joined with commas split back into themselves. */
  lemma RejoinedRoles(names: seq<string>)
    requires |names| >= 1 && AllClean(names)
    ensures RoleNames(Join(",", names)) == names
  {
    assert forall k | 0 <= k < |names| :: ',' !in names[k] by {
      forall k | 0 <= k < |names| ensures ',' !in names[k] {
        assert CleanRole(names[k]);
      }
    }
    SplitJoin(',', names);
    assert Split(Join(",", names), ',') == names;
    CleanNamesKept(names);
  }

  function GetSiteUsersFields(params: Dict, perPage: int, page: int, search: Option<string>): seq<Field> {
    [("per_page", Some(VInt(perPage))), ("page", Some(VInt(page))), ("search", SearchField(search)),
     ("roles", RolesFilter(Get(params, "roles")))]
  }

  /** `get_site_users`: page size (at most 100), page and search are
      checked; the roles filter never fails. */
  function GetSiteUsers(params: Dict): (r: Result<Dict, Exc>)
    ensures r.Ok? <==>
      && ValidatePerPage(Get(params, "per_page"), UsersMaxPerPage).Ok?
      && ValidatePageNumber(Get(params, "page")).Ok?
      && ValidateSearchQuery(Get(params, "search")).Ok?
  {
    var perPage :- ValidatePerPage(Get(params, "per_page"), UsersMaxPerPage);
    var page :- ValidatePageNumber(Get(params, "page"));
    var search :- ValidateSearchQuery(Get(params, "search"));
    Ok(Payload(GetSiteUsersFields(params, perPage, page, search)))
  }

  lemma GetSiteUsersReads(params: Dict, perPage: int, page: int, search: Option<string>)
    ensures var d := Payload(GetSiteUsersFields(params, perPage, page, search));
      && Lookup(d, VStr("per_page")) == Some(VInt(perPage))
      && Lookup(d, VStr("page")) == Some(VInt(page))
      && Lookup(d, VStr("search")) == SearchField(search)
      && Lookup(d, VStr("roles")) == RolesFilter(Get(params, "roles"))
  {
    var fields := GetSiteUsersFields(params, perPage, page, search);
    assert DistinctKeys(fields);
    PayloadLookup(fields, 0);
    PayloadLookup(fields, 1);
    PayloadLookup(fields, 2);
    PayloadLookup(fields, 3);
  }

  /** What an accepted `get_site_users` asks for: the page size and page
      always, the search when not blank, and the roles filter when truthy. */
  lemma GetSiteUsersSends(params: Dict)
    requires GetSiteUsers(params).Ok?
    ensures var d := GetSiteUsers(params).value;
      && Lookup(d, VStr("per_page")) == Some(VInt(ValidatePerPage(Get(params, "per_page"), UsersMaxPerPage).value))
      && Lookup(d, VStr("page")) == Some(VInt(ValidatePageNumber(Get(params, "page")).value))
      && Lookup(d, VStr("search")) == SearchField(ValidateSearchQuery(Get(params, "search")).value)
      && (Lookup(d, VStr("roles")).Some? <==> Truthy(Get(params, "roles")))
  {
    GetSiteUsersReads(params, ValidatePerPage(Get(params, "per_page"), UsersMaxPerPage).value,
      ValidatePageNumber(Get(params, "page")).value, ValidateSearchQuery(Get(params, "search")).value);
  }

  // ---- update_user -----------------------------------------------------------

  function UserFields(name: Option<Value>, email: Option<Value>, description: Option<Value>, url: Option<Value>, roles: Option<Value>): seq<Field> {
    [("name", name), ("email", email), ("description", description), ("url", url), ("roles", roles)]
  }

  lemma UserReads(name: Option<Value>, email: Option<Value>, description: Option<Value>, url: Option<Value>, roles: Option<Value>)
    ensures var d := Payload(UserFields(name, email, description, url, roles));
      && Lookup(d, VStr("name")) == name && Lookup(d, VStr("email")) == email
      && Lookup(d, VStr("description")) == description && Lookup(d, VStr("url")) == url
      && Lookup(d, VStr("roles")) == roles
      && (d == [] <==> name.None? && email.None? && description.None? && url.None? && roles.None?)
  {
    var fields := UserFields(name, email, description, url, roles);
    assert DistinctKeys(fields);
    assert fields[0].1 == name && fields[1].1 == email && fields[2].1 == description && fields[3].1 == url && fields[4].1 == roles;
    PayloadLookup(fields, 0);
    PayloadLookup(fields, 1);
    PayloadLookup(fields, 2);
    PayloadLookup(fields, 3);
    PayloadLookup(fields, 4);
  }

  predicate UserFieldsValid(params: Dict) {
    && UserName(Get(params, "name")).Ok?
    && UserEmail(Get(params, "email")).Ok?
    && UserUrl(Get(params, "url")).Ok?
    && UserRoles(Get(params, "roles")).Ok?
  }

  /** Something to change: a name or e-mail, a description, a URL that is
      not blank, or roles that are a list or name someone. */
  predicate UserUpdateNonEmpty(params: Dict)
    requires UserFieldsValid(params)
  {
    || Get(params, "name") != VNone
    || Get(params, "email") != VNone
    || Get(params, "description") != VNone
    || UserUrl(Get(params, "url")).value.Some?
    || UserRoles(Get(params, "roles")).value.Some?
  }

  /** `update_user`: the id, then name, e-mail, URL and roles in that
      order; an update with nothing to change fails. */
  function UpdateUser(params: Dict): (r: Result<Update, Exc>)
    ensures r.Ok? <==> ValidateId(UserId, Get(params, "id")).Ok? && UserFieldsValid(params) && UserUpdateNonEmpty(params)
    ensures (ValidateId(UserId, Get(params, "id")).Ok? && UserFieldsValid(params) && !UserUpdateNonEmpty(params))
      ==> r == Err(ValueError(UserNothingToUpdate))
    ensures r.Ok? ==> r.value == Update(ToInt(Get(params, "id")).value, Payload(UserFields(
      UserName(Get(params, "name")).value, UserEmail(Get(params, "email")).value, Given(Get(params, "description")),
      UserUrl(Get(params, "url")).value, UserRoles(Get(params, "roles")).value)))
  {
    var id :- ValidateId(UserId, Get(params, "id"));
    var name :- UserName(Get(params, "name"));
    var email :- UserEmail(Get(params, "email"));
    var url :- UserUrl(Get(params, "url"));
    var roles :- UserRoles(Get(params, "roles"));
    var description := Given(Get(params, "description"));
    UserReads(name, email, description, url, roles);
    var data := Payload(UserFields(name, email, description, url, roles));
    if data == [] then Err(ValueError(UserNothingToUpdate)) else Ok(Update(id, data))
  }

  /** What an accepted `update_user` sends: name and e-mail stripped (the
      e-mail shaped like an address), the description as given, the URL
      only when not blank, and roles as a list or as the names in the text. */
  lemma UpdateUserSends(params: Dict)
    requires UpdateUser(params).Ok?
    ensures var d := UpdateUser(params).value.data;
      var name, email, url, roles := Get(params, "name"), Get(params, "email"), Get(params, "url"), Get(params, "roles");
      && (name != VNone ==> name.VStr? && Lookup(d, VStr("name")) == Some(VStr(Strip(name.s))))
      && (email != VNone ==> email.VStr? && EmailShaped(Strip(email.s)) && Lookup(d, VStr("email")) == Some(VStr(Strip(email.s))))
      && Lookup(d, VStr("description")) == Given(Get(params, "description"))
      && (Lookup(d, VStr("url")).Some? <==> url.VStr? && !IsBlank(url.s))
      && (roles.VList? ==> Lookup(d, VStr("roles")) == Some(roles))
      && (roles.VStr? ==> (Lookup(d, VStr("roles")).Some? <==> RoleNames(roles.s) != []))
  {
    UserReads(UserName(Get(params, "name")).value, UserEmail(Get(params, "email")).value, Given(Get(params, "description")),
      UserUrl(Get(params, "url")).value, UserRoles(Get(params, "roles")).value);
  }
}

=== FILE: validators.dfy ===
/** The field checks the tools apply to their parameters before calling
    WordPress (`tools/validators.py`): site URL, post title, content and
    status, positive ids, pagination, search text, and category/tag id
    lists. Each returns the normalized value or the `ValueError` (or, for a
    value without `strip`, the `AttributeError`) the function raises. */
module Validators {
  import opened Wrappers
  import opened Text
  import opened Py

  const MaxTitleLength: nat := 255
  const MaxSearchLength: nat := 200
  const DefaultPerPage: int := 10
  const DefaultMaxPerPage: int := 100

  /** The post statuses WordPress accepts, in sorted order (the order the
      error message lists them in). */
  const PostStatuses: seq<string> := ["draft", "future", "pending", "private", "publish", "trash"]

  const UrlRequired: string := "WordPressサイトURLを入力してください"
  const UrlScheme: string := "WordPressサイトURLはhttp://またはhttps://で始まる必要があります"
  const UrlMalformed: string := "WordPressサイトURLの形式が不正です"
  const TitleRequired: string := "投稿タイトルを入力してください"
  const TitleBlank: string := "投稿タイトルが空です"
  const TitleTooLong: string := "投稿タイトルが長すぎます（最大255文字）"
  const ContentRequired: string := "投稿本文を入力してください"
  const SearchTooLong: string := "検索クエリが長すぎます（最大200文字）"

  predicate HasWebScheme(s: string) {
    StartsWith(s, "http://") || StartsWith(s, "https://")
  }

  // ---- Site URL ------------------------------------------------------------

  /** `validate_wordpress_url`: a non-blank URL with an http(s) scheme and no
      `@`. */
  function ValidateWordPressUrl(url: Value): (r: Result<(), Exc>)
    ensures r.Ok? <==> url.VStr? && !IsBlank(url.s) && HasWebScheme(Strip(url.s)) && '@' !in Strip(url.s)
    ensures r.Err? ==> r.error.ValueError? || r.error.AttributeError?
    ensures r.Err? && url.VStr? && IsBlank(url.s) ==> r.error == ValueError(UrlRequired)
  {
    if !Truthy(url) then Err(ValueError(UrlRequired))
    else if !url.VStr? then Err(NoAttribute(url, "strip"))
    else
      var s := Strip(url.s);
      if |s| == 0 then Err(ValueError(UrlRequired))
      else if !HasWebScheme(s) then Err(ValueError(UrlScheme))
      else
        SchemeHasDoubleSlash(s);
        if '@' in s || !Contains(s, "//") then Err(ValueError(UrlMalformed))
        else Ok(())
  }

  /** The `"//" not in url` test never rejects anything: every URL that got
      past the scheme check contains `//`. */
  lemma SchemeHasDoubleSlash(s: string)
    requires HasWebScheme(s)
    ensures Contains(s, "//")
  {
    if StartsWith(s, "http://") {
      assert s[5..7] == "//";
      assert OccursAt(s, "//", 5);
    } else {
      assert s[6..8] == "//";
      assert OccursAt(s, "//", 6);
    }
  }

  // ---- Posts ---------------------------------------------------------------

  /** `validate_post_title`: present, not blank, at most 255 characters once
      stripped. */
  function ValidatePostTitle(title: Value): (r: Result<(), Exc>)
    ensures r.Ok? <==> title.VStr? && 0 < |Strip(title.s)| <= MaxTitleLength
    ensures !Truthy(title) ==> r == Err(ValueError(TitleRequired))
    ensures title.VStr? && |title.s| > 0 && IsBlank(title.s) ==> r == Err(ValueError(TitleBlank))
    ensures title.VStr? && |Strip(title.s)| > MaxTitleLength ==> r == Err(ValueError(TitleTooLong))
  {
    if !Truthy(title) then Err(ValueError(TitleRequired))
    else if !title.VStr? then Err(NoAttribute(title, "strip"))
    else
      var t := Strip(title.s);
      if |t| == 0 then Err(ValueError(TitleBlank))
      else if |t| > MaxTitleLength then Err(ValueError(TitleTooLong))
      else Ok(())
  }

  /** `validate_post_content`: only `None` is refused; empty text is fine. */
  function ValidatePostContent(content: Value): (r: Result<(), Exc>)
    ensures r.Ok? <==> content != VNone
    ensures r.Err? ==> r.error == ValueError(ContentRequired)
  {
    if content == VNone then Err(ValueError(ContentRequired)) else Ok(())
  }

  /** The refusal lists every accepted status after its lead. */
  function StatusMessage(): (r: string)
    ensures StartsWith(r, StatusLead)
    ensures forall i | 0 <= i < |PostStatuses| :: Contains(r, PostStatuses[i])
  {
    var listed := Join(", ", PostStatuses);
    forall i | 0 <= i < |PostStatuses|
      ensures Contains(StatusLead + listed, PostStatuses[i])
    {
      var j := JoinOccurs(", ", PostStatuses, i);
      OccursAfter(StatusLead, listed, PostStatuses[i], j);
    }
    assert (StatusLead + listed)[..|StatusLead|] == StatusLead;
    StatusLead + listed
  }

  const StatusLead: string := "無効な投稿ステータスです。有効な値: "

  /** Python's `<` on `str`: code-point order, a proper prefix first. */
  predicate LexLess(a: string, b: string) {
    |b| > 0 && (|a| == 0 || a[0] < b[0] || (a[0] == b[0] && LexLess(a[1..], b[1..])))
  }

  /** The statuses are kept in the order `sorted` gives them. */
  lemma PostStatusesSorted()
    ensures forall i | 0 <= i < |PostStatuses| - 1 :: LexLess(PostStatuses[i], PostStatuses[i + 1])
  {
    assert LexLess("draft", "future") && LexLess("future", "pending") && LexLess("pending", "private");
    assert LexLess("private", "publish") && LexLess("publish", "trash");
  }

  /** `status.strip().lower()`: the result has nothing left to strip or
      lower. */
  function NormalizeStatus(s: string): (r: string)
    ensures |r| <= |s|
    ensures Strip(r) == r && Lower(r) == r
  {
    var t := Strip(s);
    LowerIdempotent(t);
    LowerTrimmed(t);
    Lower(t)
  }

  /** Lowering text without whitespace at its ends keeps it so. */
  lemma LowerTrimmed(t: string)
    requires t == [] || (!IsSpace(t[0]) && !IsSpace(t[|t| - 1]))
    ensures Strip(Lower(t)) == Lower(t)
  {
    var l := Lower(t);
    if t != [] {
      assert l[0] == LowerChar(t[0]) && l[|l| - 1] == LowerChar(t[|t| - 1]);
    }
  }

  /** `validate_post_status`: `None` passes; a string passes when, stripped
      and lowered, it is one of the six statuses. */
  function ValidatePostStatus(status: Value): (r: Result<(), Exc>)
    ensures r.Ok? <==> status == VNone || (status.VStr? && NormalizeStatus(status.s) in PostStatuses)
    ensures status.VStr? && r.Err? ==> r.error == ValueError(StatusMessage())
  {
    if status == VNone then Ok(())
    else if !status.VStr? then Err(NoAttribute(status, "strip"))
    else if NormalizeStatus(status.s) in PostStatuses then Ok(())
    else Err(ValueError(StatusMessage()))
  }

  /** Letter case does not matter to the status check. */
  lemma StatusCaseBlind(s: string)
    ensures ValidatePostStatus(VStr(Lower(s))) == ValidatePostStatus(VStr(s))
  {
    StripLower(s);
    LowerIdempotent(Strip(s));
  }

  /** Lowering never turns a space into a non-space or back, so it commutes
      with stripping. */
  lemma StripLower(s: string)
    ensures Strip(Lower(s)) == Lower(Strip(s))
  {
    LStripLower(s);
    RStripLower(LStrip(s));
  }

  lemma {:induction false} LStripLower(s: string)
    ensures LStrip(Lower(s)) == Lower(LStrip(s))
    decreases |s|
  {
    if |s| > 0 {
      var l := Lower(s);
      assert l[0] == LowerChar(s[0]);
      assert IsSpace(l[0]) == IsSpace(s[0]);
      if IsSpace(s[0]) {
        assert l[1..] == Lower(s[1..]);
        LStripLower(s[1..]);
      }
    }
  }

  lemma {:induction false} RStripLower(s: string)
    ensures RStrip(Lower(s)) == Lower(RStrip(s))
    decreases |s|
  {
    if |s| > 0 {
      var l := Lower(s);
      assert l[|s| - 1] == LowerChar(s[|s| - 1]);
      assert IsSpace(l[|s| - 1]) == IsSpace(s[|s| - 1]);
      if IsSpace(s[|s| - 1]) {
        assert l[..|s| - 1] == Lower(s[..|s| - 1]);
        RStripLower(s[..|s| - 1]);
      }
    }
  }

  // ---- Ids -----------------------------------------------------------------

  /** The objects whose ids are validated, by the label their messages use. */
  datatype IdKind = PostId | UserId | CommentId | CategoryId | TagId

  function IdLabel(kind: IdKind): string {
    match kind
    case PostId => "投稿ID"
    case UserId => "ユーザーID"
    case CommentId => "コメントID"
    case CategoryId => "カテゴリーID"
    case TagId => "タグID"
  }

  /** `validate_post_id` ... `validate_tag_id`: present, accepted by `int()`,
      and positive. */
  function ValidateId(kind: IdKind, v: Value): (r: Result<int, Exc>)
    ensures r.Ok? <==> v != VNone && ToInt(v).Some? && ToInt(v).value > 0
    ensures r.Ok? ==> r.value == ToInt(v).value && r.value > 0
    ensures r.Err? ==> r.error.ValueError?
    ensures v == VNone ==> r == Err(ValueError(IdLabel(kind) + "を指定してください"))
  {
    if v == VNone then Err(ValueError(IdLabel(kind) + "を指定してください"))
    else match ToInt(v)
      case None => Err(ValueError(IdLabel(kind) + "は整数である必要があります: " + Str(v)))
      case Some(n) =>
        if n <= 0 then Err(ValueError(IdLabel(kind) + "は正の整数である必要があります: " + IntToString(n)))
        else Ok(n)
  }

  /** An id given as its decimal text is accepted exactly when positive, and
      validating the result again gives the same id. */
  lemma ValidateIdDecimal(kind: IdKind, n: int)
    ensures ValidateId(kind, VStr(IntToString(n))).Ok? <==> n > 0
    ensures n > 0 ==> ValidateId(kind, VStr(IntToString(n))) == Ok(n) == ValidateId(kind, VInt(n))
  {
    ParseIntOfIntToString(n);
    assert ToInt(VStr(IntToString(n))) == Some(n);
  }

  // ---- Pagination and search -----------------------------------------------

  /** `validate_per_page`: `None` means 10; anything else must be an integer
      between 1 and `max_per_page`. */
  function ValidatePerPage(v: Value, maxPerPage: int): (r: Result<int, Exc>)
    ensures v == VNone ==> r == Ok(DefaultPerPage)
    ensures v != VNone ==> (r.Ok? <==> ToInt(v).Some? && 1 <= ToInt(v).value <= maxPerPage)
    ensures v != VNone && r.Ok? ==> r.value == ToInt(v).value && 1 <= r.value <= maxPerPage
    ensures r.Err? ==> r.error.ValueError?
  {
    if v == VNone then Ok(DefaultPerPage)
    else match ToInt(v)
      case None => Err(ValueError("per_pageは整数である必要があります: " + Str(v)))
      case Some(n) =>
        if n <= 0 then Err(ValueError("per_pageは正の整数である必要があります: " + IntToString(n)))
        else if n > maxPerPage then Err(ValueError("per_pageは最大" + IntToString(maxPerPage) + "までです: " + IntToString(n)))
        else Ok(n)
  }

  /** `validate_page_number`: `None` means 1; anything else must be an
      integer of at least 1. */
  function ValidatePageNumber(v: Value): (r: Result<int, Exc>)
    ensures v == VNone ==> r == Ok(1)
    ensures v != VNone ==> (r.Ok? <==> ToInt(v).Some? && ToInt(v).value >= 1)
    ensures r.Ok? ==> r.value >= 1
    ensures r.Err? ==> r.error.ValueError?
  {
    if v == VNone then Ok(1)
    else match ToInt(v)
      case None => Err(ValueError("pageは整数である必要があります: " + Str(v)))
      case Some(n) =>
        if n < 1 then Err(ValueError("pageは1以上である必要があります: " + IntToString(n)))
        else Ok(n)
  }

  /** `validate_search_query`: absent or blank text means no search; the
      stripped text is used when it has at most 200 characters. */
  function ValidateSearchQuery(v: Value): (r: Result<Option<string>, Exc>)
    ensures v == VNone ==> r == Ok(None)
    ensures v.VStr? && IsBlank(v.s) ==> r == Ok(None)
    ensures v.VStr? && !IsBlank(v.s) ==>
      (r.Ok? <==> |Strip(v.s)| <= MaxSearchLength) && (r.Ok? ==> r == Ok(Some(Strip(v.s))))
    ensures r.Ok? && r.value.Some? ==> 0 < |r.value.value| <= MaxSearchLength && r.value.value == Strip(r.value.value)
  {
    if v == VNone then Ok(None)
    else match StripValue(v)
      case Err(e) => Err(e)
      case Ok(s) =>
        if |s| == 0 then Ok(None)
        else if |s| > MaxSearchLength then Err(ValueError(SearchTooLong))
        else Ok(Some(s))
  }

  // ---- Category and tag ids ------------------------------------------------

  /** Which list `normalize_categories` / `normalize_tags` is normalizing. */
  datatype Terms = Categories | Tags

  function TermLabel(t: Terms): string {
    match t
    case Categories => "カテゴリーID"
    case Tags => "タグID"
  }

  function NotInteger(t: Terms, v: Value): Exc {
    ValueError(TermLabel(t) + "は整数である必要があります: " + Str(v))
  }

  /** The positive numbers of `ns`, in order. */
  function Positives(ns: seq<int>): (r: seq<int>)
    ensures |r| <= |ns|
    ensures forall i | 0 <= i < |r| :: r[i] > 0
  {
    if |ns| == 0 then []
    else if ns[0] > 0 then [ns[0]] + Positives(ns[1..])
    else Positives(ns[1..])
  }

  /** The elements of a list, each through `int()`: the positive ones are
      kept in order, the others dropped; the first element `int()` rejects
      makes the whole list fail. */
  function NormalizeList(t: Terms, items: seq<Value>): (r: Result<seq<int>, Exc>)
    ensures r.Ok? ==> forall i | 0 <= i < |r.value| :: r.value[i] > 0
    ensures r.Ok? <==> forall i | 0 <= i < |items| :: ToInt(items[i]).Some?
    ensures r.Err? ==> exists i | 0 <= i < |items| :: ToInt(items[i]).None? && r.error == NotInteger(t, items[i])
  {
    if |items| == 0 then Ok([])
    else match ToInt(items[0])
      case None => Err(NotInteger(t, items[0]))
      case Some(n) =>
        var rest := NormalizeList(t, items[1..]);
        assert forall i | 0 < i < |items| :: items[i] == items[1..][i - 1];
        match rest
        case Err(e) => Err(e)
        case Ok(ids) => Ok(if n > 0 then [n] + ids else ids)
  }

  /** `normalize_categories` / `normalize_tags`: `None` is no ids; a single
      integer or string is one id, not checked for sign; a list is
      normalized element by element; anything else is refused. */
  function NormalizeIds(t: Terms, v: Value): (r: Result<seq<int>, Exc>)
    ensures v == VNone ==> r == Ok([])
    ensures (v.VInt? || v.VStr? || v.VBool?) ==> (r.Ok? <==> ToInt(v).Some?) && (r.Ok? ==> r.value == [ToInt(v).value])
    ensures (v.VBytes? || v.VDict?) ==> r == Err(ValueError(TermLabel(t) + "の形式が不正です: " + Str(v)))
    ensures v.VList? ==> r == NormalizeList(t, v.items)
    ensures r.Err? ==> r.error.ValueError?
  {
    match v
    case VNone => Ok([])
    case VInt(_) => Scalar(t, v)
    case VBool(_) => Scalar(t, v)
    case VStr(_) => Scalar(t, v)
    case VList(items) => NormalizeList(t, items)
    case _ => Err(ValueError(TermLabel(t) + "の形式が不正です: " + Str(v)))
  }

  /** One id read with `int()`. */
  function Scalar(t: Terms, v: Value): (r: Result<seq<int>, Exc>)
    ensures r.Ok? <==> ToInt(v).Some?
    ensures r.Ok? ==> r.value == [ToInt(v).value]
    ensures r.Err? ==> r.error.ValueError?
  {
    match ToInt(v)
    case Some(n) => Ok([n])
    case None => Err(NotInteger(t, v))
  }

  function AsInts(items: seq<Value>): seq<int>
    requires forall i | 0 <= i < |items| :: ToInt(items[i]).Some?
  {
    seq(|items|, i requires 0 <= i < |items| => ToInt(items[i]).value)
  }

  function IdValues(ids: seq<int>): (vs: seq<Value>)
    ensures |vs| == |ids| && forall i | 0 <= i < |ids| :: vs[i] == VInt(ids[i])
  {
    seq(|ids|, i requires 0 <= i < |ids| => VInt(ids[i]))
  }

  /** A list of integers normalizes to exactly its positive members, in
      their original order. */
  lemma {:induction false} NormalizeListIsPositives(t: Terms, items: seq<Value>)
    requires forall i | 0 <= i < |items| :: ToInt(items[i]).Some?
    ensures NormalizeList(t, items) == Ok(Positives(AsInts(items)))
  {
    if |items| > 0 {
      assert forall i | 0 <= i < |items| - 1 :: items[1..][i] == items[i + 1];
      NormalizeListIsPositives(t, items[1..]);
      assert AsInts(items)[1..] == AsInts(items[1..]);
    }
  }

  /** Normalizing an already normalized list gives it back. */
  lemma NormalizeIdsIdempotent(t: Terms, v: Value)
    requires v.VList? && NormalizeIds(t, v).Ok?
    ensures NormalizeIds(t, VList(IdValues(NormalizeIds(t, v).value))) == NormalizeIds(t, v)
  {
    var ids := NormalizeIds(t, v).value;
    var vs := IdValues(ids);
    assert forall i | 0 <= i < |vs| :: ToInt(vs[i]).Some?;
    NormalizeListIsPositives(t, vs);
    assert AsInts(vs) == ids;
    PositivesOfPositive(ids);
  }

  lemma {:induction false} PositivesOfPositive(ns: seq<int>)
    requires forall i | 0 <= i < |ns| :: ns[i] > 0
    ensures Positives(ns) == ns
  {
    if |ns| > 0 {
      PositivesOfPositive(ns[1..]);
    }
  }
}

=== FILE: wp_client.dfy ===
/** The WordPress REST client of the tools (`tools/http_client.py`): the
    site URL it talks to, the request each client method sends, Basic
    authentication, the shared retry loop, and how replies become values or
    errors. */
module WpClient {
  import opened Wrappers
  import opened Text
  import opened Py
  import opened Engine
  import opened Redact
  import opened RedactLaws

  /** The REST namespace every request goes under. */
  const ApiSuffix: string := "/wp-json/wp/v2"
  const EmptyUrlMessage: string := "WordPressサイトURLが空です。Difyのプロバイダー設定でWordPressサイトURLを確認してください。"
  const NoUrlMessage: string := "WordPressサイトURLが設定されていません"
  const NoUserMessage: string := "WordPressユーザー名が設定されていません"
  const NoPasswordMessage: string := "アプリケーションパスワードが設定されていません"
  const FailurePrefix: string := "WordPress APIリクエストに失敗しました: "
  const UnknownError: string := "Unknown error"
  const MissingFilePrefix: string := "ファイルが見つかりません: "
  const OctetStream: string := "application/octet-stream"
  const EmptyReplyMessage: string := "WordPress APIが空のレスポンスを返しました。"
  const HtmlReply: string := "WordPress APIがHTMLレスポンスを返しました。"
  const LoginHint: string := " 認証エラーの可能性があります。ユーザー名とアプリケーションパスワードを確認してください。"
  const NotFoundHint: string := " REST APIエンドポイントが見つかりません。WordPressサイトURLが正しいか確認してください。"
  const ForbiddenHint: string := " アクセスが拒否されました。ユーザーの権限を確認してください。"
  const DisabledHint: string := " REST APIが有効でない可能性があります。WordPressサイトの設定を確認してください。"
  const UrlLabel: string := " リクエストURL: "
  const LocalhostHint: string := "\n\n注意: リクエストURLがlocalhost:8080になっています。Difyのプロバイダー設定で、正しいWordPressサイトURL（例: https://your-site.com）を設定してください。"
  const NotJsonPrefix: string := "WordPress APIのレスポンスをJSONとして解析できませんでした。レスポンス: "
  /** Characters of a reply body quoted in messages. */
  const MaxBodyPreview: nat := 500

  // ---- The client ------------------------------------------------------------

  /** The client: site URL, credentials as the context supplied them, the
      derived REST base URL and the retry budget. */
  datatype Client = Client(siteUrl: string, username: Value, password: Value, baseUrl: string, maxRetries: int)

  /** The REST base URL: trailing slashes dropped, then the namespace
      appended unless the URL already ends with it. */
  function NormalizeBase(url: string): (base: string)
    ensures EndsWith(base, ApiSuffix)
    ensures base[|base| - 1] != '/'
    ensures StartsWith(base, RStripChar(url, '/'))
  {
    var stripped := RStripChar(url, '/');
    if EndsWith(stripped, ApiSuffix) then stripped else stripped + ApiSuffix
  }

  /** Normalizing a base URL again changes nothing. */
  lemma NormalizeBaseIdempotent(url: string)
    ensures NormalizeBase(NormalizeBase(url)) == NormalizeBase(url)
  {
    var base := NormalizeBase(url);
    assert RStripChar(base, '/') == base;
  }

  /** A trailing slash on the configured URL makes no difference. */
  lemma NormalizeBaseTrailingSlash(url: string)
    ensures NormalizeBase(url + "/") == NormalizeBase(url)
  {
    assert (url + "/")[..|url|] == url;
    assert RStripChar(url + "/", '/') == RStripChar(url, '/');
  }

  /** A site URL that does not name the namespace gets it appended to the
      URL without its trailing slashes, which can be read back off. */
  lemma NormalizeBaseSiteRoot(url: string)
    requires !EndsWith(RStripChar(url, '/'), ApiSuffix)
    ensures var base := NormalizeBase(url);
      base[..|base| - |ApiSuffix|] == RStripChar(url, '/')
  {
  }

  /** Constructing the client (`__post_init__`): an empty or blank URL is
      rejected; a URL that is not a `str` fails on `.strip()`. */
  function NewClient(url: Value, username: Value, password: Value): (r: Result<Client, Exc>)
    ensures r.Ok? <==> url.VStr? && !IsBlank(url.s)
    ensures r.Ok? ==> r.value == Client(url.s, username, password, NormalizeBase(url.s), DefaultMaxRetries)
    ensures r.Err? && (url.VStr? || !Truthy(url)) ==> r.error == ValueError(EmptyUrlMessage)
    ensures r.Err? ==> r.error.ValueError? || r.error.AttributeError?
  {
    if !Truthy(url) then Err(ValueError(EmptyUrlMessage))
    else match StripValue(url)
      case Err(e) => Err(e)
      case Ok(stripped) =>
        if |stripped| == 0 then Err(ValueError(EmptyUrlMessage))
        else Ok(Client(url.s, username, password, NormalizeBase(url.s), DefaultMaxRetries))
  }

  /** `from_context`: URL, user name and application password must each be
      present and truthy, checked in that order. */
  function FromContext(url: Option<Value>, username: Option<Value>, password: Option<Value>): (r: Result<Client, Exc>)
    ensures var u, n, p := url.GetOr(VNone), username.GetOr(VNone), password.GetOr(VNone);
      && (!Truthy(u) ==> r == Err(ValueError(NoUrlMessage)))
      && (Truthy(u) && !Truthy(n) ==> r == Err(ValueError(NoUserMessage)))
      && (Truthy(u) && Truthy(n) && !Truthy(p) ==> r == Err(ValueError(NoPasswordMessage)))
      && (Truthy(u) && Truthy(n) && Truthy(p) ==> r == NewClient(u, n, p))
    ensures r.Ok? ==> Truthy(r.value.username) && Truthy(r.value.password) && EndsWith(r.value.baseUrl, ApiSuffix)
  {
    var u, n, p := url.GetOr(VNone), username.GetOr(VNone), password.GetOr(VNone);
    if !Truthy(u) then Err(ValueError(NoUrlMessage))
    else if !Truthy(n) then Err(ValueError(NoUserMessage))
    else if !Truthy(p) then Err(ValueError(NoPasswordMessage))
    else NewClient(u, n, p)
  }

  // ---- Endpoints -------------------------------------------------------------

  /** The REST routes the client talks to. */
  datatype Endpoint = Posts | Pages | Media | Users | Comments | Categories | Tags | Settings | Plugins

  function EndpointName(e: Endpoint): string {
    match e
    case Posts => "posts"
    case Pages => "pages"
    case Media => "media"
    case Users => "users"
    case Comments => "comments"
    case Categories => "categories"
    case Tags => "tags"
    case Settings => "settings"
    case Plugins => "plugins"
  }

  /** The route a path segment names, if any. */
  function EndpointNamed(name: string): (r: Option<Endpoint>)
    ensures r.Some? ==> EndpointName(r.value) == name
  {
    if name == "posts" then Some(Posts)
    else if name == "pages" then Some(Pages)
    else if name == "media" then Some(Media)
    else if name == "users" then Some(Users)
    else if name == "comments" then Some(Comments)
    else if name == "categories" then Some(Categories)
    else if name == "tags" then Some(Tags)
    else if name == "settings" then Some(Settings)
    else if name == "plugins" then Some(Plugins)
    else None
  }

  /** One call of a client method, by what it asks for. */
  datatype Operation =
    | List(e: Endpoint, query: Option<Dict>)
    | Fetch(e: Endpoint, id: int)
    | Create(e: Endpoint, data: Dict)
    | Update(e: Endpoint, id: int, data: Dict)
    | Delete(e: Endpoint, id: int, force: bool)

  /** The client has a method for the operation: `get_posts` ...
      `get_tags`, `get_site_settings`, `get_plugins`; `get_post`,
      `get_user`, `get_category`, `get_tag`, `get_comment`; `create_*` for
      posts, pages, categories, tags and comments; `update_*` for every
      collection; `delete_*` for every collection but users. */
  predicate Offered(op: Operation) {
    match op
    case List(_, _) => true
    case Fetch(e, _) => e in {Posts, Users, Categories, Tags, Comments}
    case Create(e, _) => e in {Posts, Pages, Categories, Tags, Comments}
    case Update(e, _, _) => e !in {Settings, Plugins}
    case Delete(e, _, _) => e !in {Users, Settings, Plugins}
  }

  /** A file part of a multipart body: name, bytes and MIME type. */
  datatype FilePart = FilePart(name: string, content: seq<byte>, mime: string)

  /** The keyword arguments a client method hands to `_request`. */
  datatype Call = Call(verb: string, path: string, query: Option<Dict>, json: Option<Dict>, file: Option<FilePart>, form: Option<Dict>)

  function CollectionPath(e: Endpoint): string {
    "/" + EndpointName(e)
  }

  function ItemPath(e: Endpoint, id: int): string {
    CollectionPath(e) + "/" + IntToString(id)
  }

  /** The parameters `delete_*` sends. */
  function ForceQuery(force: bool): Dict {
    if force then [(VStr("force"), VStr("true"))] else []
  }

  /** What the client method sends for an offered operation: listings pass
      their query (an absent one as `{}`; the settings and plugin routes
      take none), creation and update send JSON with `POST`, deletion
      sends `force=true` only when asked. */
  function CallOf(op: Operation): (r: Option<Call>)
    ensures r.Some? <==> Offered(op)
    ensures r.Some? ==> r.value.file.None? && r.value.form.None?
    ensures r.Some? ==> (r.value.json.Some? <==> op.Create? || op.Update?)
    ensures r.Some? && r.value.json.Some? ==> r.value.verb == "POST" && r.value.json.value == op.data
    ensures r.Some? && op.Delete? ==> r.value.verb == "DELETE" && r.value.query == Some(ForceQuery(op.force))
    ensures r.Some? && (op.List? || op.Fetch?) ==> r.value.verb == "GET"
  {
    if !Offered(op) then None
    else match op
      case List(e, query) =>
        if e in {Settings, Plugins} then Some(Call("GET", CollectionPath(e), None, None, None, None))
        else Some(Call("GET", CollectionPath(e), Some(query.GetOr([])), None, None, None))
      case Fetch(e, id) => Some(Call("GET", ItemPath(e, id), None, None, None, None))
      case Create(e, data) => Some(Call("POST", CollectionPath(e), None, Some(data), None, None))
      case Update(e, id, data) => Some(Call("POST", ItemPath(e, id), None, Some(data), None, None))
      case Delete(e, id, force) => Some(Call("DELETE", ItemPath(e, id), Some(ForceQuery(force)), None, None, None))
  }

  /** The route and item id a request path addresses. */
  function ParsePath(path: string): Option<(Endpoint, Option<int>)> {
    ParseParts(Split(path, '/'))
  }

  /** The route and item named by the pieces of a path. */
  function ParseParts(parts: seq<string>): Option<(Endpoint, Option<int>)> {
    if |parts| < 2 || |parts| > 3 || parts[0] != "" then None
    else match EndpointNamed(parts[1])
      case None => None
      case Some(e) =>
        if |parts| == 2 then Some((e, None))
        else match ParseInt(parts[2])
          case None => None
          case Some(id) => Some((e, Some(id)))
  }

  /** The item an operation addresses. */
  function ItemOf(op: Operation): Option<int> {
    match op
    case Fetch(_, id) => Some(id)
    case Update(_, id, _) => Some(id)
    case Delete(_, id, _) => Some(id)
    case _ => None
  }

  /** Route names hold no slash and read back to their route. */
  lemma EndpointNamedName(e: Endpoint)
    ensures '/' !in EndpointName(e)
    ensures EndpointNamed(EndpointName(e)) == Some(e)
  {
  }

  /** A path made of one or two slash-led pieces reads back as the route
      its first piece names and the number its second piece holds. */
  lemma ParsePieces(path: string, e: Endpoint, id: Option<int>)
    requires id.None? ==> Split(path, '/') == ["", EndpointName(e)]
    requires id.Some? ==> Split(path, '/') == ["", EndpointName(e), IntToString(id.value)]
    ensures ParsePath(path) == Some((e, id))
  {
    PartsRoundTrip(Split(path, '/'), e, id);
  }

  lemma PartsRoundTrip(parts: seq<string>, e: Endpoint, id: Option<int>)
    requires id.None? ==> parts == ["", EndpointName(e)]
    requires id.Some? ==> parts == ["", EndpointName(e), IntToString(id.value)]
    ensures ParseParts(parts) == Some((e, id))
  {
    EndpointNamedName(e);
    if id.Some? {
      ParseIntOfIntToString(id.value);
    }
  }

  /** Every request path names the route of its operation and, for item
      operations, the item's id, and both read back from the path. */
  lemma CallPathRoundTrip(op: Operation)
    requires Offered(op)
    ensures ParsePath(CallOf(op).value.path) == Some((op.e, ItemOf(op)))
  {
    var name := EndpointName(op.e);
    EndpointNamedName(op.e);
    var path := CallOf(op).value.path;
    if ItemOf(op).Some? {
      var id := ItemOf(op).value;
      var digits := IntToString(id);
      assert path == ['/'] + name + ['/'] + digits;
      IntToStringWithout(id, '/');
      SplitPieces('/', name, digits);
    } else {
      assert path == ['/'] + name;
      SplitPieces('/', name, "");
    }
    ParsePieces(path, op.e, ItemOf(op));
  }

  /** `delete_*` asks for permanent deletion exactly when `force` is set. */
  lemma DeleteForce(e: Endpoint, id: int, force: bool)
    requires Offered(Delete(e, id, force))
    ensures var q := CallOf(Delete(e, id, force)).value.query.value;
      HasKey(q, "force") <==> force
  {
  }

  // ---- Media upload ----------------------------------------------------------

  /** `Path(file_path).name`: the last component of the path. */
  function BaseName(path: string): (name: string)
    ensures '/' !in name
  {
    LastSegment(RStripChar(path, '/'), '/')
  }

  /** One entry of the form data: keys kept, `None` values dropped, other
      values rendered with `str()`. */
  function FormEntry(entry: (Value, Value)): Option<(Value, Value)> {
    if entry.1 == VNone then None else Some((entry.0, VStr(Str(entry.1))))
  }

  function FormData(data: Dict): (form: Dict)
    ensures forall i | 0 <= i < |form| :: form[i].1.VStr?
    ensures |form| <= |data|
  {
    FilterMap(FormEntry, data)
  }

  /** A form field carries the `str()` of the value the data holds for it;
      a key the data lacks is not in the form. */
  lemma {:induction false} FormDataLookup(data: Dict, key: Value)
    ensures Lookup(data, key).None? ==> Lookup(FormData(data), key).None?
    ensures Lookup(data, key).Some? && Lookup(data, key).value != VNone ==>
      Lookup(FormData(data), key) == Some(VStr(Str(Lookup(data, key).value)))
  {
    if |data| > 0 {
      FormDataLookup(data[1..], key);
      var rest := FilterMap(FormEntry, data[1..]);
      assert FormData(data[1..]) == rest;
      match FormEntry(data[0])
      case Some(e) =>
        assert FormData(data) == [e] + rest;
      case None =>
        assert FormData(data) == rest;
    }
  }

  /** `upload_media`: the file must exist; its bytes go up as the `file`
      part under its own name and guessed MIME type (`application/octet-stream`
      when the guess is empty), and the non-`None` data fields as form
      fields, none at all when that leaves nothing. The file system is the
      map `files` from path to contents and `guess` stands for
      `mimetypes.guess_type`. */
  function UploadCall(files: map<string, seq<byte>>, filePath: string, data: Option<Dict>,
                      guess: string -> Option<string>): (r: Result<Call, Exc>)
    ensures r.Err? <==> filePath !in files
    ensures r.Err? ==> r.error == FileNotFound(MissingFilePrefix + filePath)
    ensures r.Ok? ==>
      && r.value.verb == "POST" && r.value.path == CollectionPath(Media)
      && r.value.json.None? && r.value.query.None?
      && r.value.file.Some? && r.value.file.value.content == files[filePath]
      && r.value.file.value.name == BaseName(filePath)
      && |r.value.file.value.mime| > 0
      && (r.value.form.Some? ==> |r.value.form.value| > 0)
  {
    if filePath !in files then Err(FileNotFound(MissingFilePrefix + filePath))
    else
      var guessed := guess(filePath).GetOr("");
      var mime := if |guessed| > 0 then guessed else OctetStream;
      var form := FormData(data.GetOr([]));
      Ok(Call("POST", CollectionPath(Media), None, None, Some(FilePart(BaseName(filePath), files[filePath], mime)),
              if |form| > 0 then Some(form) else None))
  }

  /** Every field of the upload form holds the `str()` of the data's
      value, and a field is sent exactly for the data's non-`None` values. */
  lemma UploadForm(files: map<string, seq<byte>>, filePath: string, data: Dict,
                   guess: string -> Option<string>, key: Value)
    requires filePath in files
    ensures var call := UploadCall(files, filePath, Some(data), guess).value;
      var v := Lookup(data, key);
      && (v.Some? && v.value != VNone ==> call.form.Some? && Lookup(call.form.value, key) == Some(VStr(Str(v.value))))
      && (v.None? ==> call.form.None? || Lookup(call.form.value, key).None?)
  {
    FormDataLookup(data, key);
  }

  // ---- Requests --------------------------------------------------------------

  /** `f"{username}:{application_password}"` */
  function Credentials(client: Client): string {
    Str(client.username) + ":" + Str(client.password)
  }

  /** The headers `_request` sends: Basic authentication with the encoded
      credentials (`encode` stands for base64 over the UTF-8 bytes), and a
      JSON `Content-Type` only for a JSON body without files. */
  function WpHeaders(client: Client, call: Call, encode: string -> string): (h: Dict)
    ensures Lookup(h, VStr("Authorization")) == Some(VStr("Basic " + encode(Credentials(client))))
    ensures Lookup(h, VStr("Content-Type")).Some? <==> call.json.Some? && call.file.None?
    ensures Lookup(h, VStr("Content-Type")).Some? ==> Lookup(h, VStr("Content-Type")) == Some(VStr("application/json"))
  {
    var auth := SetDefault([], "Authorization", VStr("Basic " + encode(Credentials(client))));
    if call.json.Some? && call.file.None? then SetDefault(auth, "Content-Type", VStr("application/json")) else auth
  }

  /** With a decoder that inverts the encoding, the server reads back the
      user name and the password from the header, provided the user name
      holds no colon. */
  lemma BasicCredentialsRecoverable(client: Client, call: Call, encode: string -> string, decode: string -> string)
    requires forall s :: decode(encode(s)) == s
    requires ':' !in Str(client.username)
    ensures var header := Lookup(WpHeaders(client, call, encode), VStr("Authorization")).value.s;
      var plain := decode(header[|"Basic "|..]);
      && ':' in plain
      && plain[..IndexOf(plain, ':')] == Str(client.username)
      && plain[IndexOf(plain, ':') + 1..] == Str(client.password)
  {
    var header := Lookup(WpHeaders(client, call, encode), VStr("Authorization")).value.s;
    assert header[|"Basic "|..] == encode(Credentials(client));
    var plain := decode(header[|"Basic "|..]);
    assert plain == Credentials(client);
    assert plain == Str(client.username) + [':'] + Str(client.password);
    IndexOfAfter(Str(client.username), ':', Str(client.password));
  }

  /** A request as handed to the session. */
  datatype HttpRequest = HttpRequest(verb: string, url: string, headers: Dict, call: Call)

  function ErrorHead(status: int): string {
    "WordPress APIエラー (" + IntToString(status) + ")"
  }

  /** `_extract_error_message`: a JSON object's `message` (prefixed by its
      `[code]` when that is truthy) is quoted as is; otherwise a string
      `error` field, or else the start of the body, is quoted sanitized;
      an empty body leaves the bare status. */
  function WpErrorMessage(response: Response, parse: string -> Option<Value>): (m: string)
    ensures StartsWith(m, ErrorHead(response.status))
  {
    var head := ErrorHead(response.status);
    var m := head + WpErrorDetail(response, parse);
    assert m[..|head|] == head;
    m
  }

  /** What follows the status in the error message. */
  function WpErrorDetail(response: Response, parse: string -> Option<Value>): string {
    var data := parse(response.text);
    if data.Some? && data.value.VDict? && Truthy(GetOr(data.value.entries, "message", VStr(""))) then
      var code := GetOr(data.value.entries, "code", VStr(""));
      var message := Get(data.value.entries, "message");
      if Truthy(code) then ": [" + Str(code) + "] " + Str(message)
      else ": " + Str(message)
    else if data.Some? && data.value.VDict? && Get(data.value.entries, "error").VStr? then
      ": " + SanitizeWordPress(Get(data.value.entries, "error").s)
    else if |response.text| > 0 then
      ": " + SanitizeWordPress(Take(response.text, MaxBodyPreview))
    else ""
  }

  /** The reply carries a WordPress error object with a message. */
  predicate HasApiMessage(response: Response, parse: string -> Option<Value>) {
    var data := parse(response.text);
    data.Some? && data.value.VDict? && Truthy(GetOr(data.value.entries, "message", VStr("")))
  }

  /** The API's own message ends the error message unaltered. */
  lemma ApiMessageShown(response: Response, parse: string -> Option<Value>)
    requires HasApiMessage(response, parse)
    ensures EndsWith(WpErrorMessage(response, parse), Str(Get(parse(response.text).value.entries, "message")))
  {
    var head, tail := ErrorHead(response.status), WpErrorDetail(response, parse);
    var s := Str(Get(parse(response.text).value.entries, "message"));
    var lead := tail[..|tail| - |s|];
    assert tail == lead + s;
    assert head + tail == (head + lead) + s;
    Framed(head + lead, s, []);
    assert (head + lead) + s + [] == head + tail;
  }

  /** Without an API message, whatever the error message quotes from the
      reply is already redacted (it is its own sanitized form) and is
      bounded in length. */
  lemma WpErrorMessageRedacted(response: Response, parse: string -> Option<Value>)
    requires !HasApiMessage(response, parse)
    ensures var m := WpErrorMessage(response, parse);
      var head := ErrorHead(response.status);
      || m == head
      || (StartsWith(m, head + ": ")
          && SanitizeWordPress(m[|head + ": "|..]) == m[|head + ": "|..]
          && |m| <= |head + ": "| + MaxLogLength + |TruncationMarker|)
  {
    var m := WpErrorMessage(response, parse);
    var head := ErrorHead(response.status);
    if m != head {
      var data := parse(response.text);
      var source := if data.Some? && data.value.VDict? && Get(data.value.entries, "error").VStr?
        then Get(data.value.entries, "error").s else Take(response.text, MaxBodyPreview);
      var clean := SanitizeWordPress(source);
      assert WpErrorDetail(response, parse) == ": " + clean;
      assert m == head + (": " + clean);
      assert m[..|head + ": "|] == head + ": ";
      assert m[|head + ": "|..] == clean;
      SanitizeWordPressIdempotent(source);
      SanitizeWordPressGuarantees(source);
    }
  }

  /** How `_request` ends: a reply below 400 is returned; a refusal raises
      the client error with the status, the extracted message and the
      sanitized body; a transport failure raises it without a status, a
      loop that never ran reports an unknown error, and the `OverflowError`
      of `time.sleep` escapes as it is. */
  function WpOutcome(o: Outcome, parse: string -> Option<Value>): (r: Result<Response, Exc>)
    ensures r.Ok? <==> o.Delivered?
    ensures r.Ok? ==> r.value == o.response
    ensures o.Refused? ==> r == Err(HttpError(Some(o.response.status), WpErrorMessage(o.response, parse),
                                              Some(SanitizeWordPress(o.response.text))))
    ensures o.TransportFailed? ==> r == Err(HttpError(None, FailurePrefix + SanitizeWordPress(o.msg), None))
    ensures o.NoAttempt? ==> r == Err(HttpError(None, FailurePrefix + UnknownError, None))
    ensures o.SleepFailed? ==> r == Err(OverflowError(o.msg))
  {
    match o
    case Delivered(response) => Ok(response)
    case Refused(response) =>
      Err(HttpError(Some(response.status), WpErrorMessage(response, parse), Some(SanitizeWordPress(response.text))))
    case TransportFailed(msg) => Err(HttpError(None, FailurePrefix + SanitizeWordPress(msg), None))
    case NoAttempt => Err(HttpError(None, FailurePrefix + UnknownError, None))
    case SleepFailed(msg) => Err(OverflowError(msg))
  }

  // ---- Replies ---------------------------------------------------------------

  /** The cause an HTML reply suggests, first match wins: a login page, a
      missing route, a refusal, else a disabled REST API. */
  function HtmlHint(text: string): (r: string)
    ensures r in {LoginHint, NotFoundHint, ForbiddenHint, DisabledHint}
    ensures r == NotFoundHint ==> Contains(text, "404") || Contains(Lower(text), "not found")
    ensures r == ForbiddenHint ==> Contains(text, "403") || Contains(Lower(text), "forbidden")
    ensures r == DisabledHint ==> !Contains(text, "ログイン") && !Contains(text, "404") && !Contains(text, "403")
  {
    if Contains(Lower(text), "login") || Contains(text, "ログイン") then LoginHint
    else if Contains(text, "404") || Contains(Lower(text), "not found") then NotFoundHint
    else if Contains(text, "403") || Contains(Lower(text), "forbidden") then ForbiddenHint
    else DisabledHint
  }

  /** The cause suggested does not depend on the letter case of the page. */
  lemma HtmlHintCaseBlind(text: string)
    ensures HtmlHint(Lower(text)) == HtmlHint(text)
  {
    LowerIdempotent(text);
    ContainsLowerBlind(text, "ログイン");
    ContainsLowerBlind(text, "404");
    ContainsLowerBlind(text, "403");
  }

  /** A login page is reported as an authentication problem whatever else
      it mentions. */
  lemma LoginPageWins(text: string)
    requires Contains(text, "Login") || Contains(text, "ログイン")
    ensures HtmlHint(text) == LoginHint
  {
    if Contains(text, "Login") {
      var i :| OccursAt(text, "Login", i);
      var l := Lower(text);
      forall k | 0 <= k < 5 ensures l[i..i + 5][k] == "login"[k] {
        assert text[i + k] == "Login"[k];
      }
      assert OccursAt(l, "login", i);
    }
  }

  /** The message for an HTML reply: the hint, the URL the request went
      to, and a note when that URL points at `localhost:8080`. */
  function HtmlMessage(text: string, url: string): string {
    HtmlReply + HtmlHint(text) + UrlLabel + url + (if Contains(Lower(url), "localhost:8080") then LocalhostHint else "")
  }

  /** The HTML message opens with the suggested cause, names the request
      URL after its label, and ends with the port note when the URL points
      at `localhost:8080`, else with the URL itself. */
  lemma HtmlMessageParts(text: string, url: string)
    ensures var m, head := HtmlMessage(text, url), HtmlReply + HtmlHint(text);
      && StartsWith(m, head)
      && OccursAt(m, UrlLabel + url, |head|)
      && (Contains(Lower(url), "localhost:8080") ==> EndsWith(m, LocalhostHint))
      && (!Contains(Lower(url), "localhost:8080") ==> EndsWith(m, url))
  {
    var head := HtmlReply + HtmlHint(text);
    var local := Contains(Lower(url), "localhost:8080");
    var note := if local then LocalhostHint else "";
    ThreeParts(head, UrlLabel, url, note);
  }

  /** Where the parts of `head + tag + tail + note` sit. */
  lemma ThreeParts(head: string, tag: string, tail: string, note: string)
    ensures var m := head + tag + tail + note;
      && StartsWith(m, head)
      && OccursAt(m, tag + tail, |head|)
      && EndsWith(m, note)
      && (note == [] ==> EndsWith(m, tail))
  {
    var m := head + tag + tail + note;
    assert m[..|head|] == head;
    assert m[|head|..|head| + |tag + tail|] == tag + tail;
    assert m[|m| - |note|..] == note;
    if note == [] {
      assert m[|m| - |tail|..] == tail;
    }
  }

  /** `_parse_json_response`: a blank body, an HTML page and a body that is
      not JSON each raise the client error with the reply's status;
      otherwise the decoded JSON is returned. */
  function ParseJsonResponse(response: Response, parse: string -> Option<Value>): (r: Result<Value, Exc>)
    ensures var contentType := Lower(HeaderGet(response.headers, "Content-Type").GetOr(""));
      r.Ok? <==> !IsBlank(response.text) && !Contains(contentType, "text/html") && parse(response.text).Some?
    ensures r.Ok? ==> r.value == parse(response.text).value
    ensures r.Err? ==> r.error.HttpError? && r.error.status == Some(response.status)
    ensures IsBlank(response.text) ==> r == Err(HttpError(Some(response.status), EmptyReplyMessage, Some("")))
  {
    var contentType := Lower(HeaderGet(response.headers, "Content-Type").GetOr(""));
    var text := response.text;
    if IsBlank(text) then Err(HttpError(Some(response.status), EmptyReplyMessage, Some("")))
    else if Contains(contentType, "text/html") then
      Err(HttpError(Some(response.status), HtmlMessage(text, response.url), Some(text)))
    else match parse(text)
      case Some(v) => Ok(v)
      case None =>
        Err(HttpError(Some(response.status), NotJsonPrefix + SanitizeWordPress(Take(text, MaxBodyPreview)), Some(text)))
  }

  /** An HTML reply is reported with its cause and the request URL, plus
      the `localhost:8080` note exactly when the URL points there; the
      full page is kept as the error body. */
  lemma HtmlReplyReported(response: Response, parse: string -> Option<Value>)
    requires !IsBlank(response.text)
    requires Contains(Lower(HeaderGet(response.headers, "Content-Type").GetOr("")), "text/html")
    ensures var e := ParseJsonResponse(response, parse).error;
      var prefix := HtmlReply + HtmlHint(response.text) + UrlLabel + response.url;
      && e.body == Some(response.text)
      && StartsWith(e.msg, prefix)
      && (Contains(Lower(response.url), "localhost:8080") ==> e.msg == prefix + LocalhostHint)
      && (!Contains(Lower(response.url), "localhost:8080") ==> e.msg == prefix)
  {
  }

  /** A body that is not JSON is quoted sanitized and at most 500
      characters of it are looked at. */
  lemma NotJsonQuoted(response: Response, parse: string -> Option<Value>)
    requires !IsBlank(response.text)
    requires !Contains(Lower(HeaderGet(response.headers, "Content-Type").GetOr("")), "text/html")
    requires parse(response.text).None?
    ensures var e := ParseJsonResponse(response, parse).error;
      && StartsWith(e.msg, NotJsonPrefix)
      && |e.msg| <= |NotJsonPrefix| + MaxLogLength + |TruncationMarker|
      && e.body == Some(response.text)
  {
    SanitizeWordPressGuarantees(Take(response.text, MaxBodyPreview));
  }

  /** One client method call: the request sent, the seconds slept, and the
      decoded reply or the exception. */
  function Send(client: Client, call: Call, encode: string -> string, server: nat -> Attempt,
                parse: string -> Option<Value>): (r: (HttpRequest, seq<nat>, Result<Value, Exc>))
    ensures r.0 == HttpRequest(call.verb, client.baseUrl + call.path, WpHeaders(client, call, encode), call)
    ensures r.1 == Loop(client.maxRetries, server).0
  {
    var run := Loop(client.maxRetries, server);
    (HttpRequest(call.verb, client.baseUrl + call.path, WpHeaders(client, call, encode), call), run.0,
     Returned(run.1, parse))
  }

  /** The value a method returns, or the exception it raises, once the loop
      has ended with `o`. */
  function Returned(o: Outcome, parse: string -> Option<Value>): Result<Value, Exc> {
    match WpOutcome(o, parse)
    case Err(e) => Err(e)
    case Ok(response) => ParseJsonResponse(response, parse)
  }

  /** With a non-negative budget, a method returns a value exactly when the
      attempt that ends the loop is a reply below 400 whose body decodes,
      and then returns that body's JSON; a refusal reports its status, and
      a wait `time.sleep` cannot take (a 429's `Retry-After`, or
      `2**attempt` from attempt 34 on) raises `OverflowError`. */
  lemma SendOutcome(client: Client, call: Call, encode: string -> string, server: nat -> Attempt,
                    parse: string -> Option<Value>)
    requires client.maxRetries >= 0
    ensures var r := Send(client, call, encode, server, parse);
      var last := server(|r.1|);
      && |r.1| <= client.maxRetries
      && (r.2.Ok? <==> last.Reply? && last.response.status < 400 && ParseJsonResponse(last.response, parse).Ok?)
      && (r.2.Ok? ==> r.2.value == parse(last.response.text).value)
      && (last.Reply? && last.response.status >= 400 && r.2 != Err(OverflowError(SleepOverflowMessage)) ==>
            r.2 == Err(HttpError(Some(last.response.status), WpErrorMessage(last.response, parse),
                                 Some(SanitizeWordPress(last.response.text)))))
      && (r.2 == Err(OverflowError(SleepOverflowMessage)) <==>
            |r.1| < client.maxRetries && Retryable(last) && Backoff(last, |r.1|).None?)
      && (last.Transport? && r.2 != Err(OverflowError(SleepOverflowMessage)) ==>
            r.2 == Err(HttpError(None, FailurePrefix + SanitizeWordPress(last.msg), None)))
  {
    LoopOutcome(client.maxRetries, server);
    SendReturns(client, call, encode, server, parse);
    SendRaises(client, call, encode, server, parse);
    SendOverflows(client, call, encode, server, parse);
  }

  lemma SendReturns(client: Client, call: Call, encode: string -> string, server: nat -> Attempt,
                  parse: string -> Option<Value>)
    requires client.maxRetries >= 0
    ensures var r := Send(client, call, encode, server, parse);
      var last := server(|r.1|);
      && (r.2.Ok? <==> last.Reply? && last.response.status < 400 && ParseJsonResponse(last.response, parse).Ok?)
      && (r.2.Ok? ==> r.2.value == parse(last.response.text).value)
  {
    LoopOutcome(client.maxRetries, server);
    var run := Loop(client.maxRetries, server);
    ReturnsOf(run.1, server(|run.0|), parse);
  }

  /** What a call returns, for an outcome decided by `last` or ended by a
      sleep that overflowed after a retryable `last`. */
  lemma ReturnsOf(o: Outcome, last: Attempt, parse: string -> Option<Value>)
    requires o.SleepFailed? ==> Retryable(last)
    requires !o.SleepFailed? ==> o == Decide(last)
    ensures var r := Returned(o, parse);
      && (r.Ok? <==> last.Reply? && last.response.status < 400 && ParseJsonResponse(last.response, parse).Ok?)
      && (r.Ok? ==> r.value == parse(last.response.text).value)
  {
  }

  lemma SendRaises(client: Client, call: Call, encode: string -> string, server: nat -> Attempt,
                  parse: string -> Option<Value>)
    requires client.maxRetries >= 0
    ensures var r := Send(client, call, encode, server, parse);
      var last := server(|r.1|);
      && (last.Reply? && last.response.status >= 400 && r.2 != Err(OverflowError(SleepOverflowMessage)) ==>
            r.2 == Err(HttpError(Some(last.response.status), WpErrorMessage(last.response, parse),
                                 Some(SanitizeWordPress(last.response.text)))))
      && (last.Transport? && r.2 != Err(OverflowError(SleepOverflowMessage)) ==>
            r.2 == Err(HttpError(None, FailurePrefix + SanitizeWordPress(last.msg), None)))
  {
    LoopOutcome(client.maxRetries, server);
    SendResult(client, call, encode, server, parse);
    var run := Loop(client.maxRetries, server);
    assert Send(client, call, encode, server, parse).1 == run.0;
    if !run.1.SleepFailed? {
      assert run.1 == Decide(server(|run.0|));
    }
  }

  lemma SendOverflows(client: Client, call: Call, encode: string -> string, server: nat -> Attempt,
                  parse: string -> Option<Value>)
    requires client.maxRetries >= 0
    ensures var r := Send(client, call, encode, server, parse);
      var last := server(|r.1|);
      r.2 == Err(OverflowError(SleepOverflowMessage)) <==>
        |r.1| < client.maxRetries && Retryable(last) && Backoff(last, |r.1|).None?
  {
    LoopOutcome(client.maxRetries, server);
    SendResult(client, call, encode, server, parse);
    var run := Loop(client.maxRetries, server);
    assert Send(client, call, encode, server, parse).1 == run.0;
    if !run.1.SleepFailed? {
      assert run.1 == Decide(server(|run.0|));
    }
  }


  /** What a call returns for each way the loop can end. */
  lemma SendResult(client: Client, call: Call, encode: string -> string, server: nat -> Attempt,
                   parse: string -> Option<Value>)
    ensures var r := Send(client, call, encode, server, parse);
      var o := Loop(client.maxRetries, server).1;
      && (o.Delivered? ==> r.2 == ParseJsonResponse(o.response, parse))
      && (o.Refused? ==> r.2 == Err(HttpError(Some(o.response.status), WpErrorMessage(o.response, parse),
                                              Some(SanitizeWordPress(o.response.text)))))
      && (o.TransportFailed? ==> r.2 == Err(HttpError(None, FailurePrefix + SanitizeWordPress(o.msg), None)))
      && (o.SleepFailed? ==> r.2 == Err(OverflowError(o.msg)))
  {
  }

  /** The request URL is the client's REST base followed by the path. */
  lemma SendUrl(client: Client, call: Call, encode: string -> string, server: nat -> Attempt,
                parse: string -> Option<Value>)
    requires EndsWith(client.baseUrl, ApiSuffix)
    ensures var url := Send(client, call, encode, server, parse).0.url;
      StartsWith(url, client.baseUrl) && EndsWith(url, call.path)
      && url[..|url| - |call.path|] == client.baseUrl
  {
    var url := client.baseUrl + call.path;
    assert url[..|client.baseUrl|] == client.baseUrl;
    assert url[|url| - |call.path|..] == call.path;
  }
}

=== FILE: wrappers.dfy ===
/** Failure-compatible carriers shared by every module of the model.
    `Option` stands for Python's `None`-or-value, `Result` for a value or a
    raised exception. */
module Wrappers {

  datatype Option<+T> = None | Some(value: T) {

    predicate IsFailure() {
      None?
    }

    function PropagateFailure<U>(): Option<U>
      requires None?
    {
      None
    }

    function Extract(): T
      requires Some?
    {
      value
    }

    /** The value, or `default` when there is none. */
    function GetOr(default: T): T {
      match this
      case Some(v) => v
      case None => default
    }
  }

  datatype Result<+R, +E> = Ok(value: R) | Err(error: E) {

    predicate IsFailure() {
      Err?
    }

    function PropagateFailure<U>(): Result<U, E>
      requires Err?
    {
      Err(error)
    }

    function Extract(): R
      requires Ok?
    {
      value
    }
  }
}
